=== FILE: README.md ===
# webgis-demo map client, modelled in Dafny

The webgis demo is a Next.js web map built on MapLibre GL. A basemap style
from MapTiler sits at the bottom. Above it are the application's overlays:

- the demo vector layers;
- WMS/WMTS layers from swisstopo or from the page URL;
- the drawing and measuring layers;
- the search marker.

A table of contents (TOC) lets the user order these layers, switch them on
and off, toggle their labels and set their opacity. A click on the map opens
a popup for the features under the cursor. For the tawny-owl
("Waldkauz") recording sites, the popup shows a presence chart built from
JSON files. A Python script converts the site's CSV recordings into those
files.

This project models that client's logic as pure Dafny functions over an
abstract map surface, and proves what each part promises.

- `MapSurface` is the map surface: a table of sources and a bottom-to-top
  stack of layers, with the style-API calls the client makes. Every hook
  becomes a function from one surface to the next.
- Calls that can throw return `Outcome` (`Completed` or `Aborted` with the
  state reached).
- JavaScript values the client inspects (`typeof`, `Number.isFinite`,
  `Number()`) are modelled in `Js`.
- Things the client gets from outside become parameters:
  - date formatting;
  - `Number()` on a string;
  - random ids and timestamps;
  - the rendering engine's own changes to the map.

The modules follow the source tree:

| module | models |
|---|---|
| `MapSurface`, `Js`, `Strings`, `Seqs`, `Wrappers` | the MapLibre map, JavaScript values, string and sequence helpers |
| `LayerOrder` | `core/layer-order.ts` |
| `MapLibreCore` | `core/use-maplibre.ts` |
| `RegisterOverlays` | `layers/register-overlays.ts` |
| `MapSetup` | `core/use-map-setup.ts` with the overlay registry of the map configuration |
| `BasemapConfig`, `BasemapSync` | `basemaps/basemap-config.ts`, `basemaps/use-basemap-sync.ts`, `lib/maptiler/styles.ts` |
| `SearchMarker` | `features/search/search-marker.ts` |
| `TocStore`, `TocPanel`, `TocItemControls`, `TocSync` | `features/toc/` |
| `Drawing` | `features/drawing/` (hook, toolbar, draw manager) |
| `Popup`, `PopupOverlay` | `features/popup/use-map-popup.ts`, `features/popup/popup-overlay.tsx` |
| `Legend` | `features/legend/legend-panel.tsx` |
| `Wms`, `WmsSync`, `SwisstopoPanel` | `features/wms/` |
| `InteractiveIds` | `demo/demo-interactive-layer-ids.ts` |
| `Waldkauz`, `PresenceChart` | `features/popup/waldkauz/` |
| `PresenceCsv` | `csv_to_json.py` |

## Model

| member | source | states |
|---|---|---|
| BasemapConfig.CatalogueComplete | app/map/basemaps/basemap-config.ts:3-44 | The catalogue has exactly one entry for each of the four values of the basemap id type, in the order of the type, and no id twice. |
| BasemapConfig.Find | app/map/basemaps/basemap-config.ts:47 | A catalogue entry is found exactly when one carries the id; the one found is the first with that id. |
| BasemapConfig.GetBasemapById | app/map/basemaps/basemap-config.ts:46-49 | The result is always a catalogue entry: the one with the id when it exists, otherwise the first entry. |
| BasemapConfig.IsBasemapId | app/map/basemaps/basemap-config.ts:51-53 | Holds exactly for the ids of the catalogue. |
| BasemapConfig.GetBasemapByIdFallback | app/map/basemaps/basemap-config.ts:46-53 | A valid id resolves to its own entry, and only an invalid one falls back to the first entry. |
| BasemapConfig.MapTilerStyleUrl | app/lib/maptiler/styles.ts:4-15 | Fails exactly when the API key is missing or empty; otherwise the URL is the MapTiler base, the style id, `style.json` and the key. |
| BasemapSync.SyncApplyOverlays | app/map/basemaps/use-basemap-sync.ts:63-79 | Existing sources are left as they are; every overlay source is present afterwards and no other source appears. Unique layer ids stay unique. A completed run has every overlay layer on the map. A run aborts only when some overlay layer's source is missing. |
| BasemapSync.SyncApplyStack | app/map/basemaps/use-basemap-sync.ts:47-78 | After a completed run the non-overlay layers keep their order at the bottom. Above them sit the overlay layers, one per definition entry, in definition order, so the last-listed is topmost. |
| BasemapSync.MoveAllToTopKeepsIds | app/map/basemaps/use-basemap-sync.ts:47-57 | Moving overlays to the top never removes a layer. |
| BasemapSync.SyncApplyIdempotent | app/map/basemaps/use-basemap-sync.ts:63-79 | Applying the overlays a second time gives the same map as applying them once. |
| BasemapSync.SyncApplyResolves | app/map/basemaps/use-basemap-sync.ts:63-79 | Overlays whose layers read only their own sources always apply completely. |
| BasemapSync.SwitchBasemap | app/map/basemaps/use-basemap-sync.ts:126-163 | The steps taken are a prefix of "replace style, apply overlays, apply overlays". A cancel during the overlay load, the style load or the idle wait allows at most 0, 1 or 2 steps. A missing API key leaves the map untouched. |
| BasemapSync.SwitchCompletes | app/map/basemaps/use-basemap-sync.ts:131-155 | An uncancelled switch with a key replaces the style, applies the overlays, and applies them again after idle. Every overlay layer is on the map at the end. |
| BasemapSync.SyncRuns | app/map/basemaps/use-basemap-sync.ts:120-127 | The hook throws exactly when given `null`. It runs its effect exactly when it receives a params object that holds a map. |
| BasemapSync.ContainerCallAsWrittenNeverSyncs | app/components/shell/map-container.tsx:62 | With the map passed positionally, the hook throws before the map exists and never switches afterwards. |
| BasemapSync.ContainerCallSyncs | app/components/shell/map-container.tsx:62 | With `{ map, basemapId }` passed, the hook switches to the chosen basemap once the map exists. |
| MapSurface.MoveAllToTopStack | app/map/basemaps/use-basemap-sync.ts:47-57 | Moving distinct ids to the top leaves the unnamed layers in their old order. The named layers that exist sit above them in the order of the ids; missing ids are skipped. |
| MapSurface.AddMissingSourcesIdempotent | app/map/basemaps/use-basemap-sync.ts:64-67 | Adding the missing sources twice is the same as adding them once. |
| Drawing.ToolOf | app/map/features/drawing/use-drawing.ts:238 | Splitting a drawing mode's name at the dash gives exactly the usage and the kind the model assigns to the mode. |
| Drawing.ModeTests | app/map/features/drawing/use-drawing.ts:78-118 | The string tests `endsWith("polygon")`, `endsWith("arrow")` and `startsWith("measure")` pick out exactly the polygon, arrow and measuring modes, and agree with the kind and usage of the split. |
| Drawing.SketchPath | app/map/features/drawing/use-drawing.ts:80-82 | The preview path is the clicked coordinates, then the hover point if any, then in polygon modes the first coordinate again. |
| Drawing.BuildSketchGeoJson | app/map/features/drawing/use-drawing.ts:66-106 | The preview is empty in select or point mode or without coordinates. Otherwise it starts with a line through the clicked coordinates. With a hover point the line goes on to it, and in polygon modes back to the first coordinate; without one it is exactly the clicked coordinates. Its kind is "arrow" only in arrow mode, and its usage follows the mode. A preview polygon appears exactly in a polygon mode with a hover point and at least two coordinates. That polygon's ring closes on the first coordinate and equals the line's path. |
| Drawing.BuildCurrentSketchFeature | app/map/features/drawing/use-drawing.ts:108-142 | The coordinates plus the hover point give nothing in select mode or when empty. In polygon modes they give a closed polygon from three points, and otherwise a line from two, of kind "arrow" in arrow mode and "line" otherwise. A single point gives a feature only in point mode: a feature of kind "point" placed on that point. |
| Drawing.NewFeature | app/map/features/drawing/use-drawing.ts:238-265 | A point is always created at the first coordinate. A line or arrow is created exactly from two coordinates, with the sketch as its path. A polygon is created exactly from three, as the sketch closed on its first vertex. The feature carries the given id, timestamp, usage and kind. |
| Drawing.Commit | app/map/features/drawing/use-drawing.ts:234-275 | With an empty sketch or in select mode nothing changes. Otherwise the sketch and hover are cleared, earlier features are kept in place, and at most the new feature is appended. |
| Drawing.CommitPolygonClosed | app/map/features/drawing/use-drawing.ts:257-264 | A committed polygon's ring is the sketch closed on its first vertex: first equals last. |
| Drawing.OnClick | app/map/features/drawing/use-drawing.ts:288-298 | A click in select mode changes nothing. In point mode it appends the coordinate and commits at once. In other modes it only appends the coordinate. |
| Drawing.OnMouseMove | app/map/features/drawing/use-drawing.ts:300-310 | Only the hover point can change. It is set only outside select and point mode, and only while the sketch is non-empty. |
| Drawing.OnDblClick | app/map/features/drawing/use-drawing.ts:312-316 | A double click commits in every mode except select, where it changes nothing. |
| Drawing.SetMode | app/map/features/drawing/use-drawing.ts:363-369 | Switching mode discards the sketch and hover and keeps the features. |
| Drawing.UndoLast | app/map/features/drawing/use-drawing.ts:378-382 | Undo removes only the last sketch coordinate; an empty sketch stays empty. |
| Drawing.UndoAfterClick | app/map/features/drawing/use-drawing.ts:288-382 | Undo right after a click in a sketching mode restores the state before the click. |
| Drawing.Cancel | app/map/features/drawing/use-drawing.ts:384-389 | Cancelling clears the sketch and hover without touching the mode or the features. |
| Drawing.ClearAll | app/map/features/drawing/use-drawing.ts:390-397 | Clearing empties the features and the sketch and sets select mode. |
| Drawing.DeleteFeature | app/map/features/drawing/use-drawing.ts:398-400 | Exactly the features with another id remain, in their order and each as often as before; the sketch and mode are untouched. |
| Drawing.AllFeatures | app/map/features/drawing/use-drawing.ts:332-336 | The list is a permutation of the features, newest first. Features with equal timestamps keep their insertion order. |
| Drawing.Measurements | app/map/features/drawing/use-drawing.ts:338-341 | Exactly the measuring features, each as often as it was drawn, newest first. |
| Drawing.Sketches | app/map/features/drawing/use-drawing.ts:343-346 | Exactly the drawn features, each as often as it was drawn, newest first. |
| Drawing.SelectedNewestFirst | app/map/features/drawing/use-drawing.ts:332-346 | Filtering the sorted list by usage gives a permutation of the features of that usage, still newest first. |
| Drawing.MeasurementsAndSketchesPartition | app/map/features/drawing/use-drawing.ts:338-346 | Every feature is listed once, either as a measurement or as a sketch. |
| Drawing.UpdateSources | app/map/features/drawing/use-drawing.ts:157-180 | Without a style nothing changes. Otherwise the data source receives the features and the sketch source receives the sketch preview. A missing source is not written, and no other source or layer changes. |
| Drawing.AddDrawLayers | app/map/features/drawing/use-drawing.ts:203-209 | With the drawing sources present, every drawing layer is on the map afterwards. Earlier layers keep their place, and unique ids stay unique. When all drawing layers are already there, nothing changes. |
| Drawing.SetupLayers | app/map/features/drawing/use-drawing.ts:188-215 | Before the style has loaded nothing changes. Afterwards both drawing sources and all drawing layers are present. Other sources and the existing stack are kept, and a map already set up is left alone. |
| Drawing.SetupLayersIdempotent | app/map/features/drawing/use-drawing.ts:188-215 | Setting the layers up twice is the same as setting them up once. |
| Drawing.OnSelectTool | app/map/features/drawing/drawing-toolbar.tsx:55-62 | Choosing the active tool switches to select mode. Choosing another tool finishes an open sketch first, and otherwise only switches. |
| Drawing.OnSelectButton | app/map/features/drawing/drawing-toolbar.tsx:111 | The select button switches to select mode without finishing the sketch. |
| Drawing.SwitchPolicies | app/map/features/drawing/drawing-toolbar.tsx:55-62 | Switching from a line sketch of two or more points to another tool keeps that line as a feature. |
| Drawing.OnDeleteAll | app/map/features/drawing/drawing-toolbar.tsx:170-172 | Delete-all clears everything only when the user confirms. |
| Drawing.ActionsExclusive | app/map/features/drawing/drawing-toolbar.tsx:147-163 | Undo/Finish and Delete-all are never offered together. When Delete-all is offered, finishing would change nothing. |
| Drawing.AsFeature | app/map/features/drawing/use-drawing.ts:239-264 | A finished feature keeps its geometry and carries its id and kind as properties. |
| Drawing.CreateDrawState | app/map/features/drawing/draw-state.ts:8-11 | A fresh draw state is not drawing and has no coordinates. |
| Drawing.ManagerUpdateSource | app/map/features/drawing/draw-manager.ts:32-55 | Without the source nothing changes. Under three coordinates the source is emptied. Otherwise it holds one polygon whose ring is the coordinates closed on the first one. |
| Drawing.ManagerClick | app/map/features/drawing/draw-manager.ts:17-23 | A click is ignored unless drawing. Otherwise it appends the point, rewrites the source and fires `onUpdate` once. |
| Drawing.ManagerReset | app/map/features/drawing/draw-manager.ts:57-62 | Reset empties the coordinates, stops drawing, clears the source and fires `onUpdate` once. |
| Drawing.ManagerClicksAppend | app/map/features/drawing/draw-manager.ts:17-23 | A run of clicks while drawing appends every point in order and fires `onUpdate` once per click. The source ends up showing the final coordinates. |
| Drawing.ManagerUpdateSourceLast | app/map/features/drawing/draw-manager.ts:32-55 | Writing the source twice leaves only the second write. |
| Drawing.ManagerResetStopsClicks | app/map/features/drawing/draw-manager.ts:17-62 | After a reset, clicks are ignored. |
| LayerOrder.TypeRank | app/map/core/layer-order.ts:13-37 | Line layers rank 1, circles 2, symbols 3, and every other type (fill-like or unknown) 0. |
| LayerOrder.CollectFacts | app/map/core/layer-order.ts:54-69 | Every collected record carries the layer at its recorded position and that layer type's rank, and the records are in stack order. |
| LayerOrder.SortRanked | app/map/core/layer-order.ts:71-72 | The sorted records are a permutation of the collected ones, ordered by rank and, within a rank, by old position. |
| LayerOrder.MoveOrderIsCustoms | app/map/core/layer-order.ts:54-78 | The layers are moved rank group by rank group (fills, lines, circles, symbols), and each group keeps its old stack order. |
| LayerOrder.MovedIdsAreCustomIds | app/map/core/layer-order.ts:56-61 | A layer is moved exactly when its id starts with one of the prefixes. |
| LayerOrder.MoveCustomLayersToTopStack | app/map/core/layer-order.ts:46-79 | After the re-ordering, the layers without a custom prefix keep their order at the bottom. Above them sit the custom layers: fills lowest, then lines, then circles, symbols on top, each group in its old order. |
| LayerOrder.MoveCustomLayersToTopIdempotent | app/map/core/layer-order.ts:46-79 | Re-ordering an already re-ordered map changes nothing. |
| Legend.DedupeLegendFacts | app/map/features/legend/legend-panel.tsx:81-95 | Deduplication keeps one row per (label, swatch key) pair, loses no pair, and keeps the surviving rows in their order. |
| Legend.DedupeLegendIdempotent | app/map/features/legend/legend-panel.tsx:87-95 | Deduplicating twice is the same as deduplicating once. |
| Legend.StepRows | app/map/features/legend/legend-panel.tsx:300-305 | Every row of the stop loop is a plain swatch of the layer's kind, captioned "≥ …". |
| Legend.ExtractLegendFromPaint | app/map/features/legend/legend-panel.tsx:283-320 | A plain non-blank colour gives exactly one row, labelled with the fallback. Anything that is neither such a colour nor an array gives no rows. Every row is a plain swatch of the given kind. |
| Legend.StepLegend | app/map/features/legend/legend-panel.tsx:294-307 | A `step` expression with usable colours gives "< first stop" in the base colour, then "≥ stop" for every stop, in order. |
| Legend.MatchLegend | app/map/features/legend/legend-panel.tsx:308-317 | A `match` expression with usable colours gives one row per case, labelled with its value, read from index 2 up to the last element. A final "Sonst" row carries the default. |
| Legend.FirstOfType | app/map/features/legend/legend-panel.tsx:327-329 | Finds nothing exactly when no listed id names a layer of the type; what it finds is a listed id of that type. |
| Legend.PaintValue | app/map/features/legend/legend-panel.tsx:97-104 | A missing layer reads as `null`; an existing one gives its paint property. |
| Legend.LayerLegend | app/map/features/legend/legend-panel.tsx:348-365 | The rows read off one paint property have distinct keys and are plain swatches of the layer's kind. |
| Legend.PolygonRow | app/map/features/legend/legend-panel.tsx:333-346 | A single fill colour becomes one polygon row titled with the item. It has an outline exactly when the line colour is a non-blank string. |
| Legend.BuildLegendForTocItem | app/map/features/legend/legend-panel.tsx:322-367 | The rows have distinct keys. A fill layer is preferred over a line layer, which is preferred over a circle layer: the rows are fill or polygon rows, line rows or circle rows accordingly. Without any of the three there are none. A polygon row is always the only row and carries the item's title. Its outline is the first line layer's colour exactly when that colour is a non-empty string. |
| Legend.FillLegend | app/map/features/legend/legend-panel.tsx:330-349 | A fill layer gives fill rows with distinct keys, or a single polygon row whose outline is the line colour only when that colour is a non-empty string. |
| Legend.BuildLegendDeduplicated | app/map/features/legend/legend-panel.tsx:322-367 | The legend of an item has no repeated row, so deduplicating it again changes nothing. |
| Legend.PlainPolygonLegend | app/map/features/legend/legend-panel.tsx:326-347 | A fill layer and a line layer with plain colours give exactly one polygon row: the item's title, that fill and that outline. |
| Legend.ConfiguredRows | app/map/features/legend/legend-panel.tsx:389-392 | One row per configured legend entry, with its label. |
| Legend.SectionFor | app/map/features/legend/legend-panel.tsx:385-402 | Configured legend items win over a legend URL, which wins over the rows read off the layers. A derived section is never empty. |
| Legend.RawSections | app/map/features/legend/legend-panel.tsx:382-403 | Only visible items get a section. Every visible item that has a section contributes it. |
| Legend.RawSectionsInOrder | app/map/features/legend/legend-panel.tsx:382-403 | The sections' items are the items in their given order, some left out. |
| Legend.RawSectionsOwn | app/map/features/legend/legend-panel.tsx:382-403 | Each section is exactly the section its own item yields. |
| Legend.MergeSection | app/map/features/legend/legend-panel.tsx:405-418 | A vector section titled like the preceding vector section is merged into it, and the earlier sections stay. Anything else is appended. |
| Legend.MergeSectionLegend | app/map/features/legend/legend-panel.tsx:413-416 | A merged section holds the rows of both twins, deduplicated, and loses no key. |
| Legend.MergeKeepsImages | app/map/features/legend/legend-panel.tsx:405-418 | A merge round never drops an image section and always appends an incoming one. |
| Legend.GroupSections | app/map/features/legend/legend-panel.tsx:404-418 | No two adjacent sections are mergeable twins. The items are a subsequence of the input's, and the result is no longer than the input. Every image section and every title survives. |
| Legend.GroupSectionsIdempotent | app/map/features/legend/legend-panel.tsx:404-418 | Grouping grouped sections changes nothing. |
| Legend.Rebuild | app/map/features/legend/legend-panel.tsx:381-419 | Every section belongs to a visible item. Every visible item with a section has its title shown. No adjacent sections are mergeable twins. The sections follow the order of the TOC items. |
| Legend.GroupedInOrder | app/map/features/legend/legend-panel.tsx:404-418 | Merging twins keeps the sections in the order of the items they came from. |
| InteractiveIds.InteractiveLayerIds | app/map/demo/demo-interactive-layer-ids.ts:7-20 | An id is kept exactly when it is an overlay layer id containing none of "label", "sketch" and "search". The kept ids keep their order. |
| InteractiveIds.ExcludedWords | app/map/demo/demo-interactive-layer-ids.ts:14-17 | An id containing "sketch" or "search" anywhere is never clickable. |
| InteractiveIds.LabelExcluded | app/map/demo/demo-interactive-layer-ids.ts:11 | An id containing "label" anywhere is never clickable. |
| InteractiveIds.InteractiveIdsDistinct | app/map/demo/demo-interactive-layer-ids.ts:7-20 | Overlay layers with distinct ids yield clickable ids without repetitions, so each interactive layer is queried once. |
| InteractiveIds.InteractiveIdsConcat | app/map/demo/demo-interactive-layer-ids.ts:7-20 | Filtering distributes over concatenation, so every kept id stays in place relative to the others. |
| MapLibreCore.IsAppLayer | app/map/core/use-maplibre.ts:36-52 | Holds exactly for ids starting with "waldkauz-", "wms-", "draw-" or "search-marker". |
| MapLibreCore.Clamp01 | app/map/core/use-maplibre.ts:54-56 | `Math.max(0, Math.min(1, v))`: NaN passes through, and every other value lands in [0, 1]. Values inside are unchanged, values above (or +∞) become 1, and values below (or −∞) become 0. |
| MapLibreCore.TagOverlay | app/map/core/use-maplibre.ts:83-86 | The added layer is the overlay layer with `geoRole: "overlay"` merged into its metadata; everything else is kept. |
| MapLibreCore.AddLayersCatching | app/map/core/use-maplibre.ts:80-91 | Sources are untouched. Existing layers keep their place, and the added layers are a subsequence of the tagged overlay layers, in order. |
| MapLibreCore.AddLayersCatchingFacts | app/map/core/use-maplibre.ts:80-91 | Unique ids stay unique. Every overlay layer whose source is available ends up on the map, even when others fail. |
| MapLibreCore.ApplyOverlays | app/map/core/use-maplibre.ts:73-92 | Existing sources are kept and every overlay source is present. Existing layers keep their place, every added layer is tagged as overlay, and unique ids stay unique. |
| MapLibreCore.ApplyOverlaysTolerates | app/map/core/use-maplibre.ts:80-91 | A layer whose source can be found ends up on the map, whatever happens to the others. |
| MapLibreCore.ApplyOverlaysIdempotent | app/map/core/use-maplibre.ts:73-92 | Applying the overlays a second time changes nothing: no source and no layer is added. |
| MapLibreCore.ApplyBasemapOpacity | app/map/core/use-maplibre.ts:101-132 | No layer is added, removed or reordered. Overlay-tagged, overlay-listed and app layers are untouched. On each other layer, exactly the opacity properties of its type are set to the clamped value and the rest of its paint is kept: icon and text opacity for symbols; its own property for fill, line, circle, raster and background; nothing for other types. |
| MapLibreCore.BasemapOpacityLastWins | app/map/core/use-maplibre.ts:101-132 | A later opacity replaces an earlier one instead of compounding with it. |
| MapLibreCore.DimTwice | app/map/core/use-maplibre.ts:101-132 | Dimming one layer twice leaves exactly the second opacity on it. |
| MapLibreCore.RestackAfterApply | app/map/core/use-maplibre.ts:144-153 | After the overlays are applied to a map with unique ids, the re-ordering yields the app layers on top by rank over the untouched basemap layers. |
| MapLibreCore.RestoreLayers | app/map/core/use-maplibre.ts:144-153 | The corrected restore. Without loaded overlays nothing happens. Otherwise both custom events fire in order, and the resulting stack is the overlay-applied stack re-ordered with the app layers on top by rank. Every basemap layer carries the clamped opacity in its opacity properties, so dimming again at the same opacity changes nothing. |
| MapLibreCore.DimmedPaints | app/map/core/use-maplibre.ts:101-132 | After dimming, every basemap layer's opacity properties hold the clamped opacity. |
| MapLibreCore.RestoreAsWrittenNeverReady | app/map/core/use-maplibre.ts:144-153 | As written, the restore stops at the re-ordering call. The basemap is never dimmed and the ready event never fires. |
| RegisterOverlays.LayerRank | app/map/layers/register-overlays.ts:6-20 | Fill ranks 10, line 20, circle 30 and symbol 40, each exactly for its type; everything else ranks 25. |
| RegisterOverlays.SortByLayerRank | app/map/layers/register-overlays.ts:30 | The sorted layers are a permutation of the definition's layers in ascending rank. The sort is stable: each rank's layers keep their order. |
| RegisterOverlays.AddMissingLayers | app/map/layers/register-overlays.ts:32-34 | Sources are untouched. Existing layers keep their place, and the added layers are a subsequence of those given, in order. |
| RegisterOverlays.AddMissingLayersKeepsUnique | app/map/layers/register-overlays.ts:32-34 | The loop never gives two layers the same id. |
| RegisterOverlays.AddMissingLayersCompleted | app/map/layers/register-overlays.ts:32-34 | A loop that runs to the end leaves every wanted id on the map. |
| RegisterOverlays.AddMissingLayersAborted | app/map/layers/register-overlays.ts:32-34 | The loop throws only on a layer whose source is missing. |
| RegisterOverlays.AddMissingLayersCompletes | app/map/layers/register-overlays.ts:32-34 | When every wanted layer's source is there, the loop runs to the end. |
| RegisterOverlays.AddMissingLayersIdempotent | app/map/layers/register-overlays.ts:32-34 | Running the loop again over its own result repeats its outcome and adds nothing. |
| RegisterOverlays.RegisterOverlays | app/map/layers/register-overlays.ts:22-35 | Existing layers and sources are kept, every definition source is present, and unique ids stay unique. A completed registration has every definition layer on the map. |
| RegisterOverlays.RegisterOverlaysCompletes | app/map/layers/register-overlays.ts:22-35 | A definition whose layers read only available or own sources always registers completely. |
| RegisterOverlays.RegisterOverlaysIdempotent | app/map/layers/register-overlays.ts:22-35 | Registering a second time changes nothing and ends the same way. |
| SearchMarker.EnsureNow | app/map/features/search/search-marker.ts:30-37 | Afterwards the marker source and layer exist. The source is added only when missing, as an empty collection, and the layer is appended only when missing. |
| SearchMarker.EnsureNowIdempotent | app/map/features/search/search-marker.ts:30-37 | Ensuring twice is ensuring once. |
| SearchMarker.EnsureSearchMarkerLayer | app/map/features/search/search-marker.ts:39-60 | A ready style is ensured at once. Otherwise the map is untouched and one more idle handler is pending, since the `off` call never removes an earlier handler. |
| SearchMarker.OnIdle | app/map/features/search/search-marker.ts:47-55 | The deferred handler adds nothing while the style is still not ready; once it is, the marker exists. |
| SearchMarker.FireIdle | app/map/features/search/search-marker.ts:47-50 | An idle event runs every pending handler, each removing itself, so none is left. |
| SearchMarker.FireIdleActsOnce | app/map/features/search/search-marker.ts:47-59 | However many handlers piled up, an idle event has the effect of one. |
| SearchMarker.DeferredEnsure | app/map/features/search/search-marker.ts:39-60 | A call while the style is not ready, followed by an idle event once it is, leaves the marker on the map and no handler pending. |
| MapSetup.SetupAsWritten | app/map/core/use-map-setup.ts:13-19 | As written, setup always throws and leaves the map as it was. Without a registry entry named "sources", it throws at the first statement. |
| MapSetup.SetupAsWrittenRegistersNothing | app/map/config/map-config.ts:8 | With the configured registry, which holds one definition under "waldkauz", a fresh style gets neither the definition's layers nor the search marker. |
| MapSetup.RegisterAll | app/map/layers/register-overlays.ts:22-35 | Registering each definition of the registry in order keeps existing layers in place and unique ids unique. When it completes, every layer of every definition is on the map. |
| MapSetup.Setup | app/map/core/use-map-setup.ts:13-19 | The corrected setup completes exactly when every registration completes. It then leaves every definition's layers on the map. When the style is ready the search marker layer is added at once; otherwise the map is left as registered and one more idle handler waits. |
| MapSetup.SetupThenIdle | app/map/features/search/search-marker.ts:39-60 | After a completed setup, the next idle event with a ready style leaves the marker and every definition's layers on the map, with no handler left. |
| MapSetup.MarkerKeepsLayers | app/map/features/search/search-marker.ts:30-37 | Ensuring the marker never removes a layer. |
| MapSetup.SetupRegistersDemo | app/map/config/map-config.ts:8 | For the configured registry, the corrected setup registers the definition's layers whenever registering that definition alone completes. The marker is there at once when the style is ready, and in any case after the next ready idle event. |
| Popup.Lookup | app/map/features/popup/use-map-popup.ts:42-50 | A property lookup is `undefined` exactly when no property has that name. Otherwise it returns a value stored under that name. |
| Popup.PickFrom | app/map/features/popup/use-map-popup.ts:42-50 | There is no id exactly when none of the names holds a non-blank string or a finite number. Otherwise the id is the text of the first name, in list order, that holds one. |
| Popup.PickStableId | app/map/features/popup/use-map-popup.ts:42-50 | The same rule over the fixed names id, fid, objectid, OBJECTID, uuid and gid. |
| Popup.ExplicitId | app/map/features/popup/use-map-popup.ts:57-58 | A feature id is used exactly when it is a string or a number. |
| Popup.FeatureKey | app/map/features/popup/use-map-popup.ts:52-75 | Every key starts with the source, the source layer and "::" (with the "unknown-…" defaults). It continues with the explicit id, else the first stable property id, else the geometry type and the first three property names. |
| Popup.ExplicitIdsSeparate | app/map/features/popup/use-map-popup.ts:52-75 | Two hits of the same source layer with different string ids never collide. |
| Popup.Dedupe | app/map/features/popup/use-map-popup.ts:77-91 | The result keeps the first hit of each key, in order, so its keys are distinct. Every key of the input survives, and the result is a subsequence of the input. |
| Popup.DedupeIdempotent | app/map/features/popup/use-map-popup.ts:77-91 | Deduplicating twice changes nothing. |
| Popup.GroupByLayer | app/map/features/popup/use-map-popup.ts:93-109 | The loop over the hits builds the same groups as an independent reference grouping. |
| Popup.LayerOrderKeys | app/map/features/popup/use-map-popup.ts:93-109 | The group order lists every layer of the hits, once each. |
| Popup.GroupByLayerPartition | app/map/features/popup/use-map-popup.ts:93-109 | The grouping is a stable partition: groups follow the first appearance of each layer and have distinct ids. No group is empty, each holds exactly its layer's hits in their order, and every hit lands in its layer's group. |
| Popup.QueryBox | app/map/features/popup/use-map-popup.ts:136-151 | Without a positive tolerance the query is the clicked point. Otherwise it is the square of that half-width around the point. |
| Popup.Survivors | app/map/features/popup/use-map-popup.ts:156-182 | Every surviving hit is a raw hit with a geometry, from a non-empty allowed source when a list is given, and the survivors' keys are distinct. |
| Popup.OnMapClick | app/map/features/popup/use-map-popup.ts:195-207 | The popup closes exactly when no hit survives. Otherwise it opens at the click with the survivors grouped by layer. |
| Popup.OpenPopupShowsSurvivors | app/map/features/popup/use-map-popup.ts:156-207 | Every feature shown in an open popup is a raw hit with a geometry from an allowed source. |
| Popup.Close | app/map/features/popup/use-map-popup.ts:218 | Closing always leaves the popup closed. |
| PopupOverlay.StripFirstSuffix | app/map/features/popup/popup-overlay.tsx:28-46 | An id with none of the suffixes is kept. Otherwise exactly the first matching suffix of the list is removed. The result is always a prefix of the id. |
| PopupOverlay.NormalizePopupLayerId | app/map/features/popup/popup-overlay.tsx:28-46 | The same rule over the popup's ten layer-id suffixes ("-label" … "-polygons"). |
| PopupOverlay.LayerTitleFromToc | app/map/features/popup/popup-overlay.tsx:93-102 | The title is that of the first TOC item whose map or label layers list the id, or the id itself when none does. |
| PopupOverlay.ConfigFor | app/map/features/popup/popup-overlay.tsx:195 | The raw layer id's configuration wins over the normalized id's. There is none exactly when neither id is configured. |
| PopupOverlay.AsString | app/map/features/popup/popup-overlay.tsx:48-50 | A value reads as a string exactly when it is a non-blank string, and then as itself. |
| PopupOverlay.AsNumber | app/map/features/popup/popup-overlay.tsx:52-59 | A finite number reads as itself, and a string reads as what `Number()` gives when that is finite. Nothing else reads as a number. |
| PopupOverlay.IdFromProps | app/map/features/popup/popup-overlay.tsx:113-126 | The property identity is a string id, else a numeric id as text, else a string `location_id`. |
| PopupOverlay.StableFeatureKey | app/map/features/popup/popup-overlay.tsx:108-134 | The key always starts with the layer id and "::". It continues with the first identity found: the feature id, the property identity, the geometry fingerprint, and only then the index. |
| PopupOverlay.FeatureLabel | app/map/features/popup/popup-overlay.tsx:161-175 | Without a configuration the label is "Objekt". A usable title property wins, as text or as a number. Otherwise the configured label is used when it is non-empty, else "Objekt". The label is never empty. |
| PopupOverlay.FeatureLabelReadsTitleOnly | app/map/features/popup/popup-overlay.tsx:161-175 | Two features whose title property agrees get the same label. |
| PopupOverlay.StableKeysSeparate | app/map/features/popup/popup-overlay.tsx:108-134 | Within one layer, features with different string ids get different keys. |
| PopupOverlay.StableKeysByIndex | app/map/features/popup/popup-overlay.tsx:108-134 | Features without any identity get different keys at different positions. |
| PopupOverlay.FormatByConfig | app/map/features/popup/popup-overlay.tsx:72-91 | A missing or null value shows as empty text. Booleans read "Ja"/"Nein". Integer and float formats show the number with 0 or 2 fraction digits, or nothing when the value is not a number. |
| PopupOverlay.NumericFormatsAgree | app/map/features/popup/popup-overlay.tsx:72-91 | The integer and the decimal format show the same number, or both show empty text, exactly when the value is not a number `asNumber` accepts. |
| PopupOverlay.VisibleFields | app/map/features/popup/popup-overlay.tsx:139-146 | The rendered fields are sorted by `order`. A configured field is among them exactly when it is not both empty and marked to hide when empty. |
| PopupOverlay.Displayed | app/map/features/popup/popup-overlay.tsx:153 | A shown value is never empty: an empty text becomes a dash, and anything else is kept. |
| PopupOverlay.RenderConfigFields | app/map/features/popup/popup-overlay.tsx:138-159 | There is one row per visible field, in order, with the field's caption and its displayed value. No row's value is empty. |
| PopupOverlay.RenderedRows | app/map/features/popup/popup-overlay.tsx:138-159 | There are as many rows as configured fields that are shown. A field that does not ask to be hidden always gets its row. |
| Waldkauz.GetStringProp | app/map/features/popup/waldkauz/types.ts:26-29 | A property is returned exactly when it is a string that is not blank after trimming, and it is returned untrimmed. |
| Waldkauz.GetNumberProp | app/map/features/popup/waldkauz/types.ts:31-39 | A finite number is returned as it is. A string gives its `Number()` value exactly when that is finite. Anything else gives nothing. |
| Waldkauz.StringPropUsable | app/map/features/popup/waldkauz/types.ts:26-29 | A string the owl helper accepts is one the popup's id picking and its `asString` accept too, with the same value. |
| Waldkauz.NumberPropAsPopup | app/map/features/popup/waldkauz/types.ts:31-39 | The owl helper's number reading agrees with the popup's `asNumber` on every value. |
| Waldkauz.FormatTime | app/map/features/popup/waldkauz/types.ts:41-46 | A non-finite or negative time shows "0:00". Any other time shows a `m:ss` clock that reads back as its whole seconds. |
| Waldkauz.MinutesSeconds | app/map/features/popup/waldkauz/types.ts:43-44 | The floored quotient and remainder by 60 split the whole seconds into minutes and seconds below 60. |
| Waldkauz.FormatTimeWholeSeconds | app/map/features/popup/waldkauz/types.ts:41-46 | A whole number of seconds is shown exactly. |
| Waldkauz.ClockParts | app/map/features/popup/waldkauz/types.ts:45 | Minutes, a colon and seconds padded to two digits read back as `m * 60 + s`. |
| Waldkauz.PaddedSeconds | app/map/features/popup/waldkauz/types.ts:45 | Seconds below 60, padded to two digits, are two digits with the same value. |
| PresenceChart.ToIsoDayKey | app/map/features/popup/waldkauz/presence-chart.tsx:41-57 | A string of the `yyyy-MM-dd` shape is kept verbatim. Any other string goes through the ISO parser. A value that is not a string gives no key. |
| PresenceChart.DayKeyStable | app/map/features/popup/waldkauz/presence-chart.tsx:41-50 | A well-shaped key fed back gives itself. |
| PresenceChart.FiniteOrZero | app/map/features/popup/waldkauz/presence-chart.tsx:72-73 | A finite number is kept, and anything else becomes 0. |
| PresenceChart.NormalizePoint | app/map/features/popup/waldkauz/presence-chart.tsx:61-75 | An entry is dropped exactly when it has no day key or an empty one. A kept entry carries that key and its two counts made finite. |
| PresenceChart.NormalizeSeries | app/map/features/popup/waldkauz/presence-chart.tsx:59-77 | Normalising never adds entries, and every kept entry has a day key. |
| PresenceChart.NormalizeSingle | app/map/features/popup/waldkauz/presence-chart.tsx:59-77 | A single entry becomes its cleaned form or disappears. |
| PresenceChart.NormalizeConcat | app/map/features/popup/waldkauz/presence-chart.tsx:59-77 | Normalising works entry by entry: the result for a concatenation is the concatenation of the results. |
| PresenceChart.ValueMap | app/map/features/popup/waldkauz/presence-chart.tsx:84-85 | The value map holds exactly the days that occur, each with the value of its last entry. |
| PresenceChart.PrepareMonthSeries | app/map/features/popup/waldkauz/presence-chart.tsx:79-97 | Without a year and month, the chart shows the cleaned entries one to one. With them, it has one point per calendar day in day order, holding the last value recorded that day or 0. |
| PresenceChart.TotalCallEvents | app/map/features/popup/waldkauz/presence-chart.tsx:167-171 | A series with no usable entry totals 0. A single entry totals its cleaned call count, or 0 when it is dropped. |
| PresenceChart.TotalIsSumOfKept | app/map/features/popup/waldkauz/presence-chart.tsx:167-171 | The total is the sum of the call counts of the entries that survive normalisation, entry by entry. |
| PresenceChart.TotalSplits | app/map/features/popup/waldkauz/presence-chart.tsx:167-171 | The total over a series split in two is the sum of the two totals. |
| PresenceChart.PresenceFiles | app/map/features/popup/waldkauz/presence-chart.tsx:265-273 | There are no files exactly when the location id is missing or empty. Otherwise there are the `_sept24` and `_feb25` files of that id. |
| PresenceChart.PresenceFilesSeparate | app/map/features/popup/waldkauz/presence-chart.tsx:265-273 | A location's two files differ, and different locations never share a file. |
| PresenceCsv.MinuteKey | csv_to_json.py:15-16 | The minute of the day splits back into hour and minute, and it lies within the day for a valid clock time. |
| PresenceCsv.PadInt | csv_to_json.py:53 | A non-negative number is padded to at least the width, all digits. A negative one starts with a minus sign. |
| PresenceCsv.MinutesByDay | csv_to_json.py:39-54 | The grouping holds exactly the days with a presence row, each with exactly the minutes recorded that day. |
| PresenceCsv.MinutesByDayInOrder | csv_to_json.py:39-54 | Each day's list is the minutes of that day's presence rows in row order, repetitions kept; a day without presence rows has no list. |
| PresenceCsv.DayList | csv_to_json.py:28-54 | The grouping's keys are distinct and are exactly the recorded days. |
| PresenceCsv.SortedDays | csv_to_json.py:60 | The days come out strictly ascending and are exactly the recorded days. |
| PresenceCsv.InsertDistinct | csv_to_json.py:61 | Inserting a minute into an increasing list keeps it increasing and adds exactly that minute. |
| PresenceCsv.SortedDistinct | csv_to_json.py:61 | The result is strictly increasing and holds exactly the input's minutes. |
| PresenceCsv.CountCallEvents | csv_to_json.py:65-71 | The counting loop counts exactly the minutes that open a run, those more than the allowed gap after the previous one. |
| PresenceCsv.RunBounds | csv_to_json.py:65-71 | A day has no more call events than minutes, and at least one when it has a minute. |
| PresenceCsv.ContiguousIsOneEvent | csv_to_json.py:65-71 | Minutes with no gap above one minute form a single event. |
| PresenceCsv.SpreadMinutesAreEvents | csv_to_json.py:65-71 | Minutes all more than one minute apart are each an event. |
| PresenceCsv.DayEntryOf | csv_to_json.py:61-81 | A day with a minute has at least one call event and no more events than presence minutes. |
| PresenceCsv.Series | csv_to_json.py:60-81 | The series has one entry per recorded day, in sorted order. |
| PresenceCsv.SeriesFacts | csv_to_json.py:56-81 | The days are strictly ascending and are exactly the days with a presence minute. Each day has between one and its minute count of call events. |
| PresenceCsv.SeriesEntryMinutes | csv_to_json.py:61-73 | Each entry counts exactly the distinct minutes recorded on its day, and its events are the runs of those minutes. |
| PresenceCsv.UncountedRowIgnored | csv_to_json.py:39-45 | A row whose presence is not 1, or does not parse, changes nothing in the series. |
| PresenceCsv.SiteOf | csv_to_json.py:35 | An empty site cell counts as no site. |
| PresenceCsv.HeaderAsWritten | csv_to_json.py:33-37 | Any non-empty file yields a year and a month. |
| PresenceCsv.HeaderOf | csv_to_json.py:33-37 | The header is the first row's site, year and month, or nothing for an empty file. |
| PresenceCsv.HeaderAgreesWithSite | csv_to_json.py:33-37 | When the first row names a site, the header read as written is the first row's. |
| PresenceCsv.HeaderAsWrittenTakesLaterRow | csv_to_json.py:33-37 | Without a site, a later row's month replaces the first row's. |
| PresenceCsv.Aggregate | csv_to_json.py:19-95 | The corrected conversion. The output holds the first row's header and the series. The totals are the sums of the entries' presence minutes and call events. |
| PresenceCsv.ConvertDays | csv_to_json.py:56-81 | The loop over the sorted days gives one entry per day, and its running totals are the sums over the entries. |
| PresenceCsv.ConvertDay | csv_to_json.py:61-81 | One day's entry from its distinct sorted minutes and their runs. |
| TocStore.BuildDefaults | app/map/features/toc/toc-store.ts:29-41 | Each of the three maps has exactly the items' ids as keys. The value for an id comes from the last item carrying it: its default, else visible, no labels and opacity 1. |
| TocStore.LastWinsSpec | app/map/features/toc/toc-store.ts:34-38 | Writing the items into a map one by one keys it by every item id, and an id maps to the value of its last item. |
| TocStore.InitFromItems | app/map/features/toc/toc-store.ts:52-61 | Values already in the store are kept, missing ids get the items' defaults, and nothing else appears. The order and the dynamic items are untouched. |
| TocStore.InitFromItemsIdempotent | app/map/features/toc/toc-store.ts:52-61 | Initialising again with the same items changes nothing. |
| TocStore.SetOrder | app/map/features/toc/toc-store.ts:63 | The order becomes the given one, and nothing else changes. |
| TocStore.AppendMissing | app/map/features/toc/toc-store.ts:67-75 | The loop keeps the current order as a prefix and ends with exactly the current ids plus the given ones. |
| TocStore.EnsureOrderContains | app/map/features/toc/toc-store.ts:65-77 | The order only grows at its end, ends with exactly the old and the given ids, and is left alone when every id is already in it. Nothing else changes. |
| TocStore.AppendMissingIsDedupe | app/map/features/toc/toc-store.ts:67-75 | On an order without repeats the loop equals an independent "keep the first occurrence" over the order followed by the ids. |
| TocStore.EnsureOrderContainsIsDedupe | app/map/features/toc/toc-store.ts:65-77 | On an order without repeats, the result is the deduplicated order followed by the ids, and it has no repeats. |
| TocStore.RegisterDynamicItem | app/map/features/toc/toc-store.ts:79-101 | The item is appended unless its id is already among the dynamic items, so distinct ids stay distinct. Each map keeps a stored value or takes the item's default. The id joins the end of the order unless it is there already. |
| TocStore.RegisterDynamicItemIdempotent | app/map/features/toc/toc-store.ts:79-101 | Registering the same item twice is registering it once. |
| TocStore.UnregisterDynamicItem | app/map/features/toc/toc-store.ts:103-107 | The id leaves the dynamic items and the order, which keep everything else in order. The three value maps are untouched. |
| TocStore.RegisterThenUnregister | app/map/features/toc/toc-store.ts:79-107 | Unregistering a freshly registered item restores the items and the order, while its values stay in the maps. |
| TocStore.SetVisible | app/map/features/toc/toc-store.ts:109 | One key of the visibility map is set, and nothing else changes. |
| TocStore.SetLabelsVisible | app/map/features/toc/toc-store.ts:110 | One key of the labels map is set, and nothing else changes. |
| TocStore.SetOpacity | app/map/features/toc/toc-store.ts:111 | One key of the opacity map is set, and nothing else changes. |
| TocStore.SettersLastWins | app/map/features/toc/toc-store.ts:109-111 | A later setter call on the same key replaces the earlier one. |
| TocPanel.ItemById | app/map/features/toc/toc-panel.tsx:43 | An item is found exactly when one has the id, and what is found is an item with that id. |
| TocPanel.Sorted | app/map/features/toc/toc-panel.tsx:44-46 | The named items follow the order's ids, skipping ids no item has. |
| TocPanel.OrderedItems | app/map/features/toc/toc-panel.tsx:41-50 | An empty order lists the items as they are. Otherwise the items the order names come first, in its sequence, followed by the unnamed items in their own order. |
| TocPanel.OrderedItemsPermutation | app/map/features/toc/toc-panel.tsx:41-50 | With a repeat-free order and distinct item ids, the panel lists every item exactly once. |
| TocPanel.ArrayMove | app/map/features/toc/toc-panel.tsx:69 | The moved element lands at the target index, and the others keep their relative order. |
| TocPanel.ArrayMovePermutes | app/map/features/toc/toc-panel.tsx:69 | A move only reorders. |
| TocPanel.ArrayMoveInverse | app/map/features/toc/toc-panel.tsx:69 | Moving back undoes a move. |
| TocPanel.IndexOfId | app/map/features/toc/toc-panel.tsx:67-68 | The index is that of the first item with the id. |
| TocPanel.HandleDragEnd | app/map/features/toc/toc-panel.tsx:64-73 | There is no new order without a drop target or when an item is dropped on itself. Otherwise the new order is the listed ids with the dragged one moved to the target's index. |
| TocPanel.HandleDragEndMoves | app/map/features/toc/toc-panel.tsx:64-73 | The new order holds the same ids. The dragged id sits where the target was, and the others keep their relative order. |
| TocPanel.IsOnShown | app/map/features/toc/toc-panel.tsx:101 | The switch shows the stored visibility, else the item's default, else on. |
| TocPanel.LabelsOnShown | app/map/features/toc/toc-panel.tsx:102-104 | The labels toggle shows the stored value, else the item's default, else off. |
| TocPanel.OpacityShown | app/map/features/toc/toc-panel.tsx:105 | The slider shows the stored opacity, else the item's default, else 1. |
| TocPanel.ShownAfterInit | app/map/features/toc/toc-store.ts:52-61 | After initialisation from the items, the panel shows the same switch state as before. |
| TocItemControls.RowClamp | app/map/features/toc/sortable-toc-item.tsx:23-28 | The value always lies in [0, 1]. A non-finite value gives 1, and a finite one is clamped. |
| TocItemControls.LabelsDisabled | app/map/features/toc/sortable-toc-item.tsx:46-68 | The labels toggle is disabled exactly when the item is off or has no label layers. |
| TocItemControls.OnToggleVisible | app/map/features/toc/sortable-toc-item.tsx:49-54 | The switch sets this item's visibility to the switch's value. |
| TocItemControls.OnToggleLabels | app/map/features/toc/sortable-toc-item.tsx:56-68 | A disabled toggle issues nothing. An enabled one sets the item's labels to the negation of the shown value. |
| TocItemControls.OnOpacityChange | app/map/features/toc/sortable-toc-item.tsx:60-66 | A switched-off item's slider issues nothing. Otherwise it sets the item's opacity within [0, 1], to 1 without a value, and to the value itself when that is already in range. |
| TocItemControls.ToggleLabelsTwice | app/map/features/toc/sortable-toc-item.tsx:56-58 | Two clicks on an enabled labels toggle restore the stored value. |
| TocSync.SetLayerVisibility | app/map/features/toc/use-toc-sync.ts:8-15 | The sources and the layer ids never change, and a missing layer is not written. |
| TocSync.OpacityPaintProp | app/map/features/toc/use-toc-sync.ts:17-23 | Fill, line, circle and symbol layers map one to one onto their own opacity property. No other type has one. |
| TocSync.SetLayerOpacity | app/map/features/toc/use-toc-sync.ts:25-37 | The sources and the layer ids never change, and a missing layer is not written. |
| TocSync.MapLayerWrite | app/map/features/toc/use-toc-sync.ts:62-65 | A map layer keeps its identity and type and gets the item's visibility. |
| TocSync.LabelLayerWrite | app/map/features/toc/use-toc-sync.ts:67-69 | A label layer keeps its paint and identity and gets the given visibility. |
| TocSync.ValuesOf | app/map/features/toc/use-toc-sync.ts:58-60 | Each value is the store's, else the item's default. A missing visibility default counts as off. |
| TocSync.SyncToc | app/map/features/toc/use-toc-sync.ts:54-71 | The sync changes neither the sources nor the layer ids. |
| TocSync.SyncTocAsWritten | app/map/features/toc/use-toc-sync.ts:62 | The map is never changed. |
| TocSync.SyncAsWrittenWritesNothing | app/map/features/toc/use-toc-sync.ts:62 | With at least one item the effect throws before its first write. |
| TocSync.SyncTocPointwise | app/map/features/toc/use-toc-sync.ts:57-70 | The sync acts on each layer independently: a layer ends as its own writes, in item order, make it. |
| TocSync.MapLayerWriteIdempotent | app/map/features/toc/use-toc-sync.ts:62-65 | Writing a map layer twice with the same values is writing it once. |
| TocSync.SyncTocSpec | app/map/features/toc/use-toc-sync.ts:54-71 | For a layer named by at most one item: a map layer shows exactly when its item is on and carries the item's opacity. A label layer shows exactly when the item and its labels are on. A layer no item names is untouched. |
| TocSync.MapLayerWriteOpacity | app/map/features/toc/use-toc-sync.ts:33-36 | The opacity lands on the layer type's own paint property. A type without one keeps its paint. |
| Js.ClampUnit | app/map/features/wms/wms-from-url.ts:7-12 | The result always lies in [0, 1]. A non-finite number gives 1, a number in range is kept, and one outside is pulled to the nearer end. |
| Js.ClampUnitMonotone | app/map/features/toc/sortable-toc-item.tsx:23-28 | Clamping never reverses the order of two numbers. |
| Wms.AsFormat | app/map/features/wms/wms-from-url.ts:14-16 | The format is JPEG exactly for the text "image/jpeg", and PNG otherwise. |
| Wms.AsFormatOfName | app/map/features/wms/wms-from-url.ts:14-16 | Reading a format's own name gives the format back. |
| Wms.TrimmedOr | app/map/features/wms/wms-from-url.ts:25-28 | A non-blank parameter is used trimmed, and a missing or blank one gives the fallback. |
| Wms.ParseWmsFromSearch | app/map/features/wms/wms-from-url.ts:18-37 | There is no configuration exactly when the URL or the layers are missing or blank. Otherwise the id is "wms:" and the trimmed id or "layer", and the title falls back to that raw id. JPEG is used only when asked for, and transparency is off only for "false". The opacity exists exactly when given non-blank, and it is then clamped into [0, 1]. |
| Wms.ParseToSearch | app/map/features/wms/wms-from-url.ts:18-37 | A configuration with clean texts and an in-range opacity, written as a query string, parses back to itself. |
| Wms.ParseOfParams | app/map/features/wms/wms-from-url.ts:18-37 | Any query string whose parameters hold a clean configuration's fields parses to that configuration. |
| Wms.ParseKeepsTexts | app/map/features/wms/wms-from-url.ts:21-28 | Clean URL, layers, id and title parameters come back unchanged. |
| Wms.ParseKeepsFlags | app/map/features/wms/wms-from-url.ts:30-34 | Format, transparency and an in-range opacity come back unchanged. |
| Wms.FirstLayerName | app/map/features/wms/wms-from-url.ts:39-42 | The result is the trimmed first comma-separated name, which holds no comma. When that name is empty, it is the whole list trimmed. |
| Wms.DropTypeSuffix | app/map/features/wms/wms-from-url.ts:49 | A name without a type ending is kept. A name with one, matched ignoring case, always changes, and the result is the name with one such ending cut off. |
| Wms.DropFirstMatch | app/map/features/wms/wms-from-url.ts:49 | The first listed ending that matches is the one cut off. |
| Wms.OneTypeSuffix | app/map/features/wms/wms-from-url.ts:49 | A name ends with at most one of .fill, .line, .circle, .symbol and .point, in any letter case, so the order of the alternatives does not matter. |
| Wms.DropTypeSuffixCuts | app/map/features/wms/wms-from-url.ts:49 | A name ending in a type ending loses exactly that ending. |
| Wms.CutTemplate | app/map/features/wms/wms-from-url.ts:50-51 | The text before the first "{" without one trailing dot: a prefix free of "{", and the name itself when it has neither. |
| Wms.DropTrailingDot | app/map/features/wms/wms-from-url.ts:51 | One trailing dot is dropped, and a name without one is kept. |
| Wms.NormalizeSwisstopoLayerBase | app/map/features/wms/wms-from-url.ts:47-52 | The base never holds a "{" and is always a prefix of the name. A type ending never survives. A name without a type ending, a "{" or a trailing dot is kept as it is. |
| Wms.NormalizePlainName | app/map/features/wms/wms-from-url.ts:47-52 | A name without any of the decorations is kept as it is. |
| Wms.NormalizeTemplatedName | app/map/features/wms/wms-from-url.ts:47-52 | A name followed by ".{" and a template normalises to the name. |
| Wms.NormalizeTypedName | app/map/features/wms/wms-from-url.ts:47-52 | A name followed by any type ending in any letter case, such as ".FILL" or ".Circle", normalises to the name. |
| Wms.SwisstopoRestLegendUrl | app/map/features/wms/wms-from-url.ts:78-81 | The legend URL is empty exactly when the layer name is. |
| Wms.BuildWmsLegendUrl | app/map/features/wms/wms-from-url.ts:83-91 | A geo.admin.ch server or a "ch." layer gets the swisstopo REST legend of the normalised first layer. Any other server gets a GetLegendGraphic request, which fails exactly when the server URL does not parse. |
| Wms.ToTocItem | app/map/features/wms/wms-from-url.ts:93-104 | The item exists exactly when the legend URL can be built. It has one map layer named like the item, no label layers, is visible with labels off, and takes the configured opacity or 1. |
| Wms.GetMapQuery | app/map/features/wms/wms-maplibre.ts:13-29 | The tile request carries every GetMap parameter of OGC WMS 1.3.0 (section 7.3), with the configuration's layers, format and transparency, for a 256-pixel EPSG:3857 tile. |
| Wms.TileUrl | app/map/features/wms/wms-maplibre.ts:39-40 | A `{z}` template is used as it is. Any other base URL gets the GetMap request, which fails exactly when that URL does not parse. |
| Wms.RasterLayer | app/map/features/wms/wms-maplibre.ts:53-61 | The layer is a raster layer named like the configuration, reading its own source with the configured opacity. |
| Wms.RemoveWmsLayer | app/map/features/wms/wms-maplibre.ts:31-34 | Afterwards neither the layer nor the source of the id exists. Every other layer keeps its place, and every other source is kept unchanged. |
| Wms.UpsertWmsLayer | app/map/features/wms/wms-maplibre.ts:36-67 | A missing source is added with the tile URL, an existing one is kept, and the call fails only when a new source's URL does not parse. A missing layer is appended, and an existing one only gets the opacity. |
| Wms.UpsertIdempotent | app/map/features/wms/wms-maplibre.ts:36-67 | Upserting twice with the same configuration is upserting once. |
| Wms.RemoveAfterUpsert | app/map/features/wms/wms-maplibre.ts:31-67 | Removing what an upsert put on a map without it gives the map back. |
| WmsSync.ChosenOpacity | app/map/features/wms/use-wms-from-url.ts:36-41 | The sync uses the store's opacity, else the URL's, else 1. |
| WmsSync.ChosenVisibility | app/map/features/wms/use-wms-from-url.ts:37 | The sync uses the store's visibility, else visible. |
| WmsSync.ActiveConfig | app/map/features/wms/use-wms-from-url.ts:39-42 | The applied configuration is the URL's, with only the opacity replaced by the chosen one. |
| WmsSync.ApplyConfig | app/map/features/wms/use-wms-from-url.ts:44-53 | A failed upsert leaves everything as it was. The application completes exactly when the upsert and the TOC item both succeed. It then shows the layer with the chosen opacity and visibility and registers the item. |
| WmsSync.Requested | app/map/features/wms/use-wms-from-url.ts:14-20 | A configuration is requested exactly when there is a map, its style is loaded and the query string parses. |
| WmsSync.SyncStep | app/map/features/wms/use-wms-from-url.ts:32-53 | A skipped run changes nothing. Otherwise the key is recorded first, and a completed run shows the layer and registers its id in the store. |
| WmsSync.SyncWmsAsWritten | app/map/features/wms/use-wms-from-url.ts:13-54 | A run without a request changes nothing. A configuration equal to the last key is skipped whatever the map holds. Any other configuration is shown. |
| WmsSync.SyncWms | app/map/features/wms/use-wms-from-url.ts:13-54 | The corrected sync skips only when the configuration is unchanged and its layer is still on the map. In every other case a completed run shows the layer and registers its id. |
| WmsSync.SyncKeepsLayer | app/map/features/wms/use-wms-from-url.ts:32-53 | After a completed corrected sync the requested layer is on the map. |
| WmsSync.SyncAsWrittenLosesLayer | app/map/features/wms/use-wms-from-url.ts:32 | As written, a layer dropped since the last run is never put back while the URL is unchanged. |
| WmsSync.SwitchStyle | app/map/core/use-maplibre.ts:160 | A style switch replaces the map's layers and sources, and the hook's key and the store survive. |
| WmsSync.StyleSwitchThenSync | app/map/features/wms/use-wms-from-url.ts:63-66 | After a style switch without the layer, the sync as written leaves it missing, while a completed corrected sync restores it. |
| WmsSync.SyncIdempotent | app/map/features/wms/use-wms-from-url.ts:22-33 | A repeated event with the same URL after a completed sync changes nothing. |
| WmsSync.OnMapChange | app/map/features/wms/use-wms-from-url.ts:56-69 | Without a map nothing happens. A new map forgets the key, so a requested configuration is always applied and, on completion, shown and registered. |
| SwisstopoPanel.MakeInternalId | app/map/features/wms/swisstopo-wms-panel.tsx:53-56 | A WMTS layer's id gets the "wmts:" prefix, and any other the "wms:" prefix. |
| SwisstopoPanel.MakeInternalIdInjective | app/map/features/wms/swisstopo-wms-panel.tsx:53-56 | Different catalogue entries never share an internal id. |
| SwisstopoPanel.ActiveItems | app/map/features/wms/swisstopo-wms-panel.tsx:68-76 | The active items are exactly the dynamic items with a "wms:ch.swisstopo" or "wmts:ch.swisstopo" id. |
| SwisstopoPanel.ActiveItemsInOrder | app/map/features/wms/swisstopo-wms-panel.tsx:68-76 | The active items keep the order of the dynamic items. |
| SwisstopoPanel.TileExtension | app/map/features/wms/swisstopo-wms-panel.tsx:117 | The tile extension is the part of the format after the first "/". The whole format is used when that part is missing or empty. |
| SwisstopoPanel.CatalogConfig | app/map/features/wms/swisstopo-wms-panel.tsx:112-123 | The configuration carries the internal id, the entry's title and name, JPEG exactly for a "jpeg" format, transparency and opacity 1. A WMTS entry gets a `{z}` template, and any other entry the swisstopo WMS server. |
| SwisstopoPanel.AddCatalogLayer | app/map/features/wms/swisstopo-wms-panel.tsx:110-127 | Nothing happens without a map. A completed add leaves the layer and its source on the map and the item among the dynamic items. |
| SwisstopoPanel.RemoveCatalogLayer | app/map/features/wms/swisstopo-wms-panel.tsx:129-133 | Nothing happens without a map. Otherwise the id's layer, source, dynamic item and order entry are all gone. |
| SwisstopoPanel.ToggleLayer | app/map/features/wms/swisstopo-wms-panel.tsx:98-108 | Nothing happens without a map. An active layer is removed, and any other is added. |
| SwisstopoPanel.ToggleTwice | app/map/features/wms/swisstopo-wms-panel.tsx:98-133 | Toggling an absent catalogue layer on and off again restores the map and the store's items and order. |
| SwisstopoPanel.AddedParts | app/map/features/wms/swisstopo-wms-panel.tsx:125-126 | A completed add is the upsert followed by the registration of the item. |
| SwisstopoPanel.UndoAdd | app/map/features/wms/swisstopo-wms-panel.tsx:125-132 | Removing an upserted and registered configuration restores the map and the store's items and order. |
| SwisstopoPanel.ToggleActive | app/map/features/wms/swisstopo-wms-panel.tsx:101-104 | Toggling a layer whose item is registered under a swisstopo id removes it. |
| SwisstopoPanel.RemoveAll | app/map/features/wms/swisstopo-wms-panel.tsx:137-139 | The loop never adds a dynamic item and keeps the map. |
| SwisstopoPanel.RemoveAllGone | app/map/features/wms/swisstopo-wms-panel.tsx:137-139 | After the loop every id it was given is gone from the map and the store. |
| SwisstopoPanel.ClearAllLayers | app/map/features/wms/swisstopo-wms-panel.tsx:135-140 | Nothing happens without a map. Otherwise no active item is left, and every formerly active layer and source is gone from the map. |

## Left out

- Numbers: every finite JavaScript number is an exact real. Rounding to double precision, overflow to ±Infinity and the sign of −0 are not modelled. This affects the opacity clamps (`MapLibreCore.Clamp01`, `Js.ClampUnit`), the WMS opacity, the popup's integer and decimal formats, `Waldkauz.FormatTime`'s floor and remainder, and the chart total.
- The rendering engine: tiles, drawing, style parsing. A style switch is a parameter that replaces the surface.
- Event plumbing: `map.on`/`off`/`once`, React effects and their clean-up. Every hook is modelled as the call sequence it runs. `waitForStyleLoaded` and `waitForIdle` are checkpoints, and their timing is concurrency.
- Network and caching: the overlay-style fetch, the presence JSON fetch and its cache, geocoding, the swisstopo catalogue and identify calls, and the legend-graphic fetch with its HTML sanitising. Their results are inputs.
- `use-geocoding-search.ts`: debouncing and aborting requests is concurrency.
- `basemap-store.ts`: it is persistence in `localStorage`.
- Date handling: date-fns parsing, formatting and month lengths are the `Calendar` parameter. The `Date`-object branch of `toIsoDayKey` is not modelled; non-string values give no key.
- `Number()` on a string is the `parse` parameter. The URL API (`URL`, `URLSearchParams`, encoding) is the `UrlApi` parameter. Query strings are maps holding one value per name.
- `Intl.NumberFormat`: integer and float fields are shown as `Shown.Number`, a value with its number of fraction digits, not as localised text.
- `formatMeasurement`: turf's `area`/`length`, `toLocaleString` and the arrow head icon are not modelled.
- `crypto.randomUUID` and `Date.now` in `commit` are parameters.
- `queryRenderedFeatures`: the raw hits are an input, including the effect of its `layers` filter.
- `csv_to_json.py` globbing, CSV reading and JSON writing are not modelled. A `year` or `month` cell that `int()` cannot read stops the script, and so does an unreadable `day`, `hour` or `minute` cell in a presence row; rows here carry integers. A `presence` cell that cannot be read is modelled as `None`.
- Presentation-only components: the toolbar, legend, popup and panel markup, recharts, the audio player, the sidebar, the search panel and the shell.
- DOM controls and configuration files are used only as constants.
- `MapSetup.SetupAsWritten`: for a registry that happens to hold an entry named "sources", it states only that the call aborts. It does not follow the definition's `addSource` calls one by one.
- `TocPanel.ItemById`: states that an item with the id is found. It does not state that the last item with a duplicated id wins, which is `Map` construction.
- `TocSync.SyncToc`: its own contract keeps only sources and layer ids. The per-layer result is stated by `TocSync.SyncTocPointwise` in general and by `TocSync.SyncTocSpec` for layers that only one item lists.
- `Popup.Survivors`: states membership, the source allow-list and distinct keys. That the survivors are the first hit per key, in order, is stated by `Popup.Dedupe`.
- `PopupOverlay.VisibleFields`: states order and membership. It does not state how many times a field configured twice appears.
- `Popup.FeatureKey`: the property-name fallback uses the properties in their given order. JavaScript's ordering of integer-like keys first is not modelled. The names are sorted by Unicode scalar value, while JavaScript's `sort()` compares UTF-16 code units; the two orders differ only for names with characters outside the Basic Multilingual Plane.
- `PresenceChart.TotalCallEvents`: the sum is over exact reals, not floating point.
- `PresenceCsv.Aggregate`: takes the header from the first row, as intended. The script as written keeps overwriting year and month while no row has a site; that behaviour is `PresenceCsv.HeaderAsWritten`, and `PresenceCsv.HeaderAsWrittenTakesLaterRow` shows where the two differ.
- `map.addLayer` refusing a layer whose source is missing: the model assumes the engine throws in that case and adds the layer otherwise. This is MapLibre behaviour that the client's code relies on but does not state. The abort conditions of `RegisterOverlays.AddMissingLayersAborted`, `BasemapSync.SyncApplyOverlays` and `MapLibreCore.AddLayersCatching` rest on it.
- `Js.NumText`: integers are written exactly, digit by digit, even from 1e21 on, where JavaScript switches to exponent form ("1e+21"). Other numbers are written with up to 17 fraction digits, not JavaScript's shortest round-trip text.

## Findings

| source | as written | input that shows it | evidently intended | confidence | as-written member | corrected member |
|---|---|---|---|---|---|---|
| app/map/features/toc/use-toc-sync.ts:62 | The loop reads `item.layerIds`, which TOC items do not have, so `for … of undefined` throws. | Any non-empty list of TOC items. | Loop over `item.mapLayerIds`, and over `item.labelLayerIds ?? []`: `labelLayerIds` is optional too (toc-types.ts:14), so line 67 throws in the same way for an item without label layers. | not executed | TocSync.SyncAsWrittenWritesNothing | TocSync.SyncTocSpec |
| app/map/core/use-maplibre.ts:150 | Calls `reorderAppLayers`, which `layer-order.ts` does not export, so the call throws. | Any restore with the overlays loaded. | Call `moveCustomLayersToTopOrdered` with the app prefixes. | not executed | MapLibreCore.RestoreAsWrittenNeverReady | MapLibreCore.RestoreLayers |
| app/map/features/wms/use-wms-from-url.ts:32 | An unchanged configuration key returns early, even after a style switch has dropped the WMS layer. | A URL with `wmsUrl` and `wmsLayers`, synced once, then a basemap switch. | Re-apply when the layer is missing from the map. | not executed | WmsSync.SyncAsWrittenLosesLayer | WmsSync.SyncKeepsLayer |
| app/map/core/use-map-setup.ts:15 | Passes the whole overlay registry where one overlay definition is expected. | The demo registry, with one definition under "waldkauz". | Register each definition of the registry. | not executed | MapSetup.SetupAsWrittenRegistersNothing | MapSetup.SetupRegistersDemo |
| app/components/shell/map-container.tsx:62 | Calls `useBasemapSync(map, basemapId)` positionally; the hook takes one object. | Any basemap choice. | `useBasemapSync({ map, basemapId })`. | not executed | BasemapSync.ContainerCallAsWrittenNeverSyncs | BasemapSync.ContainerCallSyncs |
| csv_to_json.py:33-37 | While no site has been seen, every row overwrites site, year and month. | Two rows without a site: 2024-09-30 23:59, then 2024-10-01 00:00. | Read the header from the first row only. | not executed | PresenceCsv.HeaderAsWrittenTakesLaterRow | PresenceCsv.HeaderOf |

=== FILE: basemaps.dfy ===
/** The basemap catalogue: the styles the user can switch between. */
module BasemapConfig {
  import opened Wrappers
  import opened Seqs

  datatype BasemapDef = BasemapDef(id: string, name: string, styleId: string)

  /** `BASEMAPS`, in the order of the gallery. */
  const Basemaps: seq<BasemapDef> := [
    BasemapDef("swisstopo-lbm", "swisstopo (LBM)", "ch-swisstopo-lbm"),
    BasemapDef("streets", "Streets", "streets-v2"),
    BasemapDef("outdoor", "Outdoor", "outdoor-v2"),
    BasemapDef("satellite", "Satellite", "satellite")
  ]

  /** The values of the `BasemapId` union type. */
  const BasemapIds: seq<string> := ["swisstopo-lbm", "streets", "outdoor", "satellite"]

  /** The catalogue has one entry per id of the union type, and no id twice. */
  lemma CatalogueComplete()
    ensures Keys(Basemaps, (b: BasemapDef) => b.id) == BasemapIds
    ensures Distinct(Keys(Basemaps, (b: BasemapDef) => b.id))
  {
    assert Keys(Basemaps, (b: BasemapDef) => b.id) == BasemapIds;
  }

  /** `BASEMAPS.find((b) => b.id === id)` */
  function Find(defs: seq<BasemapDef>, id: string): (r: Option<BasemapDef>)
    ensures r.Some? <==> exists i :: 0 <= i < |defs| && defs[i].id == id
    ensures r.Some? ==> r.value.id == id && r.value in defs
    ensures r.Some? ==> exists i :: (0 <= i < |defs| && defs[i] == r.value
      && forall j :: 0 <= j < i ==> defs[j].id != id)
  {
    if |defs| == 0 then None
    else if defs[0].id == id then Some(defs[0])
    else
      var r := Find(defs[1..], id);
      assert forall i :: 1 <= i < |defs| ==> defs[i] == defs[1..][i - 1];
      r
  }

  /** `getBasemapById(id)`: the entry with that id, else the first entry. The
      id is typed, but a persisted value may be any string, which is why the
      fallback is reachable. */
  function GetBasemapById(id: string): (r: BasemapDef)
    ensures r in Basemaps
    ensures (exists i :: 0 <= i < |Basemaps| && Basemaps[i].id == id) ==> r.id == id
    ensures !(exists i :: 0 <= i < |Basemaps| && Basemaps[i].id == id) ==> r == Basemaps[0]
  {
    Find(Basemaps, id).GetOr(Basemaps[0])
  }

  /** `isBasemapId(value)` */
  function IsBasemapId(value: string): (b: bool)
    ensures b <==> value in BasemapIds
  {
    CatalogueComplete();
    Find(Basemaps, value).Some?
  }

  /** Every valid id resolves to its own entry, and only invalid ones fall back. */
  lemma GetBasemapByIdFallback(id: string)
    ensures IsBasemapId(id) ==> GetBasemapById(id).id == id
    ensures !IsBasemapId(id) ==> GetBasemapById(id) == Basemaps[0]
  {
    CatalogueComplete();
  }

  const MapTilerStyleBase: string := "https://api.maptiler.com/maps"

  /** `mapTilerStyleUrl(styleId)`: throws when the API key is missing or empty. */
  function MapTilerStyleUrl(styleId: string, key: Option<string>): (r: Result<string>)
    ensures r.Ok? <==> key.Some? && key.value != ""
    ensures r.Ok? ==> r.value == MapTilerStyleBase + "/" + styleId + "/style.json?key=" + key.value
  {
    match key
    case None => Err("Missing NEXT_PUBLIC_MAPTILER_KEY (.env.local).")
    case Some(k) =>
      if k == "" then Err("Missing NEXT_PUBLIC_MAPTILER_KEY (.env.local).")
      else Ok(MapTilerStyleBase + "/" + styleId + "/style.json?key=" + k)
  }
}

/** The basemap switch: replace the style, wait for it, put the overlays back
    on top, wait for idle and put them back once more; every wait is a point
    where a newer switch cancels this one. */
module BasemapSync {
  import opened Wrappers
  import opened Seqs
  import opened MapSurface
  import opened BasemapConfig
  import RegisterOverlays

  /** The basemap-sync `applyOverlays`: missing sources, then missing layers
      (nothing caught), then every overlay layer that exists moved to the top
      in definition order. */
  function SyncApplyOverlays(s: Surface, o: Overlays): (r: Outcome<Surface>)
    ensures forall k :: k in s.sources ==> k in r.state.sources && r.state.sources[k] == s.sources[k]
    ensures forall k :: k in o.sources ==> k in r.state.sources
    ensures forall k :: k in r.state.sources ==> k in s.sources || k in o.sources
    ensures UniqueIds(s.layers) ==> UniqueIds(r.state.layers)
    ensures r.Completed? ==> forall i :: 0 <= i < |o.layers| ==> HasLayer(r.state, o.layers[i].id)
    ensures r.Aborted? ==> exists i :: (0 <= i < |o.layers|
      && !SourceAvailable(AddMissingSources(s, o.sources), o.layers[i]))
  {
    var u := AddMissingSources(s, o.sources);
    RegisterOverlays.AddMissingLayersKeepsUnique(u, o.layers);
    match RegisterOverlays.AddMissingLayers(u, o.layers)
    case Aborted(t, e) =>
      RegisterOverlays.AddMissingLayersAborted(u, o.layers);
      Aborted(t, e)
    case Completed(t) =>
      RegisterOverlays.AddMissingLayersCompleted(u, o.layers);
      UniqueAfterMove(t, Ids(o.layers));
      MoveAllToTopKeepsIds(t, Ids(o.layers));
      Completed(MoveAllToTop(t, Ids(o.layers)))
  }

  lemma UniqueAfterMove(s: Surface, ids: seq<string>)
    ensures UniqueIds(s.layers) ==> UniqueIds(MoveAllToTop(s, ids).layers)
  {
    if UniqueIds(s.layers) { MoveAllToTopKeepsUnique(s, ids); }
  }

  /** The state after the sources and layers were added, before the move. */
  function Added(s: Surface, o: Overlays): Surface {
    RegisterOverlays.AddMissingLayers(AddMissingSources(s, o.sources), o.layers).state
  }

  lemma {:induction false} MoveAllToTopKeepsIds(s: Surface, ids: seq<string>)
    ensures forall x :: HasLayer(s, x) ==> HasLayer(MoveAllToTop(s, ids), x)
    decreases |ids|
  {
    if |ids| > 0 {
      var s1 := MoveLayer(s, ids[0]);
      MoveAllToTopKeepsIds(s1, ids[1..]);
      forall x | HasLayer(s, x) ensures HasLayer(s1, x) {
        MoveLayerKeepsId(s, ids[0], x);
      }
    }
  }

  lemma MoveLayerKeepsId(s: Surface, id: string, x: string)
    requires HasLayer(s, x)
    ensures HasLayer(MoveLayer(s, id), x)
  {
    var s1 := MoveLayer(s, id);
    if HasLayer(s, id) {
      var i :| 0 <= i < |s.layers| && Ids(s.layers)[i] == x;
      var rest := Without(s.layers, {id});
      if x == id {
        assert Ids(s1.layers)[|rest|] == x;
      } else {
        assert s.layers[i] in rest;
        var j :| 0 <= j < |rest| && rest[j] == s.layers[i];
        assert Ids(s1.layers)[j] == x;
      }
    }
  }

  /** After a completed application, the layers that are not overlays keep
      their order at the bottom, and above them sit the overlay layers, one per
      definition entry, with the last-listed one topmost. */
  lemma SyncApplyStack(s: Surface, o: Overlays)
    requires UniqueIds(s.layers) && Distinct(Ids(o.layers))
    ensures var r := SyncApplyOverlays(s, o);
      var named := set i | 0 <= i < |o.layers| :: o.layers[i].id;
      r.Completed? ==>
        r.state.layers == Without(Added(s, o).layers, named) + Present(Added(s, o).layers, Ids(o.layers))
        && Ids(Present(Added(s, o).layers, Ids(o.layers))) == Ids(o.layers)
  {
    var r := SyncApplyOverlays(s, o);
    if r.Completed? {
      var t := Added(s, o);
      RegisterOverlays.AddMissingLayersCompleted(AddMissingSources(s, o.sources), o.layers);
      MoveAllToTopStack(t, Ids(o.layers));
      var named := set i | 0 <= i < |o.layers| :: o.layers[i].id;
      assert named == set i | 0 <= i < |Ids(o.layers)| :: Ids(o.layers)[i];
      PresentIds(t.layers, Ids(o.layers));
    }
  }

  /** `Present` of ids that all exist carries exactly those ids. */
  lemma {:induction false} PresentIds(layers: seq<Layer>, ids: seq<string>)
    requires forall i :: 0 <= i < |ids| ==> ids[i] in Ids(layers)
    ensures Ids(Present(layers, ids)) == ids
    decreases |ids|
  {
    if |ids| > 0 {
      PresentIds(layers, ids[1..]);
      var l := GetLayer(layers, ids[0]).value;
      assert Present(layers, ids) == [l] + Present(layers, ids[1..]);
      assert Ids([l] + Present(layers, ids[1..])) == [ids[0]] + Ids(Present(layers, ids[1..]));
    }
  }

  /** The layer loop adds nothing when every layer it is given already exists. */
  lemma {:induction false} AddMissingLayersAllPresent(s: Surface, ls: seq<Layer>)
    requires forall i :: 0 <= i < |ls| ==> HasLayer(s, ls[i].id)
    ensures RegisterOverlays.AddMissingLayers(s, ls) == Completed(s)
    decreases |ls|
  {
    if |ls| > 0 {
      AddMissingLayersAllPresent(s, ls[1..]);
    }
  }

  /** Stacking is stable: once the overlays sit on top, moving them again in
      the same order changes nothing. */
  lemma StackedIsFixed(w: seq<Layer>, p: seq<Layer>, ids: seq<string>)
    requires Distinct(ids) && UniqueIds(w + p) && Ids(p) == ids
    requires forall i :: 0 <= i < |w| ==> w[i].id !in ids
    ensures MoveAllToTop(Surface(map[], w + p), ids).layers == w + p
  {
    var named := set i | 0 <= i < |ids| :: ids[i];
    MoveAllToTopStack(Surface(map[], w + p), ids);
    StackedWithout(w, p, ids, named);
    StackedPresent(w, p);
  }

  lemma StackedWithout(w: seq<Layer>, p: seq<Layer>, ids: seq<string>, named: set<string>)
    requires Ids(p) == ids && named == set i | 0 <= i < |ids| :: ids[i]
    requires forall i :: 0 <= i < |w| ==> w[i].id !in ids
    ensures Without(w + p, named) == w
  {
    WithoutConcat(w, p, named);
    forall i | 0 <= i < |w| ensures w[i].id !in named {
      assert w[i].id !in ids;
    }
    WithoutNothing(w, named);
    forall i | 0 <= i < |p| ensures p[i].id in named {
      assert Ids(p)[i] == p[i].id;
    }
    WithoutAll(p, named);
  }

  lemma WithoutAll(p: seq<Layer>, named: set<string>)
    requires forall i :: 0 <= i < |p| ==> p[i].id in named
    ensures Without(p, named) == []
    decreases |p|
  {
    if |p| > 0 {
      WithoutAll(p[1..], named);
    }
  }

  lemma StackedPresent(w: seq<Layer>, p: seq<Layer>)
    requires UniqueIds(w + p)
    ensures Present(w + p, Ids(p)) == p
  {
    forall i | 0 <= i < |p| ensures p[i] in w + p {
      assert (w + p)[|w| + i] == p[i];
    }
    PresentOfMembers(w + p, p);
  }

  lemma MoveAllToTopSourcesIrrelevant(s: Surface, ids: seq<string>)
    ensures MoveAllToTop(s, ids).layers == MoveAllToTop(Surface(map[], s.layers), ids).layers
    decreases |ids|
  {
    if |ids| > 0 {
      MoveAllToTopSourcesIrrelevant(MoveLayer(s, ids[0]), ids[1..]);
      MoveAllToTopSourcesIrrelevant(MoveLayer(Surface(map[], s.layers), ids[0]), ids[1..]);
    }
  }

  /** Applying the overlays a second time leaves the map as the first
      application left it. */
  lemma SyncApplyIdempotent(s: Surface, o: Overlays)
    requires UniqueIds(s.layers) && Distinct(Ids(o.layers))
    requires SyncApplyOverlays(s, o).Completed?
    ensures SyncApplyOverlays(SyncApplyOverlays(s, o).state, o) == SyncApplyOverlays(s, o)
  {
    var r := SyncApplyOverlays(s, o).state;
    var t := Added(s, o);
    var ids := Ids(o.layers);
    var named := set i | 0 <= i < |o.layers| :: o.layers[i].id;
    assert AddMissingSources(r, o.sources) == r;
    AddMissingLayersAllPresent(r, o.layers);
    SyncApplyStack(s, o);
    var w := Without(t.layers, named);
    var p := Present(t.layers, ids);
    forall j | 0 <= j < |ids| ensures ids[j] in named {
      assert ids[j] == o.layers[j].id;
    }
    forall i | 0 <= i < |w| ensures w[i].id !in ids {
      assert w[i] in w;
    }
    StackedIsFixed(w, p, ids);
    MoveAllToTopSourcesIrrelevant(r, ids);
  }

  /** A wait in the switch sequence after which the cancel flag is checked. */
  datatype Checkpoint = OverlaysLoaded | StyleLoaded | Idle

  /** When the effect's cleanup set the flag: not at all, or during one of the
      waits, in which case the check right after that wait returns. */
  datatype Cancel = NotCancelled | CancelledDuring(at: Checkpoint)

  datatype Step = StyleReplaced(url: string) | OverlaysApplied

  /** What one run of the switch did: the steps it took and the map it left. */
  datatype Switch = Switch(steps: seq<Step>, surface: Surface)

  /** The effect body of `useBasemapSync` for one basemap id. `newStyle` is the
      map once the replaced style has loaded, and `settle` what late style
      changes do to it before the map is idle; both belong to the rendering
      engine. A throw anywhere ends the run and is logged. */
  function SwitchBasemap(s: Surface, basemapId: string, key: Option<string>, o: Overlays,
                         newStyle: Surface, settle: Surface -> Surface, cancel: Cancel): (r: Switch)
    ensures r.steps <= FullSteps(basemapId, key) && |FullSteps(basemapId, key)| <= 3
    ensures cancel == CancelledDuring(OverlaysLoaded) ==> r.steps == []
    ensures cancel == CancelledDuring(StyleLoaded) ==> |r.steps| <= 1
    ensures cancel == CancelledDuring(Idle) ==> |r.steps| <= 2
    ensures MapTilerStyleUrl(GetBasemapById(basemapId).styleId, key).Err? ==> r == Switch([], s)
  {
    match MapTilerStyleUrl(GetBasemapById(basemapId).styleId, key)
    case Err(_) => Switch([], s)
    case Ok(url) =>
      if cancel == CancelledDuring(OverlaysLoaded) then Switch([], s)
      else if cancel == CancelledDuring(StyleLoaded) then Switch([StyleReplaced(url)], newStyle)
      else
        match SyncApplyOverlays(newStyle, o)
        case Aborted(t, _) => Switch([StyleReplaced(url), OverlaysApplied], t)
        case Completed(t) =>
          if cancel == CancelledDuring(Idle) then Switch([StyleReplaced(url), OverlaysApplied], t)
          else
            var u := SyncApplyOverlays(settle(t), o).state;
            Switch([StyleReplaced(url), OverlaysApplied, OverlaysApplied], u)
  }

  /** The steps of an uncancelled run without errors. */
  function FullSteps(basemapId: string, key: Option<string>): seq<Step> {
    match MapTilerStyleUrl(GetBasemapById(basemapId).styleId, key)
    case Err(_) => []
    case Ok(url) => [StyleReplaced(url), OverlaysApplied, OverlaysApplied]
  }

  /** Uncancelled, with a key and overlays whose sources resolve, the run
      replaces the style, applies the overlays, and applies them again after
      idle; every overlay layer is on the map at the end. */
  lemma SwitchCompletes(s: Surface, basemapId: string, key: string, o: Overlays,
                        newStyle: Surface, settle: Surface -> Surface)
    requires key != ""
    requires forall l :: l in o.layers && l.source.Some? ==> l.source.value in o.sources
    ensures var r := SwitchBasemap(s, basemapId, Some(key), o, newStyle, settle, NotCancelled);
      r.steps == [StyleReplaced(MapTilerStyleUrl(GetBasemapById(basemapId).styleId, Some(key)).value),
                  OverlaysApplied, OverlaysApplied]
      && forall i :: 0 <= i < |o.layers| ==> HasLayer(r.surface, o.layers[i].id)
  {
    SyncApplyResolves(newStyle, o);
    var t := SyncApplyOverlays(newStyle, o).state;
    SyncApplyResolves(settle(t), o);
  }

  /** Overlays whose layers only use their own sources always apply completely. */
  lemma SyncApplyResolves(s: Surface, o: Overlays)
    requires forall l :: l in o.layers && l.source.Some? ==> l.source.value in o.sources
    ensures SyncApplyOverlays(s, o).Completed?
  {
    if SyncApplyOverlays(s, o).Aborted? {
      var u := AddMissingSources(s, o.sources);
      forall i | 0 <= i < |o.layers| ensures SourceAvailable(u, o.layers[i]) {
        assert o.layers[i] in o.layers;
      }
    }
  }

  /** What `useBasemapSync` receives as its single parameter. */
  datatype SyncArgument =
    | NullArg
    | MapInstance
    | Params(hasMap: bool, basemapId: string)

  /** `const { map, basemapId } = params` followed by `if (!map) return`: the
      hook's effect runs only with a params object naming a map. Destructuring
      `null` throws during render; a map instance has no `map` property. */
  function SyncRuns(arg: SyncArgument): (r: Result<Option<string>>)
    ensures r.Err? <==> arg.NullArg?
    ensures r.Ok? && r.value.Some? <==> arg.Params? && arg.hasMap
  {
    match arg
    case NullArg => Err("Cannot destructure property 'map' of null")
    case MapInstance => Ok(None)
    case Params(hasMap, id) => if hasMap then Ok(Some(id)) else Ok(None)
  }

  /** The call in the map container as written: `useBasemapSync(map, basemapId)`
      passes the map (null before it is created) in the params position. */
  function ContainerCallAsWritten(mapCreated: bool, basemapId: string): SyncArgument {
    if mapCreated then MapInstance else NullArg
  }

  /** The call as the hook's signature asks: `useBasemapSync({ map, basemapId })`. */
  function ContainerCall(mapCreated: bool, basemapId: string): SyncArgument {
    Params(mapCreated, basemapId)
  }

  /** As written, the hook throws before the map exists and never switches the
      basemap after. */
  lemma ContainerCallAsWrittenNeverSyncs(mapCreated: bool, basemapId: string)
    ensures var r := SyncRuns(ContainerCallAsWritten(mapCreated, basemapId));
      (!mapCreated ==> r.Err?) && (mapCreated ==> r == Ok(None))
  {
  }

  /** Passed as an object, the hook switches to the chosen basemap once the map exists. */
  lemma ContainerCallSyncs(mapCreated: bool, basemapId: string)
    ensures SyncRuns(ContainerCall(mapCreated, basemapId))
      == if mapCreated then Ok(Some(basemapId)) else Ok(None)
  {
  }
}

=== FILE: drawing.dfy ===
/** The drawing and measuring tool: a sketch of clicked coordinates with an
    optional hover point, committed into point, line, arrow or polygon
    features, the live preview written to the sketch source, and the toolbar's
    tool-switch policy. */
module Drawing {
  import opened Wrappers
  import opened Js
  import opened Strings
  import opened Seqs
  import opened MapSurface
  import RegisterOverlays
  import BasemapSync

  datatype DrawMode =
    | Select
    | MeasureLine | MeasurePolygon
    | DrawPoint | DrawLine | DrawArrow | DrawPolygon

  /** The mode's string value. */
  function ModeName(m: DrawMode): string {
    match m
    case Select => "select"
    case MeasureLine => "measure-line"
    case MeasurePolygon => "measure-polygon"
    case DrawPoint => "draw-point"
    case DrawLine => "draw-line"
    case DrawArrow => "draw-arrow"
    case DrawPolygon => "draw-polygon"
  }

  datatype DrawKind = LineKind | PolygonKind | PointKind | ArrowKind
  datatype ToolUsage = Measure | Draw

  function KindName(k: DrawKind): string {
    match k
    case LineKind => "line"
    case PolygonKind => "polygon"
    case PointKind => "point"
    case ArrowKind => "arrow"
  }

  function UsageName(u: ToolUsage): string {
    match u
    case Measure => "measure"
    case Draw => "draw"
  }

  /** `const [usage, kind] = mode.split("-")` for a drawing mode. */
  function ToolOf(m: DrawMode): (r: (ToolUsage, DrawKind))
    requires m != Select
    ensures Split(ModeName(m), '-') == [UsageName(r.0), KindName(r.1)]
  {
    match m
    case MeasureLine => SplitPair("measure", "line", ModeName(m)); (Measure, LineKind)
    case MeasurePolygon => SplitPair("measure", "polygon", ModeName(m)); (Measure, PolygonKind)
    case DrawPoint => SplitPair("draw", "point", ModeName(m)); (Draw, PointKind)
    case DrawLine => SplitPair("draw", "line", ModeName(m)); (Draw, LineKind)
    case DrawArrow => SplitPair("draw", "arrow", ModeName(m)); (Draw, ArrowKind)
    case DrawPolygon => SplitPair("draw", "polygon", ModeName(m)); (Draw, PolygonKind)
  }

  /** A name of two dash-free parts joined by a dash splits back into them. */
  lemma SplitPair(u: string, k: string, name: string)
    requires name == u + "-" + k && '-' !in u && '-' !in k
    ensures Split(name, '-') == [u, k]
  {
    assert Join([u, k], "-") == name;
    SplitJoin([u, k], '-');
  }

  /** The modes whose name ends in "polygon". */
  predicate IsPolygonMode(m: DrawMode) {
    m == MeasurePolygon || m == DrawPolygon
  }

  /** The one mode whose name ends in "arrow". */
  predicate IsArrowMode(m: DrawMode) {
    m == DrawArrow
  }

  /** The modes whose name starts with "measure". */
  predicate IsMeasureMode(m: DrawMode) {
    m == MeasureLine || m == MeasurePolygon
  }

  /** The hook's string tests `mode.endsWith("polygon")`,
      `mode.endsWith("arrow")` and `mode.startsWith("measure")` pick out
      exactly these modes, and agree with the kind and usage of the split. */
  lemma ModeTests(m: DrawMode)
    ensures IsPolygonMode(m) <==> EndsWith(ModeName(m), "polygon")
    ensures IsArrowMode(m) <==> EndsWith(ModeName(m), "arrow")
    ensures IsMeasureMode(m) <==> StartsWith(ModeName(m), "measure")
    ensures m != Select ==> (IsPolygonMode(m) <==> ToolOf(m).1 == PolygonKind)
    ensures m != Select ==> (IsArrowMode(m) <==> ToolOf(m).1 == ArrowKind)
    ensures m != Select ==> (IsMeasureMode(m) <==> ToolOf(m).0 == Measure)
  {
    PolygonTest(m);
    ArrowTest(m);
    MeasureTest(m);
  }

  lemma PolygonTest(m: DrawMode)
    ensures IsPolygonMode(m) <==> EndsWith(ModeName(m), "polygon")
  {
    var n := ModeName(m);
    if IsPolygonMode(m) {
      assert n[|n| - 7..] == "polygon";
    } else if m != Select {
      assert n[|n| - 7] != 'p';
    }
  }

  lemma ArrowTest(m: DrawMode)
    ensures IsArrowMode(m) <==> EndsWith(ModeName(m), "arrow")
  {
    var n := ModeName(m);
    if IsArrowMode(m) {
      assert n[|n| - 5..] == "arrow";
    } else {
      assert n[|n| - 5] != 'a';
    }
  }

  lemma MeasureTest(m: DrawMode)
    ensures IsMeasureMode(m) <==> StartsWith(ModeName(m), "measure")
  {
    var n := ModeName(m);
    if IsMeasureMode(m) {
      assert n[..7] == "measure";
    } else if m != Select {
      assert n[0] != 'm';
    }
  }

  /** A finished feature with the properties `commit` gives it. */
  datatype DrawFeature = DrawFeature(
    id: string, kind: DrawKind, usage: ToolUsage, timestamp: int, geometry: Geometry)

  /** The hook's state: the React mode and feature list, and the sketch and
      hover refs. */
  datatype DrawingState = DrawingState(
    mode: DrawMode, features: seq<DrawFeature>, sketch: seq<Coord>, hover: Option<Coord>)

  const InitialDrawing: DrawingState := DrawingState(Select, [], [], None)

  /** `[...coords, hover]` when there is a hover point, else `coords`. */
  function WithHover(coords: seq<Coord>, hover: Option<Coord>): (r: seq<Coord>)
    ensures hover.None? ==> r == coords
    ensures hover.Some? ==> |r| == |coords| + 1 && r[..|coords|] == coords && r[|coords|] == hover.value
  {
    match hover
    case None => coords
    case Some(h) => coords + [h]
  }

  /** A ring closed on its first coordinate. */
  function Closed(ring: seq<Coord>): (r: seq<Coord>)
    requires |ring| > 0
    ensures |r| == |ring| + 1 && r[..|ring|] == ring && r[0] == r[|r| - 1]
  {
    ring + [ring[0]]
  }

  /** The preview line's path: the clicked coordinates, then the hover point,
      and in polygon modes back to the first coordinate. */
  function SketchPath(mode: DrawMode, coords: seq<Coord>, hover: Option<Coord>): (p: seq<Coord>)
    requires |coords| > 0
    ensures hover.None? ==> p == coords
    ensures hover.Some? && !IsPolygonMode(mode) ==> p == coords + [hover.value]
    ensures hover.Some? && IsPolygonMode(mode) ==> p == coords + [hover.value, coords[0]]
  {
    var display := WithHover(coords, hover);
    if IsPolygonMode(mode) && hover.Some? then Closed(display) else display
  }

  /** `buildSketchGeoJson`: the dashed preview line and, for polygon modes with
      a hover point and two clicked coordinates, the preview polygon. */
  function BuildSketchGeoJson(mode: DrawMode, coords: seq<Coord>, hover: Option<Coord>): (r: seq<Feature>)
    ensures mode == Select || mode == DrawPoint || |coords| == 0 ==> r == []
    ensures mode != Select && mode != DrawPoint && |coords| > 0 ==>
      && 1 <= |r| <= 2
      && r[0].geometry.LineString?
      && |coords| <= |r[0].geometry.path| && r[0].geometry.path[..|coords|] == coords
      && "kind" in r[0].properties && "usage" in r[0].properties
      && r[0].properties["kind"] == JStr(if mode == DrawArrow then "arrow" else "sketch-line")
      && r[0].properties["usage"] == JStr(if mode == MeasureLine || mode == MeasurePolygon then "measure" else "draw")
      && (|r| == 2 <==> IsPolygonMode(mode) && hover.Some? && |coords| >= 2)
    ensures |r| == 2 ==>
      && r[1].geometry == Polygon([Closed(coords + [hover.value])])
      && r[0].geometry.path == r[1].geometry.rings[0]
    ensures mode != Select && mode != DrawPoint && |coords| > 0 ==>
      var p := r[0].geometry.path;
      && (hover.None? ==> p == coords)
      && (hover.Some? && !IsPolygonMode(mode) ==> p == coords + [hover.value])
      && (hover.Some? && IsPolygonMode(mode) ==> p == coords + [hover.value, coords[0]])
  {
    if mode == Select || mode == DrawPoint || |coords| == 0 then []
    else
      var path := SketchPath(mode, coords, hover);
      assert path[..|coords|] == coords;
      var line := Feature(
        map["kind" := JStr(if IsArrowMode(mode) then "arrow" else "sketch-line"),
            "usage" := JStr(if IsMeasureMode(mode) then "measure" else "draw")],
        LineString(path));
      if IsPolygonMode(mode) && hover.Some? && |coords| >= 2 then
        [line, Feature(map["kind" := JStr("sketch-polygon")], Polygon([Closed(coords + [hover.value])]))]
      else [line]
  }

  /** `buildCurrentSketchFeature`: the sketch plus hover point as the feature
      it would become, or nothing. */
  function BuildCurrentSketchFeature(mode: DrawMode, coords: seq<Coord>, hover: Option<Coord>): (r: Option<Feature>)
    ensures var c := WithHover(coords, hover);
      && (mode == Select || |c| == 0 ==> r.None?)
      && (mode != Select && IsPolygonMode(mode) && |c| >= 3 ==>
            r == Some(Feature(map["kind" := JStr("polygon")], Polygon([Closed(c)]))))
      && (mode != Select && !(IsPolygonMode(mode) && |c| >= 3) && |c| >= 2 ==>
            r == Some(Feature(map["kind" := JStr(if mode == DrawArrow then "arrow" else "line")], LineString(c))))
      && (mode != Select && |c| == 1 ==> (r.Some? <==> mode == DrawPoint))
      && (mode == DrawPoint && |c| == 1 ==> r == Some(Feature(map["kind" := JStr("point")], Point(c[0]))))
      && (r.Some? && r.value.geometry.Point? ==> r.value.geometry.at == c[0])
  {
    var c := WithHover(coords, hover);
    if mode == Select || |c| == 0 then None
    else if IsPolygonMode(mode) && |c| >= 3 then
      Some(Feature(map["kind" := JStr("polygon")], Polygon([Closed(c)])))
    else if |c| >= 2 then
      Some(Feature(map["kind" := JStr(if IsArrowMode(mode) then "arrow" else "line")], LineString(c)))
    else if mode == DrawPoint then
      Some(Feature(map["kind" := JStr("point")], Point(c[0])))
    else None
  }

  /** The feature `commit` creates from the sketch, if the sketch is long
      enough for the mode's kind. */
  function NewFeature(mode: DrawMode, coords: seq<Coord>, id: string, timestamp: int): (r: Option<DrawFeature>)
    requires mode != Select && |coords| > 0
    ensures r.Some? ==> r.value.id == id && r.value.timestamp == timestamp
    ensures r.Some? ==> (r.value.usage, r.value.kind) == ToolOf(mode)
    ensures ToolOf(mode).1 == PointKind ==> r.Some? && r.value.geometry == Point(coords[0])
    ensures ToolOf(mode).1 in {LineKind, ArrowKind} ==>
      (r.Some? <==> |coords| >= 2) && (r.Some? ==> r.value.geometry == LineString(coords))
    ensures ToolOf(mode).1 == PolygonKind ==>
      (r.Some? <==> |coords| >= 3) && (r.Some? ==> r.value.geometry == Polygon([Closed(coords)]))
  {
    var (usage, kind) := ToolOf(mode);
    match kind
    case PointKind => Some(DrawFeature(id, kind, usage, timestamp, Point(coords[0])))
    case LineKind | ArrowKind =>
      if |coords| >= 2 then Some(DrawFeature(id, kind, usage, timestamp, LineString(coords))) else None
    case PolygonKind =>
      if |coords| >= 3 then Some(DrawFeature(id, kind, usage, timestamp, Polygon([Closed(coords)]))) else None
  }

  function OptionToSeq<T>(o: Option<T>): (r: seq<T>)
    ensures o.None? ==> r == []
    ensures o.Some? ==> r == [o.value]
  {
    match o
    case None => []
    case Some(x) => [x]
  }

  /** `commit` (also the toolbar's `finish`), with `crypto.randomUUID()` and
      `Date.now()` passed in as `id` and `timestamp`. */
  function Commit(st: DrawingState, id: string, timestamp: int): (r: DrawingState)
    ensures |st.sketch| == 0 || st.mode == Select ==> r == st
    ensures |st.sketch| > 0 && st.mode != Select ==>
      && r.mode == st.mode && r.sketch == [] && r.hover == None
      && |st.features| <= |r.features| <= |st.features| + 1
      && r.features[..|st.features|] == st.features
      && r.features == st.features + OptionToSeq(NewFeature(st.mode, st.sketch, id, timestamp))
  {
    if |st.sketch| == 0 || st.mode == Select then st
    else
      var added := OptionToSeq(NewFeature(st.mode, st.sketch, id, timestamp));
      assert (st.features + added)[..|st.features|] == st.features;
      DrawingState(st.mode, st.features + added, [], None)
  }

  /** A committed polygon's ring is the sketch closed on its first vertex. */
  lemma CommitPolygonClosed(st: DrawingState, id: string, timestamp: int)
    requires st.mode == MeasurePolygon || st.mode == DrawPolygon
    requires |st.sketch| >= 3
    ensures var r := Commit(st, id, timestamp);
      && |r.features| == |st.features| + 1
      && var ring := r.features[|st.features|].geometry.rings[0];
      && ring[..|st.sketch|] == st.sketch
      && ring[0] == ring[|ring| - 1]
  {
  }

  /** Map click: ignored in select mode; otherwise the point joins the sketch,
      and in draw-point mode it is committed at once. */
  function OnClick(st: DrawingState, p: Coord, id: string, timestamp: int): (r: DrawingState)
    ensures st.mode == Select ==> r == st
    ensures st.mode == DrawPoint ==>
      r.sketch == [] && r.hover == None && r.mode == st.mode
      && r.features == st.features + [DrawFeature(id, PointKind, Draw, timestamp, Point(if |st.sketch| > 0 then st.sketch[0] else p))]
    ensures st.mode != Select && st.mode != DrawPoint ==>
      r == st.(sketch := st.sketch + [p])
  {
    if st.mode == Select then st
    else
      var s1 := st.(sketch := st.sketch + [p]);
      if st.mode == DrawPoint then Commit(s1, id, timestamp) else s1
  }

  /** Mouse move: the hover point follows the pointer once a sketch has begun,
      except in the select and draw-point modes. */
  function OnMouseMove(st: DrawingState, p: Coord): (r: DrawingState)
    ensures r.mode == st.mode && r.features == st.features && r.sketch == st.sketch
    ensures r.hover == (if st.mode == Select || st.mode == DrawPoint || |st.sketch| == 0 then st.hover else Some(p))
  {
    if st.mode == Select || st.mode == DrawPoint || |st.sketch| == 0 then st
    else st.(hover := Some(p))
  }

  /** Double click: finishes the sketch in any drawing mode. */
  function OnDblClick(st: DrawingState, id: string, timestamp: int): (r: DrawingState)
    ensures st.mode == Select ==> r == st
    ensures st.mode != Select ==> r == Commit(st, id, timestamp)
  {
    if st.mode == Select then st else Commit(st, id, timestamp)
  }

  /** `setMode(m)`: the open sketch is discarded, features stay. */
  function SetMode(st: DrawingState, m: DrawMode): (r: DrawingState)
    ensures r.mode == m && r.features == st.features && r.sketch == [] && r.hover == None
  {
    DrawingState(m, st.features, [], None)
  }

  /** `undoLast`: the last clicked coordinate is dropped; the hover point is
      kept. */
  function UndoLast(st: DrawingState): (r: DrawingState)
    ensures r.mode == st.mode && r.features == st.features && r.hover == st.hover
    ensures |st.sketch| == 0 ==> r.sketch == []
    ensures |st.sketch| > 0 ==> r.sketch + [st.sketch[|st.sketch| - 1]] == st.sketch
  {
    if |st.sketch| == 0 then st else st.(sketch := st.sketch[..|st.sketch| - 1])
  }

  /** `cancel` */
  function Cancel(st: DrawingState): (r: DrawingState)
    ensures r.mode == st.mode && r.features == st.features && r.sketch == [] && r.hover == None
  {
    st.(sketch := [], hover := None)
  }

  /** `clearAll` */
  function ClearAll(st: DrawingState): (r: DrawingState)
    ensures r == InitialDrawing
  {
    DrawingState(Select, [], [], None)
  }

  function HasId(f: DrawFeature, id: string): bool {
    f.id == id
  }

  /** `deleteFeature(id)`: keeps exactly the features with another id. */
  function DeleteFeature(st: DrawingState, id: string): (r: DrawingState)
    ensures r.mode == st.mode && r.sketch == st.sketch && r.hover == st.hover
    ensures forall f :: f in r.features <==> f in st.features && f.id != id
    ensures SubsequenceOf(r.features, st.features)
    ensures forall f :: multiset(r.features)[f] == if f.id == id then 0 else multiset(st.features)[f]
  {
    var keep := Filter(st.features, f => !HasId(f, id));
    FilterSubsequence(st.features, f => !HasId(f, id));
    forall f ensures multiset(keep)[f] == if f.id == id then 0 else multiset(st.features)[f] {
      FilterCount(st.features, f => !HasId(f, id), f);
    }
    st.(features := keep)
  }

  predicate HasSketch(st: DrawingState) { |st.sketch| > 0 }
  predicate HasFeatures(st: DrawingState) { |st.features| > 0 }

  /** Undo right after a click in a sketching mode takes the click back. */
  lemma UndoAfterClick(st: DrawingState, p: Coord, id: string, timestamp: int)
    requires st.mode != Select && st.mode != DrawPoint
    ensures UndoLast(OnClick(st, p, id, timestamp)) == st
  {
    assert (st.sketch + [p])[..|st.sketch|] == st.sketch;
  }

  // ---------------------------------------------------------------------
  // Selectors

  /** The sort key of `allFeatures`: the comparator `b.timestamp - a.timestamp`
      orders ascending by the negated timestamp. */
  function Age(f: DrawFeature): real {
    -(f.timestamp as real)
  }

  predicate NewestFirst(xs: seq<DrawFeature>) {
    forall i, j :: 0 <= i < j < |xs| ==> xs[i].timestamp >= xs[j].timestamp
  }

  /** `allFeatures`: all features, newest first; the engine's sort is stable,
      so features with equal timestamps keep their insertion order. */
  function AllFeatures(st: DrawingState): (r: seq<DrawFeature>)
    ensures multiset(r) == multiset(st.features) && NewestFirst(r)
    ensures forall k :: AtKey(r, Age, k) == AtKey(st.features, Age, k)
  {
    StableSortBy(st.features, Age)
  }

  function UsedFor(f: DrawFeature, u: ToolUsage): bool {
    f.usage == u
  }

  /** `measurements`: the measuring features of `allFeatures`, so newest first. */
  function Measurements(st: DrawingState): (r: seq<DrawFeature>)
    ensures forall f :: f in r <==> f in st.features && f.usage == Measure
    ensures multiset(r) == multiset(Filter(st.features, f => UsedFor(f, Measure)))
    ensures NewestFirst(r)
  {
    SelectedNewestFirst(st, Measure);
    Filter(AllFeatures(st), f => UsedFor(f, Measure))
  }

  /** `sketches`: the drawn features of `allFeatures`, so newest first. */
  function Sketches(st: DrawingState): (r: seq<DrawFeature>)
    ensures forall f :: f in r <==> f in st.features && f.usage == Draw
    ensures multiset(r) == multiset(Filter(st.features, f => UsedFor(f, Draw)))
    ensures NewestFirst(r)
  {
    SelectedNewestFirst(st, Draw);
    Filter(AllFeatures(st), f => UsedFor(f, Draw))
  }

  /** Filtering `allFeatures` by usage keeps the features of that usage,
      newest first. */
  lemma SelectedNewestFirst(st: DrawingState, u: ToolUsage)
    ensures var r := Filter(AllFeatures(st), f => UsedFor(f, u));
      (forall f :: f in r <==> f in st.features && f.usage == u)
      && multiset(r) == multiset(Filter(st.features, f => UsedFor(f, u)))
      && NewestFirst(r)
  {
    var all := AllFeatures(st);
    var r := Filter(all, f => UsedFor(f, u));
    assert forall f :: f in all <==> f in multiset(st.features);
    FilterPermutation(all, st.features, f => UsedFor(f, u));
    FilterSorted(StableSortBy(st.features, Age), Age, f => UsedFor(f, u));
    forall i, j | 0 <= i < j < |r| ensures r[i].timestamp >= r[j].timestamp {
      assert Age(r[i]) <= Age(r[j]);
    }
  }

  lemma {:induction false} FilterSplitsCount(xs: seq<DrawFeature>)
    ensures |Filter(xs, f => UsedFor(f, Measure))| + |Filter(xs, f => UsedFor(f, Draw))| == |xs|
  {
    if |xs| > 0 {
      FilterSplitsCount(xs[1..]);
    }
  }

  /** Every feature is listed once, either as a measurement or as a sketch. */
  lemma MeasurementsAndSketchesPartition(st: DrawingState)
    ensures |Measurements(st)| + |Sketches(st)| == |st.features|
  {
    FilterSplitsCount(AllFeatures(st));
    assert |AllFeatures(st)| == |multiset(AllFeatures(st))|;
  }

  // ---------------------------------------------------------------------
  // Toolbar

  /** `onSelectTool(next)`: the active tool toggles back to select; another
      tool first finishes the open sketch. */
  function OnSelectTool(st: DrawingState, next: DrawMode, id: string, timestamp: int): (r: DrawingState)
    ensures st.mode == next ==> r == SetMode(st, Select)
    ensures st.mode != next && !HasSketch(st) ==> r == SetMode(st, next)
    ensures st.mode != next && HasSketch(st) ==> r == SetMode(Commit(st, id, timestamp), next)
  {
    if st.mode == next then SetMode(st, Select)
    else
      var s1 := if HasSketch(st) then Commit(st, id, timestamp) else st;
      SetMode(s1, next)
  }

  /** The select button: switches without finishing. */
  function OnSelectButton(st: DrawingState): (r: DrawingState)
    ensures r == SetMode(st, Select)
  {
    SetMode(st, Select)
  }

  /** The two switch policies differ exactly by the feature the toolbar
      commits: a line sketch of two points survives a toolbar switch and is
      lost by `setMode`. */
  lemma SwitchPolicies(st: DrawingState, next: DrawMode, id: string, timestamp: int)
    requires st.mode == DrawLine && next != DrawLine && |st.sketch| >= 2
    ensures var t := OnSelectTool(st, next, id, timestamp);
      && t.mode == SetMode(st, next).mode == next
      && t.sketch == SetMode(st, next).sketch == []
      && SetMode(st, next).features == st.features
      && t.features == st.features + [DrawFeature(id, LineKind, Draw, timestamp, LineString(st.sketch))]
  {
  }

  /** Undo and Finish are shown while a sketch is open. */
  predicate ShowsUndoAndFinish(st: DrawingState) {
    HasSketch(st)
  }

  /** Delete-all is shown when there are features and no sketch. */
  predicate ShowsDeleteAll(st: DrawingState) {
    HasFeatures(st) && !HasSketch(st)
  }

  /** The delete-all button runs `clearAll` only when the user confirms. */
  function OnDeleteAll(st: DrawingState, confirmed: bool): (r: DrawingState)
    ensures confirmed ==> r == InitialDrawing
    ensures !confirmed ==> r == st
  {
    if confirmed then ClearAll(st) else st
  }

  /** The action groups never show at the same time. */
  lemma ActionsExclusive(st: DrawingState)
    ensures !(ShowsUndoAndFinish(st) && ShowsDeleteAll(st))
    ensures ShowsDeleteAll(st) ==> Commit(st, "", 0) == st
  {
  }

  // ---------------------------------------------------------------------
  // Map sources and layers

  const DrawDataSourceId: string := "draw-data"
  const DrawSketchSourceId: string := "draw-sketch"

  const DrawSources: map<string, Source> := map[DrawDataSourceId := GeoJson([]), DrawSketchSourceId := GeoJson([])]

  function Paint2(k1: string, v1: Json, k2: string, v2: Json): map<string, Json> {
    map[k1 := v1, k2 := v2]
  }

  function Num(r: real): Json {
    JNum(Finite(r))
  }

  /** The drawing layers, bottom to top (their `filter` expressions on the
      feature kind are not modelled). */
  const DrawLayers: seq<Layer> := [
    Layer("draw-polygons-fill", Fill, Some(DrawDataSourceId), map[],
      Paint2("fill-color", JStr("#3b82f6"), "fill-opacity", Num(0.25)), map[]),
    Layer("draw-polygons-outline", Line, Some(DrawDataSourceId), map[],
      Paint2("line-color", JStr("#1d4ed8"), "line-width", Num(2.0)), map[]),
    Layer("draw-lines", Line, Some(DrawDataSourceId), map[],
      Paint2("line-color", JStr("#16a34a"), "line-width", Num(3.0)), map[]),
    Layer("draw-points", Circle, Some(DrawDataSourceId), map[],
      map["circle-radius" := Num(6.0), "circle-color" := JStr("#dc2626"),
          "circle-stroke-color" := JStr("#ffffff"), "circle-stroke-width" := Num(2.0)], map[]),
    Layer("draw-point-labels", Symbol, Some(DrawDataSourceId), map[],
      map["text-color" := JStr("#111827"), "text-halo-color" := JStr("#ffffff"),
          "text-halo-width" := Num(2.0), "text-halo-blur" := Num(0.5)],
      map["text-field" := JArr([JStr("coalesce"), JArr([JStr("get"), JStr("label")]), JStr("")]),
          "text-size" := Num(14.0), "text-offset" := JArr([Num(0.0), Num(1.2)]),
          "text-anchor" := JStr("top")]),
    Layer("draw-sketch-line", Line, Some(DrawSketchSourceId), map[],
      map["line-color" := JStr("#2563eb"), "line-width" := Num(2.0),
          "line-dasharray" := JArr([Num(2.0), Num(2.0)])], map[])
  ]

  function KindJson(k: DrawKind): Json { JStr(KindName(k)) }

  /** A finished feature as written into the data source. */
  function AsFeature(f: DrawFeature): (r: Feature)
    ensures r.geometry == f.geometry
    ensures "id" in r.properties && "kind" in r.properties
    ensures r.properties["id"] == JStr(f.id) && r.properties["kind"] == KindJson(f.kind)
  {
    Feature(map["id" := JStr(f.id), "kind" := KindJson(f.kind), "usage" := JStr(UsageName(f.usage)),
                "timestamp" := Num(f.timestamp as real)], f.geometry)
  }

  function AsFeatures(fs: seq<DrawFeature>): (r: seq<Feature>)
    ensures |r| == |fs| && forall i :: 0 <= i < |fs| ==> r[i] == AsFeature(fs[i])
  {
    seq(|fs|, i requires 0 <= i < |fs| => AsFeature(fs[i]))
  }

  /** `updateSources`: the features in insertion order into the data source
      and the preview into the sketch source, each only if present; nothing
      without a style. */
  function UpdateSources(s: Surface, st: DrawingState, hasStyle: bool): (r: Surface)
    ensures r.layers == s.layers
    ensures !hasStyle ==> r == s
    ensures forall k :: k in r.sources <==> k in s.sources
    ensures forall k :: k in s.sources && k != DrawDataSourceId && k != DrawSketchSourceId ==> r.sources[k] == s.sources[k]
    ensures hasStyle && DrawDataSourceId in s.sources ==> r.sources[DrawDataSourceId] == GeoJson(AsFeatures(st.features))
    ensures hasStyle && DrawSketchSourceId in s.sources ==>
      r.sources[DrawSketchSourceId] == GeoJson(BuildSketchGeoJson(st.mode, st.sketch, st.hover))
  {
    if !hasStyle then s
    else
      var s1 := SetData(s, DrawDataSourceId, AsFeatures(st.features));
      SetData(s1, DrawSketchSourceId, BuildSketchGeoJson(st.mode, st.sketch, st.hover))
  }

  predicate DrawLayersPresent(s: Surface) {
    forall i :: 0 <= i < |DrawLayers| ==> HasLayer(s, DrawLayers[i].id)
  }

  predicate DrawSourcesPresent(s: Surface) {
    DrawDataSourceId in s.sources && DrawSketchSourceId in s.sources
  }

  /** Every drawing layer reads from one of the two drawing sources. */
  lemma DrawLayersReadDrawSources(u: Surface)
    requires DrawSourcesPresent(u)
    ensures forall i :: 0 <= i < |DrawLayers| ==> SourceAvailable(u, DrawLayers[i])
  {
  }

  lemma DrawLayersNoop(u: Surface)
    ensures DrawLayersPresent(u) ==> RegisterOverlays.AddMissingLayers(u, DrawLayers) == Completed(u)
  {
    if DrawLayersPresent(u) { BasemapSync.AddMissingLayersAllPresent(u, DrawLayers); }
  }

  /** The layer loop of `setupLayers`: with both sources present no
      `addLayer` can throw. */
  function AddDrawLayers(u: Surface): (r: Surface)
    requires DrawSourcesPresent(u)
    ensures r.sources == u.sources && DrawLayersPresent(r)
    ensures |u.layers| <= |r.layers| && r.layers[..|u.layers|] == u.layers
    ensures UniqueIds(u.layers) ==> UniqueIds(r.layers)
    ensures DrawLayersPresent(u) ==> r == u
  {
    var t := RegisterOverlays.AddMissingLayers(u, DrawLayers);
    DrawLayersReadDrawSources(u);
    RegisterOverlays.AddMissingLayersCompletes(u, DrawLayers);
    RegisterOverlays.AddMissingLayersCompleted(u, DrawLayers);
    RegisterOverlays.AddMissingLayersKeepsUnique(u, DrawLayers);
    DrawLayersNoop(u);
    t.state
  }

  /** `setupLayers`, run on `style.load`: adds the missing drawing sources and
      layers and, when it added anything, rewrites the source data. Loading the
      arrow icon image is not modelled. */
  function SetupLayers(s: Surface, st: DrawingState, styleLoaded: bool): (r: Surface)
    ensures !styleLoaded ==> r == s
    ensures styleLoaded ==> DrawSourcesPresent(r) && DrawLayersPresent(r)
    ensures |s.layers| <= |r.layers| && r.layers[..|s.layers|] == s.layers
    ensures UniqueIds(s.layers) ==> UniqueIds(r.layers)
    ensures forall k :: k in s.sources && k != DrawDataSourceId && k != DrawSketchSourceId ==>
      k in r.sources && r.sources[k] == s.sources[k]
    ensures styleLoaded && DrawSourcesPresent(s) && DrawLayersPresent(s) ==> r == s
  {
    if !styleLoaded then s
    else
      var needsUpdate := !DrawSourcesPresent(s) || !DrawLayersPresent(s);
      var u := AddMissingSources(s, DrawSources);
      var t := AddDrawLayers(u);
      if needsUpdate then UpdateSources(t, st, true) else t
  }

  /** Setting up twice does nothing more than setting up once. */
  lemma SetupLayersIdempotent(s: Surface, st: DrawingState, styleLoaded: bool)
    ensures SetupLayers(SetupLayers(s, st, styleLoaded), st, styleLoaded) == SetupLayers(s, st, styleLoaded)
  {
  }

  // ---------------------------------------------------------------------
  // DrawManager: the polygon-only variant

  const ManagerSourceId: string := "drawn-area"

  /** `DrawState` */
  datatype ManagerState = ManagerState(isDrawing: bool, coords: seq<Coord>)

  /** `createDrawState()` */
  function CreateDrawState(): (r: ManagerState)
    ensures !r.isDrawing && r.coords == []
  {
    ManagerState(false, [])
  }

  /** The manager's state, the map, and how often `onUpdate` has fired. */
  datatype Manager = Manager(state: ManagerState, surface: Surface, updates: nat)

  /** `updateSource`: no source, no write; under three coordinates an empty
      collection; otherwise one polygon closed on its first coordinate. */
  function ManagerUpdateSource(s: Surface, coords: seq<Coord>): (r: Surface)
    ensures r.layers == s.layers
    ensures ManagerSourceId !in s.sources ==> r == s
    ensures ManagerSourceId in s.sources && |coords| < 3 ==> r.sources == s.sources[ManagerSourceId := GeoJson([])]
    ensures ManagerSourceId in s.sources && |coords| >= 3 ==>
      r.sources == s.sources[ManagerSourceId := GeoJson([Feature(map[], Polygon([Closed(coords)]))])]
  {
    if ManagerSourceId !in s.sources then s
    else if |coords| < 3 then SetData(s, ManagerSourceId, [])
    else SetData(s, ManagerSourceId, [Feature(map[], Polygon([Closed(coords)]))])
  }

  /** The click handler: while drawing the point is appended, the source
      rewritten and `onUpdate` fired; otherwise nothing happens. */
  function ManagerClick(m: Manager, p: Coord): (r: Manager)
    ensures !m.state.isDrawing ==> r == m
    ensures m.state.isDrawing ==>
      && r.state == ManagerState(true, m.state.coords + [p])
      && r.surface == ManagerUpdateSource(m.surface, m.state.coords + [p])
      && r.updates == m.updates + 1
  {
    if !m.state.isDrawing then m
    else
      var coords := m.state.coords + [p];
      Manager(m.state.(coords := coords), ManagerUpdateSource(m.surface, coords), m.updates + 1)
  }

  /** `reset` */
  function ManagerReset(m: Manager): (r: Manager)
    ensures r.state == CreateDrawState() && r.updates == m.updates + 1
    ensures r.surface == ManagerUpdateSource(m.surface, [])
  {
    Manager(CreateDrawState(), ManagerUpdateSource(m.surface, []), m.updates + 1)
  }

  function ManagerClicks(m: Manager, ps: seq<Coord>): Manager
    decreases |ps|
  {
    if |ps| == 0 then m else ManagerClicks(ManagerClick(m, ps[0]), ps[1..])
  }

  /** A run of clicks while drawing appends every point, fires `onUpdate` once
      per click, and leaves the source showing the polygon of all points once
      there are three. */
  lemma {:induction false} ManagerClicksAppend(m: Manager, ps: seq<Coord>)
    requires m.state.isDrawing && |ps| > 0
    ensures var r := ManagerClicks(m, ps);
      && r.state == ManagerState(true, m.state.coords + ps)
      && r.updates == m.updates + |ps|
      && r.surface == ManagerUpdateSource(m.surface, m.state.coords + ps)
    decreases |ps|
  {
    var m1 := ManagerClick(m, ps[0]);
    if |ps| == 1 {
      assert ManagerClicks(m1, ps[1..]) == m1;
    } else {
      ManagerClicksAppend(m1, ps[1..]);
      assert m.state.coords + [ps[0]] + ps[1..] == m.state.coords + ps;
      ManagerUpdateSourceLast(m.surface, m1.surface, m.state.coords + [ps[0]], m.state.coords + ps);
    }
  }

  /** Writing the source twice leaves the second write. */
  lemma ManagerUpdateSourceLast(s: Surface, s1: Surface, a: seq<Coord>, b: seq<Coord>)
    requires s1 == ManagerUpdateSource(s, a)
    ensures ManagerUpdateSource(s1, b) == ManagerUpdateSource(s, b)
  {
  }

  /** Clicks after `reset` are ignored until drawing is switched on again. */
  lemma {:induction false} ManagerResetStopsClicks(m: Manager, ps: seq<Coord>)
    ensures ManagerClicks(ManagerReset(m), ps) == ManagerReset(m)
    decreases |ps|
  {
    if |ps| > 0 {
      ManagerResetStopsClicks(m, ps[1..]);
    }
  }
}

=== FILE: interactive_ids.dfy ===
/** The demo's clickable layers: the ids of the overlay layers, without label,
    sketch and search layers. */
module InteractiveIds {
  import opened Strings
  import opened Seqs
  import opened MapSurface

  /** A layer id the popup may query: it names neither labels, nor the
      drawing sketch, nor the search marker. */
  predicate Interactive(id: string) {
    !Contains(id, "label") && !Contains(id, "sketch") && !Contains(id, "search")
  }

  /** `layers.map(l => l.id).filter(...)` over the overlay definition. */
  function InteractiveLayerIds(overlayLayers: seq<Layer>): (r: seq<string>)
    ensures forall id :: id in r <==> id in Ids(overlayLayers) && Interactive(id)
    ensures SubsequenceOf(r, Ids(overlayLayers))
  {
    FilterSubsequence(Ids(overlayLayers), Interactive);
    Filter(Ids(overlayLayers), Interactive)
  }

  /** An id with one of the excluded words is never clickable, and the
      words are found wherever they occur. */
  lemma ExcludedWords(id: string, i: nat)
    requires i + 6 <= |id| && (id[i..i + 6] == "sketch" || id[i..i + 6] == "search")
    ensures !Interactive(id)
  {
    if id[i..i + 6] == "sketch" {
      assert InfixAt(id, "sketch", i);
      ContainsIffInfix(id, "sketch");
    } else {
      assert InfixAt(id, "search", i);
      ContainsIffInfix(id, "search");
    }
  }

  /** The same for "label". */
  lemma LabelExcluded(id: string, i: nat)
    requires i + 5 <= |id| && id[i..i + 5] == "label"
    ensures !Interactive(id)
  {
    assert InfixAt(id, "label", i);
    ContainsIffInfix(id, "label");
  }

  /** Overlay layers with distinct ids give clickable ids without repetitions,
      one for each interactive layer. */
  lemma InteractiveIdsDistinct(overlayLayers: seq<Layer>)
    requires UniqueIds(overlayLayers)
    ensures Distinct(InteractiveLayerIds(overlayLayers))
  {
    var ids := Ids(overlayLayers);
    forall i, j | 0 <= i < j < |ids| ensures ids[i] != ids[j] {
      assert ids[i] == overlayLayers[i].id && ids[j] == overlayLayers[j].id;
    }
    FilterDistinct(ids, Interactive);
  }

  /** Splitting the overlay layers splits the result the same way: every
      kept id stays where its layer was. */
  lemma InteractiveIdsConcat(a: seq<Layer>, b: seq<Layer>)
    ensures InteractiveLayerIds(a + b) == InteractiveLayerIds(a) + InteractiveLayerIds(b)
  {
    IdsConcat(a, b);
    FilterConcat(Ids(a), Ids(b), Interactive);
  }

  lemma IdsConcat(a: seq<Layer>, b: seq<Layer>)
    ensures Ids(a + b) == Ids(a) + Ids(b)
  {
    assert |Ids(a + b)| == |Ids(a) + Ids(b)|;
    forall i | 0 <= i < |a + b| ensures Ids(a + b)[i] == (Ids(a) + Ids(b))[i] {
      if i < |a| { assert (a + b)[i] == a[i]; } else { assert (a + b)[i] == b[i - |a|]; }
    }
  }
}

=== FILE: jsvalues.dfy ===
/** JavaScript values as the client sees them: numbers with their non-finite
    members, JSON-like property values, `String(value)` and URLs. */
module Js {
  import opened Wrappers
  import opened Strings

  /** A JavaScript number: a finite value or one of the IEEE specials. Finite
      values are exact reals; rounding to double precision is not modelled. */
  datatype Num = Finite(r: real) | NaN | PosInf | NegInf {
    /** `Number.isFinite(this)` */
    predicate IsFinite() { Finite? }
  }

  /** A property value of a feature, a style expression or a query answer. */
  datatype Json =
    | JStr(s: string)
    | JNum(n: Num)
    | JBool(b: bool)
    | JNull
    | JArr(items: seq<Json>)
    | JObj(fields: seq<(string, Json)>)

  /** A URL the client hands to the map or to an `<img>`: either a string it
      built by concatenation, or a base URL whose query parameters were set
      through `URLSearchParams` (its serialisation is not modelled). */
  datatype Link = Plain(text: string) | WithQuery(base: string, query: seq<(string, string)>)

  predicate IsDigit(c: char) { '0' <= c <= '9' }

  function DigitChar(d: nat): (c: char)
    requires d < 10
    ensures IsDigit(c)
  {
    ('0' as int + d) as char
  }

  /** Value of a string of decimal digits. */
  function DigitsValue(s: string): nat
    requires forall i :: 0 <= i < |s| ==> IsDigit(s[i])
  {
    if |s| == 0 then 0
    else
      assert IsDigit(s[|s| - 1]);
      10 * DigitsValue(s[..|s| - 1]) + (s[|s| - 1] as int - '0' as int)
  }

  /** Decimal digits of `n` without leading zeros. */
  function NatText(n: nat): (r: string)
    ensures |r| >= 1 && forall i :: 0 <= i < |r| ==> IsDigit(r[i])
    ensures r[0] == '0' ==> n == 0 && r == "0"
    ensures DigitsValue(r) == n
  {
    if n < 10 then [DigitChar(n)]
    else
      var r := NatText(n / 10) + [DigitChar(n % 10)];
      assert r[..|r| - 1] == NatText(n / 10);
      r
  }

  /** `String(i)` for an integer. */
  function IntText(i: int): (r: string)
    ensures |r| >= 1
    ensures i < 0 <==> r[0] == '-'
  {
    if i < 0 then "-" + NatText(-i) else NatText(i)
  }

  /** Reading back what `IntText` wrote. */
  function ParseInt(s: string): (r: Option<int>)
  {
    if |s| >= 2 && s[0] == '-' && (forall i :: 1 <= i < |s| ==> IsDigit(s[i])) then
      Some(-(DigitsValue(s[1..]) as int))
    else if |s| >= 1 && forall i :: 0 <= i < |s| ==> IsDigit(s[i]) then
      Some(DigitsValue(s) as int)
    else None
  }

  lemma IntTextRoundTrip(i: int)
    ensures ParseInt(IntText(i)) == Some(i)
  {
    if i < 0 {
      assert IntText(i)[1..] == NatText(-i);
    }
  }

  /** `n` copies of `c` */
  function Repeat(c: char, n: nat): (r: string)
    ensures |r| == n && forall i :: 0 <= i < n ==> r[i] == c
  {
    if n == 0 then "" else [c] + Repeat(c, n - 1)
  }

  /** `s` zero-padded on the left to at least `width` characters. */
  function ZeroPad(s: string, width: nat): (r: string)
    ensures |r| == if |s| < width then width else |s|
    ensures EndsWith(r, s)
    ensures forall i :: 0 <= i < |r| - |s| ==> r[i] == '0'
  {
    var r := Repeat('0', if |s| < width then width - |s| else 0) + s;
    assert r[|r| - |s|..] == s;
    r
  }

  /** Digits of a fraction `0 <= f < 1` to 17 places, trailing zeros dropped. */
  function FractionText(f: real): (r: string)
    requires 0.0 <= f < 1.0
  {
    var scaled: nat := (f * 100000000000000000.0).Floor;
    var digits := ZeroPad(NatText(scaled), 17);
    var t := DropTrailingZeros(digits);
    if t == "" then "0" else t
  }

  function DropTrailingZeros(s: string): (r: string)
    ensures StartsWith(s, r)
    ensures r == "" || r[|r| - 1] != '0'
  {
    if |s| > 0 && s[|s| - 1] == '0' then DropTrailingZeros(s[..|s| - 1]) else s
  }

  /** `String(n)`: exact for the specials and for integral values; other finite
      values are written as a decimal fraction of at most 17 places. */
  function NumText(n: Num): (r: string)
    ensures |r| >= 1
    ensures n.Finite? && n.r == n.r.Floor as real ==> r == IntText(n.r.Floor)
  {
    match n
    case NaN => "NaN"
    case PosInf => "Infinity"
    case NegInf => "-Infinity"
    case Finite(v) =>
      if v == v.Floor as real then IntText(v.Floor)
      else
        var a := if v < 0.0 then -v else v;
        var whole := a.Floor;
        (if v < 0.0 then "-" else "") + NatText(whole) + "." + FractionText(a - whole as real)
  }

  /** `String(value)` for a property value; `null` and `undefined` elements of
      an array become empty, as `Array.prototype.join` writes them. */
  function ToText(j: Json): string
    decreases j
  {
    match j
    case JStr(s) => s
    case JNum(n) => NumText(n)
    case JBool(b) => if b then "true" else "false"
    case JNull => "null"
    case JObj(_) => "[object Object]"
    case JArr(items) =>
      Join(seq(|items|, i requires 0 <= i < |items| =>
        if items[i] == JNull then "" else ToText(items[i])), ",")
  }

  /** A finite number clamped to [0, 1]; anything non-finite becomes 1. */
  function ClampUnit(n: Num): (r: real)
    ensures 0.0 <= r <= 1.0
    ensures n.Finite? && 0.0 <= n.r <= 1.0 ==> r == n.r
    ensures !n.Finite? ==> r == 1.0
    ensures n.Finite? && n.r < 0.0 ==> r == 0.0
    ensures n.Finite? && n.r > 1.0 ==> r == 1.0
  {
    match n
    case Finite(v) => if v < 0.0 then 0.0 else if v > 1.0 then 1.0 else v
    case _ => 1.0
  }

  lemma ClampUnitMonotone(a: real, b: real)
    requires a <= b
    ensures ClampUnit(Finite(a)) <= ClampUnit(Finite(b))
  {
  }
}

=== FILE: layer_order.dfy ===
/** Re-stacking the client's own layers above the basemap: every layer whose id
    starts with one of the given prefixes is moved to the top, fills lowest,
    then lines, then circles, labels highest, each group in its old order. */
module LayerOrder {
  import opened Strings
  import opened MapSurface

  /** Drawing rank of a layer type: fill-like 0, line 1, circle 2, symbol 3. */
  function TypeRank(t: LayerType): (r: nat)
    ensures r <= 3
    ensures r == 1 <==> t == Line
    ensures r == 2 <==> t == Circle
    ensures r == 3 <==> t == Symbol
  {
    match t
    case Fill | FillExtrusion | Raster | Background | Hillshade | Heatmap => 0
    case Line => 1
    case Circle => 2
    case Symbol => 3
    case OtherType(_) => 0
  }

  /** A layer picked for moving, with its old position and its rank. */
  datatype Ranked = Ranked(layer: Layer, index: nat, rank: nat)

  /** The collection loop run over `s.layers[from..]`: layers that exist and
      whose id carries one of `prefixes`. */
  function Collect(s: Surface, prefixes: seq<string>, from: nat): seq<Ranked>
    requires from <= |s.layers|
    decreases |s.layers| - from
  {
    if from == |s.layers| then []
    else
      var l := s.layers[from];
      (if HasLayer(s, l.id) && AnyPrefix(l.id, prefixes)
       then [Ranked(l, from, TypeRank(l.kind))] else [])
      + Collect(s, prefixes, from + 1)
  }

  /** The comparator `(a.rank - b.rank) || (a.index - b.index)` says `a` goes first. */
  predicate GoesBefore(a: Ranked, b: Ranked) {
    a.rank < b.rank || (a.rank == b.rank && a.index < b.index)
  }

  predicate SortedRanked(rs: seq<Ranked>) {
    forall i, j :: 0 <= i < j < |rs| ==> GoesBefore(rs[i], rs[j])
  }

  predicate IndexAscending(rs: seq<Ranked>) {
    forall i, j :: 0 <= i < j < |rs| ==> rs[i].index < rs[j].index
  }

  /** The records of rank `k`, in their order. */
  function WithRank(rs: seq<Ranked>, k: nat): (r: seq<Ranked>)
    ensures |r| <= |rs|
    ensures forall i :: 0 <= i < |r| ==> r[i].rank == k
  {
    if |rs| == 0 then []
    else (if rs[0].rank == k then [rs[0]] else []) + WithRank(rs[1..], k)
  }

  lemma {:induction false} WithRankAbove(rs: seq<Ranked>, k: nat, b: int)
    requires forall i :: 0 <= i < |rs| ==> rs[i].index > b
    ensures forall i :: 0 <= i < |WithRank(rs, k)| ==> WithRank(rs, k)[i].index > b
  {
    if |rs| > 0 {
      WithRankAbove(rs[1..], k, b);
    }
  }

  lemma {:induction false} WithRankAscending(rs: seq<Ranked>, k: nat)
    requires IndexAscending(rs)
    ensures IndexAscending(WithRank(rs, k))
  {
    if |rs| > 0 {
      WithRankAscending(rs[1..], k);
      WithRankAbove(rs[1..], k, rs[0].index);
    }
  }

  lemma {:induction false} WithRankSplit(rs: seq<Ranked>)
    requires forall i :: 0 <= i < |rs| ==> rs[i].rank <= 3
    ensures multiset(WithRank(rs, 0) + WithRank(rs, 1) + WithRank(rs, 2) + WithRank(rs, 3)) == multiset(rs)
  {
    if |rs| > 0 {
      var t := rs[1..];
      WithRankSplit(t);
      MultisetOfFour(WithRank(t, 0), WithRank(t, 1), WithRank(t, 2), WithRank(t, 3));
      MultisetOfFour(WithRank(rs, 0), WithRank(rs, 1), WithRank(rs, 2), WithRank(rs, 3));
      WithRankHead(rs);
      assert multiset(rs) == multiset{rs[0]} + multiset(t) by { assert rs == [rs[0]] + t; }
    }
  }

  /** The head of the records lands in the group of its own rank. */
  lemma WithRankHead(rs: seq<Ranked>)
    requires |rs| > 0 && rs[0].rank <= 3
    ensures var t := rs[1..];
      multiset(WithRank(rs, 0)) + multiset(WithRank(rs, 1)) + multiset(WithRank(rs, 2)) + multiset(WithRank(rs, 3))
      == multiset{rs[0]} + (multiset(WithRank(t, 0)) + multiset(WithRank(t, 1)) + multiset(WithRank(t, 2)) + multiset(WithRank(t, 3)))
  {
    var x := rs[0];
    var t := rs[1..];
    var a, b, c, d := multiset(WithRank(t, 0)), multiset(WithRank(t, 1)), multiset(WithRank(t, 2)), multiset(WithRank(t, 3));
    WithRankOther(rs, 0);
    WithRankOther(rs, 1);
    WithRankOther(rs, 2);
    WithRankOther(rs, 3);
    if x.rank == 0 {
      ShuffleIn(a, b, c, d, multiset{x}, 0);
    } else if x.rank == 1 {
      ShuffleIn(a, b, c, d, multiset{x}, 1);
    } else if x.rank == 2 {
      ShuffleIn(a, b, c, d, multiset{x}, 2);
    } else {
      ShuffleIn(a, b, c, d, multiset{x}, 3);
    }
  }

  /** One group step: the head joins the group of its rank and no other. */
  lemma WithRankOther(rs: seq<Ranked>, k: nat)
    requires |rs| > 0
    ensures rs[0].rank == k ==> multiset(WithRank(rs, k)) == multiset{rs[0]} + multiset(WithRank(rs[1..], k))
    ensures rs[0].rank != k ==> WithRank(rs, k) == WithRank(rs[1..], k)
  {
    if rs[0].rank == k {
      assert WithRank(rs, k) == [rs[0]] + WithRank(rs[1..], k);
    } else {
      assert WithRank(rs, k) == [] + WithRank(rs[1..], k);
    }
  }

  /** Adding `x` to the `k`-th of four bags adds it to their sum. */
  lemma ShuffleIn<T>(a: multiset<T>, b: multiset<T>, c: multiset<T>, d: multiset<T>, x: multiset<T>, k: nat)
    requires k <= 3
    ensures (if k == 0 then x + a else a) + (if k == 1 then x + b else b)
      + (if k == 2 then x + c else c) + (if k == 3 then x + d else d)
      == x + (a + b + c + d)
  {
  }

  lemma MultisetOfFour(a: seq<Ranked>, b: seq<Ranked>, c: seq<Ranked>, d: seq<Ranked>)
    ensures multiset(a + b + c + d) == multiset(a) + multiset(b) + multiset(c) + multiset(d)
  {
  }

  /** Appending a group of higher rank, internally in index order, to a sorted
      sequence keeps it sorted. */
  lemma SortedAppendGroup(a: seq<Ranked>, b: seq<Ranked>, k: nat)
    requires SortedRanked(a) && IndexAscending(b)
    requires forall i :: 0 <= i < |a| ==> a[i].rank < k
    requires forall i :: 0 <= i < |b| ==> b[i].rank == k
    ensures SortedRanked(a + b)
    ensures forall i :: 0 <= i < |a + b| ==> (a + b)[i].rank <= k
  {
  }

  /** The sort the client asks for, done as one stable pass per rank. */
  function SortRanked(rs: seq<Ranked>): (r: seq<Ranked>)
    requires forall i :: 0 <= i < |rs| ==> rs[i].rank <= 3
    requires IndexAscending(rs)
    ensures SortedRanked(r)
    ensures multiset(r) == multiset(rs)
  {
    WithRankSplit(rs);
    var w0, w1, w2, w3 := WithRank(rs, 0), WithRank(rs, 1), WithRank(rs, 2), WithRank(rs, 3);
    WithRankAscending(rs, 0);
    WithRankAscending(rs, 1);
    WithRankAscending(rs, 2);
    WithRankAscending(rs, 3);
    SortedAppendGroup(w0, w1, 1);
    SortedAppendGroup(w0 + w1, w2, 2);
    SortedAppendGroup(w0 + w1 + w2, w3, 3);
    w0 + w1 + w2 + w3
  }

  lemma {:induction false} CollectFacts(s: Surface, prefixes: seq<string>, from: nat)
    requires from <= |s.layers|
    ensures forall i :: 0 <= i < |Collect(s, prefixes, from)| ==>
      var x := Collect(s, prefixes, from)[i];
      from <= x.index < |s.layers| && x.layer == s.layers[x.index] && x.rank == TypeRank(x.layer.kind)
    ensures IndexAscending(Collect(s, prefixes, from))
    decreases |s.layers| - from
  {
    if from < |s.layers| {
      CollectFacts(s, prefixes, from + 1);
    }
  }

  function LayersOf(rs: seq<Ranked>): (r: seq<Layer>)
    ensures |r| == |rs| && forall i :: 0 <= i < |rs| ==> r[i] == rs[i].layer
  {
    seq(|rs|, i requires 0 <= i < |rs| => rs[i].layer)
  }

  /** Which layers a filter keeps: the ones left alone, or the custom ones of one rank. */
  datatype Group = Untouched | CustomRank(k: nat)

  predicate InGroup(l: Layer, prefixes: seq<string>, g: Group) {
    match g
    case Untouched => !AnyPrefix(l.id, prefixes)
    case CustomRank(k) => AnyPrefix(l.id, prefixes) && TypeRank(l.kind) == k
  }

  /** The layers of group `g`, in stack order. */
  function Keep(layers: seq<Layer>, prefixes: seq<string>, g: Group): (r: seq<Layer>)
    ensures forall i :: 0 <= i < |r| ==> r[i] in layers && InGroup(r[i], prefixes, g)
  {
    if |layers| == 0 then []
    else
      var rest := Keep(layers[1..], prefixes, g);
      assert forall i :: 0 <= i < |rest| ==> rest[i] in layers[1..];
      (if InGroup(layers[0], prefixes, g) then [layers[0]] else []) + rest
  }

  lemma KeepCons(a: seq<Layer>, prefixes: seq<string>, g: Group)
    requires |a| > 0
    ensures Keep(a, prefixes, g) == (if InGroup(a[0], prefixes, g) then [a[0]] else []) + Keep(a[1..], prefixes, g)
  {
  }

  /** `h + (x + y)` regrouped as `(h + x) + y`. */
  lemma {:induction false} KeepConcat(a: seq<Layer>, b: seq<Layer>, prefixes: seq<string>, g: Group)
    ensures Keep(a + b, prefixes, g) == Keep(a, prefixes, g) + Keep(b, prefixes, g)
  {
    if |a| > 0 {
      KeepConcat(a[1..], b, prefixes, g);
      KeepConcatStep(a, b, prefixes, g);
    } else {
      assert a + b == b;
    }
  }

  /** One layer in front of a concatenation goes to the front filter. */
  lemma KeepConcatStep(a: seq<Layer>, b: seq<Layer>, prefixes: seq<string>, g: Group)
    requires |a| > 0
    requires Keep(a[1..] + b, prefixes, g) == Keep(a[1..], prefixes, g) + Keep(b, prefixes, g)
    ensures Keep(a + b, prefixes, g) == Keep(a, prefixes, g) + Keep(b, prefixes, g)
  {
    var h := if InGroup(a[0], prefixes, g) then [a[0]] else [];
    ConcatTail(a, b);
    KeepCons(a + b, prefixes, g);
    KeepCons(a, prefixes, g);
    Regroup(Keep(a + b, prefixes, g), Keep(a, prefixes, g), Keep(b, prefixes, g),
      h, Keep(a[1..], prefixes, g), Keep(a[1..] + b, prefixes, g));
  }

  lemma {:induction false} KeepAll(a: seq<Layer>, prefixes: seq<string>, g: Group)
    requires forall i :: 0 <= i < |a| ==> InGroup(a[i], prefixes, g)
    ensures Keep(a, prefixes, g) == a
  {
    if |a| > 0 {
      KeepAll(a[1..], prefixes, g);
      assert a == [a[0]] + a[1..];
    }
  }

  lemma {:induction false} KeepNone(a: seq<Layer>, prefixes: seq<string>, g: Group)
    requires forall i :: 0 <= i < |a| ==> !InGroup(a[i], prefixes, g)
    ensures Keep(a, prefixes, g) == []
  {
    if |a| > 0 {
      KeepNone(a[1..], prefixes, g);
    }
  }

  lemma LayersOfConcat(a: seq<Ranked>, b: seq<Ranked>)
    ensures LayersOf(a + b) == LayersOf(a) + LayersOf(b)
  {
  }

  /** The ranked records of one rank are exactly the custom layers of that rank. */
  lemma {:induction false} CollectRank(s: Surface, prefixes: seq<string>, from: nat, k: nat)
    requires from <= |s.layers|
    ensures LayersOf(WithRank(Collect(s, prefixes, from), k)) == Keep(s.layers[from..], prefixes, CustomRank(k))
    decreases |s.layers| - from
  {
    if from < |s.layers| {
      CollectRank(s, prefixes, from + 1, k);
      CollectRankStep(s, prefixes, from, k);
    }
  }

  /** One more layer below the collected ones: a custom layer of rank `k`
      joins both sides in front, any other joins neither. */
  lemma CollectRankStep(s: Surface, prefixes: seq<string>, from: nat, k: nat)
    requires from < |s.layers|
    requires LayersOf(WithRank(Collect(s, prefixes, from + 1), k)) == Keep(s.layers[from + 1..], prefixes, CustomRank(k))
    ensures LayersOf(WithRank(Collect(s, prefixes, from), k)) == Keep(s.layers[from..], prefixes, CustomRank(k))
  {
    var l := s.layers[from];
    var tail := Collect(s, prefixes, from + 1);
    assert HasLayer(s, l.id) by { assert Ids(s.layers)[from] == l.id; }
    var rest := s.layers[from..];
    assert rest[0] == l && rest[1..] == s.layers[from + 1..];
    KeepCons(rest, prefixes, CustomRank(k));
    if AnyPrefix(l.id, prefixes) {
      var x := Ranked(l, from, TypeRank(l.kind));
      assert Collect(s, prefixes, from) == [x] + tail;
      WithRankCons(x, tail, k);
      LayersOfConcat(if x.rank == k then [x] else [], WithRank(tail, k));
    } else {
      assert Collect(s, prefixes, from) == tail;
    }
  }

  lemma WithRankCons(x: Ranked, tail: seq<Ranked>, k: nat)
    ensures WithRank([x] + tail, k) == (if x.rank == k then [x] else []) + WithRank(tail, k)
  {
    assert ([x] + tail)[0] == x && ([x] + tail)[1..] == tail;
  }

  /** The custom layers in the order they are moved: collected, then sorted. */
  function MoveOrder(s: Surface, prefixes: seq<string>): seq<Layer> {
    CollectFacts(s, prefixes, 0);
    LayersOf(SortRanked(Collect(s, prefixes, 0)))
  }

  /** `moveCustomLayersToTopOrdered(map, prefixes)` */
  function MoveCustomLayersToTopOrdered(s: Surface, prefixes: seq<string>): (r: Surface)
    ensures r.sources == s.sources
  {
    if |s.layers| == 0 then s
    else MoveAllToTop(s, Ids(MoveOrder(s, prefixes)))
  }

  /** The stack the re-ordering is meant to produce. */
  function Restacked(layers: seq<Layer>, prefixes: seq<string>): seq<Layer> {
    Keep(layers, prefixes, Untouched) + Customs(layers, prefixes)
  }

  function Customs(layers: seq<Layer>, prefixes: seq<string>): seq<Layer> {
    Keep(layers, prefixes, CustomRank(0)) + Keep(layers, prefixes, CustomRank(1))
    + Keep(layers, prefixes, CustomRank(2)) + Keep(layers, prefixes, CustomRank(3))
  }

  lemma CustomsFacts(layers: seq<Layer>, prefixes: seq<string>)
    requires UniqueIds(layers)
    ensures forall i :: 0 <= i < |Customs(layers, prefixes)| ==>
      Customs(layers, prefixes)[i] in layers && AnyPrefix(Customs(layers, prefixes)[i].id, prefixes)
    ensures forall l :: l in layers && AnyPrefix(l.id, prefixes) ==> l in Customs(layers, prefixes)
    ensures UniqueIds(Customs(layers, prefixes))
  {
    var c := Customs(layers, prefixes);
    forall l | l in layers && AnyPrefix(l.id, prefixes) ensures l in c {
      CustomsHold(layers, prefixes, l);
    }
    CustomsUnique(layers, prefixes);
  }

  /** Every custom layer of the stack is among `Customs`. */
  lemma CustomsHold(layers: seq<Layer>, prefixes: seq<string>, l: Layer)
    requires l in layers && AnyPrefix(l.id, prefixes)
    ensures l in Customs(layers, prefixes)
  {
    var i :| 0 <= i < |layers| && layers[i] == l;
    assert layers == layers[..i] + [l] + layers[i + 1..];
    var k := TypeRank(l.kind);
    KeepConcat(layers[..i] + [l], layers[i + 1..], prefixes, CustomRank(k));
    KeepConcat(layers[..i], [l], prefixes, CustomRank(k));
    assert l in Keep(layers, prefixes, CustomRank(k));
  }

  lemma CustomsUnique(layers: seq<Layer>, prefixes: seq<string>)
    requires UniqueIds(layers)
    ensures UniqueIds(Customs(layers, prefixes))
  {
    var c := Customs(layers, prefixes);
    forall a, b | 0 <= a < b < |c| ensures c[a].id != c[b].id {
      if c[a].id == c[b].id {
        var i :| 0 <= i < |layers| && layers[i] == c[a];
        var j :| 0 <= j < |layers| && layers[j] == c[b];
        assert i == j;
        CustomsNoRepeat(layers, prefixes, a, b);
      }
    }
  }

  lemma KeepUnique(layers: seq<Layer>, prefixes: seq<string>)
    requires UniqueIds(layers)
    ensures forall g :: UniqueIds(Keep(layers, prefixes, g))
  {
    forall g ensures UniqueIds(Keep(layers, prefixes, g)) { KeepUniqueOne(layers, prefixes, g); }
  }

  lemma {:induction false} KeepUniqueOne(layers: seq<Layer>, prefixes: seq<string>, g: Group)
    requires UniqueIds(layers)
    ensures UniqueIds(Keep(layers, prefixes, g))
  {
    if |layers| > 0 {
      KeepUniqueOne(layers[1..], prefixes, g);
      var rest := Keep(layers[1..], prefixes, g);
      forall i | 0 <= i < |rest| ensures rest[i].id != layers[0].id {
        var j :| 0 <= j < |layers[1..]| && layers[1..][j] == rest[i];
        assert layers[j + 1] == rest[i];
      }
    }
  }

  /** Two positions of `Customs` never hold the same layer. */
  lemma CustomsNoRepeat(layers: seq<Layer>, prefixes: seq<string>, a: nat, b: nat)
    requires UniqueIds(layers)
    requires a < b < |Customs(layers, prefixes)|
    ensures Customs(layers, prefixes)[a] != Customs(layers, prefixes)[b]
  {
    var k0 := Keep(layers, prefixes, CustomRank(0));
    var k1 := Keep(layers, prefixes, CustomRank(1));
    var k2 := Keep(layers, prefixes, CustomRank(2));
    var k3 := Keep(layers, prefixes, CustomRank(3));
    var c := Customs(layers, prefixes);
    KeepUnique(layers, prefixes);
    // Each position belongs to one rank group; two positions in one group are
    // distinct because that group has unique ids, two in different groups
    // hold layers of different ranks.
    var ga := GroupOf(k0, k1, k2, k3, a);
    var gb := GroupOf(k0, k1, k2, k3, b);
    assert c == k0 + k1 + k2 + k3;
    assert TypeRank(c[a].kind) == ga.0 && TypeRank(c[b].kind) == gb.0;
    if ga.0 == gb.0 {
      var g := [k0, k1, k2, k3][ga.0];
      assert UniqueIds(g);
      assert c[a] == g[ga.1] && c[b] == g[gb.1] && ga.1 < gb.1;
    }
  }

  /** Which rank group a position of the concatenation falls in, and where. */
  function GroupOf(k0: seq<Layer>, k1: seq<Layer>, k2: seq<Layer>, k3: seq<Layer>, p: nat): (r: (nat, nat))
    requires p < |k0 + k1 + k2 + k3|
    ensures r.0 <= 3 && r.1 < |[k0, k1, k2, k3][r.0]|
    ensures (k0 + k1 + k2 + k3)[p] == [k0, k1, k2, k3][r.0][r.1]
    ensures r.0 == 0 ==> r.1 == p
    ensures r.0 == 1 ==> r.1 == p - |k0|
    ensures r.0 == 2 ==> r.1 == p - |k0| - |k1|
    ensures r.0 == 3 ==> r.1 == p - |k0| - |k1| - |k2|
  {
    if p < |k0| then (0, p)
    else if p < |k0| + |k1| then (1, p - |k0|)
    else if p < |k0| + |k1| + |k2| then (2, p - |k0| - |k1|)
    else (3, p - |k0| - |k1| - |k2|)
  }

  /** Removing the ids of exactly the custom layers leaves the untouched ones. */
  lemma {:induction false} WithoutIsUntouched(layers: seq<Layer>, ids: set<string>, prefixes: seq<string>)
    requires forall i :: 0 <= i < |layers| ==> (layers[i].id in ids <==> AnyPrefix(layers[i].id, prefixes))
    ensures Without(layers, ids) == Keep(layers, prefixes, Untouched)
  {
    if |layers| > 0 {
      WithoutIsUntouched(layers[1..], ids, prefixes);
    }
  }

  /** Collecting then sorting yields the custom layers rank group by rank group. */
  lemma MoveOrderIsCustoms(s: Surface, prefixes: seq<string>)
    ensures MoveOrder(s, prefixes) == Customs(s.layers, prefixes)
  {
    var ranked := Collect(s, prefixes, 0);
    CollectFacts(s, prefixes, 0);
    var w0, w1, w2, w3 := WithRank(ranked, 0), WithRank(ranked, 1), WithRank(ranked, 2), WithRank(ranked, 3);
    assert SortRanked(ranked) == w0 + w1 + w2 + w3;
    LayersOfConcat(w0, w1);
    LayersOfConcat(w0 + w1, w2);
    LayersOfConcat(w0 + w1 + w2, w3);
    assert s.layers[0..] == s.layers;
    CollectRank(s, prefixes, 0, 0);
    CollectRank(s, prefixes, 0, 1);
    CollectRank(s, prefixes, 0, 2);
    CollectRank(s, prefixes, 0, 3);
  }

  /** A layer's id is among the moved ids exactly when the layer is custom. */
  lemma MovedIdsAreCustomIds(layers: seq<Layer>, prefixes: seq<string>)
    requires UniqueIds(layers)
    ensures var ids := Ids(Customs(layers, prefixes));
      forall i :: 0 <= i < |layers| ==>
        (layers[i].id in (set j | 0 <= j < |ids| :: ids[j]) <==> AnyPrefix(layers[i].id, prefixes))
  {
    var c := Customs(layers, prefixes);
    var ids := Ids(c);
    CustomsFacts(layers, prefixes);
    forall i | 0 <= i < |layers|
      ensures layers[i].id in (set j | 0 <= j < |ids| :: ids[j]) <==> AnyPrefix(layers[i].id, prefixes)
    {
      if layers[i].id in (set j | 0 <= j < |ids| :: ids[j]) {
        var j :| 0 <= j < |ids| && ids[j] == layers[i].id;
        assert AnyPrefix(c[j].id, prefixes);
      }
      if AnyPrefix(layers[i].id, prefixes) {
        assert layers[i] in c;
        var j :| 0 <= j < |c| && c[j] == layers[i];
        assert ids[j] == layers[i].id;
      }
    }
  }

  /** The re-ordering leaves the other layers in their order at the bottom and
      stacks the custom ones above them: fills, then lines, then circles, then
      symbols, each group in the order it had. */
  lemma MoveCustomLayersToTopStack(s: Surface, prefixes: seq<string>)
    requires UniqueIds(s.layers)
    ensures MoveCustomLayersToTopOrdered(s, prefixes).layers == Restacked(s.layers, prefixes)
  {
    var L := s.layers;
    if |L| == 0 {
      assert Restacked(L, prefixes) == [];
    } else {
      MoveOrderIsCustoms(s, prefixes);
      var ids := Ids(Customs(L, prefixes));
      CustomsPresent(L, prefixes);
      CustomsWithout(L, prefixes);
      CustomIdsDistinct(L, prefixes);
      MoveAllToTopStack(s, ids);
    }
  }

  lemma CustomsPresent(L: seq<Layer>, prefixes: seq<string>)
    requires UniqueIds(L)
    ensures Present(L, Ids(Customs(L, prefixes))) == Customs(L, prefixes)
  {
    CustomsFacts(L, prefixes);
    PresentOfMembers(L, Customs(L, prefixes));
  }

  lemma CustomsWithout(L: seq<Layer>, prefixes: seq<string>)
    requires UniqueIds(L)
    ensures var ids := Ids(Customs(L, prefixes));
      Without(L, set j | 0 <= j < |ids| :: ids[j]) == Keep(L, prefixes, Untouched)
  {
    var ids := Ids(Customs(L, prefixes));
    MovedIdsAreCustomIds(L, prefixes);
    WithoutIsUntouched(L, set j | 0 <= j < |ids| :: ids[j], prefixes);
  }

  lemma CustomIdsDistinct(L: seq<Layer>, prefixes: seq<string>)
    requires UniqueIds(L)
    ensures var ids := Ids(Customs(L, prefixes));
      forall i, j :: 0 <= i < j < |ids| ==> ids[i] != ids[j]
  {
    CustomsFacts(L, prefixes);
  }

  /** `Keep` on a block whose layers all belong to group `gb`. */
  lemma KeepBlock(block: seq<Layer>, prefixes: seq<string>, gb: Group, g: Group)
    requires forall i :: 0 <= i < |block| ==> InGroup(block[i], prefixes, gb)
    ensures Keep(block, prefixes, g) == if gb == g then block else []
  {
    if gb == g {
      KeepAll(block, prefixes, g);
    } else {
      KeepNone(block, prefixes, g);
    }
  }

  /** What `Keep` takes from an already re-stacked sequence is the matching block. */
  lemma KeepOfRestacked(layers: seq<Layer>, prefixes: seq<string>, g: Group)
    ensures Keep(Restacked(layers, prefixes), prefixes, g) == Keep(layers, prefixes, g)
  {
    var n := Keep(layers, prefixes, Untouched);
    var c := Customs(layers, prefixes);
    KeepConcat(n, c, prefixes, g);
    match g
    case Untouched =>
      KeepBlock(n, prefixes, Untouched, g);
      KeepOfCustoms(layers, prefixes, g);
      assert Keep(c, prefixes, g) == [];
      assert n + [] == n;
    case CustomRank(k) =>
      KeepBlock(n, prefixes, Untouched, g);
      KeepOfCustoms(layers, prefixes, g);
      assert [] + Keep(c, prefixes, g) == Keep(c, prefixes, g);
  }

  /** What `Keep` takes from the custom blocks: the block of its own rank. */
  lemma KeepOfCustoms(layers: seq<Layer>, prefixes: seq<string>, g: Group)
    ensures Keep(Customs(layers, prefixes), prefixes, g) == if g.Untouched? then [] else Keep(layers, prefixes, g)
  {
    var c0, c1, c2, c3 := Keep(layers, prefixes, CustomRank(0)), Keep(layers, prefixes, CustomRank(1)),
      Keep(layers, prefixes, CustomRank(2)), Keep(layers, prefixes, CustomRank(3));
    KeepOfFour(c0, c1, c2, c3, prefixes, g);
    KeepBlock(c0, prefixes, CustomRank(0), g);
    KeepBlock(c1, prefixes, CustomRank(1), g);
    KeepBlock(c2, prefixes, CustomRank(2), g);
    KeepBlock(c3, prefixes, CustomRank(3), g);
    var e: seq<Layer> := [];
    match g
    case Untouched =>
      assert e + e + e + e == e;
    case CustomRank(k) =>
      if k == 0 {
        assert c0 + e + e + e == c0;
      } else if k == 1 {
        assert e + c1 + e + e == c1;
      } else if k == 2 {
        assert e + e + c2 + e == c2;
      } else if k == 3 {
        assert e + e + e + c3 == c3;
      } else {
        KeepNone(layers, prefixes, g);
        assert e + e + e + e == e;
      }
  }

  lemma KeepOfFour(c0: seq<Layer>, c1: seq<Layer>, c2: seq<Layer>, c3: seq<Layer>, prefixes: seq<string>, g: Group)
    ensures Keep(c0 + c1 + c2 + c3, prefixes, g)
      == Keep(c0, prefixes, g) + Keep(c1, prefixes, g) + Keep(c2, prefixes, g) + Keep(c3, prefixes, g)
  {
    KeepConcat(c0 + c1 + c2, c3, prefixes, g);
    KeepConcat(c0 + c1, c2, prefixes, g);
    KeepConcat(c0, c1, prefixes, g);
  }

  /** Re-ordering an already re-ordered map changes nothing. */
  lemma MoveCustomLayersToTopIdempotent(s: Surface, prefixes: seq<string>)
    requires UniqueIds(s.layers)
    ensures var r := MoveCustomLayersToTopOrdered(s, prefixes);
      MoveCustomLayersToTopOrdered(r, prefixes) == r
  {
    var r := MoveCustomLayersToTopOrdered(s, prefixes);
    MoveCustomLayersToTopStack(s, prefixes);
    if |s.layers| > 0 {
      MoveAllToTopKeepsUnique(s, Ids(MoveOrder(s, prefixes)));
    }
    MoveCustomLayersToTopStack(r, prefixes);
    KeepOfRestacked(s.layers, prefixes, Untouched);
    KeepOfRestacked(s.layers, prefixes, CustomRank(0));
    KeepOfRestacked(s.layers, prefixes, CustomRank(1));
    KeepOfRestacked(s.layers, prefixes, CustomRank(2));
    KeepOfRestacked(s.layers, prefixes, CustomRank(3));
  }
}

=== FILE: legend.dfy ===
/** The legend panel: legend rows read off the paint properties of a TOC
    item's layers, or taken from the item's own configuration, collected into
    sections for the visible items. */
module Legend {
  import opened Wrappers
  import opened Js
  import opened Strings
  import opened Seqs
  import opened MapSurface
  import TocStore

  datatype PaintKind = FillPaint | LinePaint | CirclePaint | SymbolPaint

  function PaintKindName(k: PaintKind): string {
    match k
    case FillPaint => "fill"
    case LinePaint => "line"
    case CirclePaint => "circle"
    case SymbolPaint => "symbol"
  }

  /** A row's swatch: one colour of a paint kind, or a polygon's fill with an
      optional outline. */
  datatype Swatch =
    | Simple(kind: PaintKind, value: string)
    | PolygonSwatch(fill: string, outline: Option<string>)

  datatype LegendItem = LegendItem(caption: string, swatch: Swatch)

  /** `swatchKey` */
  function SwatchKey(sw: Swatch): string {
    match sw
    case PolygonSwatch(fill, outline) => "poly-" + fill + "-" + outline.GetOr("none")
    case Simple(kind, value) => PaintKindName(kind) + "-" + value
  }

  /** The key `dedupeLegend` compares: label, "|", swatch key. */
  function LegendKey(i: LegendItem): string {
    i.caption + "|" + SwatchKey(i.swatch)
  }

  /** `dedupeLegend`: the first row of every key, in order. */
  function DedupeLegend(items: seq<LegendItem>): seq<LegendItem> {
    FirstOccurrences(items, LegendKey)
  }

  /** The loop of `dedupeLegend`, skipping a row whose key is in the `seen`
      set and adding the key otherwise, keeps exactly those rows. */
  lemma DedupeLegendLoop(items: seq<LegendItem>)
    ensures DedupeBy(items, LegendKey) == DedupeLegend(items)
  {
  }

  /** Deduplication leaves one row per key, loses no key, and keeps the rows
      it leaves in their order. */
  lemma DedupeLegendFacts(items: seq<LegendItem>)
    ensures var r := DedupeLegend(items);
      Distinct(Keys(r, LegendKey)) && KeySet(r, LegendKey) == KeySet(items, LegendKey)
      && SubsequenceOf(r, items)
  {
    DedupeByKeys(items, LegendKey);
    DedupeBySubsequence(items, LegendKey);
  }

  lemma DedupeLegendIdempotent(items: seq<LegendItem>)
    ensures DedupeLegend(DedupeLegend(items)) == DedupeLegend(items)
  {
    DedupeByIdempotent(items, LegendKey);
  }

  /** `isNonEmptyString`: a string that is not blank. */
  predicate NonEmptyString(v: Option<Json>) {
    v.Some? && v.value.JStr? && !IsBlank(v.value.s)
  }

  /** `expr[i]`, `None` past the end. */
  function At(expr: seq<Json>, i: nat): (r: Option<Json>)
    ensures r.Some? <==> i < |expr|
  {
    if i < |expr| then Some(expr[i]) else None
  }

  /** The `for (i = 3; i + 1 < expr.length; i += 2)` loop of a `step`
      expression: a "≥ stop" row for every stop with a usable colour. */
  function StepRows(kind: PaintKind, expr: seq<Json>, i: nat): (r: seq<LegendItem>)
    ensures forall j :: 0 <= j < |r| ==>
              r[j].swatch.Simple? && r[j].swatch.kind == kind && StartsWith(r[j].caption, "≥ ")
    decreases |expr| - i
  {
    if i + 1 < |expr| then
      var row := if NonEmptyString(Some(expr[i + 1]))
        then [LegendItem("≥ " + ToText(expr[i]), Simple(kind, expr[i + 1].s))] else [];
      assert forall j :: 0 <= j < |row| ==> StartsWith(row[j].caption, "≥ ") by {
        if |row| > 0 { assert ("≥ " + ToText(expr[i]))[..2] == "≥ "; }
      }
      row + StepRows(kind, expr, i + 2)
    else []
  }

  /** The `for (i = 2; i + 1 < expr.length - 1; i += 2)` loop of a `match`
      expression: a row labelled with the matched value for every case with
      a usable colour; the last element is the default. */
  function MatchRows(kind: PaintKind, expr: seq<Json>, i: nat): (r: seq<LegendItem>)
    ensures forall j :: 0 <= j < |r| ==> r[j].swatch.Simple? && r[j].swatch.kind == kind
    decreases |expr| - i
  {
    if i + 1 < |expr| - 1 then
      (if NonEmptyString(Some(expr[i + 1]))
       then [LegendItem(ToText(expr[i]), Simple(kind, expr[i + 1].s))] else [])
      + MatchRows(kind, expr, i + 2)
    else []
  }

  /** `extractLegendFromPaint`: one row for a plain colour, rows for the
      stops of a `step` or the cases of a `match` expression, nothing for
      anything else. */
  function ExtractLegendFromPaint(kind: PaintKind, paint: Option<Json>, fallback: string): (r: seq<LegendItem>)
    ensures NonEmptyString(paint) ==> r == [LegendItem(fallback, Simple(kind, paint.value.s))]
    ensures !NonEmptyString(paint) && !(paint.Some? && paint.value.JArr?) ==> r == []
    ensures forall j :: 0 <= j < |r| ==> r[j].swatch.Simple? && r[j].swatch.kind == kind
  {
    if NonEmptyString(paint) then [LegendItem(fallback, Simple(kind, paint.value.s))]
    else if !(paint.Some? && paint.value.JArr?) || |paint.value.items| == 0 || !paint.value.items[0].JStr? then []
    else
      var expr := paint.value.items;
      var op := expr[0].s;
      if op == "step" then
        var base := At(expr, 2);
        var first := At(expr, 3);
        (if NonEmptyString(base) && first.Some?
         then [LegendItem("< " + ToText(first.value), Simple(kind, base.value.s))] else [])
        + StepRows(kind, expr, 3)
      else if op == "match" then
        var def := At(expr, |expr| - 1);
        MatchRows(kind, expr, 2)
        + (if NonEmptyString(def) then [LegendItem("Sonst", Simple(kind, def.value.s))] else [])
      else []
  }

  // ---------------------------------------------------------------------
  // Reference expressions

  /** `[v1, c1, v2, c2, …]` for value/colour pairs. */
  function Pairs(ps: seq<(Json, string)>): (r: seq<Json>)
    ensures |r| == 2 * |ps|
  {
    if |ps| == 0 then [] else [ps[0].0, JStr(ps[0].1)] + Pairs(ps[1..])
  }

  predicate UsableColours(ps: seq<(Json, string)>) {
    forall i :: 0 <= i < |ps| ==> !IsBlank(ps[i].1)
  }

  /** The rows a list of stops or cases should produce. */
  function PairRows(kind: PaintKind, prefix: string, ps: seq<(Json, string)>): (r: seq<LegendItem>)
    ensures |r| == |ps|
  {
    seq(|ps|, i requires 0 <= i < |ps| => LegendItem(prefix + ToText(ps[i].0), Simple(kind, ps[i].1)))
  }

  /** `["step", input, base, stop1, colour1, …]` */
  function StepExpression(input: Json, base: string, stops: seq<(Json, string)>): seq<Json> {
    [JStr("step"), input, JStr(base)] + Pairs(stops)
  }

  /** `["match", input, value1, colour1, …, default]` */
  function MatchExpression(input: Json, cases: seq<(Json, string)>, default: string): seq<Json> {
    [JStr("match"), input] + Pairs(cases) + [JStr(default)]
  }

  lemma {:induction false} StepRowsOfPairs(kind: PaintKind, p: seq<Json>, stops: seq<(Json, string)>)
    requires UsableColours(stops)
    ensures StepRows(kind, p + Pairs(stops), |p|) == PairRows(kind, "≥ ", stops)
    decreases |stops|
  {
    if |stops| > 0 {
      var p' := p + [stops[0].0, JStr(stops[0].1)];
      assert p + Pairs(stops) == p' + Pairs(stops[1..]);
      StepRowsOfPairs(kind, p', stops[1..]);
      assert PairRows(kind, "≥ ", stops) == [PairRows(kind, "≥ ", stops)[0]] + PairRows(kind, "≥ ", stops[1..]);
    } else {
      assert p + Pairs(stops) == p;
    }
  }

  lemma {:induction false} MatchRowsOfPairs(kind: PaintKind, p: seq<Json>, cases: seq<(Json, string)>, last: Json)
    requires UsableColours(cases)
    ensures MatchRows(kind, p + Pairs(cases) + [last], |p|) == PairRows(kind, "", cases)
    decreases |cases|
  {
    if |cases| > 0 {
      var p' := p + [cases[0].0, JStr(cases[0].1)];
      assert p + Pairs(cases) + [last] == p' + Pairs(cases[1..]) + [last];
      MatchRowsOfPairs(kind, p', cases[1..], last);
      assert PairRows(kind, "", cases) == [PairRows(kind, "", cases)[0]] + PairRows(kind, "", cases[1..]);
      assert ToText(cases[0].0) == "" + ToText(cases[0].0);
    } else {
      assert p + Pairs(cases) + [last] == p + [last];
    }
  }

  /** A `step` expression whose colours are usable yields "< first stop" in
      the base colour and then "≥ stop" for every stop, in order. */
  lemma StepLegend(kind: PaintKind, input: Json, base: string, stops: seq<(Json, string)>, fallback: string)
    requires !IsBlank(base) && UsableColours(stops) && |stops| > 0
    ensures ExtractLegendFromPaint(kind, Some(JArr(StepExpression(input, base, stops))), fallback)
      == [LegendItem("< " + ToText(stops[0].0), Simple(kind, base))] + PairRows(kind, "≥ ", stops)
  {
    var expr := StepExpression(input, base, stops);
    assert expr[3] == stops[0].0;
    StepRowsOfPairs(kind, [JStr("step"), input, JStr(base)], stops);
  }

  /** A `match` expression whose colours are usable yields one row per case,
      labelled with its value, and a last "Sonst" row for the default. */
  lemma MatchLegend(kind: PaintKind, input: Json, cases: seq<(Json, string)>, default: string, fallback: string)
    requires !IsBlank(default) && UsableColours(cases)
    ensures ExtractLegendFromPaint(kind, Some(JArr(MatchExpression(input, cases, default))), fallback)
      == PairRows(kind, "", cases) + [LegendItem("Sonst", Simple(kind, default))]
  {
    var expr := MatchExpression(input, cases, default);
    assert expr[|expr| - 1] == JStr(default);
    MatchRowsOfPairs(kind, [JStr("match"), input], cases, JStr(default));
  }

  // ---------------------------------------------------------------------
  // The legend of one TOC item

  /** `map.getLayer(id)?.type === t` */
  predicate IsOfType(s: Surface, id: string, t: LayerType) {
    var l := GetLayer(s.layers, id);
    l.Some? && l.value.kind == t
  }

  /** `ids.find(id => map.getLayer(id)?.type === t)` */
  function FirstOfType(s: Surface, ids: seq<string>, t: LayerType): (r: Option<string>)
    ensures r.None? <==> forall i :: 0 <= i < |ids| ==> !IsOfType(s, ids[i], t)
    ensures r.Some? ==> r.value in ids && IsOfType(s, r.value, t)
  {
    if |ids| == 0 then None
    else if IsOfType(s, ids[0], t) then Some(ids[0])
    else
      var r := FirstOfType(s, ids[1..], t);
      assert forall i :: 1 <= i < |ids| ==> ids[i] == ids[1..][i - 1];
      r
  }

  /** `getPaintValue`: `null` without the layer, `undefined` (`None`) when
      the property is not set. */
  function PaintValue(s: Surface, id: string, prop: string): (r: Option<Json>)
    ensures GetLayer(s.layers, id).None? ==> r == Some(JNull)
    ensures GetLayer(s.layers, id).Some? && prop in GetLayer(s.layers, id).value.paint ==>
      r == Some(GetLayer(s.layers, id).value.paint[prop])
  {
    match GetLayer(s.layers, id)
    case None => Some(JNull)
    case Some(l) => if prop in l.paint then Some(l.paint[prop]) else None
  }

  /** A found id the code goes on with: `find` returned a non-empty string. */
  predicate Truthy(id: Option<string>) { id.Some? && id.value != "" }

  /** The deduplicated rows read off one paint property of one layer. */
  function LayerLegend(kind: PaintKind, s: Surface, id: string, prop: string, title: string): (r: seq<LegendItem>)
    ensures Distinct(Keys(r, LegendKey))
    ensures forall x :: x in r ==> x.swatch.Simple? && x.swatch.kind == kind
  {
    var rows := ExtractLegendFromPaint(kind, PaintValue(s, id, prop), title);
    DedupeLegendFacts(rows);
    SubsequenceMembers(DedupeLegend(rows), rows);
    DedupeLegend(rows)
  }

  /** The one polygon row of an item whose fill layer has a single colour. */
  function PolygonRow(title: string, fill: string, outline: Option<Json>): (r: seq<LegendItem>)
    ensures Distinct(Keys(r, LegendKey))
    ensures |r| == 1 && r[0].caption == title && r[0].swatch.PolygonSwatch? && r[0].swatch.fill == fill
    ensures r[0].swatch.outline.Some? <==> NonEmptyString(outline)
  {
    [LegendItem(title, PolygonSwatch(fill, if NonEmptyString(outline) then Some(outline.value.s) else None))]
  }

  /** `buildLegendForTocItem`: the legend of the item's first fill layer (a
      single colour becomes one polygon row with the first line layer's
      colour as outline), else of its first line layer, else of its first
      circle layer, else nothing. */
  function BuildLegendForTocItem(s: Surface, item: TocStore.TocItem): (r: seq<LegendItem>)
    ensures Distinct(Keys(r, LegendKey))
    ensures var ids := item.mapLayerIds.GetOr([]);
      (!Truthy(FirstOfType(s, ids, Fill)) && !Truthy(FirstOfType(s, ids, Line))
       && !Truthy(FirstOfType(s, ids, Circle))) ==> r == []
    ensures forall x :: x in r && x.swatch.PolygonSwatch? ==> r == [x] && x.caption == item.title
    ensures var ids := item.mapLayerIds.GetOr([]);
      Truthy(FirstOfType(s, ids, Fill)) ==>
        forall x :: x in r ==> x.swatch.PolygonSwatch? || (x.swatch.Simple? && x.swatch.kind == FillPaint)
    ensures var ids := item.mapLayerIds.GetOr([]);
      !Truthy(FirstOfType(s, ids, Fill)) && Truthy(FirstOfType(s, ids, Line)) ==>
        forall x :: x in r ==> x.swatch.Simple? && x.swatch.kind == LinePaint
    ensures var ids := item.mapLayerIds.GetOr([]);
      !Truthy(FirstOfType(s, ids, Fill)) && !Truthy(FirstOfType(s, ids, Line)) && Truthy(FirstOfType(s, ids, Circle)) ==>
        forall x :: x in r ==> x.swatch.Simple? && x.swatch.kind == CirclePaint
    ensures var lineId := FirstOfType(s, item.mapLayerIds.GetOr([]), Line);
      forall x :: x in r && x.swatch.PolygonSwatch? ==>
        (x.swatch.outline.Some? <==> Truthy(lineId) && NonEmptyString(PaintValue(s, lineId.value, "line-color")))
        && (x.swatch.outline.Some? ==> x.swatch.outline.value == PaintValue(s, lineId.value, "line-color").value.s)
  {
    var ids := item.mapLayerIds.GetOr([]);
    var fillId := FirstOfType(s, ids, Fill);
    var lineId := FirstOfType(s, ids, Line);
    var circleId := FirstOfType(s, ids, Circle);
    if Truthy(fillId) then FillLegend(s, item.title, fillId.value, lineId)
    else if Truthy(lineId) then
      LayerLegend(LinePaint, s, lineId.value, "line-color", item.title)
    else if Truthy(circleId) then
      LayerLegend(CirclePaint, s, circleId.value, "circle-color", item.title)
    else []
  }

  /** The fill branch of `buildLegendForTocItem`: one polygon row when the
      fill colour is a single colour, the fill layer's rows otherwise. */
  function FillLegend(s: Surface, title: string, fillId: string, lineId: Option<string>): (r: seq<LegendItem>)
    ensures Distinct(Keys(r, LegendKey))
    ensures forall x :: x in r && x.swatch.PolygonSwatch? ==> r == [x] && x.caption == title
    ensures forall x :: x in r ==> x.swatch.PolygonSwatch? || (x.swatch.Simple? && x.swatch.kind == FillPaint)
    ensures forall x :: x in r && x.swatch.PolygonSwatch? ==>
      (x.swatch.outline.Some? <==> Truthy(lineId) && NonEmptyString(PaintValue(s, lineId.value, "line-color")))
      && (x.swatch.outline.Some? ==> x.swatch.outline.value == PaintValue(s, lineId.value, "line-color").value.s)
  {
    var fillLegend := ExtractLegendFromPaint(FillPaint, PaintValue(s, fillId, "fill-color"), title);
    if |fillLegend| == 1 && fillLegend[0].swatch.Simple? && fillLegend[0].swatch.kind == FillPaint then
      PolygonRow(title, fillLegend[0].swatch.value,
        if Truthy(lineId) then PaintValue(s, lineId.value, "line-color") else Some(JNull))
    else
      LayerLegend(FillPaint, s, fillId, "fill-color", title)
  }

  /** A polygon drawn by a fill layer with a plain colour and a line layer
      with a plain colour gets exactly one row: the item's title with that
      fill and outline. */
  lemma PlainPolygonLegend(s: Surface, item: TocStore.TocItem, fillId: string, lineId: string)
    requires var ids := item.mapLayerIds.GetOr([]);
      FirstOfType(s, ids, Fill) == Some(fillId) && fillId != ""
      && FirstOfType(s, ids, Line) == Some(lineId) && lineId != ""
    requires NonEmptyString(PaintValue(s, fillId, "fill-color"))
    requires NonEmptyString(PaintValue(s, lineId, "line-color"))
    ensures BuildLegendForTocItem(s, item) == [LegendItem(item.title, PolygonSwatch(
      PaintValue(s, fillId, "fill-color").value.s, Some(PaintValue(s, lineId, "line-color").value.s)))]
  {
  }

  /** The legend of an item is already free of repeated rows, so the
      deduplication the sections go through later keeps it as it is. */
  lemma BuildLegendDeduplicated(s: Surface, item: TocStore.TocItem)
    ensures DedupeLegend(BuildLegendForTocItem(s, item)) == BuildLegendForTocItem(s, item)
  {
    var r := BuildLegendForTocItem(s, item);
    FirstsUpToDistinctIdentity(r, LegendKey, |r|);
    assert r[..|r|] == r;
  }

  // ---------------------------------------------------------------------
  // Sections

  datatype LegendSection =
    | VectorSection(item: TocStore.TocItem, legend: seq<LegendItem>)
    | ImageSection(item: TocStore.TocItem, url: string)

  function SwatchOfConfig(li: TocStore.TocLegendItem): Swatch {
    match li.swatchKind
    case FillSwatch => Simple(FillPaint, li.swatchValue)
    case LineSwatch => Simple(LinePaint, li.swatchValue)
    case CircleSwatch => Simple(CirclePaint, li.swatchValue)
  }

  function ConfiguredRows(lis: seq<TocStore.TocLegendItem>): (r: seq<LegendItem>)
    ensures |r| == |lis|
    ensures forall i :: 0 <= i < |lis| ==> r[i].caption == lis[i].caption
  {
    seq(|lis|, i requires 0 <= i < |lis| => LegendItem(lis[i].caption, SwatchOfConfig(lis[i])))
  }

  /** The section of one visible item: its configured rows, else its legend
      image, else the rows read off its layers, else none. */
  function SectionFor(s: Surface, item: TocStore.TocItem): (r: Option<LegendSection>)
    ensures r.Some? ==> r.value.item == item
    ensures item.legendItems.Some? && |item.legendItems.value| > 0 ==>
      r == Some(VectorSection(item, ConfiguredRows(item.legendItems.value)))
    ensures (!(item.legendItems.Some? && |item.legendItems.value| > 0)
             && item.legendUrl.Some? && item.legendUrl.value != "") ==> r == Some(ImageSection(item, item.legendUrl.value))
    ensures r.Some? && r.value.VectorSection? ==> |r.value.legend| > 0
  {
    if item.legendItems.Some? && |item.legendItems.value| > 0 then
      Some(VectorSection(item, ConfiguredRows(item.legendItems.value)))
    else if item.legendUrl.Some? && item.legendUrl.value != "" then
      Some(ImageSection(item, item.legendUrl.value))
    else
      var rows := BuildLegendForTocItem(s, item);
      if |rows| > 0 then Some(VectorSection(item, rows)) else None
  }

  predicate IsVisible(visible: map<string, bool>, id: string) {
    id in visible && visible[id]
  }

  /** The first loop of `rebuild`: a section per visible item that has one,
      in item order. */
  function RawSections(s: Surface, items: seq<TocStore.TocItem>, visible: map<string, bool>): (r: seq<LegendSection>)
    ensures |r| <= |items|
    ensures forall sec :: sec in r ==> sec.item in items && IsVisible(visible, sec.item.id)
    ensures forall it :: it in items && IsVisible(visible, it.id) && SectionFor(s, it).Some? ==> SectionFor(s, it).value in r
  {
    if |items| == 0 then []
    else
      var rest := RawSections(s, items[1..], visible);
      assert forall it :: it in items[1..] ==> it in items;
      assert forall it :: it in items ==> it == items[0] || it in items[1..];
      var here := SectionFor(s, items[0]);
      if IsVisible(visible, items[0].id) && here.Some? then [here.value] + rest else rest
  }

  /** The sections follow the items' order. */
  lemma {:induction false} RawSectionsInOrder(s: Surface, items: seq<TocStore.TocItem>, visible: map<string, bool>)
    ensures SubsequenceOf(SectionItems(RawSections(s, items, visible)), items)
  {
    if |items| > 0 {
      var rest := RawSections(s, items[1..], visible);
      RawSectionsInOrder(s, items[1..], visible);
      var here := SectionFor(s, items[0]);
      if IsVisible(visible, items[0].id) && here.Some? {
        SectionItemsCons(here.value, rest);
        SubsequenceCons(SectionItems(rest), items);
      } else {
        SubsequenceSkip(SectionItems(rest), items);
      }
    }
  }

  lemma SectionItemsCons(sec: LegendSection, rest: seq<LegendSection>)
    ensures SectionItems([sec] + rest) == [sec.item] + SectionItems(rest)
  {
  }

  /** Each section is its item's own section. */
  lemma {:induction false} RawSectionsOwn(s: Surface, items: seq<TocStore.TocItem>, visible: map<string, bool>)
    ensures forall sec :: sec in RawSections(s, items, visible) ==> SectionFor(s, sec.item) == Some(sec)
  {
    if |items| > 0 {
      RawSectionsOwn(s, items[1..], visible);
    }
  }

  /** Grouping keeps a section order that follows the items. */
  lemma GroupedInOrder(next: seq<LegendSection>, items: seq<TocStore.TocItem>)
    requires SubsequenceOf(SectionItems(next), items)
    ensures SubsequenceOf(SectionItems(GroupSections(next)), items)
  {
    SubsequenceTrans(SectionItems(GroupSections(next)), SectionItems(next), items);
  }

  /** Two sections the second loop merges: both vector sections with the
      same title. */
  predicate Twins(a: LegendSection, b: LegendSection) {
    a.VectorSection? && b.VectorSection? && a.item.title == b.item.title
  }

  ghost predicate NoAdjacentTwins(gs: seq<LegendSection>) {
    forall i, j :: 0 <= i && j == i + 1 && j < |gs| ==> !Twins(gs[i], gs[j])
  }

  function SectionItems(gs: seq<LegendSection>): (r: seq<TocStore.TocItem>)
    ensures |r| == |gs| && forall i :: 0 <= i < |gs| ==> r[i] == gs[i].item
  {
    seq(|gs|, i requires 0 <= i < |gs| => gs[i].item)
  }

  /** One round of the second loop: a twin of the last section is merged
      into it (rows deduplicated), anything else is appended. */
  function MergeSection(gs: seq<LegendSection>, sec: LegendSection): (r: seq<LegendSection>)
    ensures |gs| > 0 && Twins(gs[|gs| - 1], sec) ==>
      |r| == |gs| && (forall i :: 0 <= i < |gs| - 1 ==> r[i] == gs[i])
      && r[|gs| - 1].VectorSection? && r[|gs| - 1].item == gs[|gs| - 1].item
    ensures !(|gs| > 0 && Twins(gs[|gs| - 1], sec)) ==> r == gs + [sec]
  {
    if |gs| > 0 && Twins(gs[|gs| - 1], sec) then
      var last := gs[|gs| - 1];
      gs[|gs| - 1 := VectorSection(last.item, DedupeLegend(last.legend + sec.legend))]
    else gs + [sec]
  }

  /** A merged section holds the rows of both twins, deduplicated. */
  lemma MergeSectionLegend(gs: seq<LegendSection>, sec: LegendSection)
    requires |gs| > 0 && Twins(gs[|gs| - 1], sec)
    ensures MergeSection(gs, sec)[|gs| - 1].legend == DedupeLegend(gs[|gs| - 1].legend + sec.legend)
    ensures KeySet(MergeSection(gs, sec)[|gs| - 1].legend, LegendKey)
      == KeySet(gs[|gs| - 1].legend + sec.legend, LegendKey)
  {
    DedupeLegendFacts(gs[|gs| - 1].legend + sec.legend);
  }

  function GroupLoop(next: seq<LegendSection>, n: nat): seq<LegendSection>
    requires n <= |next|
  {
    if n == 0 then [] else MergeSection(GroupLoop(next, n - 1), next[n - 1])
  }

  /** No two adjacent sections are twins, and there are at most `n`
      sections, at least one once `n` is positive. */
  ghost predicate Shaped(gs: seq<LegendSection>, n: nat) {
    NoAdjacentTwins(gs) && |gs| <= n && (n > 0 ==> |gs| > 0)
  }

  /** After `n` rounds no two adjacent sections are twins, and there are at
      most `n` sections, at least one once a round has run. */
  lemma {:induction false} GroupLoopShape(next: seq<LegendSection>, n: nat)
    requires n <= |next|
    ensures Shaped(GroupLoop(next, n), n)
  {
    if n > 0 {
      GroupLoopShape(next, n - 1);
      ShapeRound(GroupLoop(next, n - 1), next[n - 1], n);
      GroupLoopStep(next, n);
    }
  }

  lemma ShapeRound(gs: seq<LegendSection>, sec: LegendSection, n: nat)
    requires n > 0 && Shaped(gs, n - 1)
    ensures Shaped(MergeSection(gs, sec), n)
  {
    MergeShape(gs, sec);
  }

  lemma GroupLoopStep(next: seq<LegendSection>, n: nat)
    requires 0 < n <= |next|
    ensures GroupLoop(next, n) == MergeSection(GroupLoop(next, n - 1), next[n - 1])
  {
  }

  /** One round keeps adjacent twins apart and adds at most one section. */
  lemma MergeShape(gs: seq<LegendSection>, sec: LegendSection)
    requires NoAdjacentTwins(gs)
    ensures var r := MergeSection(gs, sec);
      NoAdjacentTwins(r) && |gs| <= |r| <= |gs| + 1 && |r| > 0
  {
    var r := MergeSection(gs, sec);
    if |gs| > 0 && Twins(gs[|gs| - 1], sec) {
      forall i, j | 0 <= i && j == i + 1 && j < |r| ensures !Twins(r[i], r[j]) {
        assert r[i] == gs[i];
        assert r[j].item == gs[j].item && r[j].VectorSection? == gs[j].VectorSection?;
      }
    } else {
      forall i, j | 0 <= i && j == i + 1 && j < |r| ensures !Twins(r[i], r[j]) {
        if j < |gs| { assert r[i] == gs[i] && r[j] == gs[j]; }
      }
    }
  }

  /** The sections' items are a subsequence of the input's: a merge keeps
      the earlier section's item. */
  lemma {:induction false} GroupLoopItems(next: seq<LegendSection>, n: nat)
    requires n <= |next|
    ensures SubsequenceOf(SectionItems(GroupLoop(next, n)), SectionItems(next[..n]))
  {
    if n == 0 {
      SubsequenceOfEmptySeq(SectionItems(next[..0]));
    } else {
      GroupLoopItems(next, n - 1);
      ItemsRound(next, n, GroupLoop(next, n - 1));
      GroupLoopStep(next, n);
    }
  }

  /** One round keeps the sections' items a subsequence of the input's. */
  lemma ItemsRound(next: seq<LegendSection>, n: nat, gs: seq<LegendSection>)
    requires 0 < n <= |next|
    requires SubsequenceOf(SectionItems(gs), SectionItems(next[..n - 1]))
    ensures SubsequenceOf(SectionItems(MergeSection(gs, next[n - 1])), SectionItems(next[..n]))
  {
    var sec := next[n - 1];
    var r := MergeSection(gs, sec);
    assert next[..n] == next[..n - 1] + [sec];
    SectionItemsSnoc(next[..n - 1], sec);
    if |gs| > 0 && Twins(gs[|gs| - 1], sec) {
      MergeItems(gs, sec);
      SameItems(gs, r);
      SubsequenceAppendRight(SectionItems(gs), SectionItems(next[..n - 1]), sec.item);
    } else {
      SectionItemsSnoc(gs, sec);
      SubsequenceAppendBoth(SectionItems(gs), SectionItems(next[..n - 1]), sec.item);
    }
  }

  lemma SectionItemsSnoc(gs: seq<LegendSection>, sec: LegendSection)
    ensures SectionItems(gs + [sec]) == SectionItems(gs) + [sec.item]
  {
    assert SectionItems(gs + [sec])[|gs|] == sec.item;
  }

  lemma SameItems(gs: seq<LegendSection>, r: seq<LegendSection>)
    requires |r| == |gs| && ItemsKept(gs, r)
    ensures SectionItems(r) == SectionItems(gs)
  {
  }

  /** Image sections are never merged: each one of the first `n` is kept. */
  lemma {:induction false} GroupLoopImages(next: seq<LegendSection>, n: nat)
    requires n <= |next|
    ensures forall j :: 0 <= j < n && next[j].ImageSection? ==> next[j] in GroupLoop(next, n)
  {
    if n > 0 {
      GroupLoopImages(next, n - 1);
      var gs := GroupLoop(next, n - 1);
      var r := GroupLoop(next, n);
      MergeKeepsImages(gs, next[n - 1]);
      forall j | 0 <= j < n && next[j].ImageSection? ensures next[j] in r {
        if j < n - 1 {
          var i :| 0 <= i < |gs| && gs[i] == next[j];
          assert r[i] == next[j];
        } else {
          assert r[|gs|] == next[j];
        }
      }
    }
  }

  /** One round drops no image section, and keeps an incoming one. */
  lemma MergeKeepsImages(gs: seq<LegendSection>, sec: LegendSection)
    ensures var r := MergeSection(gs, sec);
      (sec.ImageSection? ==> |r| == |gs| + 1 && r[|gs|] == sec)
      && forall i :: 0 <= i < |gs| && gs[i].ImageSection? ==> i < |r| && r[i] == gs[i]
  {
  }

  function Titles(gs: seq<LegendSection>): (r: seq<string>)
    ensures |r| == |gs| && forall i :: 0 <= i < |gs| ==> r[i] == gs[i].item.title
  {
    seq(|gs|, i requires 0 <= i < |gs| => gs[i].item.title)
  }

  /** Every title of the first `n` incoming sections is the title of one of `gs`. */
  ghost predicate TitlesCovered(next: seq<LegendSection>, n: nat, gs: seq<LegendSection>)
    requires n <= |next|
  {
    forall j :: 0 <= j < n ==> next[j].item.title in Titles(gs)
  }

  /** `r` starts with sections carrying the items of `gs`. */
  ghost predicate ItemsKept(gs: seq<LegendSection>, r: seq<LegendSection>) {
    |gs| <= |r| && forall i :: 0 <= i < |gs| ==> r[i].item == gs[i].item
  }

  /** Every title of the first `n` sections is the title of a kept section. */
  lemma {:induction false} GroupLoopTitles(next: seq<LegendSection>, n: nat)
    requires n <= |next|
    ensures TitlesCovered(next, n, GroupLoop(next, n))
  {
    if n > 0 {
      GroupLoopTitles(next, n - 1);
      TitlesRound(next, n, GroupLoop(next, n - 1));
      GroupLoopStep(next, n);
    }
  }

  /** One round keeps every title covered and covers the incoming one. */
  lemma TitlesRound(next: seq<LegendSection>, n: nat, gs: seq<LegendSection>)
    requires 0 < n <= |next|
    requires TitlesCovered(next, n - 1, gs)
    ensures TitlesCovered(next, n, MergeSection(gs, next[n - 1]))
  {
    MergeItems(gs, next[n - 1]);
    TitlesStep(next, n, gs, MergeSection(gs, next[n - 1]));
  }

  lemma TitlesStep(next: seq<LegendSection>, n: nat, gs: seq<LegendSection>, r: seq<LegendSection>)
    requires 0 < n <= |next|
    requires TitlesCovered(next, n - 1, gs)
    requires |r| > 0 && r[|r| - 1].item.title == next[n - 1].item.title
    requires ItemsKept(gs, r)
    ensures TitlesCovered(next, n, r)
  {
    forall j | 0 <= j < n ensures next[j].item.title in Titles(r) {
      if j < n - 1 {
        TitleKept(gs, r, next[j].item.title);
      } else {
        assert Titles(r)[|r| - 1] == next[j].item.title;
      }
    }
  }

  lemma TitleKept(gs: seq<LegendSection>, r: seq<LegendSection>, t: string)
    requires t in Titles(gs)
    requires ItemsKept(gs, r)
    ensures t in Titles(r)
  {
    var i :| 0 <= i < |gs| && Titles(gs)[i] == t;
    assert Titles(r)[i] == t;
  }

  /** A round keeps the items of the sections before it and ends with a
      section titled like the incoming one. */
  lemma MergeItems(gs: seq<LegendSection>, sec: LegendSection)
    ensures var r := MergeSection(gs, sec);
      |r| > 0 && r[|r| - 1].item.title == sec.item.title && ItemsKept(gs, r)
  {
    var r := MergeSection(gs, sec);
    var twin := |gs| > 0 && Twins(gs[|gs| - 1], sec);
    if twin {
      assert r[|gs| - 1].item == gs[|gs| - 1].item;
    } else {
      assert r[|gs|] == sec;
    }
    KeepsItems(gs, r, sec, twin);
  }

  /** The items before the incoming section, either way a round goes. */
  lemma KeepsItems(gs: seq<LegendSection>, r: seq<LegendSection>, sec: LegendSection, twin: bool)
    requires twin ==> (|gs| > 0 && |r| == |gs| && r[|gs| - 1].item == gs[|gs| - 1].item
      && forall i :: 0 <= i < |gs| - 1 ==> r[i] == gs[i])
    requires !twin ==> r == gs + [sec]
    ensures forall i :: 0 <= i < |gs| ==> r[i].item == gs[i].item
  {
  }

  /** The second loop of `rebuild` over all sections. */
  function GroupSections(next: seq<LegendSection>): (r: seq<LegendSection>)
    ensures NoAdjacentTwins(r)
    ensures SubsequenceOf(SectionItems(r), SectionItems(next))
    ensures |r| <= |next| && (|next| > 0 ==> |r| > 0)
    ensures forall sec :: sec in next && sec.ImageSection? ==> sec in r
    ensures forall sec :: sec in next ==> sec.item.title in Titles(r)
  {
    GroupLoopShape(next, |next|);
    GroupLoopItems(next, |next|);
    GroupLoopImages(next, |next|);
    GroupLoopTitles(next, |next|);
    assert next[..|next|] == next;
    forall sec | sec in next ensures exists j :: 0 <= j < |next| && next[j] == sec {
      var j :| 0 <= j < |next| && next[j] == sec;
    }
    GroupLoop(next, |next|)
  }

  /** Sections without twins pass the second loop unchanged. */
  lemma {:induction false} GroupLoopNoTwins(next: seq<LegendSection>, n: nat)
    requires n <= |next| && NoAdjacentTwins(next)
    ensures GroupLoop(next, n) == next[..n]
  {
    if n > 0 {
      var prev := next[..n - 1];
      GroupLoopNoTwins(next, n - 1);
      GroupLoopStep(next, n);
      if n > 1 {
        assert prev[|prev| - 1] == next[n - 2];
        assert !Twins(next[n - 2], next[n - 1]);
      }
      assert MergeSection(prev, next[n - 1]) == prev + [next[n - 1]];
      assert next[..n] == prev + [next[n - 1]];
    }
  }

  lemma GroupSectionsIdempotent(next: seq<LegendSection>)
    ensures GroupSections(GroupSections(next)) == GroupSections(next)
  {
    var r := GroupSections(next);
    GroupLoopNoTwins(r, |r|);
    assert r[..|r|] == r;
  }

  /** `rebuild` */
  function Rebuild(s: Surface, items: seq<TocStore.TocItem>, visible: map<string, bool>): (r: seq<LegendSection>)
    ensures forall sec :: sec in r ==> sec.item in items && IsVisible(visible, sec.item.id)
    ensures forall it :: it in items && IsVisible(visible, it.id) && SectionFor(s, it).Some? ==>
      it.title in Titles(r)
    ensures NoAdjacentTwins(r)
    ensures SubsequenceOf(SectionItems(r), items)
  {
    var next := RawSections(s, items, visible);
    var r := GroupSections(next);
    RawSectionsInOrder(s, items, visible);
    GroupedInOrder(next, items);
    assert forall sec :: sec in r ==> sec.item in SectionItems(r) by {
      forall sec | sec in r ensures sec.item in SectionItems(r) {
        var i :| 0 <= i < |r| && r[i] == sec;
        assert SectionItems(r)[i] == sec.item;
      }
    }
    SubsequenceMembers(SectionItems(r), SectionItems(next));
    forall sec | sec in r ensures sec.item in items && IsVisible(visible, sec.item.id) {
      assert sec.item in SectionItems(next);
      var i :| 0 <= i < |next| && SectionItems(next)[i] == sec.item;
      assert next[i] in next;
    }
    r
  }
}

=== FILE: map_setup.dfy ===
/** The setup that runs once the style is loaded and again after every style
    switch: register the configured overlays, then make sure the search marker
    layer exists. The configuration holds a registry of named overlay
    definitions, while the registration takes a single definition. */
module MapSetup {
  import opened Wrappers
  import opened MapSurface
  import RegisterOverlays
  import SearchMarker

  /** `OverlayRegistry`: named overlay definitions in insertion order. */
  type Registry = seq<(string, Overlays)>

  predicate HasKey(registry: Registry, k: string) {
    exists i :: 0 <= i < |registry| && registry[i].0 == k
  }

  const TypeErrorNoSources: string := "TypeError: Cannot convert undefined or null to object"
  const TypeErrorNoSourceType: string := "Error: The type property must be defined"

  /** `setup()` as written: the registry is passed where one definition is
      expected, so `def.sources` reads a registry entry named "sources". A
      registry without such an entry makes `Object.entries` throw at once; one
      with it hands a whole definition, which has no source `type`, to
      `addSource`, which throws too. Either way nothing is registered and the
      search marker is never ensured. */
  function SetupAsWritten(s: Surface, registry: Registry): (r: Outcome<Surface>)
    ensures r.Aborted? && r.state == s
    ensures !HasKey(registry, "sources") ==> r.error == TypeErrorNoSources
  {
    if !HasKey(registry, "sources") then Aborted(s, TypeErrorNoSources)
    else Aborted(s, TypeErrorNoSourceType)
  }

  /** The demo registry holds one definition under "waldkauz"; as written, a
      fresh style gets neither its layers nor the search marker. */
  lemma SetupAsWrittenRegistersNothing(s: Surface, def: Overlays, l: Layer)
    requires l in def.layers && !HasLayer(s, l.id) && !HasLayer(s, SearchMarker.MarkerLayerId)
    ensures var r := SetupAsWritten(s, [("waldkauz", def)]);
      r.Aborted? && !HasLayer(r.state, l.id) && !HasLayer(r.state, SearchMarker.MarkerLayerId)
  {
    assert !HasKey([("waldkauz", def)], "sources");
  }

  /** Registering every definition of the registry in order, stopping at the
      first one whose registration aborts. */
  function RegisterAll(s: Surface, registry: Registry): (r: Outcome<Surface>)
    ensures |s.layers| <= |r.state.layers| && r.state.layers[..|s.layers|] == s.layers
    ensures UniqueIds(s.layers) ==> UniqueIds(r.state.layers)
    ensures r.Completed? ==> forall i, l :: 0 <= i < |registry| && l in registry[i].1.layers ==> HasLayer(r.state, l.id)
    decreases |registry|
  {
    if |registry| == 0 then Completed(s)
    else
      var first := RegisterOverlays.RegisterOverlays(s, registry[0].1);
      if first.Aborted? then first
      else
        var rest := RegisterAll(first.state, registry[1..]);
        RegisterAllStep(registry, first.state, rest);
        rest
  }

  /** The first definition's layers survive the rest of the registrations,
      which place the remaining definitions' layers. */
  lemma RegisterAllStep(registry: Registry, mid: Surface, rest: Outcome<Surface>)
    requires |registry| > 0
    requires forall l :: l in registry[0].1.layers ==> HasLayer(mid, l.id)
    requires |mid.layers| <= |rest.state.layers| && rest.state.layers[..|mid.layers|] == mid.layers
    requires rest.Completed? ==> forall i, l :: 0 <= i < |registry[1..]| && l in registry[1..][i].1.layers ==> HasLayer(rest.state, l.id)
    ensures rest.Completed? ==> forall i, l :: 0 <= i < |registry| && l in registry[i].1.layers ==> HasLayer(rest.state, l.id)
  {
    RegisterAllKeeps(mid, registry[0].1, rest);
    forall i, l | 0 <= i < |registry| && l in registry[i].1.layers && rest.Completed?
      ensures HasLayer(rest.state, l.id)
    {
      if i > 0 { assert registry[1..][i - 1] == registry[i]; }
    }
  }

  /** Layers present before a later registration stay present. */
  lemma RegisterAllKeeps(before: Surface, def: Overlays, rest: Outcome<Surface>)
    requires |before.layers| <= |rest.state.layers| && rest.state.layers[..|before.layers|] == before.layers
    ensures forall l :: l in def.layers && HasLayer(before, l.id) ==> HasLayer(rest.state, l.id)
  {
    forall l | l in def.layers && HasLayer(before, l.id) ensures HasLayer(rest.state, l.id) {
      var j :| 0 <= j < |before.layers| && before.layers[j].id == l.id;
      assert rest.state.layers[j] == before.layers[j];
    }
  }

  /** `setup()` with each definition of the registry registered, followed by
      `ensureSearchMarkerLayer`. Setup runs on the first `load`, after
      `isStyleLoaded()`, or on `style.load`; none of these implies that
      `loaded()` holds as well, so the marker may be left to an idle handler.
      `loaded` and `styleLoaded` are the map's answers at that moment. */
  function Setup(st: SearchMarker.MarkerState, registry: Registry, loaded: bool, styleLoaded: bool): (r: Outcome<SearchMarker.MarkerState>)
    ensures r.Completed? <==> RegisterAll(st.surface, registry).Completed?
    ensures r.Completed? ==> forall i, l :: 0 <= i < |registry| && l in registry[i].1.layers ==> HasLayer(r.state.surface, l.id)
    ensures r.Completed? && SearchMarker.IsStyleReady(loaded, styleLoaded) ==>
      HasLayer(r.state.surface, SearchMarker.MarkerLayerId) && r.state.pendingIdle == st.pendingIdle
    ensures r.Completed? && !SearchMarker.IsStyleReady(loaded, styleLoaded) ==>
      r.state.surface == RegisterAll(st.surface, registry).state && r.state.pendingIdle == st.pendingIdle + 1
    ensures r.Aborted? ==> r.state.pendingIdle == st.pendingIdle
  {
    var reg := RegisterAll(st.surface, registry);
    if reg.Aborted? then Aborted(st.(surface := reg.state), reg.error)
    else
      MarkerKeepsLayers(reg.state);
      Completed(SearchMarker.EnsureSearchMarkerLayer(st.(surface := reg.state), loaded, styleLoaded))
  }

  /** Whether the marker was added at once or deferred, the next idle event
      with a ready style leaves it on the map, next to every definition's
      layers, and no handler pending. */
  lemma SetupThenIdle(st: SearchMarker.MarkerState, registry: Registry, loaded: bool, styleLoaded: bool)
    requires Setup(st, registry, loaded, styleLoaded).Completed?
    ensures var r := SearchMarker.FireIdle(Setup(st, registry, loaded, styleLoaded).state, true, true);
      && HasLayer(r.surface, SearchMarker.MarkerLayerId) && r.pendingIdle == 0
      && forall i, l :: 0 <= i < |registry| && l in registry[i].1.layers ==> HasLayer(r.surface, l.id)
  {
    var mid := Setup(st, registry, loaded, styleLoaded).state;
    var reg := RegisterAll(st.surface, registry).state;
    if mid.pendingIdle > 0 {
      SearchMarker.FireIdleActsOnce(mid, true, true);
      MarkerKeepsLayers(mid.surface);
    } else {
      assert SearchMarker.FireIdle(mid, true, true).surface == mid.surface;
    }
  }

  /** Ensuring the marker never removes a layer. */
  lemma MarkerKeepsLayers(s: Surface)
    ensures forall id :: HasLayer(s, id) ==> HasLayer(SearchMarker.EnsureNow(s), id)
  {
    var r := SearchMarker.EnsureNow(s);
    forall id | HasLayer(s, id) ensures HasLayer(r, id) {
      var j :| 0 <= j < |s.layers| && s.layers[j].id == id;
      assert r.layers[j] == s.layers[j];
    }
  }

  /** For the demo registry the corrected setup registers the definition's
      layers whenever registering that definition alone completes, and the
      marker is on the map at once or after the next ready idle event. */
  lemma SetupRegistersDemo(st: SearchMarker.MarkerState, def: Overlays, loaded: bool, styleLoaded: bool)
    requires RegisterOverlays.RegisterOverlays(st.surface, def).Completed?
    ensures var r := Setup(st, [("waldkauz", def)], loaded, styleLoaded);
      && r.Completed? && (forall l :: l in def.layers ==> HasLayer(r.state.surface, l.id))
      && (SearchMarker.IsStyleReady(loaded, styleLoaded) ==> HasLayer(r.state.surface, SearchMarker.MarkerLayerId))
      && HasLayer(SearchMarker.FireIdle(r.state, true, true).surface, SearchMarker.MarkerLayerId)
  {
    var registry := [("waldkauz", def)];
    var first := RegisterOverlays.RegisterOverlays(st.surface, def);
    assert registry[1..] == [];
    assert RegisterAll(st.surface, registry) == RegisterAll(first.state, []);
    assert registry[0].1 == def;
    SetupThenIdle(st, registry, loaded, styleLoaded);
  }
}

=== FILE: maplibre_core.dfy ===
/** The map hook's style handling: adding the overlay style with per-layer
    error tolerance, dimming the basemap's own layers, and the restore sequence
    run when the style is (re)loaded. */
module MapLibreCore {
  import opened Wrappers
  import opened Strings
  import opened Js
  import opened Seqs
  import opened MapSurface
  import LayerOrder

  /** Id prefixes of the layers the client itself adds. */
  const AppLayerPrefixes: seq<string> := ["waldkauz-", "wms-", "draw-", "search-marker"]

  /** `isAppLayer(id)` */
  function IsAppLayer(id: string): (b: bool)
    ensures b <==> StartsWith(id, "waldkauz-") || StartsWith(id, "wms-")
                   || StartsWith(id, "draw-") || StartsWith(id, "search-marker")
  {
    var b := AnyPrefix(id, AppLayerPrefixes);
    assert StartsWith(id, "waldkauz-") ==> StartsWith(id, AppLayerPrefixes[0]);
    assert StartsWith(id, "wms-") ==> StartsWith(id, AppLayerPrefixes[1]);
    assert StartsWith(id, "draw-") ==> StartsWith(id, AppLayerPrefixes[2]);
    assert StartsWith(id, "search-marker") ==> StartsWith(id, AppLayerPrefixes[3]);
    b
  }

  /** `Math.min` / `Math.max` on numbers: NaN if either argument is NaN. */
  function MathMin(a: Num, b: Num): Num {
    if a.NaN? || b.NaN? then NaN
    else if a.NegInf? || b.NegInf? then NegInf
    else if a.PosInf? then b
    else if b.PosInf? then a
    else if a.r <= b.r then a else b
  }

  function MathMax(a: Num, b: Num): Num {
    if a.NaN? || b.NaN? then NaN
    else if a.PosInf? || b.PosInf? then PosInf
    else if a.NegInf? then b
    else if b.NegInf? then a
    else if a.r >= b.r then a else b
  }

  /** `Math.max(0, Math.min(1, v))`: clamps into [0, 1] but lets NaN through. */
  function Clamp01(v: Num): (r: Num)
    ensures v.NaN? <==> r.NaN?
    ensures !v.NaN? ==> r.Finite? && 0.0 <= r.r <= 1.0
    ensures v.Finite? && 0.0 <= v.r <= 1.0 ==> r == v
    ensures v.PosInf? || (v.Finite? && v.r > 1.0) ==> r == Finite(1.0)
    ensures v.NegInf? || (v.Finite? && v.r < 0.0) ==> r == Finite(0.0)
  {
    MathMax(Finite(0.0), MathMin(Finite(1.0), v))
  }

  /** The overlay layer with `metadata.geoRole = "overlay"` merged into its metadata. */
  function TagOverlay(l: Layer): (r: Layer)
    ensures r.id == l.id && r.kind == l.kind && r.source == l.source
    ensures r.paint == l.paint && r.layout == l.layout
    ensures IsOverlayTagged(r)
    ensures forall k :: k in l.metadata && k != "geoRole" ==> k in r.metadata && r.metadata[k] == l.metadata[k]
  {
    l.(metadata := l.metadata["geoRole" := JStr("overlay")])
  }

  predicate IsOverlayTagged(l: Layer) {
    "geoRole" in l.metadata && l.metadata["geoRole"] == JStr("overlay")
  }

  function Tagged(ls: seq<Layer>): (r: seq<Layer>)
    ensures |r| == |ls| && forall i :: 0 <= i < |ls| ==> r[i] == TagOverlay(ls[i])
  {
    seq(|ls|, i requires 0 <= i < |ls| => TagOverlay(ls[i]))
  }

  /** The layer loop of `applyOverlays`: missing layers are added tagged as
      overlays; a layer MapLibre refuses is logged and skipped, and the loop
      goes on with the next one. */
  function AddLayersCatching(s: Surface, ls: seq<Layer>): (r: Surface)
    ensures r.sources == s.sources
    ensures |s.layers| <= |r.layers| && r.layers[..|s.layers|] == s.layers
    ensures SubsequenceOf(r.layers[|s.layers|..], Tagged(ls))
    decreases |ls|
  {
    if |ls| == 0 then
      assert s.layers[|s.layers|..] == [];
      SubsequenceOfEmpty(Tagged(ls));
      s
    else
      var l := ls[0];
      assert Tagged(ls)[1..] == Tagged(ls[1..]);
      var next := if HasLayer(s, l.id) then None else AddLayer(s, TagOverlay(l));
      match next
      case None =>
        var r := AddLayersCatching(s, ls[1..]);
        SubsequenceSkip(r.layers[|s.layers|..], Tagged(ls));
        r
      case Some(s1) =>
        var r := AddLayersCatching(s1, ls[1..]);
        assert r.layers[..|s.layers|] == s.layers by {
          assert r.layers[..|s1.layers|][..|s.layers|] == s1.layers[..|s.layers|];
        }
        assert r.layers[|s.layers|..] == [TagOverlay(l)] + r.layers[|s1.layers|..] by {
          assert r.layers[|s.layers|] == s1.layers[|s.layers|];
        }
        assert r.layers[|s.layers|..][1..] == r.layers[|s1.layers|..];
        r
  }

  lemma {:induction false} AddLayersCatchingFacts(s: Surface, ls: seq<Layer>)
    ensures UniqueIds(s.layers) ==> UniqueIds(AddLayersCatching(s, ls).layers)
    ensures forall i :: 0 <= i < |ls| && SourceAvailable(s, ls[i]) ==> HasLayer(AddLayersCatching(s, ls), ls[i].id)
    decreases |ls|
  {
    if |ls| > 0 {
      var l := ls[0];
      var r := AddLayersCatching(s, ls);
      if HasLayer(s, l.id) || !SourceAvailable(s, TagOverlay(l)) {
        AddLayersCatchingFacts(s, ls[1..]);
        if HasLayer(s, l.id) { ExistingStay(s.layers, r.layers); IdAt(s.layers, l.id); }
      } else {
        var s1 := AddLayer(s, TagOverlay(l)).value;
        AddLayerKeepsUnique(s, TagOverlay(l));
        AddLayersCatchingFacts(s1, ls[1..]);
        assert s1.layers[|s.layers|].id == l.id;
        ExistingStay(s1.layers, r.layers);
        forall i | 0 <= i < |ls| && SourceAvailable(s, ls[i]) ensures HasLayer(r, ls[i].id) {
          if i > 0 { assert ls[1..][i - 1] == ls[i]; }
        }
      }
    }
  }

  lemma IdAt(layers: seq<Layer>, id: string)
    requires id in Ids(layers)
    ensures exists i :: 0 <= i < |layers| && layers[i].id == id
  {
    var i :| 0 <= i < |layers| && Ids(layers)[i] == id;
  }

  lemma SubsequenceOfEmpty<T>(b: seq<T>)
    ensures SubsequenceOf([], b)
  {
  }

  lemma ExistingStay(a: seq<Layer>, b: seq<Layer>)
    requires |a| <= |b| && b[..|a|] == a
    ensures forall i :: 0 <= i < |a| ==> a[i].id in Ids(b)
  {
    forall i | 0 <= i < |a| ensures a[i].id in Ids(b) {
      assert Ids(b)[i] == a[i].id;
    }
  }

  /** `applyOverlays(map, overlays)` of the map hook */
  function ApplyOverlays(s: Surface, o: Overlays): (r: Surface)
    ensures forall k :: k in s.sources ==> k in r.sources && r.sources[k] == s.sources[k]
    ensures forall k :: k in o.sources ==> k in r.sources
    ensures |s.layers| <= |r.layers| && r.layers[..|s.layers|] == s.layers
    ensures forall j :: |s.layers| <= j < |r.layers| ==> IsOverlayTagged(r.layers[j])
    ensures UniqueIds(s.layers) ==> UniqueIds(r.layers)
  {
    var u := AddMissingSources(s, o.sources);
    var r := AddLayersCatching(u, o.layers);
    AddLayersCatchingFacts(u, o.layers);
    forall j | |s.layers| <= j < |r.layers| ensures IsOverlayTagged(r.layers[j]) {
      SubsequenceMembers(r.layers[|s.layers|..], Tagged(o.layers));
      assert r.layers[|s.layers|..][j - |s.layers|] == r.layers[j];
      assert r.layers[j] in Tagged(o.layers);
    }
    r
  }

  /** A layer whose source can be found ends up on the map even when other
      overlay layers are refused. */
  lemma ApplyOverlaysTolerates(s: Surface, o: Overlays, l: Layer)
    requires l in o.layers
    requires l.source.None? || l.source.value in o.sources || l.source.value in s.sources
    ensures HasLayer(ApplyOverlays(s, o), l.id)
  {
    var u := AddMissingSources(s, o.sources);
    var i :| 0 <= i < |o.layers| && o.layers[i] == l;
    assert SourceAvailable(u, o.layers[i]);
    AddLayersCatchingFacts(u, o.layers);
  }

  /** Applying the overlays a second time adds nothing. */
  lemma ApplyOverlaysIdempotent(s: Surface, o: Overlays)
    ensures ApplyOverlays(ApplyOverlays(s, o), o) == ApplyOverlays(s, o)
  {
    var u := AddMissingSources(s, o.sources);
    var r := AddLayersCatching(u, o.layers);
    var r2 := AddLayersCatching(AddMissingSources(r, o.sources), o.layers);
    assert AddMissingSources(r, o.sources) == r;
    AddLayersCatchingFacts(u, o.layers);
    AddLayersCatchingNoop(r, o.layers, u);
  }

  lemma {:induction false} AddLayersCatchingNoop(s: Surface, ls: seq<Layer>, u: Surface)
    requires s.sources == u.sources
    requires forall i :: 0 <= i < |ls| && SourceAvailable(u, ls[i]) ==> HasLayer(s, ls[i].id)
    ensures AddLayersCatching(s, ls) == s
    decreases |ls|
  {
    if |ls| > 0 {
      AddLayersCatchingNoop(s, ls[1..], u);
    }
  }

  /** Paint properties that carry a layer's opacity when the basemap is dimmed. */
  function BasemapOpacityProps(kind: LayerType): seq<string> {
    match kind
    case Symbol => ["icon-opacity", "text-opacity"]
    case Fill => ["fill-opacity"]
    case Line => ["line-opacity"]
    case Circle => ["circle-opacity"]
    case Raster => ["raster-opacity"]
    case Background => ["background-opacity"]
    case _ => []
  }

  /** A layer of the basemap style proper: neither tagged as overlay, nor named
      in the overlay style, nor one of the client's own. */
  predicate IsBasemapLayer(l: Layer, overlayIds: set<string>) {
    !IsOverlayTagged(l) && l.id !in overlayIds && !IsAppLayer(l.id)
  }

  function SetPaints(paint: map<string, Json>, props: seq<string>, v: Json): (r: map<string, Json>)
    ensures forall k :: k in props ==> k in r && r[k] == v
    ensures forall k :: k !in props ==> (k in r <==> k in paint)
    ensures forall k :: k !in props && k in paint ==> r[k] == paint[k]
    decreases |props|
  {
    if |props| == 0 then paint else SetPaints(paint[props[0] := v], props[1..], v)
  }

  function Dim(l: Layer, overlayIds: set<string>, o: Num): Layer {
    if IsBasemapLayer(l, overlayIds) then l.(paint := SetPaints(l.paint, BasemapOpacityProps(l.kind), JNum(o)))
    else l
  }

  /** `applyBasemapOpacity(map, overlays, opacity)` */
  function ApplyBasemapOpacity(s: Surface, o: Overlays, opacity: Num): (r: Surface)
    ensures r.sources == s.sources && |r.layers| == |s.layers|
    ensures forall i :: 0 <= i < |s.layers| ==>
      var (a, b) := (s.layers[i], r.layers[i]);
      b.id == a.id && b.kind == a.kind && b.source == a.source
      && b.metadata == a.metadata && b.layout == a.layout
    ensures forall i :: 0 <= i < |s.layers| && !IsBasemapLayer(s.layers[i], OverlayIds(o)) ==>
      r.layers[i] == s.layers[i]
    ensures forall i :: 0 <= i < |s.layers| && IsBasemapLayer(s.layers[i], OverlayIds(o)) ==>
      (forall k :: k in BasemapOpacityProps(s.layers[i].kind) ==>
        k in r.layers[i].paint && r.layers[i].paint[k] == JNum(Clamp01(opacity)))
      && (forall k :: k !in BasemapOpacityProps(s.layers[i].kind) ==>
        (k in r.layers[i].paint <==> k in s.layers[i].paint)
        && (k in s.layers[i].paint ==> r.layers[i].paint[k] == s.layers[i].paint[k]))
  {
    var ids := OverlayIds(o);
    var c := Clamp01(opacity);
    s.(layers := seq(|s.layers|, i requires 0 <= i < |s.layers| => Dim(s.layers[i], ids, c)))
  }

  function OverlayIds(o: Overlays): set<string> {
    set i | 0 <= i < |o.layers| :: o.layers[i].id
  }

  /** A later opacity replaces an earlier one instead of compounding with it. */
  lemma BasemapOpacityLastWins(s: Surface, o: Overlays, x: Num, y: Num)
    ensures ApplyBasemapOpacity(ApplyBasemapOpacity(s, o, x), o, y) == ApplyBasemapOpacity(s, o, y)
  {
    var ids := OverlayIds(o);
    var a := ApplyBasemapOpacity(s, o, x);
    var b := ApplyBasemapOpacity(a, o, y);
    var c := ApplyBasemapOpacity(s, o, y);
    forall i | 0 <= i < |s.layers| ensures b.layers[i] == c.layers[i] {
      assert a.layers[i] == Dim(s.layers[i], ids, Clamp01(x));
      assert b.layers[i] == Dim(a.layers[i], ids, Clamp01(y));
      assert c.layers[i] == Dim(s.layers[i], ids, Clamp01(y));
      DimTwice(s.layers[i], ids, Clamp01(x), Clamp01(y));
    }
  }

  /** Dimming a layer twice leaves the second opacity. */
  lemma DimTwice(l: Layer, ids: set<string>, u: Num, v: Num)
    ensures Dim(Dim(l, ids, u), ids, v) == Dim(l, ids, v)
  {
    if IsBasemapLayer(l, ids) {
      SetPaintsTwice(l.paint, BasemapOpacityProps(l.kind), JNum(u), JNum(v));
    }
  }

  lemma SetPaintsTwice(paint: map<string, Json>, props: seq<string>, u: Json, v: Json)
    ensures SetPaints(SetPaints(paint, props, u), props, v) == SetPaints(paint, props, v)
  {
    var p1 := SetPaints(SetPaints(paint, props, u), props, v);
    var p2 := SetPaints(paint, props, v);
    forall k ensures (k in p1 <==> k in p2) && (k in p1 ==> p1[k] == p2[k]) {
      if k in props {
        assert p1[k] == v == p2[k];
      } else {
        var p0 := SetPaints(paint, props, u);
        assert (k in p1 <==> k in p0) && (k in p0 <==> k in paint);
      }
    }
  }

  /** What one run of the restore sequence did: the map, and the custom events fired. */
  datatype Restore = Restore(surface: Surface, events: seq<string>)

  /** `restoreLayers` as intended: overlays, the restore event, the client's layers
      moved on top, the basemap dimmed, then the ready event. */
  function RestoreLayers(s: Surface, overlays: Option<Overlays>, opacity: Num): (r: Restore)
    ensures overlays.None? ==> r == Restore(s, [])
    ensures overlays.Some? ==> r.events == ["app.style.restore_dynamic", "app.style.ready"]
    ensures overlays.Some? && UniqueIds(s.layers) ==>
      var applied := ApplyOverlays(s, overlays.value);
      Ids(r.surface.layers) == Ids(LayerOrder.Restacked(applied.layers, AppLayerPrefixes))
    ensures overlays.Some? ==> ApplyBasemapOpacity(r.surface, overlays.value, opacity) == r.surface
    ensures overlays.Some? ==> forall i :: 0 <= i < |r.surface.layers| && IsBasemapLayer(r.surface.layers[i], OverlayIds(overlays.value)) ==>
      forall k :: k in BasemapOpacityProps(r.surface.layers[i].kind) ==>
        k in r.surface.layers[i].paint && r.surface.layers[i].paint[k] == JNum(Clamp01(opacity))
  {
    match overlays
    case None => Restore(s, [])
    case Some(o) =>
      var applied := ApplyOverlays(s, o);
      var moved := LayerOrder.MoveCustomLayersToTopOrdered(applied, AppLayerPrefixes);
      var dimmed := ApplyBasemapOpacity(moved, o, opacity);
      RestackAfterApply(s, o);
      assert Ids(dimmed.layers) == Ids(moved.layers);
      BasemapOpacityLastWins(moved, o, opacity, opacity);
      DimmedPaints(moved, o, opacity);
      Restore(dimmed, ["app.style.restore_dynamic", "app.style.ready"])
  }

  /** Every basemap layer of a dimmed stack carries the clamped opacity. */
  lemma DimmedPaints(s: Surface, o: Overlays, opacity: Num)
    ensures var d := ApplyBasemapOpacity(s, o, opacity);
      forall i :: 0 <= i < |d.layers| && IsBasemapLayer(d.layers[i], OverlayIds(o)) ==>
        forall k :: k in BasemapOpacityProps(d.layers[i].kind) ==>
          k in d.layers[i].paint && d.layers[i].paint[k] == JNum(Clamp01(opacity))
  {
    var d := ApplyBasemapOpacity(s, o, opacity);
    forall i | 0 <= i < |d.layers| && IsBasemapLayer(d.layers[i], OverlayIds(o))
      ensures IsBasemapLayer(s.layers[i], OverlayIds(o))
    {
      assert d.layers[i].id == s.layers[i].id && d.layers[i].metadata == s.layers[i].metadata;
    }
  }

  lemma RestackAfterApply(s: Surface, o: Overlays)
    ensures UniqueIds(s.layers) ==>
      var applied := ApplyOverlays(s, o);
      LayerOrder.MoveCustomLayersToTopOrdered(applied, AppLayerPrefixes).layers
        == LayerOrder.Restacked(applied.layers, AppLayerPrefixes)
  {
    if UniqueIds(s.layers) {
      LayerOrder.MoveCustomLayersToTopStack(ApplyOverlays(s, o), AppLayerPrefixes);
    }
  }

  /** `restoreLayers` as written: the re-ordering step calls `reorderAppLayers`,
      which the layer-order module does not export, so the call throws after
      the overlays were added and the restore event was fired. */
  function RestoreLayersAsWritten(s: Surface, overlays: Option<Overlays>, opacity: Num): (r: Outcome<Restore>)
  {
    match overlays
    case None => Completed(Restore(s, []))
    case Some(o) =>
      Aborted(Restore(ApplyOverlays(s, o), ["app.style.restore_dynamic"]), "reorderAppLayers is not a function")
  }

  /** As written, a style load with overlays never reaches the dimming step nor
      the ready event the WMS layer waits for. */
  lemma RestoreAsWrittenNeverReady(s: Surface, o: Overlays, opacity: Num)
    ensures var r := RestoreLayersAsWritten(s, Some(o), opacity);
      r.Aborted? && "app.style.ready" !in r.state.events
      && r.state.surface == ApplyOverlays(s, o)
  {
  }
}

=== FILE: popup.dfy ===
/** The click popup: the features the map reports under the pointer, reduced
    to one per identity and grouped by the layer that drew them. */
module Popup {
  import opened Wrappers
  import opened Js
  import opened Strings
  import opened Seqs
  import opened MapSurface

  /** The geometry of a reported feature: its GeoJSON type and, as an opaque
      string, `JSON.stringify` of its coordinates. */
  datatype HitGeometry = HitGeometry(kind: string, fingerprint: string)

  /** A feature as `queryRenderedFeatures` reports it. `None` stands for a
      missing (or non-string) field; the properties keep `Object.keys` order. */
  datatype Hit = Hit(
    layerId: Option<string>,
    source: Option<string>,
    sourceLayer: Option<string>,
    id: Option<Json>,
    properties: seq<(string, Json)>,
    geometry: Option<HitGeometry>)

  /** `props[k]`, `None` for `undefined`. */
  function Lookup(props: seq<(string, Json)>, k: string): (r: Option<Json>)
    ensures r.None? <==> forall i :: 0 <= i < |props| ==> props[i].0 != k
    ensures r.Some? ==> exists i :: 0 <= i < |props| && props[i] == (k, r.value)
  {
    if |props| == 0 then None
    else if props[0].0 == k then Some(props[0].1)
    else
      var r := Lookup(props[1..], k);
      assert forall i :: 1 <= i < |props| ==> props[i] == props[1..][i - 1];
      assert r.Some? ==> exists i :: 0 <= i < |props| && props[i] == (k, r.value) by {
        if r.Some? {
          var i :| 0 <= i < |props[1..]| && props[1..][i] == (k, r.value);
          assert props[i + 1] == (k, r.value);
        }
      }
      r
  }

  /** A property value `pickStableId` accepts: a string that is not blank
      after trimming, or a finite number. */
  predicate Usable(v: Option<Json>) {
    v.Some? && ((v.value.JStr? && !IsBlank(v.value.s)) || (v.value.JNum? && v.value.n.Finite?))
  }

  /** The accepted value as text: the string itself (untrimmed) or
      `String(number)`. */
  function IdText(v: Json): string {
    match v
    case JStr(s) => s
    case JNum(n) => NumText(n)
    case _ => ""
  }

  const StableIdKeys: seq<string> := ["id", "fid", "objectid", "OBJECTID", "uuid", "gid"]

  /** `keys[i]` is the first name whose value is usable. */
  predicate FirstUsableAt(props: seq<(string, Json)>, keys: seq<string>, i: int) {
    0 <= i < |keys| && Usable(Lookup(props, keys[i]))
    && forall j :: 0 <= j < i ==> !Usable(Lookup(props, keys[j]))
  }

  function PickFrom(props: seq<(string, Json)>, keys: seq<string>): (r: Option<string>)
    ensures r.None? <==> forall i :: 0 <= i < |keys| ==> !Usable(Lookup(props, keys[i]))
    ensures r.Some? ==> exists i :: FirstUsableAt(props, keys, i) && r.value == IdText(Lookup(props, keys[i]).value)
  {
    if |keys| == 0 then None
    else
      var v := Lookup(props, keys[0]);
      if Usable(v) then Some(IdText(v.value))
      else
        var r := PickFrom(props, keys[1..]);
        PickFromTail(props, keys, r);
        r
  }

  /** What the later keys give is what all keys give once the first key is
      not usable. */
  lemma PickFromTail(props: seq<(string, Json)>, keys: seq<string>, r: Option<string>)
    requires |keys| > 0 && !Usable(Lookup(props, keys[0]))
    requires r.None? <==> forall i :: 0 <= i < |keys[1..]| ==> !Usable(Lookup(props, keys[1..][i]))
    requires r.Some? ==> exists i :: FirstUsableAt(props, keys[1..], i) && r.value == IdText(Lookup(props, keys[1..][i]).value)
    ensures r.None? <==> forall i :: 0 <= i < |keys| ==> !Usable(Lookup(props, keys[i]))
    ensures r.Some? ==> exists i :: FirstUsableAt(props, keys, i) && r.value == IdText(Lookup(props, keys[i]).value)
  {
    assert forall i :: 1 <= i < |keys| ==> keys[i] == keys[1..][i - 1];
    if r.Some? {
      var i :| FirstUsableAt(props, keys[1..], i) && r.value == IdText(Lookup(props, keys[1..][i]).value);
      assert FirstUsableAt(props, keys, i + 1);
    }
  }

  /** `pickStableId`: the first usable value among the identifying property
      names, in their fixed order. */
  function PickStableId(props: seq<(string, Json)>): (r: Option<string>)
    ensures r.None? <==> forall i :: 0 <= i < |StableIdKeys| ==> !Usable(Lookup(props, StableIdKeys[i]))
    ensures r.Some? ==> exists i :: FirstUsableAt(props, StableIdKeys, i) && r.value == IdText(Lookup(props, StableIdKeys[i]).value)
  {
    PickFrom(props, StableIdKeys)
  }

  /** `String(f.id)` when the feature id is a string or a number. */
  function ExplicitId(f: Hit): (r: Option<string>)
    ensures r.Some? <==> f.id.Some? && (f.id.value.JStr? || f.id.value.JNum?)
  {
    match f.id
    case Some(JStr(s)) => Some(s)
    case Some(JNum(n)) => Some(NumText(n))
    case _ => None
  }

  function PropertyNames(props: seq<(string, Json)>): (r: seq<string>)
    ensures |r| == |props| && forall i :: 0 <= i < |props| ==> r[i] == props[i].0
  {
    seq(|props|, i requires 0 <= i < |props| => props[i].0)
  }

  /** `Object.keys(props).slice(0, 3).sort().join(",")` after the geometry
      type (or "geom"). */
  function ShapeFallback(f: Hit): string {
    var names := PropertyNames(f.properties);
    var first := if |names| <= 3 then names else names[..3];
    (match f.geometry case Some(g) => g.kind case None => "geom") + ":" + Join(SortStrings(first), ",")
  }

  /** `featureKey`: source, source layer and an identity, joined by "::". */
  function FeatureKey(f: Hit): (r: string)
    ensures var prefix := f.source.GetOr("unknown-source") + "::" + f.sourceLayer.GetOr("unknown-sourcelayer") + "::";
      && StartsWith(r, prefix)
      && (ExplicitId(f).Some? ==> r == prefix + ExplicitId(f).value)
      && (ExplicitId(f).None? && PickStableId(f.properties).Some? ==> r == prefix + PickStableId(f.properties).value)
      && (ExplicitId(f).None? && PickStableId(f.properties).None? ==> r == prefix + ShapeFallback(f))
  {
    var prefix := f.source.GetOr("unknown-source") + "::" + f.sourceLayer.GetOr("unknown-sourcelayer") + "::";
    var x := match ExplicitId(f)
      case Some(e) => e
      case None => (match PickStableId(f.properties) case Some(p) => p case None => ShapeFallback(f));
    assert (prefix + x)[..|prefix|] == prefix;
    prefix + x
  }

  /** Two features from the same source and source layer whose explicit
      string ids differ never share a key. */
  lemma ExplicitIdsSeparate(f: Hit, g: Hit)
    requires f.source == g.source && f.sourceLayer == g.sourceLayer
    requires f.id.Some? && f.id.value.JStr? && g.id.Some? && g.id.value.JStr?
    requires f.id != g.id
    ensures FeatureKey(f) != FeatureKey(g)
  {
    var prefix := f.source.GetOr("unknown-source") + "::" + f.sourceLayer.GetOr("unknown-sourcelayer") + "::";
    assert FeatureKey(f)[|prefix|..] == f.id.value.s;
    assert FeatureKey(g)[|prefix|..] == g.id.value.s;
  }

  /** `dedupe`: the first feature of every key, in order. */
  function Dedupe(fs: seq<Hit>): (r: seq<Hit>)
    ensures r == FirstOccurrences(fs, FeatureKey)
    ensures Distinct(Keys(r, FeatureKey))
    ensures KeySet(r, FeatureKey) == KeySet(fs, FeatureKey)
    ensures SubsequenceOf(r, fs)
  {
    DedupeByKeys(fs, FeatureKey);
    DedupeBySubsequence(fs, FeatureKey);
    DedupeBy(fs, FeatureKey)
  }

  lemma DedupeIdempotent(fs: seq<Hit>)
    ensures Dedupe(Dedupe(fs)) == Dedupe(fs)
  {
    DedupeByIdempotent(fs, FeatureKey);
  }

  // ---------------------------------------------------------------------
  // Grouping by layer

  datatype PopupGroup = PopupGroup(layerId: string, features: seq<Hit>)

  /** `f.layer?.id ?? "unknown-layer"` */
  function LayerKey(f: Hit): string {
    f.layerId.GetOr("unknown-layer")
  }

  function GroupIds(gs: seq<PopupGroup>): (r: seq<string>)
    ensures |r| == |gs| && forall i :: 0 <= i < |gs| ==> r[i] == gs[i].layerId
  {
    seq(|gs|, i requires 0 <= i < |gs| => gs[i].layerId)
  }

  /** The features of layer `k`, in order. */
  function InLayer(fs: seq<Hit>, k: string): seq<Hit> {
    Filter(fs, f => LayerKey(f) == k)
  }

  /** The layers in order of first appearance. */
  function LayerOrder(fs: seq<Hit>): seq<string> {
    Keys(DedupeBy(fs, LayerKey), LayerKey)
  }

  /** Reference definition: one group per layer, in order of first
      appearance, holding that layer's features in order. */
  function Grouped(fs: seq<Hit>): (r: seq<PopupGroup>)
    ensures GroupIds(r) == LayerOrder(fs)
  {
    var ks := LayerOrder(fs);
    seq(|ks|, i requires 0 <= i < |ks| => PopupGroup(ks[i], InLayer(fs, ks[i])))
  }

  /** The index of the group for `k`, if there is one. */
  function FindGroup(gs: seq<PopupGroup>, k: string): (r: Option<nat>)
    ensures r.None? <==> k !in GroupIds(gs)
    ensures r.Some? ==> (r.value < |gs| && gs[r.value].layerId == k
                         && forall j :: 0 <= j < r.value ==> gs[j].layerId != k)
  {
    if |gs| == 0 then None
    else if gs[0].layerId == k then Some(0)
    else
      match FindGroup(gs[1..], k)
      case None => GroupIdsCons(gs); None
      case Some(i) => Some(i + 1)
  }

  lemma GroupIdsCons(gs: seq<PopupGroup>)
    requires |gs| > 0
    ensures GroupIds(gs) == [gs[0].layerId] + GroupIds(gs[1..])
  {
  }

  /** One round of the loop: `arr.push(f)` into the layer's existing group,
      or `m.set(layerId, [f])` for a new layer, which `Map` keeps last in its
      iteration order. */
  function AddToGroups(gs: seq<PopupGroup>, f: Hit): (r: seq<PopupGroup>)
    ensures LayerKey(f) in GroupIds(gs) ==> GroupIds(r) == GroupIds(gs)
    ensures LayerKey(f) !in GroupIds(gs) ==> GroupIds(r) == GroupIds(gs) + [LayerKey(f)]
  {
    match FindGroup(gs, LayerKey(f))
    case Some(i) =>
      var r := gs[i := gs[i].(features := gs[i].features + [f])];
      assert GroupIds(r) == GroupIds(gs);
      r
    case None =>
      var r := gs + [PopupGroup(LayerKey(f), [f])];
      assert GroupIds(r) == GroupIds(gs) + [LayerKey(f)];
      r
  }

  function GroupLoop(fs: seq<Hit>, n: nat): seq<PopupGroup>
    requires n <= |fs|
  {
    if n == 0 then [] else AddToGroups(GroupLoop(fs, n - 1), fs[n - 1])
  }

  /** `groupByLayer` */
  function GroupByLayer(fs: seq<Hit>): (r: seq<PopupGroup>)
    ensures r == Grouped(fs)
  {
    GroupLoopIsGrouped(fs, |fs|);
    assert fs[..|fs|] == fs;
    GroupLoop(fs, |fs|)
  }

  /** A layer that no feature has gets no feature. */
  lemma InLayerAbsent(fs: seq<Hit>, k: string)
    requires k !in KeySet(fs, LayerKey)
    ensures InLayer(fs, k) == []
  {
    forall f | f in fs ensures LayerKey(f) != k {
      var i :| 0 <= i < |fs| && fs[i] == f;
      assert LayerKey(fs[i]) in KeySet(fs, LayerKey);
    }
    InLayerNone(fs, k);
  }

  lemma {:induction false} InLayerNone(fs: seq<Hit>, k: string)
    requires forall f :: f in fs ==> LayerKey(f) != k
    ensures InLayer(fs, k) == []
  {
    if |fs| > 0 {
      assert fs[0] in fs;
      assert forall f :: f in fs[1..] ==> f in fs;
      InLayerNone(fs[1..], k);
    }
  }

  lemma LayerOrderStep(xs: seq<Hit>, x: Hit)
    ensures LayerKey(x) in LayerOrder(xs) ==> LayerOrder(xs + [x]) == LayerOrder(xs)
    ensures LayerKey(x) !in LayerOrder(xs) ==> LayerOrder(xs + [x]) == LayerOrder(xs) + [LayerKey(x)]
  {
    var p := DedupeBy(xs, LayerKey);
    DedupeAppend(xs, x);
    LayerKeyListed(p, LayerKey(x));
    KeysAppend(p, x);
  }

  /** The first-per-layer pass over one more hit keeps it exactly when its
      layer is new. */
  lemma DedupeAppend(xs: seq<Hit>, x: Hit)
    ensures var p := DedupeBy(xs, LayerKey);
      DedupeBy(xs + [x], LayerKey) == if LayerKey(x) in KeySet(p, LayerKey) then p else p + [x]
  {
    var ys := xs + [x];
    assert ys[..|xs|] == xs;
    FirstsUpToPrefix(ys, xs, LayerKey, |xs|);
    FirstsUpToStep(ys, LayerKey, |xs|);
    assert xs[..|xs|] == xs;
  }

  lemma LayerKeyListed(p: seq<Hit>, k: string)
    ensures k in KeySet(p, LayerKey) <==> k in Keys(p, LayerKey)
  {
    if k in KeySet(p, LayerKey) {
      var i :| 0 <= i < |p| && LayerKey(p[i]) == k;
      assert Keys(p, LayerKey)[i] == k;
    }
  }

  lemma KeysAppend(p: seq<Hit>, x: Hit)
    ensures Keys(p + [x], LayerKey) == Keys(p, LayerKey) + [LayerKey(x)]
  {
  }

  /** The features of one layer after appending `x`. */
  lemma InLayerAppend(xs: seq<Hit>, x: Hit, k: string)
    ensures InLayer(xs + [x], k) == InLayer(xs, k) + (if LayerKey(x) == k then [x] else [])
  {
    FilterConcat(xs, [x], f => LayerKey(f) == k);
    assert [x][1..] == [];
  }

  /** One round of the loop turns the reference grouping of `xs` into that
      of `xs + [x]`, group by group. */
  lemma GroupedStepAt(xs: seq<Hit>, x: Hit, j: nat)
    requires j < |Grouped(xs + [x])|
    ensures j < |AddToGroups(Grouped(xs), x)|
    ensures AddToGroups(Grouped(xs), x)[j] == Grouped(xs + [x])[j]
  {
    var gs := Grouped(xs);
    var r := AddToGroups(gs, x);
    var k := LayerKey(x);
    LayerOrderStep(xs, x);
    LayerOrderKeys(xs);
    var want := Grouped(xs + [x]);
    var kj := LayerOrder(xs + [x])[j];
    assert want[j] == PopupGroup(kj, InLayer(xs + [x], kj));
    InLayerAppend(xs, x, kj);
    match FindGroup(gs, k)
    case Some(i) =>
      assert GroupIds(gs)[i] == k;
      if j == i {
        assert r[j] == PopupGroup(k, InLayer(xs, k) + [x]);
      } else {
        assert LayerOrder(xs)[j] == kj;
        assert r[j] == gs[j] == PopupGroup(kj, InLayer(xs, kj));
      }
    case None =>
      if j == |gs| {
        assert kj == k;
        InLayerAbsent(xs, k);
        assert r[j] == PopupGroup(k, [x]);
      } else {
        assert LayerOrder(xs)[j] == kj;
        assert r[j] == gs[j] == PopupGroup(kj, InLayer(xs, kj));
      }
  }

  lemma {:induction false} GroupLoopIsGrouped(fs: seq<Hit>, n: nat)
    requires n <= |fs|
    ensures GroupLoop(fs, n) == Grouped(fs[..n])
  {
    if n == 0 {
      assert fs[..0] == [];
      GroupedEmpty();
    } else {
      GroupLoopIsGrouped(fs, n - 1);
      var xs, x := fs[..n - 1], fs[n - 1];
      TakeLast(fs, n);
      assert GroupLoop(fs, n) == AddToGroups(Grouped(xs), x);
      GroupedStep(xs, x);
    }
  }

  lemma GroupedEmpty()
    ensures Grouped([]) == []
  {
    assert DedupeBy([], LayerKey) == [];
  }

  /** One round of the loop turns the reference grouping of `xs` into that
      of `xs + [x]`. */
  lemma GroupedStep(xs: seq<Hit>, x: Hit)
    ensures AddToGroups(Grouped(xs), x) == Grouped(xs + [x])
  {
    LayerOrderStep(xs, x);
    var r := AddToGroups(Grouped(xs), x);
    var want := Grouped(xs + [x]);
    assert |r| == |want| by { assert GroupIds(r) == GroupIds(want); }
    forall j | 0 <= j < |want| ensures r[j] == want[j] {
      GroupedStepAt(xs, x, j);
    }
  }

  /** The layers of the reference are exactly the layers of the features. */
  lemma LayerOrderKeys(fs: seq<Hit>)
    ensures forall k :: k in LayerOrder(fs) <==> k in KeySet(fs, LayerKey)
    ensures Distinct(LayerOrder(fs))
  {
    DedupeByKeys(fs, LayerKey);
    var p := DedupeBy(fs, LayerKey);
    forall k | k in KeySet(p, LayerKey) ensures k in Keys(p, LayerKey) {
      var i :| 0 <= i < |p| && LayerKey(p[i]) == k;
      assert Keys(p, LayerKey)[i] == k;
    }
  }

  /** `groupByLayer` is a stable partition by layer: groups in order of first
      appearance with distinct layer ids, none empty, each holding exactly
      its layer's features in their order, and every feature in the group of
      its layer. */
  lemma GroupByLayerPartition(fs: seq<Hit>)
    ensures var gs := GroupByLayer(fs);
      && GroupIds(gs) == LayerOrder(fs)
      && Distinct(GroupIds(gs))
      && (forall i :: 0 <= i < |gs| ==> gs[i].features == InLayer(fs, gs[i].layerId) && |gs[i].features| > 0)
      && (forall i :: 0 <= i < |gs| ==> SubsequenceOf(gs[i].features, fs))
      && (forall f :: f in fs ==> exists i :: 0 <= i < |gs| && gs[i].layerId == LayerKey(f))
  {
    var gs := GroupByLayer(fs);
    LayerOrderKeys(fs);
    forall i | 0 <= i < |gs| ensures |gs[i].features| > 0 && SubsequenceOf(gs[i].features, fs) {
      assert GroupIds(gs)[i] == gs[i].layerId;
      LayerGroupSound(fs, gs[i].layerId);
    }
    forall f | f in fs ensures exists i :: 0 <= i < |gs| && gs[i].layerId == LayerKey(f) {
      var j :| 0 <= j < |fs| && fs[j] == f;
      assert LayerKey(f) in KeySet(fs, LayerKey);
      var i :| 0 <= i < |GroupIds(gs)| && GroupIds(gs)[i] == LayerKey(f);
    }
  }

  /** The group of a listed layer is a non-empty subsequence of the hits. */
  lemma LayerGroupSound(fs: seq<Hit>, k: string)
    requires k in KeySet(fs, LayerKey)
    ensures |InLayer(fs, k)| > 0 && SubsequenceOf(InLayer(fs, k), fs)
  {
    var j :| 0 <= j < |fs| && LayerKey(fs[j]) == k;
    assert fs[j] in InLayer(fs, k);
    FilterSubsequence(fs, f => LayerKey(f) == k);
  }

  // ---------------------------------------------------------------------
  // The click pipeline

  datatype PopupState = PopupClosed | PopupOpen(at: Coord, groups: seq<PopupGroup>)

  /** `isUsefulFeature`: the feature has a geometry. */
  predicate IsUseful(f: Hit) { f.geometry.Some? }

  /** `src ? allowed.includes(src) : false`: an empty source name is falsy. */
  predicate FromAllowedSource(f: Hit, allowed: seq<string>) {
    f.source.Some? && f.source.value != "" && f.source.value in allowed
  }

  /** The pixel box queried around the click: the point itself without a
      tolerance, otherwise the square of that half-width. */
  function QueryBox(p: Coord, tolerancePx: Option<real>): (r: (Coord, Coord))
    ensures tolerancePx.GetOr(0.0) <= 0.0 ==> r == (p, p)
    ensures tolerancePx.GetOr(0.0) > 0.0 ==>
      var t := tolerancePx.value;
      r.0 == (p.0 - t, p.1 - t) && r.1 == (p.0 + t, p.1 + t)
  {
    var t := tolerancePx.GetOr(0.0);
    if t > 0.0 then ((p.0 - t, p.1 - t), (p.0 + t, p.1 + t)) else (p, p)
  }

  /** The hits that survive: with geometry, deduplicated, and from an allowed
      source when an allow-list is given. */
  function Survivors(raw: seq<Hit>, allowedSources: Option<seq<string>>): (r: seq<Hit>)
    ensures forall f :: f in r ==> f in raw && IsUseful(f)
    ensures allowedSources.Some? ==> forall f :: f in r ==> FromAllowedSource(f, allowedSources.value)
    ensures Distinct(Keys(r, FeatureKey))
  {
    var hits := Dedupe(Filter(raw, IsUseful));
    UsefulHits(raw);
    match allowedSources
    case None => hits
    case Some(allowed) =>
      AllowedHits(hits, allowed);
      Filter(hits, f => FromAllowedSource(f, allowed))
  }

  lemma UsefulHits(raw: seq<Hit>)
    ensures var hits := Dedupe(Filter(raw, IsUseful));
      Distinct(Keys(hits, FeatureKey)) && forall f :: f in hits ==> f in raw && IsUseful(f)
  {
    SubsequenceMembers(Dedupe(Filter(raw, IsUseful)), Filter(raw, IsUseful));
  }

  lemma AllowedHits(hits: seq<Hit>, allowed: seq<string>)
    requires Distinct(Keys(hits, FeatureKey))
    ensures var r := Filter(hits, f => FromAllowedSource(f, allowed));
      Distinct(Keys(r, FeatureKey)) && forall f :: f in r ==> f in hits && FromAllowedSource(f, allowed)
  {
    var r := Filter(hits, f => FromAllowedSource(f, allowed));
    FilterSubsequence(hits, f => FromAllowedSource(f, allowed));
    SubsequenceKeysDistinct(r, hits);
  }

  lemma {:induction false} SubsequenceKeysDistinct(a: seq<Hit>, b: seq<Hit>)
    requires SubsequenceOf(a, b) && Distinct(Keys(b, FeatureKey))
    ensures Distinct(Keys(a, FeatureKey))
    decreases |b|
  {
    if |a| > 0 {
      assert Distinct(Keys(b[1..], FeatureKey)) by {
        forall i, j | 0 <= i < j < |b[1..]| ensures FeatureKey(b[1..][i]) != FeatureKey(b[1..][j]) {
          assert Keys(b, FeatureKey)[i + 1] != Keys(b, FeatureKey)[j + 1];
        }
      }
      if a[0] == b[0] {
        SubsequenceKeysDistinct(a[1..], b[1..]);
        SubsequenceMembers(a[1..], b[1..]);
        forall j | 0 < j < |a| ensures FeatureKey(a[0]) != FeatureKey(a[j]) {
          assert a[j] == a[1..][j - 1];
          assert a[j] in a[1..];
          assert a[j] in b[1..];
          var m :| 0 <= m < |b[1..]| && b[1..][m] == a[j];
          assert Keys(b, FeatureKey)[0] != Keys(b, FeatureKey)[m + 1];
        }
        forall i, j | 0 <= i < j < |a| ensures Keys(a, FeatureKey)[i] != Keys(a, FeatureKey)[j] {
          if i > 0 { assert Keys(a[1..], FeatureKey)[i - 1] != Keys(a[1..], FeatureKey)[j - 1]; }
        }
      } else {
        SubsequenceKeysDistinct(a, b[1..]);
      }
    }
  }

  /** The map click: no surviving hit closes the popup, otherwise it opens at
      the click with the hits grouped by layer. */
  function OnMapClick(raw: seq<Hit>, allowedSources: Option<seq<string>>, at: Coord): (r: PopupState)
    ensures r.PopupClosed? <==> |Survivors(raw, allowedSources)| == 0
    ensures r.PopupOpen? ==> r.at == at && r.groups == GroupByLayer(Survivors(raw, allowedSources))
  {
    var hits := Survivors(raw, allowedSources);
    if |hits| == 0 then PopupClosed else PopupOpen(at, GroupByLayer(hits))
  }

  /** Every feature shown in an open popup is a useful hit from an allowed
      source, and each is shown once. */
  lemma OpenPopupShowsSurvivors(raw: seq<Hit>, allowedSources: Option<seq<string>>, at: Coord, i: nat, f: Hit)
    requires OnMapClick(raw, allowedSources, at).PopupOpen?
    requires var gs := OnMapClick(raw, allowedSources, at).groups; i < |gs| && f in gs[i].features
    ensures f in raw && IsUseful(f)
    ensures allowedSources.Some? ==> FromAllowedSource(f, allowedSources.value)
  {
    var hits := Survivors(raw, allowedSources);
    GroupByLayerPartition(hits);
  }

  /** `close` */
  function Close(st: PopupState): (r: PopupState)
    ensures r.PopupClosed?
  {
    PopupClosed
  }
}

/** The popup's rendering helpers: layer titles, configuration lookup, keys
    and labels of the listed features, and the configured fields. */
module PopupOverlay {
  import opened Wrappers
  import opened Js
  import opened Strings
  import opened Seqs
  import opened Popup
  import TocStore

  const PopupSuffixes: seq<string> :=
    ["-label", "-labels", "-fill", "-outline", "-line", "-stroke", "-point", "-points", "-polygon", "-polygons"]

  function StripFirstSuffix(id: string, suffixes: seq<string>): (r: string)
    ensures (forall i :: 0 <= i < |suffixes| ==> !EndsWith(id, suffixes[i])) ==> r == id
    ensures (exists i :: 0 <= i < |suffixes| && EndsWith(id, suffixes[i])) ==>
      exists i :: 0 <= i < |suffixes| && EndsWith(id, suffixes[i]) && r + suffixes[i] == id
        && (forall j :: 0 <= j < i ==> !EndsWith(id, suffixes[j]))
    ensures StartsWith(id, r)
  {
    if |suffixes| == 0 then id
    else if EndsWith(id, suffixes[0]) then
      var r := id[..|id| - |suffixes[0]|];
      assert r + suffixes[0] == id;
      r
    else
      var r := StripFirstSuffix(id, suffixes[1..]);
      assert (exists i :: 0 <= i < |suffixes| && EndsWith(id, suffixes[i])) ==>
        exists i :: 0 <= i < |suffixes| && EndsWith(id, suffixes[i]) && r + suffixes[i] == id
          && (forall j :: 0 <= j < i ==> !EndsWith(id, suffixes[j])) by {
        if exists i :: 0 <= i < |suffixes| && EndsWith(id, suffixes[i]) {
          var i :| 0 <= i < |suffixes| && EndsWith(id, suffixes[i]);
          assert EndsWith(id, suffixes[1..][i - 1]);
          var i' :| 0 <= i' < |suffixes[1..]| && EndsWith(id, suffixes[1..][i']) && r + suffixes[1..][i'] == id
            && (forall j :: 0 <= j < i' ==> !EndsWith(id, suffixes[1..][j]));
          assert forall j :: 1 <= j < i' + 1 ==> suffixes[j] == suffixes[1..][j - 1];
        }
      }
      assert (forall i :: 0 <= i < |suffixes| ==> !EndsWith(id, suffixes[i])) ==>
        forall i :: 0 <= i < |suffixes[1..]| ==> !EndsWith(id, suffixes[1..][i]);
      r
  }

  /** `normalizePopupLayerId`: at most one suffix is removed, the first of the
      list that matches; an id without one is kept. */
  function NormalizePopupLayerId(id: string): (r: string)
    ensures (forall i :: 0 <= i < |PopupSuffixes| ==> !EndsWith(id, PopupSuffixes[i])) ==> r == id
    ensures (exists i :: 0 <= i < |PopupSuffixes| && EndsWith(id, PopupSuffixes[i])) ==>
      exists i :: 0 <= i < |PopupSuffixes| && EndsWith(id, PopupSuffixes[i]) && r + PopupSuffixes[i] == id
        && (forall j :: 0 <= j < i ==> !EndsWith(id, PopupSuffixes[j]))
    ensures StartsWith(id, r)
  {
    StripFirstSuffix(id, PopupSuffixes)
  }

  /** The map and label layer ids of a TOC item (a missing list counts as
      empty). */
  function ListedLayers(it: TocStore.TocItem): seq<string> {
    it.mapLayerIds.GetOr([]) + it.labelLayerIds.GetOr([])
  }

  /** `layerTitleFromToc`: the title of the first item that lists the layer,
      else the layer id. */
  function LayerTitleFromToc(layerId: string, items: seq<TocStore.TocItem>): (r: string)
    ensures (forall i :: 0 <= i < |items| ==> layerId !in ListedLayers(items[i])) ==> r == layerId
    ensures forall i :: (0 <= i < |items| && layerId in ListedLayers(items[i])
      && (forall j :: 0 <= j < i ==> layerId !in ListedLayers(items[j]))) ==> r == items[i].title
  {
    if |items| == 0 then layerId
    else if layerId in ListedLayers(items[0]) then items[0].title
    else
      var r := LayerTitleFromToc(layerId, items[1..]);
      assert forall i :: 1 <= i < |items| ==> items[i] == items[1..][i - 1];
      r
  }

  datatype FieldFormat = TextFormat | IntFormat | FloatFormat

  datatype PopupFieldConfig = PopupFieldConfig(
    key: string, caption: string, order: real, format: Option<FieldFormat>, hideIfEmpty: bool)

  datatype PopupLayerConfig = PopupLayerConfig(
    titleKey: Option<string>, titleLabel: Option<string>, fields: seq<PopupFieldConfig>)

  /** `POPUP_CONFIG[raw] ?? POPUP_CONFIG[normalized] ?? null` */
  function ConfigFor(configs: map<string, PopupLayerConfig>, rawLayerId: string): (r: Option<PopupLayerConfig>)
    ensures rawLayerId in configs ==> r == Some(configs[rawLayerId])
    ensures rawLayerId !in configs && NormalizePopupLayerId(rawLayerId) in configs ==>
      r == Some(configs[NormalizePopupLayerId(rawLayerId)])
    ensures r.None? <==> rawLayerId !in configs && NormalizePopupLayerId(rawLayerId) !in configs
  {
    if rawLayerId in configs then Some(configs[rawLayerId])
    else
      var n := NormalizePopupLayerId(rawLayerId);
      if n in configs then Some(configs[n]) else None
  }

  /** `asString`: a string that is not blank. */
  function AsString(v: Option<Json>): (r: Option<string>)
    ensures r.Some? <==> v.Some? && v.value.JStr? && !IsBlank(v.value.s)
    ensures r.Some? ==> r.value == v.value.s
  {
    match v
    case Some(JStr(s)) => if IsBlank(s) then None else Some(s)
    case _ => None
  }

  /** `asNumber`: a finite number, or a string that `Number()` (the parameter
      `parse`) turns into one. */
  function AsNumber(v: Option<Json>, parse: string -> Num): (r: Option<real>)
    ensures v.Some? && v.value.JNum? ==> (r.Some? <==> v.value.n.Finite?) && (r.Some? ==> r.value == v.value.n.r)
    ensures v.Some? && v.value.JStr? ==> (r.Some? <==> parse(v.value.s).Finite?) && (r.Some? ==> r.value == parse(v.value.s).r)
    ensures !(v.Some? && (v.value.JNum? || v.value.JStr?)) ==> r.None?
  {
    match v
    case Some(JNum(n)) => if n.Finite? then Some(n.r) else None
    case Some(JStr(s)) => var n := parse(s); if n.Finite? then Some(n.r) else None
    case _ => None
  }

  /** The identity `stableFeatureKey` takes from the properties: a string id,
      a numeric id, or a string `location_id`. */
  function IdFromProps(props: seq<(string, Json)>, parse: string -> Num): (r: Option<string>)
    ensures AsString(Lookup(props, "id")).Some? ==> r == AsString(Lookup(props, "id"))
    ensures AsString(Lookup(props, "id")).None? && AsNumber(Lookup(props, "id"), parse).Some? ==>
      r == Some(NumText(Finite(AsNumber(Lookup(props, "id"), parse).value)))
    ensures AsString(Lookup(props, "id")).None? && AsNumber(Lookup(props, "id"), parse).None? ==>
      r == AsString(Lookup(props, "location_id"))
  {
    var v := Lookup(props, "id");
    match AsString(v)
    case Some(s) => Some(s)
    case None =>
      match AsNumber(v, parse)
      case Some(n) => Some(NumText(Finite(n)))
      case None => AsString(Lookup(props, "location_id"))
  }

  /** `stableFeatureKey`: the layer id, "::", and the first identity found:
      the feature id, one from the properties, the geometry, the index. */
  function StableFeatureKey(layerId: string, f: Hit, idx: nat, parse: string -> Num): (r: string)
    ensures StartsWith(r, layerId + "::")
    ensures ExplicitId(f).Some? ==> r == layerId + "::" + ExplicitId(f).value
    ensures ExplicitId(f).None? && IdFromProps(f.properties, parse).Some? ==>
      r == layerId + "::" + IdFromProps(f.properties, parse).value
    ensures ExplicitId(f).None? && IdFromProps(f.properties, parse).None? && f.geometry.Some? ==>
      r == layerId + "::" + f.geometry.value.kind + ":" + f.geometry.value.fingerprint
    ensures ExplicitId(f).None? && IdFromProps(f.properties, parse).None? && f.geometry.None? ==>
      r == layerId + "::" + "idx:" + NatText(idx)
  {
    var x := match ExplicitId(f)
      case Some(e) => e
      case None =>
        (match IdFromProps(f.properties, parse)
         case Some(p) => p
         case None =>
           (match f.geometry
            case Some(g) => g.kind + ":" + g.fingerprint
            case None => "idx:" + NatText(idx)));
    var prefix := layerId + "::";
    assert (prefix + x)[..|prefix|] == prefix;
    prefix + x
  }

  /** Two features with different string ids get different keys within one
      layer, whatever else they carry. */
  lemma StableKeysSeparate(layerId: string, f: Hit, g: Hit, i: nat, j: nat, parse: string -> Num)
    requires f.id.Some? && f.id.value.JStr? && g.id.Some? && g.id.value.JStr?
    requires f.id != g.id
    ensures StableFeatureKey(layerId, f, i, parse) != StableFeatureKey(layerId, g, j, parse)
  {
    var prefix := layerId + "::";
    assert StableFeatureKey(layerId, f, i, parse)[|prefix|..] == f.id.value.s;
    assert StableFeatureKey(layerId, g, j, parse)[|prefix|..] == g.id.value.s;
  }

  /** Features with no identity at all are told apart by their position. */
  lemma StableKeysByIndex(layerId: string, f: Hit, g: Hit, i: nat, j: nat, parse: string -> Num)
    requires ExplicitId(f).None? && IdFromProps(f.properties, parse).None? && f.geometry.None?
    requires ExplicitId(g).None? && IdFromProps(g.properties, parse).None? && g.geometry.None?
    requires i != j
    ensures StableFeatureKey(layerId, f, i, parse) != StableFeatureKey(layerId, g, j, parse)
  {
    var prefix := layerId + "::" + "idx:";
    var a := StableFeatureKey(layerId, f, i, parse);
    var b := StableFeatureKey(layerId, g, j, parse);
    assert a[|prefix|..] == NatText(i) && b[|prefix|..] == NatText(j);
  }

  /** `featureLabel`: "Objekt" without a configuration; the title property
      when it is a usable string or number; else the configured label or
      "Objekt". */
  function FeatureLabel(f: Hit, cfg: Option<PopupLayerConfig>, parse: string -> Num): (r: string)
    ensures cfg.None? ==> r == "Objekt"
    ensures (cfg.Some? && cfg.value.titleKey.Some? && cfg.value.titleKey.value != ""
      && AsString(Lookup(f.properties, cfg.value.titleKey.value)).Some?) ==>
      r == AsString(Lookup(f.properties, cfg.value.titleKey.value)).value
    ensures (cfg.Some? && cfg.value.titleKey.Some? && cfg.value.titleKey.value != ""
      && AsString(Lookup(f.properties, cfg.value.titleKey.value)).None?
      && AsNumber(Lookup(f.properties, cfg.value.titleKey.value), parse).Some?) ==>
      r == NumText(Finite(AsNumber(Lookup(f.properties, cfg.value.titleKey.value), parse).value))
    ensures (cfg.Some? && !(cfg.value.titleKey.Some? && cfg.value.titleKey.value != ""
      && (AsString(Lookup(f.properties, cfg.value.titleKey.value)).Some?
          || AsNumber(Lookup(f.properties, cfg.value.titleKey.value), parse).Some?))) ==>
      r == (if cfg.value.titleLabel.Some? && cfg.value.titleLabel.value != "" then cfg.value.titleLabel.value else "Objekt")
    ensures r != ""
  {
    match cfg
    case None => "Objekt"
    case Some(c) =>
      var fromTitle :=
        if c.titleKey.Some? && c.titleKey.value != "" then
          var v := Lookup(f.properties, c.titleKey.value);
          match AsString(v)
          case Some(s) => Some(s)
          case None =>
            (match AsNumber(v, parse) case Some(n) => Some(NumText(Finite(n))) case None => None)
        else None;
      match fromTitle
      case Some(s) => assert !IsBlank(s) || |s| >= 1; s
      case None => if c.titleLabel.Some? && c.titleLabel.value != "" then c.titleLabel.value else "Objekt"
  }

  /** The label reads nothing of the feature but its title property. */
  lemma FeatureLabelReadsTitleOnly(f: Hit, g: Hit, cfg: Option<PopupLayerConfig>, parse: string -> Num)
    requires cfg.Some? && cfg.value.titleKey.Some? ==>
      Lookup(f.properties, cfg.value.titleKey.value) == Lookup(g.properties, cfg.value.titleKey.value)
    ensures FeatureLabel(f, cfg, parse) == FeatureLabel(g, cfg, parse)
  {
  }

  /** A formatted field value: plain text, or a number handed to the Swiss
      German `Intl.NumberFormat` with at most that many fraction digits. */
  datatype Shown = Text(s: string) | Number(n: Num, maxFractionDigits: nat)

  /** `formatByConfig` */
  function FormatByConfig(raw: Option<Json>, format: Option<FieldFormat>, parse: string -> Num): (r: Shown)
    ensures raw.None? || raw == Some(JNull) ==> r == Text("")
    ensures raw.Some? && raw.value != JNull && format == Some(TextFormat) ==> r == Text(ToText(raw.value))
    ensures raw.Some? && raw.value != JNull && format.None? && raw.value.JBool? ==>
      r == Text(if raw.value.b then "Ja" else "Nein")
    ensures raw.Some? && raw.value != JNull && format.None? && raw.value.JStr? ==> r == Text(raw.value.s)
    ensures raw.Some? && raw.value != JNull && format == Some(IntFormat) ==>
      r == (match AsNumber(raw, parse) case None => Text("") case Some(n) => Number(Finite(n), 0))
    ensures raw.Some? && raw.value != JNull && format == Some(FloatFormat) ==>
      r == (match AsNumber(raw, parse) case None => Text("") case Some(n) => Number(Finite(n), 2))
  {
    match raw
    case None => Text("")
    case Some(v) =>
      if v == JNull then Text("")
      else match format
        case Some(TextFormat) => Text(ToText(v))
        case Some(IntFormat) => (match AsNumber(raw, parse) case None => Text("") case Some(n) => Number(Finite(n), 0))
        case Some(FloatFormat) => (match AsNumber(raw, parse) case None => Text("") case Some(n) => Number(Finite(n), 2))
        case None =>
          match v
          case JStr(s) => Text(s)
          case JNum(n) => Number(n, 2)
          case JBool(b) => Text(if b then "Ja" else "Nein")
          case _ => Text(ToText(v))
  }

  /** The integer and the decimal format show the same number, with zero and
      two fraction digits; they fall back to empty text together, exactly
      when the value is not a number `asNumber` accepts. */
  lemma NumericFormatsAgree(raw: Option<Json>, parse: string -> Num)
    requires raw.Some? && raw.value != JNull
    ensures var (a, b) := (FormatByConfig(raw, Some(IntFormat), parse), FormatByConfig(raw, Some(FloatFormat), parse));
      (a.Number? <==> AsNumber(raw, parse).Some?) && (a.Number? <==> b.Number?)
      && (a.Number? ==> (a.n == b.n == Finite(AsNumber(raw, parse).value)
                         && a.maxFractionDigits == 0 && b.maxFractionDigits == 2))
      && (!a.Number? ==> a == b == Text(""))
  {
  }

  /** `null`, `undefined` or the empty string. */
  predicate IsEmptyValue(raw: Option<Json>) {
    raw.None? || raw == Some(JNull) || raw == Some(JStr(""))
  }

  function FieldOrder(f: PopupFieldConfig): real { f.order }

  predicate ShowsField(f: PopupFieldConfig, props: seq<(string, Json)>) {
    !(IsEmptyValue(Lookup(props, f.key)) && f.hideIfEmpty)
  }

  /** The fields `renderConfigFields` renders: sorted by `order` (stable), and
      without the empty ones that ask to be hidden. */
  function VisibleFields(cfg: PopupLayerConfig, props: seq<(string, Json)>): (r: seq<PopupFieldConfig>)
    ensures SortedBy(r, FieldOrder)
    ensures forall f :: f in r <==> f in cfg.fields && ShowsField(f, props)
    ensures |r| <= |cfg.fields|
  {
    var sorted := StableSortBy(cfg.fields, FieldOrder);
    FilterSorted(sorted, FieldOrder, f => ShowsField(f, props));
    assert forall f :: f in sorted <==> f in multiset(cfg.fields);
    assert |sorted| == |multiset(sorted)|;
    Filter(sorted, f => ShowsField(f, props))
  }

  /** `value || "–"`: an empty text shows as a dash. */
  function Displayed(v: Shown): (r: Shown)
    ensures r != Text("")
    ensures v != Text("") ==> r == v
  {
    if v == Text("") then Text("–") else v
  }

  /** Every rendered row: the field's label and its formatted value, never
      blank. */
  function RenderConfigFields(cfg: PopupLayerConfig, props: seq<(string, Json)>, parse: string -> Num): (r: seq<(string, Shown)>)
    ensures var vs := VisibleFields(cfg, props);
      |r| == |vs| && forall i :: 0 <= i < |vs| ==>
        r[i] == (vs[i].caption, Displayed(FormatByConfig(Lookup(props, vs[i].key), vs[i].format, parse)))
    ensures forall i :: 0 <= i < |r| ==> r[i].1 != Text("")
  {
    var vs := VisibleFields(cfg, props);
    seq(|vs|, i requires 0 <= i < |vs| => (vs[i].caption, Displayed(FormatByConfig(Lookup(props, vs[i].key), vs[i].format, parse))))
  }

  /** One row per configured field that is shown, no more: a field that does
      not ask to be hidden always gets its row, with its label and value. */
  lemma RenderedRows(cfg: PopupLayerConfig, props: seq<(string, Json)>, parse: string -> Num)
    ensures |RenderConfigFields(cfg, props, parse)| == |Filter(cfg.fields, f => ShowsField(f, props))|
    ensures forall f :: f in cfg.fields && !f.hideIfEmpty ==>
      (f.caption, Displayed(FormatByConfig(Lookup(props, f.key), f.format, parse))) in RenderConfigFields(cfg, props, parse)
  {
    var sorted := StableSortBy(cfg.fields, FieldOrder);
    FilterPermutation(sorted, cfg.fields, f => ShowsField(f, props));
    assert |Filter(sorted, f => ShowsField(f, props))| == |multiset(Filter(sorted, f => ShowsField(f, props)))|;
    assert |Filter(cfg.fields, f => ShowsField(f, props))| == |multiset(Filter(cfg.fields, f => ShowsField(f, props)))|;
    var vs := VisibleFields(cfg, props);
    var r := RenderConfigFields(cfg, props, parse);
    forall f | f in cfg.fields && !f.hideIfEmpty
      ensures (f.caption, Displayed(FormatByConfig(Lookup(props, f.key), f.format, parse))) in r
    {
      assert f in vs;
      var i :| 0 <= i < |vs| && vs[i] == f;
      assert r[i] == (f.caption, Displayed(FormatByConfig(Lookup(props, f.key), f.format, parse)));
    }
  }
}

=== FILE: presence_chart.dfy ===
/** The presence chart of the tawny-owl popup: cleaning the loaded day series,
    padding it to the calendar month, the displayed total and the two file
    names per location. */
module PresenceChart {
  import opened Wrappers
  import opened Js

  /** A series entry as loaded: each field may be missing or of any JSON type. */
  datatype RawPoint = RawPoint(t: Option<Json>, callEvents: Option<Json>, presenceMinutes: Option<Json>)

  /** A cleaned entry: a day key and two finite numbers. */
  datatype PresencePoint = PresencePoint(t: string, callEvents: real, presenceMinutes: real)

  datatype ChartPoint = ChartPoint(t: string, value: real)

  datatype Metric = CallEvents | PresenceMinutes

  /** The loaded file: the month it covers, if known, and its series. */
  datatype PresenceData = PresenceData(year: Option<int>, month: Option<int>, series: seq<RawPoint>)

  /** The calendar and number conversions the chart takes from the browser and
      date-fns: `parseIso` is `parseISO` followed by `isValid` and formatting
      as yyyy-MM-dd, `toNumber` is `Number(value)`, `daysInMonth` counts the
      days of a month and `dayKey` formats one of them as yyyy-MM-dd. */
  datatype Calendar = Calendar(
    parseIso: string -> Option<string>,
    toNumber: Option<Json> -> Num,
    daysInMonth: (int, int) -> nat,
    dayKey: (int, int, int) -> string)

  /** The text matches `^\d{4}-\d{2}-\d{2}$`. */
  predicate IsDayKeyShape(s: string) {
    |s| == 10 && s[4] == '-' && s[7] == '-'
    && forall i :: 0 <= i < 10 && i != 4 && i != 7 ==> IsDigit(s[i])
  }

  /** `toIsoDayKey`: a day key taken verbatim, another string through the
      date parser, anything else rejected. */
  function ToIsoDayKey(input: Option<Json>, cal: Calendar): (r: Option<string>)
    ensures forall s :: input == Some(JStr(s)) && IsDayKeyShape(s) ==> r == Some(s)
    ensures forall s :: input == Some(JStr(s)) && !IsDayKeyShape(s) ==> r == cal.parseIso(s)
    ensures !(input.Some? && input.value.JStr?) ==> r.None?
  {
    match input
    case Some(JStr(s)) => if IsDayKeyShape(s) then Some(s) else cal.parseIso(s)
    case _ => None
  }

  /** A key of the right shape is a fixed point: feeding the result back gives
      the same key. */
  lemma DayKeyStable(input: Option<Json>, cal: Calendar)
    requires ToIsoDayKey(input, cal).Some? && IsDayKeyShape(ToIsoDayKey(input, cal).value)
    ensures ToIsoDayKey(Some(JStr(ToIsoDayKey(input, cal).value)), cal) == ToIsoDayKey(input, cal)
  {
  }

  /** `Number.isFinite(n) ? n : 0` */
  function FiniteOrZero(n: Num): (r: real)
    ensures n.Finite? ==> r == n.r
    ensures !n.Finite? ==> r == 0.0
  {
    if n.Finite? then n.r else 0.0
  }

  /** One entry of `normalizeSeries`: dropped without a day key (an empty key
      is falsy and dropped too), otherwise both counts made finite. */
  function NormalizePoint(p: RawPoint, cal: Calendar): (r: Option<PresencePoint>)
    ensures r.None? <==> ToIsoDayKey(p.t, cal) in {None, Some("")}
    ensures r.Some? ==> (Some(r.value.t) == ToIsoDayKey(p.t, cal)
      && r.value.callEvents == FiniteOrZero(cal.toNumber(p.callEvents))
      && r.value.presenceMinutes == FiniteOrZero(cal.toNumber(p.presenceMinutes)))
  {
    match ToIsoDayKey(p.t, cal)
    case None => None
    case Some(key) =>
      if key == "" then None
      else Some(PresencePoint(key, FiniteOrZero(cal.toNumber(p.callEvents)), FiniteOrZero(cal.toNumber(p.presenceMinutes))))
  }

  /** `normalizeSeries`: the entries that have a day key, cleaned, in their
      original order. */
  function NormalizeSeries(raw: seq<RawPoint>, cal: Calendar): (r: seq<PresencePoint>)
    ensures |r| <= |raw|
    ensures forall i :: 0 <= i < |r| ==> r[i].t != ""
  {
    if |raw| == 0 then [] else Kept(raw[0], cal) + NormalizeSeries(raw[1..], cal)
  }

  /** What one entry contributes to the normalised series. */
  function Kept(p: RawPoint, cal: Calendar): (r: seq<PresencePoint>)
    ensures |r| <= 1 && forall i :: 0 <= i < |r| ==> r[i].t != ""
  {
    match NormalizePoint(p, cal) case Some(q) => [q] case None => []
  }

  /** A single entry becomes its cleaned form or disappears. */
  lemma NormalizeSingle(p: RawPoint, cal: Calendar)
    ensures NormalizePoint(p, cal).None? ==> NormalizeSeries([p], cal) == []
    ensures NormalizePoint(p, cal).Some? ==> NormalizeSeries([p], cal) == [NormalizePoint(p, cal).value]
  {
    assert [p][1..] == [];
  }

  /** Normalising works entry by entry: the result for a concatenation is the
      concatenation of the results, so kept entries stay in order. */
  lemma {:induction false} NormalizeConcat(a: seq<RawPoint>, b: seq<RawPoint>, cal: Calendar)
    ensures NormalizeSeries(a + b, cal) == NormalizeSeries(a, cal) + NormalizeSeries(b, cal)
  {
    if |a| > 0 {
      assert (a + b)[0] == a[0];
      assert (a + b)[1..] == a[1..] + b;
      NormalizeConcat(a[1..], b, cal);
      AppendAssoc(Kept(a[0], cal), NormalizeSeries(a[1..], cal), NormalizeSeries(b, cal));
    } else {
      assert a + b == b;
    }
  }

  lemma AppendAssoc(x: seq<PresencePoint>, y: seq<PresencePoint>, z: seq<PresencePoint>)
    ensures x + (y + z) == (x + y) + z
  {
  }

  function Value(p: PresencePoint, metric: Metric): real {
    match metric
    case CallEvents => p.callEvents
    case PresenceMinutes => p.presenceMinutes
  }

  /** The entry at `i` is the last one for day `k`. */
  ghost predicate LastAt(points: seq<PresencePoint>, k: string, i: int) {
    0 <= i < |points| && points[i].t == k && forall j :: i < j < |points| ==> points[j].t != k
  }

  ghost predicate Occurs(points: seq<PresencePoint>, k: string) {
    exists i :: 0 <= i < |points| && points[i].t == k
  }

  /** `m` maps every day that occurs in `points`, and nothing else, to the
      value of its last entry. */
  ghost predicate IsValueMap(points: seq<PresencePoint>, metric: Metric, m: map<string, real>) {
    (forall k :: k in m <==> Occurs(points, k))
    && forall k :: k in m ==> exists i :: LastAt(points, k, i) && m[k] == Value(points[i], metric)
  }

  /** The value map built by `valueMap.set(p.t, p[metric])` over the points in
      order: every day that occurs, holding the value of its last entry. */
  function ValueMap(points: seq<PresencePoint>, metric: Metric): (m: map<string, real>)
    ensures IsValueMap(points, metric, m)
  {
    if |points| == 0 then map[]
    else
      var n := |points| - 1;
      var prev := ValueMap(points[..n], metric);
      ValueMapStep(points, metric, prev);
      prev[points[n].t := Value(points[n], metric)]
  }

  /** Setting the last entry's value on the map of the earlier entries gives
      the map of all of them. */
  lemma ValueMapStep(points: seq<PresencePoint>, metric: Metric, prev: map<string, real>)
    requires |points| > 0
    requires IsValueMap(points[..|points| - 1], metric, prev)
    ensures IsValueMap(points, metric, prev[points[|points| - 1].t := Value(points[|points| - 1], metric)])
  {
    var n := |points| - 1;
    var m := prev[points[n].t := Value(points[n], metric)];
    forall k | k in m
      ensures exists i :: LastAt(points, k, i) && m[k] == Value(points[i], metric)
    {
      if k == points[n].t {
        assert LastAt(points, k, n);
      } else {
        var i :| LastAt(points[..n], k, i) && prev[k] == Value(points[..n][i], metric);
        LastStaysLast(points, k, i);
      }
    }
    forall k ensures k in m <==> Occurs(points, k) {
      OccursStep(points, k);
    }
  }

  /** The last entry of a day before the final one stays its last entry when
      the final entry is of another day. */
  lemma LastStaysLast(points: seq<PresencePoint>, k: string, i: int)
    requires |points| > 0 && points[|points| - 1].t != k
    requires LastAt(points[..|points| - 1], k, i)
    ensures LastAt(points, k, i) && points[i] == points[..|points| - 1][i]
  {
    var n := |points| - 1;
    forall j | i < j < |points| ensures points[j].t != k {
      if j < n { assert points[..n][j] == points[j]; }
    }
  }

  lemma OccursStep(points: seq<PresencePoint>, k: string)
    requires |points| > 0
    ensures Occurs(points, k) <==> Occurs(points[..|points| - 1], k) || points[|points| - 1].t == k
  {
    var n := |points| - 1;
    if Occurs(points, k) && points[n].t != k {
      var i :| 0 <= i < |points| && points[i].t == k;
      assert points[..n][i].t == k;
    }
    if Occurs(points[..n], k) {
      var i :| 0 <= i < n && points[..n][i].t == k;
      assert points[i].t == k;
    }
  }

  /** The value a chart shows for `key`: the last entry of that day, or 0. */
  ghost predicate ShowsLastValue(raw: seq<PresencePoint>, metric: Metric, key: string, v: real) {
    (exists i :: LastAt(raw, key, i) && v == Value(raw[i], metric))
    || (!Occurs(raw, key) && v == 0.0)
  }

  /** `!year || !month`: a missing or zero year or month means no calendar
      padding. */
  predicate HasMonth(data: PresenceData) {
    data.year.Some? && data.year.value != 0 && data.month.Some? && data.month.value != 0
  }

  /** `prepareMonthSeries`: without a month the cleaned entries one to one;
      with a month one point per calendar day, in day order, each holding the
      last value recorded for that day or 0. */
  function PrepareMonthSeries(data: PresenceData, metric: Metric, cal: Calendar): (r: seq<ChartPoint>)
    ensures var raw := NormalizeSeries(data.series, cal);
      !HasMonth(data) ==>
        |r| == |raw| && forall i :: 0 <= i < |r| ==> r[i] == ChartPoint(raw[i].t, Value(raw[i], metric))
    ensures var raw := NormalizeSeries(data.series, cal);
      HasMonth(data) ==>
        |r| == cal.daysInMonth(data.year.value, data.month.value)
        && forall i :: 0 <= i < |r| ==>
          r[i].t == cal.dayKey(data.year.value, data.month.value, i + 1)
          && ShowsLastValue(raw, metric, r[i].t, r[i].value)
  {
    var raw := NormalizeSeries(data.series, cal);
    var valueMap := ValueMap(raw, metric);
    if !HasMonth(data) then
      seq(|raw|, i requires 0 <= i < |raw| => ChartPoint(raw[i].t, Value(raw[i], metric)))
    else
      var y := data.year.value;
      var mo := data.month.value;
      seq(cal.daysInMonth(y, mo), i =>
        var key := cal.dayKey(y, mo, i + 1);
        ChartPoint(key, if key in valueMap then valueMap[key] else 0.0))
  }

  /** Sum of `callEvents`, added left to right as `reduce` does. */
  function SumCalls(points: seq<PresencePoint>): real {
    if |points| == 0 then 0.0 else SumCalls(points[..|points| - 1]) + points[|points| - 1].callEvents
  }

  /** The total the chart header shows. */
  function TotalCallEvents(data: PresenceData, cal: Calendar): (r: real)
    ensures (forall i :: 0 <= i < |data.series| ==> NormalizePoint(data.series[i], cal).None?) ==> r == 0.0
    ensures |data.series| == 1 ==>
      r == match NormalizePoint(data.series[0], cal) case Some(q) => q.callEvents case None => 0.0
  {
    NoneKept(data.series, cal);
    SumOfSingle(data.series, cal);
    SumCalls(NormalizeSeries(data.series, cal))
  }

  lemma {:induction false} NoneKept(raw: seq<RawPoint>, cal: Calendar)
    ensures (forall i :: 0 <= i < |raw| ==> NormalizePoint(raw[i], cal).None?) ==> NormalizeSeries(raw, cal) == []
  {
    if |raw| > 0 && forall i :: 0 <= i < |raw| ==> NormalizePoint(raw[i], cal).None? {
      assert NormalizePoint(raw[0], cal).None?;
      NoneKept(raw[1..], cal);
    }
  }

  /** The total over a series split in two is the sum of the two totals. */
  lemma TotalSplits(a: seq<RawPoint>, b: seq<RawPoint>, cal: Calendar)
    ensures TotalCallEvents(PresenceData(None, None, a + b), cal)
      == TotalCallEvents(PresenceData(None, None, a), cal) + TotalCallEvents(PresenceData(None, None, b), cal)
  {
    NormalizeConcat(a, b, cal);
    SumConcat(NormalizeSeries(a, cal), NormalizeSeries(b, cal));
  }

  /** A single entry adds its cleaned call count, or nothing when it is
      dropped. */
  lemma SumOfSingle(raw: seq<RawPoint>, cal: Calendar)
    ensures |raw| == 1 ==>
      SumCalls(NormalizeSeries(raw, cal)) == match NormalizePoint(raw[0], cal) case Some(q) => q.callEvents case None => 0.0
  {
    if |raw| == 1 {
      NormalizeSingle(raw[0], cal);
      assert raw == [raw[0]];
      var n := NormalizeSeries(raw, cal);
      assert |n| == 1 ==> n[..0] == [];
    }
  }

  /** What one entry adds to the total: its cleaned call count, or nothing. */
  function KeptCalls(p: RawPoint, cal: Calendar): real {
    match NormalizePoint(p, cal) case Some(q) => q.callEvents case None => 0.0
  }

  /** The entries' contributions added up, the first entry first. */
  function SumKeptCalls(raw: seq<RawPoint>, cal: Calendar): real {
    if |raw| == 0 then 0.0 else SumKeptCalls(raw[..|raw| - 1], cal) + KeptCalls(raw[|raw| - 1], cal)
  }

  /** The header's total is the sum of the call counts of the entries that
      survive normalisation. */
  lemma {:induction false} TotalIsSumOfKept(raw: seq<RawPoint>, cal: Calendar)
    ensures TotalCallEvents(PresenceData(None, None, raw), cal) == SumKeptCalls(raw, cal)
  {
    if |raw| == 0 {
      assert NormalizeSeries(raw, cal) == [];
    } else {
      var n := |raw| - 1;
      assert raw == raw[..n] + [raw[n]];
      TotalSplits(raw[..n], [raw[n]], cal);
      TotalIsSumOfKept(raw[..n], cal);
    }
  }

  lemma {:induction false} SumConcat(xs: seq<PresencePoint>, ys: seq<PresencePoint>)
    ensures SumCalls(xs + ys) == SumCalls(xs) + SumCalls(ys)
    decreases |ys|
  {
    if |ys| == 0 {
      assert xs + ys == xs;
    } else {
      var n := |ys| - 1;
      assert (xs + ys)[..|xs + ys| - 1] == xs + ys[..n];
      SumConcat(xs, ys[..n]);
    }
  }

  /** `usePresenceFiles`: no files for a missing or empty location id,
      otherwise the September and February files of that location. */
  function PresenceFiles(locationId: Option<string>): (r: Option<(string, string)>)
    ensures r.None? <==> locationId.None? || locationId.value == ""
    ensures r.Some? ==> r.value.0 == locationId.value + "_sept24" && r.value.1 == locationId.value + "_feb25"
  {
    match locationId
    case None => None
    case Some(id) => if id == "" then None else Some((id + "_sept24", id + "_feb25"))
  }

  /** Different locations never share a file, and the two files of one
      location differ. */
  lemma PresenceFilesSeparate(a: Option<string>, b: Option<string>)
    requires PresenceFiles(a).Some? && PresenceFiles(b).Some?
    ensures PresenceFiles(a).value.0 != PresenceFiles(a).value.1
    ensures PresenceFiles(a).value.0 == PresenceFiles(b).value.0 ==> a == b
    ensures PresenceFiles(a).value.1 == PresenceFiles(b).value.1 ==> a == b
  {
    var x := a.value;
    var y := b.value;
    var fa := PresenceFiles(a).value;
    assert fa.0[|x|..] == "_sept24" && fa.1[|x|..] == "_feb25";
    if fa.0 == PresenceFiles(b).value.0 {
      assert x == fa.0[..|fa.0| - 7] == y;
    }
    if fa.1 == PresenceFiles(b).value.1 {
      assert x == fa.1[..|fa.1| - 6] == y;
    }
  }
}

=== FILE: presence_csv.dfy ===
/** The converter from one presence CSV file (one row per detector minute) to
    the daily JSON series the presence chart loads: per day the number of
    distinct minutes with presence and the number of call events, where a
    call event is a run of minutes with gaps of at most one minute. */
module PresenceCsv {
  import opened Wrappers
  import opened Js
  import opened Strings
  import opened Seqs

  /** The `presence` value that marks a minute with the owl present. */
  const PresenceValue: int := 1

  /** Minutes at most this far apart belong to the same call event. */
  const MaxGapMinutes: int := 1

  /** One CSV row with its numeric columns already read by `int()`; `site` is
      the raw cell (missing column: None) and `presence` is None when
      `int(str(...).strip())` fails. */
  datatype Row = Row(site: Option<string>, year: int, month: int, day: int, hour: int, minute: int, presence: Option<int>)

  datatype Header = Header(site: Option<string>, year: Option<int>, month: Option<int>)

  datatype DayEntry = DayEntry(t: string, presenceMinutes: nat, callEvents: nat)

  datatype PresenceJson = PresenceJson(header: Header, totalPresenceMinutes: nat, totalCallEvents: nat, series: seq<DayEntry>)

  // ---------------------------------------------------------------------
  // Keys
  // ---------------------------------------------------------------------

  /** `minute_key_to_int`: the minute of the day. */
  function MinuteKey(hour: int, minute: int): (r: int)
    ensures 0 <= minute < 60 ==> r / 60 == hour && r % 60 == minute
    ensures 0 <= hour < 24 && 0 <= minute < 60 ==> 0 <= r < 24 * 60
  {
    hour * 60 + minute
  }

  /** Python's `f"{i:0{width}d}"`: zero-padded to `width` characters, a minus
      sign counting towards the width. */
  function PadInt(i: int, width: nat): (r: string)
    ensures i >= 0 ==> |r| >= width && forall k :: 0 <= k < |r| ==> IsDigit(r[k])
    ensures i < 0 ==> |r| >= 1 && r[0] == '-'
  {
    if i < 0 then "-" + ZeroPad(NatText(-i), if width == 0 then 0 else width - 1)
    else ZeroPad(NatText(i), width)
  }

  /** `f"{y:04d}-{mo:02d}-{d:02d}"` */
  function DayKey(r: Row): string {
    PadInt(r.year, 4) + "-" + PadInt(r.month, 2) + "-" + PadInt(r.day, 2)
  }

  function MinuteOf(r: Row): int {
    MinuteKey(r.hour, r.minute)
  }

  /** A row that records presence: its presence cell parses to 1. */
  predicate Counted(r: Row) {
    r.presence == Some(PresenceValue)
  }

  // ---------------------------------------------------------------------
  // Grouping the rows by day
  //
  // The grouping is stated for any day-key function `day`; the converter
  // uses `DayKey`.
  // ---------------------------------------------------------------------

  /** Some presence row falls on day `k`. */
  ghost predicate Recorded(rows: seq<Row>, day: Row -> string, k: string) {
    exists i :: 0 <= i < |rows| && Counted(rows[i]) && day(rows[i]) == k
  }

  /** Some presence row falls on day `k` at minute `x`. */
  ghost predicate RecordedAt(rows: seq<Row>, day: Row -> string, k: string, x: int) {
    exists i :: 0 <= i < |rows| && Counted(rows[i]) && day(rows[i]) == k && MinuteOf(rows[i]) == x
  }

  lemma RecordedStep(rows: seq<Row>, day: Row -> string, k: string, x: int)
    requires |rows| > 0
    ensures var n := |rows| - 1;
      (Recorded(rows, day, k) <==> Recorded(rows[..n], day, k) || (Counted(rows[n]) && day(rows[n]) == k))
      && (RecordedAt(rows, day, k, x) <==>
            (RecordedAt(rows[..n], day, k, x) || (Counted(rows[n]) && day(rows[n]) == k && MinuteOf(rows[n]) == x)))
  {
    var n := |rows| - 1;
    if Recorded(rows[..n], day, k) {
      var i :| 0 <= i < n && Counted(rows[..n][i]) && day(rows[..n][i]) == k;
      assert rows[i] == rows[..n][i];
    }
    if RecordedAt(rows[..n], day, k, x) {
      var i :| 0 <= i < n && Counted(rows[..n][i]) && day(rows[..n][i]) == k && MinuteOf(rows[..n][i]) == x;
      assert rows[i] == rows[..n][i];
    }
    if Recorded(rows, day, k) && !(Counted(rows[n]) && day(rows[n]) == k) {
      var i :| 0 <= i < |rows| && Counted(rows[i]) && day(rows[i]) == k;
      assert rows[..n][i] == rows[i];
    }
    if RecordedAt(rows, day, k, x) && !(Counted(rows[n]) && day(rows[n]) == k && MinuteOf(rows[n]) == x) {
      var i :| 0 <= i < |rows| && Counted(rows[i]) && day(rows[i]) == k && MinuteOf(rows[i]) == x;
      assert rows[..n][i] == rows[i];
    }
  }

  /** `m` holds exactly the recorded days, each with exactly its recorded
      minutes. */
  ghost predicate IsMinutesByDay(rows: seq<Row>, day: Row -> string, m: map<string, seq<int>>) {
    (forall k :: k in m <==> Recorded(rows, day, k))
    && forall k, x :: k in m ==> (x in m[k] <==> RecordedAt(rows, day, k, x))
  }

  /** The minutes of the presence rows on day `k`, in row order. */
  function DayMinutes(rows: seq<Row>, day: Row -> string, k: string): seq<int> {
    if |rows| == 0 then []
    else
      var n := |rows| - 1;
      DayMinutes(rows[..n], day, k) + (if Counted(rows[n]) && day(rows[n]) == k then [MinuteOf(rows[n])] else [])
  }

  /** `minutes_by_day`: the rows read in order, each presence row appending its
      minute to the list of its day; rows without presence add nothing. */
  function MinutesByDay(rows: seq<Row>, day: Row -> string): (m: map<string, seq<int>>)
    ensures IsMinutesByDay(rows, day, m)
  {
    if |rows| == 0 then map[]
    else
      var n := |rows| - 1;
      var prev := MinutesByDay(rows[..n], day);
      MinutesByDayStep(rows, day, prev);
      if !Counted(rows[n]) then prev
      else
        var k := day(rows[n]);
        prev[k := (if k in prev then prev[k] else []) + [MinuteOf(rows[n])]]
  }

  /** Each day's list holds that day's presence minutes in row order,
      repetitions kept, and a day without presence rows has none. */
  lemma {:induction false} MinutesByDayInOrder(rows: seq<Row>, day: Row -> string, k: string)
    ensures var m := MinutesByDay(rows, day); (if k in m then m[k] else []) == DayMinutes(rows, day, k)
  {
    if |rows| > 0 {
      MinutesByDayInOrder(rows[..|rows| - 1], day, k);
    }
  }

  lemma MinutesByDayStep(rows: seq<Row>, day: Row -> string, prev: map<string, seq<int>>)
    requires |rows| > 0 && IsMinutesByDay(rows[..|rows| - 1], day, prev)
    ensures var n := |rows| - 1; var k := day(rows[n]);
      IsMinutesByDay(rows, day,
        if !Counted(rows[n]) then prev
        else prev[k := (if k in prev then prev[k] else []) + [MinuteOf(rows[n])]])
  {
    var n := |rows| - 1;
    var d := day(rows[n]);
    var m := if !Counted(rows[n]) then prev else prev[d := (if d in prev then prev[d] else []) + [MinuteOf(rows[n])]];
    forall k ensures k in m <==> Recorded(rows, day, k) {
      RecordedStep(rows, day, k, 0);
    }
    forall k, x | k in m ensures x in m[k] <==> RecordedAt(rows, day, k, x) {
      RecordedStep(rows, day, k, x);
    }
  }

  /** The days in the order they first occur, as the keys of the
      `defaultdict` are kept. */
  function DayList(rows: seq<Row>, day: Row -> string): (r: seq<string>)
    ensures Distinct(r)
    ensures forall k :: k in r <==> Recorded(rows, day, k)
  {
    if |rows| == 0 then []
    else
      var n := |rows| - 1;
      var prev := DayList(rows[..n], day);
      forall k ensures Recorded(rows, day, k) <==> Recorded(rows[..n], day, k) || (Counted(rows[n]) && day(rows[n]) == k) {
        RecordedStep(rows, day, k, 0);
      }
      if Counted(rows[n]) && day(rows[n]) !in prev then prev + [day(rows[n])] else prev
  }

  /** `sorted(minutes_by_day.keys())` */
  function SortedDays(rows: seq<Row>, day: Row -> string): (r: seq<string>)
    ensures forall k :: k in r <==> Recorded(rows, day, k)
    ensures forall i, j :: 0 <= i < j < |r| ==> LexLess(r[i], r[j])
  {
    var days := DayList(rows, day);
    var r := SortStrings(days);
    PermutationDistinct(days, r);
    SortedDistinctAscending(r);
    r
  }

  /** Sorted and without repeats: each string strictly before the next. */
  lemma SortedDistinctAscending(r: seq<string>)
    requires SortedStrings(r) && Distinct(r)
    ensures forall i, j :: 0 <= i < j < |r| ==> LexLess(r[i], r[j])
  {
    forall i, j | 0 <= i < j < |r| ensures LexLess(r[i], r[j]) {
      LexLessTotal(r[i], r[j]);
    }
  }

  // ---------------------------------------------------------------------
  // Minutes of one day
  // ---------------------------------------------------------------------

  predicate Increasing(xs: seq<int>) {
    forall i, j :: 0 <= i < j < |xs| ==> xs[i] < xs[j]
  }

  /** Adding one value to an increasing list of distinct values. */
  function InsertDistinct(x: int, ys: seq<int>): (r: seq<int>)
    requires Increasing(ys)
    ensures Increasing(r)
    ensures forall z :: z in r <==> z == x || z in ys
  {
    if |ys| == 0 then [x]
    else if x < ys[0] then [x] + ys
    else if x == ys[0] then ys
    else
      var rest := InsertDistinct(x, ys[1..]);
      assert forall z :: z in rest ==> ys[0] < z;
      ConsIncreasing(ys[0], rest);
      [ys[0]] + rest
  }

  lemma ConsIncreasing(h: int, rest: seq<int>)
    requires Increasing(rest) && forall z :: z in rest ==> h < z
    ensures Increasing([h] + rest)
  {
    var r := [h] + rest;
    forall i, j | 0 <= i < j < |r| ensures r[i] < r[j] {
      assert r[j] == rest[j - 1];
      if i > 0 { assert r[i] == rest[i - 1]; } else { assert rest[j - 1] in rest; }
    }
  }

  /** `sorted(set(minutes))`: the distinct minutes in increasing order. */
  function SortedDistinct(xs: seq<int>): (r: seq<int>)
    ensures Increasing(r)
    ensures forall z :: z in r <==> z in xs
  {
    if |xs| == 0 then []
    else
      var n := |xs| - 1;
      assert forall z :: z in xs <==> z in xs[..n] || z == xs[n];
      InsertDistinct(xs[n], SortedDistinct(xs[..n]))
  }

  // ---------------------------------------------------------------------
  // Call events
  // ---------------------------------------------------------------------

  /** Minute `i` opens a new call event: it is the first, or more than the
      allowed gap after the previous one. */
  predicate StartsRun(mins: seq<int>, i: int)
    requires 0 <= i < |mins|
  {
    i == 0 || mins[i] - mins[i - 1] > MaxGapMinutes
  }

  /** The number of call events: the minutes that open a run. */
  function RunStarts(mins: seq<int>): nat {
    if |mins| == 0 then 0
    else RunStarts(mins[..|mins| - 1]) + if StartsRun(mins, |mins| - 1) then 1 else 0
  }

  /** The counting loop of the converter, which walks the minutes once with
      the previous minute in hand. */
  method CountCallEvents(mins: seq<int>) returns (events: nat)
    ensures events == RunStarts(mins)
  {
    events := 0;
    var prev: Option<int> := None;
    var i := 0;
    while i < |mins|
      invariant 0 <= i <= |mins|
      invariant events == RunStarts(mins[..i])
      invariant prev == if i == 0 then None else Some(mins[i - 1])
    {
      var m := mins[i];
      assert mins[..i + 1][..i] == mins[..i];
      if prev.None? || m - prev.value > MaxGapMinutes {
        events := events + 1;
      }
      prev := Some(m);
      i := i + 1;
    }
    assert mins[..|mins|] == mins;
  }

  /** A day with presence has at least one call event and no more events than
      minutes. */
  lemma {:induction false} RunBounds(mins: seq<int>)
    ensures RunStarts(mins) <= |mins|
    ensures |mins| > 0 ==> RunStarts(mins) >= 1
  {
    if |mins| > 0 {
      RunBounds(mins[..|mins| - 1]);
    }
  }

  /** Minutes with no gap larger than the allowed one form a single event. */
  lemma {:induction false} ContiguousIsOneEvent(mins: seq<int>)
    requires |mins| > 0
    requires forall i :: 0 < i < |mins| ==> mins[i] - mins[i - 1] <= MaxGapMinutes
    ensures RunStarts(mins) == 1
  {
    if |mins| > 1 {
      var n := |mins| - 1;
      assert mins[..n][..n - 1] == mins[..n - 1];
      ContiguousIsOneEvent(mins[..n]);
    }
  }

  /** Minutes all further apart than the allowed gap are each an event. */
  lemma {:induction false} SpreadMinutesAreEvents(mins: seq<int>)
    requires forall i :: 0 < i < |mins| ==> mins[i] - mins[i - 1] > MaxGapMinutes
    ensures RunStarts(mins) == |mins|
  {
    if |mins| > 0 {
      var n := |mins| - 1;
      SpreadMinutesAreEvents(mins[..n]);
    }
  }

  // ---------------------------------------------------------------------
  // The series and the totals
  // ---------------------------------------------------------------------

  /** One day's entry from its recorded minutes. */
  function DayEntryOf(k: string, minutes: seq<int>): (e: DayEntry)
    ensures |minutes| > 0 ==> 1 <= e.callEvents <= e.presenceMinutes
  {
    var mins := SortedDistinct(minutes);
    RunBounds(mins);
    SomeMinute(minutes);
    DayEntry(k, |mins|, RunStarts(mins))
  }

  lemma SomeMinute(minutes: seq<int>)
    ensures |minutes| > 0 ==> |SortedDistinct(minutes)| > 0
  {
    if |minutes| > 0 { assert minutes[0] in SortedDistinct(minutes); }
  }

  /** The series the converter writes: one entry per recorded day, in sorted
      day order. */
  function Series(rows: seq<Row>): (s: seq<DayEntry>)
    ensures var days := SortedDays(rows, DayKey); |s| == |days| && forall i :: 0 <= i < |s| ==> s[i].t == days[i]
  {
    var m := MinutesByDay(rows, DayKey);
    var days := SortedDays(rows, DayKey);
    seq(|days|, i requires 0 <= i < |days| => DayEntryOf(days[i], m[days[i]]))
  }

  /** What the series promises: strictly ascending days, exactly the days with
      a presence minute, and per day the count of its distinct minutes and
      between one and that many call events. */
  lemma SeriesFacts(rows: seq<Row>)
    ensures var s := Series(rows);
      (forall i, j :: 0 <= i < j < |s| ==> LexLess(s[i].t, s[j].t))
      && (forall k :: Recorded(rows, DayKey, k) <==> exists i :: 0 <= i < |s| && s[i].t == k)
      && (forall i :: 0 <= i < |s| ==> 1 <= s[i].callEvents <= s[i].presenceMinutes)
  {
    var s := Series(rows);
    var days := SortedDays(rows, DayKey);
    var m := MinutesByDay(rows, DayKey);
    forall k | Recorded(rows, DayKey, k) ensures exists i :: 0 <= i < |s| && s[i].t == k {
      var i :| 0 <= i < |days| && days[i] == k;
      assert s[i].t == k;
    }
    forall i | 0 <= i < |s| ensures 1 <= s[i].callEvents <= s[i].presenceMinutes {
      NonEmptyDay(rows, m, days[i]);
    }
  }

  /** A recorded day has at least one minute in the grouping. */
  lemma NonEmptyDay(rows: seq<Row>, m: map<string, seq<int>>, k: string)
    requires IsMinutesByDay(rows, DayKey, m) && Recorded(rows, DayKey, k)
    ensures k in m && |m[k]| > 0
  {
    var i :| 0 <= i < |rows| && Counted(rows[i]) && DayKey(rows[i]) == k;
    assert RecordedAt(rows, DayKey, k, MinuteOf(rows[i]));
  }

  /** Each entry counts exactly the distinct minutes recorded on its day, and
      its events are the runs of those minutes in order. */
  lemma SeriesEntryMinutes(rows: seq<Row>, i: nat)
    requires i < |Series(rows)|
    ensures var e := Series(rows)[i]; var mins := SortedDistinct(MinutesByDay(rows, DayKey)[e.t]);
      Increasing(mins)
      && (forall x :: x in mins <==> RecordedAt(rows, DayKey, e.t, x))
      && e.presenceMinutes == |mins|
      && e.callEvents == RunStarts(mins)
  {
  }

  /** A row without presence changes nothing in the output. */
  lemma UncountedRowIgnored(rows: seq<Row>, r: Row)
    requires !Counted(r)
    ensures Series(rows + [r]) == Series(rows)
  {
    assert (rows + [r])[..|rows|] == rows;
  }

  function SumPresence(s: seq<DayEntry>): nat {
    if |s| == 0 then 0 else SumPresence(s[..|s| - 1]) + s[|s| - 1].presenceMinutes
  }

  function SumCalls(s: seq<DayEntry>): nat {
    if |s| == 0 then 0 else SumCalls(s[..|s| - 1]) + s[|s| - 1].callEvents
  }

  // ---------------------------------------------------------------------
  // The file header
  // ---------------------------------------------------------------------

  /** `row.get("site") or None`: an empty cell counts as no site. */
  function SiteOf(r: Row): (s: Option<string>)
    ensures s.Some? ==> s.value != "" && r.site == s
  {
    if r.site.Some? && r.site.value != "" then r.site else None
  }

  /** The header as the converter reads it: while no site has been seen, every
      row overwrites site, year and month. */
  function HeaderAsWritten(rows: seq<Row>): (h: Header)
    ensures |rows| > 0 ==> h.year.Some? && h.month.Some?
  {
    if |rows| == 0 then Header(None, None, None)
    else
      var n := |rows| - 1;
      var h := HeaderAsWritten(rows[..n]);
      if h.site.None? then Header(SiteOf(rows[n]), Some(rows[n].year), Some(rows[n].month)) else h
  }

  /** The header taken from the first row, whatever its presence value. */
  function HeaderOf(rows: seq<Row>): (h: Header)
    ensures |rows| == 0 ==> h == Header(None, None, None)
    ensures |rows| > 0 ==> h == Header(SiteOf(rows[0]), Some(rows[0].year), Some(rows[0].month))
  {
    if |rows| == 0 then Header(None, None, None)
    else Header(SiteOf(rows[0]), Some(rows[0].year), Some(rows[0].month))
  }

  /** When the first row names a site, the converter's header is that row's. */
  lemma {:induction false} HeaderAgreesWithSite(rows: seq<Row>)
    requires |rows| > 0 && SiteOf(rows[0]).Some?
    ensures HeaderAsWritten(rows) == HeaderOf(rows)
  {
    if |rows| > 1 {
      var n := |rows| - 1;
      assert rows[..n][0] == rows[0];
      HeaderAgreesWithSite(rows[..n]);
    }
  }

  /** Without a site, a later row's month replaces the first row's. */
  lemma HeaderAsWrittenTakesLaterRow()
    ensures var rows := [Row(None, 2024, 9, 30, 23, 59, Some(1)), Row(None, 2024, 10, 1, 0, 0, Some(1))];
      HeaderAsWritten(rows).month == Some(10) && HeaderOf(rows).month == Some(9)
  {
    var rows := [Row(None, 2024, 9, 30, 23, 59, Some(1)), Row(None, 2024, 10, 1, 0, 0, Some(1))];
    assert rows[..1][..0] == [];
    assert rows[..1] == [rows[0]];
  }

  // ---------------------------------------------------------------------
  // One file
  // ---------------------------------------------------------------------

  /** The conversion of one file: the header, the series, and the totals
      accumulated over the series. */
  method Aggregate(rows: seq<Row>) returns (out: PresenceJson)
    ensures out.header == HeaderOf(rows)
    ensures out.series == Series(rows)
    ensures out.totalPresenceMinutes == SumPresence(out.series)
    ensures out.totalCallEvents == SumCalls(out.series)
  {
    var m := MinutesByDay(rows, DayKey);
    var days := SortedDays(rows, DayKey);
    var series, totalPresence, totalCalls := ConvertDays(days, m);
    SeriesMatches(rows, series);
    out := PresenceJson(HeaderOf(rows), totalPresence, totalCalls, series);
  }

  /** The loop over the sorted days: one entry per day, and the running
      totals. */
  method ConvertDays(days: seq<string>, m: map<string, seq<int>>)
    returns (series: seq<DayEntry>, totalPresence: nat, totalCalls: nat)
    requires forall i :: 0 <= i < |days| ==> days[i] in m
    ensures |series| == |days|
    ensures forall i :: 0 <= i < |days| ==> series[i] == DayEntryOf(days[i], m[days[i]])
    ensures totalPresence == SumPresence(series)
    ensures totalCalls == SumCalls(series)
  {
    series := [];
    totalPresence := 0;
    totalCalls := 0;
    for i := 0 to |days|
      invariant |series| == i
      invariant forall j :: 0 <= j < i ==> series[j] == DayEntryOf(days[j], m[days[j]])
      invariant totalPresence == SumPresence(series)
      invariant totalCalls == SumCalls(series)
    {
      var e := ConvertDay(days[i], m[days[i]]);
      totalPresence := totalPresence + e.presenceMinutes;
      totalCalls := totalCalls + e.callEvents;
      SumsStep(series, e);
      series := series + [e];
    }
  }

  /** Entries computed day by day over the sorted days are the series. */
  lemma SeriesMatches(rows: seq<Row>, series: seq<DayEntry>)
    requires var days := SortedDays(rows, DayKey); var m := MinutesByDay(rows, DayKey);
      |series| == |days| && forall i :: 0 <= i < |days| ==> days[i] in m && series[i] == DayEntryOf(days[i], m[days[i]])
    ensures series == Series(rows)
  {
  }

  /** One day of the conversion loop: sort the distinct minutes, count them
      and count their runs. */
  method ConvertDay(k: string, minutes: seq<int>) returns (e: DayEntry)
    ensures e == DayEntryOf(k, minutes)
  {
    var mins := SortedDistinct(minutes);
    var callEvents := CountCallEvents(mins);
    e := DayEntry(k, |mins|, callEvents);
  }

  lemma SumsStep(series: seq<DayEntry>, e: DayEntry)
    ensures SumPresence(series + [e]) == SumPresence(series) + e.presenceMinutes
    ensures SumCalls(series + [e]) == SumCalls(series) + e.callEvents
  {
    assert (series + [e])[..|series|] == series;
  }
}

=== FILE: register_overlays.dfy ===
/** `registerOverlays`: adds an overlay definition's sources and layers to the
    map, the layers sorted so that fills come first and labels last. Nothing is
    caught: a layer MapLibre refuses ends the registration there. */
module RegisterOverlays {
  import opened Wrappers
  import opened Seqs
  import opened MapSurface

  /** Sort key of a layer: fill 10, line 20, circle 30, symbol 40, anything else 25. */
  function LayerRank(l: Layer): (r: nat)
    ensures r == 10 <==> l.kind == Fill
    ensures r == 20 <==> l.kind == Line
    ensures r == 30 <==> l.kind == Circle
    ensures r == 40 <==> l.kind == Symbol
    ensures r in RankValues()
  {
    match l.kind
    case Fill => 10
    case Line => 20
    case Circle => 30
    case Symbol => 40
    case _ => 25
  }

  function RankValues(): seq<nat> { [10, 20, 25, 30, 40] }

  /** The layers of rank `v`, in their order. */
  function OfRank(ls: seq<Layer>, v: nat): (r: seq<Layer>)
    ensures forall i :: 0 <= i < |r| ==> LayerRank(r[i]) == v
  {
    if |ls| == 0 then []
    else (if LayerRank(ls[0]) == v then [ls[0]] else []) + OfRank(ls[1..], v)
  }

  lemma {:induction false} OfRankConcat(a: seq<Layer>, b: seq<Layer>, v: nat)
    ensures OfRank(a + b, v) == OfRank(a, v) + OfRank(b, v)
  {
    if |a| > 0 {
      assert (a + b)[1..] == a[1..] + b;
      OfRankConcat(a[1..], b, v);
    } else {
      assert a + b == b;
    }
  }

  lemma {:induction false} OfRankOfRank(ls: seq<Layer>, w: nat, v: nat)
    ensures OfRank(OfRank(ls, w), v) == if w == v then OfRank(ls, v) else []
  {
    if |ls| > 0 {
      OfRankOfRank(ls[1..], w, v);
      var head := if LayerRank(ls[0]) == w then [ls[0]] else [];
      OfRankConcat(head, OfRank(ls[1..], w), v);
    }
  }

  lemma {:induction false} OfRankUnused(ls: seq<Layer>, v: nat)
    requires v !in RankValues()
    ensures OfRank(ls, v) == []
  {
    if |ls| > 0 { OfRankUnused(ls[1..], v); }
  }

  /** The blocks of the given ranks, one after the other. */
  function Blocks(ls: seq<Layer>, vs: seq<nat>): seq<Layer> {
    if |vs| == 0 then [] else OfRank(ls, vs[0]) + Blocks(ls, vs[1..])
  }

  lemma {:induction false} BlocksCons(x: Layer, t: seq<Layer>, vs: seq<nat>)
    requires Distinct(vs)
    ensures multiset(Blocks([x] + t, vs))
      == multiset(Blocks(t, vs)) + (if LayerRank(x) in vs then multiset{x} else multiset{})
  {
    if |vs| > 0 {
      assert ([x] + t)[1..] == t;
      DistinctTail(vs);
      BlocksCons(x, t, vs[1..]);
    }
  }

  /** The head of distinct values is not among the rest, which stay distinct. */
  lemma DistinctTail(vs: seq<nat>)
    requires |vs| > 0 && Distinct(vs)
    ensures Distinct(vs[1..]) && vs[0] !in vs[1..]
    ensures forall v :: v in vs <==> v == vs[0] || v in vs[1..]
  {
    forall k | 0 <= k < |vs[1..]| ensures vs[1..][k] != vs[0] { assert vs[k + 1] != vs[0]; }
  }

  lemma {:induction false} BlocksOfEmpty(vs: seq<nat>)
    ensures Blocks([], vs) == []
  {
    if |vs| > 0 { BlocksOfEmpty(vs[1..]); }
  }

  lemma {:induction false} BlocksPermutation(ls: seq<Layer>, vs: seq<nat>)
    requires Distinct(vs)
    requires forall i :: 0 <= i < |ls| ==> LayerRank(ls[i]) in vs
    ensures multiset(Blocks(ls, vs)) == multiset(ls)
  {
    if |ls| > 0 {
      BlocksPermutation(ls[1..], vs);
      BlocksCons(ls[0], ls[1..], vs);
      assert ls == [ls[0]] + ls[1..];
    } else {
      BlocksOfEmpty(vs);
    }
  }

  /** Taking rank `v` out of the blocks of distinct ranks `vs` finds that rank's layers in order. */
  lemma {:induction false} BlocksStable(ls: seq<Layer>, vs: seq<nat>, v: nat)
    requires Distinct(vs)
    ensures OfRank(Blocks(ls, vs), v) == if v in vs then OfRank(ls, v) else []
  {
    if |vs| > 0 {
      DistinctTail(vs);
      BlocksStable(ls, vs[1..], v);
      OfRankConcat(OfRank(ls, vs[0]), Blocks(ls, vs[1..]), v);
      OfRankOfRank(ls, vs[0], v);
    }
  }

  /** Blocks of ascending ranks are in ascending rank order. */
  lemma {:induction false} BlocksSorted(ls: seq<Layer>, vs: seq<nat>)
    requires forall i, j :: 0 <= i < j < |vs| ==> vs[i] < vs[j]
    ensures forall i :: 0 <= i < |Blocks(ls, vs)| ==> LayerRank(Blocks(ls, vs)[i]) in vs
    ensures forall i, j :: 0 <= i < j < |Blocks(ls, vs)| ==>
      LayerRank(Blocks(ls, vs)[i]) <= LayerRank(Blocks(ls, vs)[j])
  {
    if |vs| > 0 {
      BlocksSorted(ls, vs[1..]);
      var a, b := OfRank(ls, vs[0]), Blocks(ls, vs[1..]);
      assert Blocks(ls, vs) == a + b;
      forall i | 0 <= i < |a + b| ensures LayerRank((a + b)[i]) in vs {
        if i >= |a| { assert (a + b)[i] == b[i - |a|]; assert LayerRank(b[i - |a|]) in vs[1..]; }
      }
      forall i, j | 0 <= i < j < |a + b| ensures LayerRank((a + b)[i]) <= LayerRank((a + b)[j]) {
        if i < |a| && j >= |a| {
          assert (a + b)[j] == b[j - |a|];
          var k :| 0 <= k < |vs[1..]| && vs[1..][k] == LayerRank(b[j - |a|]);
          assert vs[0] < vs[k + 1];
        } else if i >= |a| {
          assert (a + b)[i] == b[i - |a|] && (a + b)[j] == b[j - |a|];
        }
      }
    }
  }

  /** `[...layers].sort((a, b) => layerRank(a) - layerRank(b))`: a stable sort,
      done here as one pass per rank value. */
  function SortByLayerRank(ls: seq<Layer>): (r: seq<Layer>)
    ensures multiset(r) == multiset(ls)
    ensures forall i, j :: 0 <= i < j < |r| ==> LayerRank(r[i]) <= LayerRank(r[j])
    ensures forall v :: OfRank(r, v) == OfRank(ls, v)
  {
    var r := Blocks(ls, RankValues());
    assert Distinct(RankValues());
    BlocksPermutation(ls, RankValues());
    BlocksSorted(ls, RankValues());
    forall v ensures OfRank(r, v) == OfRank(ls, v) {
      BlocksStable(ls, RankValues(), v);
      if v !in RankValues() { OfRankUnused(ls, v); }
    }
    r
  }

  /** The layer loop: a layer whose id is taken is skipped, any other is added;
      the first one MapLibre refuses aborts the loop. */
  function AddMissingLayers(s: Surface, ls: seq<Layer>): (r: Outcome<Surface>)
    ensures r.state.sources == s.sources
    ensures |s.layers| <= |r.state.layers| && r.state.layers[..|s.layers|] == s.layers
    ensures SubsequenceOf(r.state.layers[|s.layers|..], ls)
    decreases |ls|
  {
    if |ls| == 0 then Completed(s)
    else if HasLayer(s, ls[0].id) then
      var r := AddMissingLayers(s, ls[1..]);
      SubsequenceSkip(r.state.layers[|s.layers|..], ls);
      r
    else
      match AddLayer(s, ls[0])
      case None => SubsequenceOfEmpty(ls); Aborted(s, "layer source missing")
      case Some(s1) =>
        var r := AddMissingLayers(s1, ls[1..]);
        AddedAfter(s.layers, ls, r.state.layers);
        r
  }

  /** What the layers gain when the first wanted layer is added and the rest of the
      wanted list adds `after`. */
  lemma AddedAfter(a: seq<Layer>, ls: seq<Layer>, t: seq<Layer>)
    requires |ls| > 0 && |a| + 1 <= |t| && t[..|a| + 1] == a + [ls[0]]
    requires SubsequenceOf(t[|a| + 1..], ls[1..])
    ensures t[..|a|] == a
    ensures SubsequenceOf(t[|a|..], ls)
    ensures ls[0].id in Ids(t)
  {
    assert t[..|a|] == (a + [ls[0]])[..|a|];
    var added := t[|a|..];
    assert added[0] == ls[0];
    assert added[1..] == t[|a| + 1..];
    assert Ids(t)[|a|] == ls[0].id;
  }

  lemma SubsequenceOfEmpty<T>(b: seq<T>)
    ensures SubsequenceOf([], b)
  {
  }

  lemma IdsGrow(a: seq<Layer>, b: seq<Layer>, id: string)
    requires |a| <= |b| && b[..|a|] == a && id in Ids(a)
    ensures id in Ids(b)
  {
    var i :| 0 <= i < |a| && Ids(a)[i] == id;
    assert Ids(b)[i] == id;
  }

  /** The layer loop never gives two layers the same id. */
  lemma {:induction false} AddMissingLayersKeepsUnique(s: Surface, ls: seq<Layer>)
    ensures UniqueIds(s.layers) ==> UniqueIds(AddMissingLayers(s, ls).state.layers)
    decreases |ls|
  {
    if UniqueIds(s.layers) && |ls| > 0 {
      if HasLayer(s, ls[0].id) {
        AddMissingLayersKeepsUnique(s, ls[1..]);
      } else if SourceAvailable(s, ls[0]) {
        AddLayerKeepsUnique(s, ls[0]);
        AddMissingLayersKeepsUnique(AddLayer(s, ls[0]).value, ls[1..]);
      }
    }
  }

  /** A completed loop leaves every wanted id on the map. */
  lemma {:induction false} AddMissingLayersCompleted(s: Surface, ls: seq<Layer>)
    ensures AddMissingLayers(s, ls).Completed? ==>
      forall i :: 0 <= i < |ls| ==> HasLayer(AddMissingLayers(s, ls).state, ls[i].id)
    decreases |ls|
  {
    if |ls| > 0 && AddMissingLayers(s, ls).Completed? {
      var r := AddMissingLayers(s, ls);
      if HasLayer(s, ls[0].id) {
        AddMissingLayersCompleted(s, ls[1..]);
        IdsGrow(s.layers, r.state.layers, ls[0].id);
      } else {
        var s1 := AddLayer(s, ls[0]).value;
        AddMissingLayersCompleted(s1, ls[1..]);
        assert Ids(s1.layers)[|s.layers|] == ls[0].id;
        IdsGrow(s1.layers, r.state.layers, ls[0].id);
      }
    }
  }

  /** An aborted loop met a layer whose source is missing. */
  lemma {:induction false} AddMissingLayersAborted(s: Surface, ls: seq<Layer>)
    ensures AddMissingLayers(s, ls).Aborted? ==>
      exists i :: 0 <= i < |ls| && !SourceAvailable(s, ls[i])
    decreases |ls|
  {
    if !AddMissingLayers(s, ls).Aborted? {
    } else if HasLayer(s, ls[0].id) {
      AddMissingLayersAborted(s, ls[1..]);
      var i :| 0 <= i < |ls| - 1 && !SourceAvailable(s, ls[1..][i]);
      assert !SourceAvailable(s, ls[i + 1]);
    } else if SourceAvailable(s, ls[0]) {
      var s1 := AddLayer(s, ls[0]).value;
      AddMissingLayersAborted(s1, ls[1..]);
      var i :| 0 <= i < |ls| - 1 && !SourceAvailable(s1, ls[1..][i]);
      assert !SourceAvailable(s, ls[i + 1]);
    } else {
      assert !SourceAvailable(s, ls[0]);
    }
  }

  /** When every wanted layer's source is there, the loop runs to the end. */
  lemma {:induction false} AddMissingLayersCompletes(s: Surface, ls: seq<Layer>)
    requires forall i :: 0 <= i < |ls| ==> SourceAvailable(s, ls[i])
    ensures AddMissingLayers(s, ls).Completed?
    decreases |ls|
  {
    if |ls| > 0 {
      if HasLayer(s, ls[0].id) {
        AddMissingLayersCompletes(s, ls[1..]);
      } else {
        AddMissingLayersCompletes(AddLayer(s, ls[0]).value, ls[1..]);
      }
    }
  }

  /** Running the layer loop again over what it left behind repeats its outcome:
      everything it added is skipped, and a refused layer is refused again. */
  lemma {:induction false} AddMissingLayersIdempotent(s: Surface, ls: seq<Layer>)
    ensures AddMissingLayers(AddMissingLayers(s, ls).state, ls) == AddMissingLayers(s, ls)
    decreases |ls|
  {
    if |ls| > 0 {
      var r := AddMissingLayers(s, ls);
      if HasLayer(s, ls[0].id) {
        AddMissingLayersIdempotent(s, ls[1..]);
        IdsGrow(s.layers, r.state.layers, ls[0].id);
      } else if SourceAvailable(s, ls[0]) {
        var s1 := AddLayer(s, ls[0]).value;
        AddMissingLayersIdempotent(s1, ls[1..]);
        assert Ids(s1.layers)[|s.layers|] == ls[0].id;
        IdsGrow(s1.layers, r.state.layers, ls[0].id);
      }
    }
  }

  /** `registerOverlays(map, def)` */
  function RegisterOverlays(s: Surface, def: Overlays): (r: Outcome<Surface>)
    ensures |s.layers| <= |r.state.layers| && r.state.layers[..|s.layers|] == s.layers
    ensures forall k :: k in s.sources ==> k in r.state.sources && r.state.sources[k] == s.sources[k]
    ensures forall k :: k in def.sources ==> k in r.state.sources
    ensures UniqueIds(s.layers) ==> UniqueIds(r.state.layers)
    ensures r.Completed? ==> forall l :: l in def.layers ==> HasLayer(r.state, l.id)
  {
    var sorted := SortByLayerRank(def.layers);
    var u := AddMissingSources(s, def.sources);
    var r := AddMissingLayers(u, sorted);
    AddMissingLayersKeepsUnique(u, sorted);
    AddMissingLayersCompleted(u, sorted);
    assert forall l :: l in def.layers ==> l in sorted by {
      forall l | l in def.layers ensures l in sorted {
        assert l in multiset(def.layers);
      }
    }
    r
  }

  /** When every layer's source is in the definition or already on the map,
      registration runs to the end. */
  lemma RegisterOverlaysCompletes(s: Surface, def: Overlays)
    requires forall l :: l in def.layers ==>
      l.source.None? || l.source.value in def.sources || l.source.value in s.sources
    ensures RegisterOverlays(s, def).Completed?
  {
    var u := AddMissingSources(s, def.sources);
    var sorted := SortByLayerRank(def.layers);
    forall i | 0 <= i < |sorted| ensures SourceAvailable(u, sorted[i]) {
      assert sorted[i] in multiset(def.layers);
    }
    AddMissingLayersCompletes(u, sorted);
  }

  /** Registering a second time changes nothing and ends the same way. */
  lemma RegisterOverlaysIdempotent(s: Surface, def: Overlays)
    ensures RegisterOverlays(RegisterOverlays(s, def).state, def) == RegisterOverlays(s, def)
  {
    var u := AddMissingSources(s, def.sources);
    var sorted := SortByLayerRank(def.layers);
    var t := AddMissingLayers(u, sorted).state;
    assert AddMissingSources(t, def.sources) == t;
    AddMissingLayersIdempotent(u, sorted);
  }
}

=== FILE: search_marker.dfy ===
/** The search-result marker: one GeoJSON source and one circle layer, created
    on demand and created again after a style switch wiped them. */
module SearchMarker {
  import opened Wrappers
  import opened Js
  import opened MapSurface

  const MarkerSourceId: string := "search-marker"
  const MarkerLayerId: string := "search-marker-layer"

  function MarkerLayer(): Layer {
    Layer(MarkerLayerId, Circle, Some(MarkerSourceId), map[],
      map["circle-radius" := JNum(Finite(8.0)), "circle-color" := JStr("#111827"),
          "circle-stroke-width" := JNum(Finite(2.0)), "circle-stroke-color" := JStr("#ffffff")],
      map[])
  }

  /** `isStyleReady`: both `loaded()` and `isStyleLoaded()` report true. */
  predicate IsStyleReady(loaded: bool, styleLoaded: bool) {
    loaded && styleLoaded
  }

  /** `ensureNow`: the empty marker source and the marker layer, each added
      only when missing. */
  function EnsureNow(s: Surface): (r: Surface)
    ensures MarkerSourceId in r.sources && HasLayer(r, MarkerLayerId)
    ensures MarkerSourceId in s.sources ==> r.sources == s.sources
    ensures MarkerSourceId !in s.sources ==> r.sources == s.sources[MarkerSourceId := GeoJson([])]
    ensures HasLayer(s, MarkerLayerId) ==> r.layers == s.layers
    ensures !HasLayer(s, MarkerLayerId) ==> r.layers == s.layers + [MarkerLayer()]
  {
    var s1 := if MarkerSourceId in s.sources then s else AddSource(s, MarkerSourceId, GeoJson([]));
    if HasLayer(s1, MarkerLayerId) then s1
    else
      var r := AddLayer(s1, MarkerLayer()).value;
      assert Ids(r.layers)[|s1.layers|] == MarkerLayerId;
      r
  }

  /** Ensuring twice is ensuring once. */
  lemma EnsureNowIdempotent(s: Surface)
    ensures EnsureNow(EnsureNow(s)) == EnsureNow(s)
  {
  }

  /** The map with the idle handlers that `ensureSearchMarkerLayer` left
      registered and not yet run. */
  datatype MarkerState = MarkerState(surface: Surface, pendingIdle: nat)

  /** `ensureSearchMarkerLayer(map)`: immediately when the style is ready,
      otherwise one more idle handler. Each call creates a fresh handler, so
      the `off` before the `on` removes nothing and handlers accumulate. */
  function EnsureSearchMarkerLayer(st: MarkerState, loaded: bool, styleLoaded: bool): (r: MarkerState)
    ensures IsStyleReady(loaded, styleLoaded) ==> r == MarkerState(EnsureNow(st.surface), st.pendingIdle)
    ensures !IsStyleReady(loaded, styleLoaded) ==> r == MarkerState(st.surface, st.pendingIdle + 1)
  {
    if IsStyleReady(loaded, styleLoaded) then st.(surface := EnsureNow(st.surface))
    else st.(pendingIdle := st.pendingIdle + 1)
  }

  /** One idle handler: it removes itself, re-checks readiness and adds nothing
      when the style is still not ready. */
  function OnIdle(s: Surface, loaded: bool, styleLoaded: bool): (r: Surface)
    ensures !IsStyleReady(loaded, styleLoaded) ==> r == s
    ensures IsStyleReady(loaded, styleLoaded) ==> MarkerSourceId in r.sources && HasLayer(r, MarkerLayerId)
  {
    if !IsStyleReady(loaded, styleLoaded) then s else EnsureNow(s)
  }

  function RunHandlers(s: Surface, n: nat, loaded: bool, styleLoaded: bool): Surface
    decreases n
  {
    if n == 0 then s else RunHandlers(OnIdle(s, loaded, styleLoaded), n - 1, loaded, styleLoaded)
  }

  /** The `idle` event runs every pending handler once and leaves none behind. */
  function FireIdle(st: MarkerState, loaded: bool, styleLoaded: bool): (r: MarkerState)
    ensures r.pendingIdle == 0
  {
    MarkerState(RunHandlers(st.surface, st.pendingIdle, loaded, styleLoaded), 0)
  }

  /** However many handlers piled up, an idle event has the effect of one. */
  lemma {:induction false} FireIdleActsOnce(st: MarkerState, loaded: bool, styleLoaded: bool)
    requires st.pendingIdle > 0
    ensures FireIdle(st, loaded, styleLoaded).surface == OnIdle(st.surface, loaded, styleLoaded)
  {
    RunHandlersOnce(st.surface, st.pendingIdle, loaded, styleLoaded);
  }

  lemma {:induction false} RunHandlersOnce(s: Surface, n: nat, loaded: bool, styleLoaded: bool)
    requires n > 0
    ensures RunHandlers(s, n, loaded, styleLoaded) == OnIdle(s, loaded, styleLoaded)
    decreases n
  {
    if n > 1 {
      var s1 := OnIdle(s, loaded, styleLoaded);
      RunHandlersOnce(s1, n - 1, loaded, styleLoaded);
      EnsureNowIdempotent(s);
    }
  }

  /** A call while the style is not ready, followed by an idle event once it
      is, leaves the marker on the map. */
  lemma DeferredEnsure(st: MarkerState, styleLoaded: bool)
    ensures var r := FireIdle(EnsureSearchMarkerLayer(st, false, styleLoaded), true, true);
      MarkerSourceId in r.surface.sources && HasLayer(r.surface, MarkerLayerId) && r.pendingIdle == 0
  {
    FireIdleActsOnce(EnsureSearchMarkerLayer(st, false, styleLoaded), true, true);
  }
}

=== FILE: seqs.dfy ===
/** Sequence helpers shared by several components. */
module Seqs {

  predicate Distinct<T(==)>(xs: seq<T>) {
    forall i, j :: 0 <= i < j < |xs| ==> xs[i] != xs[j]
  }

  /** The keys of `xs` under `key`. */
  function KeySet<T, K>(xs: seq<T>, key: T -> K): (r: set<K>)
    ensures forall i :: 0 <= i < |xs| ==> key(xs[i]) in r
    ensures forall k :: k in r ==> exists i :: 0 <= i < |xs| && key(xs[i]) == k
  {
    set i | 0 <= i < |xs| :: key(xs[i])
  }

  /** No element before position `i` has the key of `xs[i]`. */
  predicate IsFirstOfKey<T, K(==)>(xs: seq<T>, key: T -> K, i: int)
    requires 0 <= i < |xs|
  {
    forall j :: 0 <= j < i ==> key(xs[j]) != key(xs[i])
  }

  /** Reference definition of deduplication: of `xs[..n]`, the elements whose key
      no earlier element has, in their original order. */
  function FirstsUpTo<T, K(==)>(xs: seq<T>, key: T -> K, n: nat): seq<T>
    requires n <= |xs|
  {
    if n == 0 then []
    else FirstsUpTo(xs, key, n - 1) + (if IsFirstOfKey(xs, key, n - 1) then [xs[n - 1]] else [])
  }

  /** The elements of `xs` that are the first of their key. */
  function FirstOccurrences<T, K(==)>(xs: seq<T>, key: T -> K): seq<T> {
    FirstsUpTo(xs, key, |xs|)
  }

  /** The loop "skip when the key is in `seen`, otherwise add it to `seen` and
      keep the element", run over `xs[..n]`; returns what it kept and `seen`. */
  function DedupeLoop<T, K(==)>(xs: seq<T>, key: T -> K, n: nat): (res: (seq<T>, set<K>))
    requires n <= |xs|
    ensures res.1 == KeySet(xs[..n], key)
    ensures res.0 == FirstsUpTo(xs, key, n)
  {
    if n == 0 then ([], {})
    else
      var (kept, seen) := DedupeLoop(xs, key, n - 1);
      var x := xs[n - 1];
      assert xs[..n] == xs[..n - 1] + [x];
      assert key(x) in seen <==> !IsFirstOfKey(xs, key, n - 1) by {
        if key(x) in seen {
          var i :| 0 <= i < n - 1 && key(xs[..n - 1][i]) == key(x);
          assert key(xs[i]) == key(xs[n - 1]);
        }
        if !IsFirstOfKey(xs, key, n - 1) {
          var j :| 0 <= j < n - 1 && key(xs[j]) == key(xs[n - 1]);
          assert xs[..n - 1][j] == xs[j];
        }
      }
      if key(x) in seen then (kept, seen) else (kept + [x], seen + {key(x)})
  }

  /** Keep the first element of every key, in input order. */
  function DedupeBy<T, K(==)>(xs: seq<T>, key: T -> K): (r: seq<T>)
    ensures r == FirstOccurrences(xs, key)
  {
    assert xs[..|xs|] == xs;
    DedupeLoop(xs, key, |xs|).0
  }

  /** Every kept element is an element of the input that is first of its key. */
  lemma {:induction false} FirstsUpToFromInput<T, K>(xs: seq<T>, key: T -> K, n: nat)
    requires n <= |xs|
    ensures forall j :: 0 <= j < |FirstsUpTo(xs, key, n)| ==>
      exists i :: 0 <= i < n && FirstsUpTo(xs, key, n)[j] == xs[i] && IsFirstOfKey(xs, key, i)
  {
    if n > 0 {
      FirstsUpToFromInput(xs, key, n - 1);
      var prev := FirstsUpTo(xs, key, n - 1);
      var tail := if IsFirstOfKey(xs, key, n - 1) then [xs[n - 1]] else [];
      var r := FirstsUpTo(xs, key, n);
      assert r == prev + tail;
      forall j | 0 <= j < |r|
        ensures exists i :: 0 <= i < n && r[j] == xs[i] && IsFirstOfKey(xs, key, i)
      {
        if j < |prev| {
          var i :| 0 <= i < n - 1 && prev[j] == xs[i] && IsFirstOfKey(xs, key, i);
          assert r[j] == xs[i];
        } else {
          assert r[j] == xs[n - 1];
        }
      }
    } else {
      assert FirstsUpTo(xs, key, n) == [];
    }
  }

  /** No key of the input is lost. */
  lemma {:induction false} FirstsUpToKeepsKeys<T, K>(xs: seq<T>, key: T -> K, n: nat)
    requires n <= |xs|
    ensures forall i :: 0 <= i < n ==> key(xs[i]) in KeySet(FirstsUpTo(xs, key, n), key)
  {
    if n > 0 {
      FirstsUpToKeepsKeys(xs, key, n - 1);
      var prev := FirstsUpTo(xs, key, n - 1);
      var r := FirstsUpTo(xs, key, n);
      assert r[..|prev|] == prev;
      forall i | 0 <= i < n ensures key(xs[i]) in KeySet(r, key) {
        if i < n - 1 {
          var j :| 0 <= j < |prev| && key(prev[j]) == key(xs[i]);
          assert r[j] == prev[j];
        } else if IsFirstOfKey(xs, key, n - 1) {
          assert r[|r| - 1] == xs[n - 1];
        } else {
          var j :| 0 <= j < n - 1 && key(xs[j]) == key(xs[n - 1]);
          var k :| 0 <= k < |prev| && key(prev[k]) == key(xs[j]);
          assert r[k] == prev[k];
        }
      }
    }
  }

  /** No two kept elements share a key. */
  lemma {:induction false} FirstsUpToKeysDistinct<T, K>(xs: seq<T>, key: T -> K, n: nat)
    requires n <= |xs|
    ensures Distinct(Keys(FirstsUpTo(xs, key, n), key))
  {
    if n > 0 {
      FirstsUpToKeysDistinct(xs, key, n - 1);
      FirstsUpToFromInput(xs, key, n - 1);
      var prev := FirstsUpTo(xs, key, n - 1);
      var r := FirstsUpTo(xs, key, n);
      if IsFirstOfKey(xs, key, n - 1) {
        forall a, b | 0 <= a < b < |r| ensures key(r[a]) != key(r[b]) {
          if b < |prev| {
            assert Keys(prev, key)[a] != Keys(prev, key)[b];
          } else {
            var i :| 0 <= i < n - 1 && prev[a] == xs[i] && IsFirstOfKey(xs, key, i);
            assert r[a] == xs[i];
          }
        }
      }
    }
  }

  /** The key of every element, in order. */
  function Keys<T, K>(xs: seq<T>, key: T -> K): (r: seq<K>)
    ensures |r| == |xs| && forall i :: 0 <= i < |xs| ==> r[i] == key(xs[i])
  {
    seq(|xs|, i requires 0 <= i < |xs| => key(xs[i]))
  }

  /** Deduplication keeps one element per key and loses no key. */
  lemma DedupeByKeys<T, K>(xs: seq<T>, key: T -> K)
    ensures Distinct(Keys(DedupeBy(xs, key), key))
    ensures KeySet(DedupeBy(xs, key), key) == KeySet(xs, key)
    ensures forall x :: x in DedupeBy(xs, key) ==> x in xs
  {
    FirstsUpToKeysDistinct(xs, key, |xs|);
    FirstsUpToFromInput(xs, key, |xs|);
    FirstsUpToKeepsKeys(xs, key, |xs|);
  }

  /** A sequence whose keys are already distinct is left as it is. */
  lemma {:induction false} FirstsUpToDistinctIdentity<T, K>(xs: seq<T>, key: T -> K, n: nat)
    requires n <= |xs|
    requires Distinct(Keys(xs, key))
    ensures FirstsUpTo(xs, key, n) == xs[..n]
  {
    if n > 0 {
      FirstsUpToDistinctIdentity(xs, key, n - 1);
      assert IsFirstOfKey(xs, key, n - 1) by {
        forall j | 0 <= j < n - 1 ensures key(xs[j]) != key(xs[n - 1]) {
          assert Keys(xs, key)[j] != Keys(xs, key)[n - 1];
        }
      }
      assert xs[..n] == xs[..n - 1] + [xs[n - 1]];
    }
  }

  /** Deduplicating twice is deduplicating once. */
  lemma DedupeByIdempotent<T, K>(xs: seq<T>, key: T -> K)
    ensures DedupeBy(DedupeBy(xs, key), key) == DedupeBy(xs, key)
  {
    var r := DedupeBy(xs, key);
    DedupeByKeys(xs, key);
    FirstsUpToDistinctIdentity(r, key, |r|);
    assert r[..|r|] == r;
  }

  /** `a` is `b` with some elements left out. */
  predicate SubsequenceOf<T(==)>(a: seq<T>, b: seq<T>)
    decreases |b|
  {
    |a| == 0 || (|b| > 0 && (if a[0] == b[0] then SubsequenceOf(a[1..], b[1..]) else SubsequenceOf(a, b[1..])))
  }

  lemma {:induction false} SubsequenceMembers<T>(a: seq<T>, b: seq<T>)
    requires SubsequenceOf(a, b)
    ensures forall x :: x in a ==> x in b
    decreases |b|
  {
    if |a| > 0 {
      if a[0] == b[0] {
        SubsequenceMembers(a[1..], b[1..]);
        assert a == [a[0]] + a[1..];
      } else {
        SubsequenceMembers(a, b[1..]);
      }
    }
  }

  lemma {:induction false} SubsequenceOfSelf<T>(a: seq<T>)
    ensures SubsequenceOf(a, a)
  {
    if |a| > 0 { SubsequenceOfSelf(a[1..]); }
  }

  lemma {:induction false} SubsequenceSkip<T>(a: seq<T>, b: seq<T>)
    requires |b| > 0 && SubsequenceOf(a, b[1..])
    ensures SubsequenceOf(a, b)
    decreases |b|, 0
  {
    if |a| > 0 && a[0] == b[0] {
      SubsequenceSkipHead(a, b[1..]);
    }
  }

  /** Keeping the first element of `b` in front of a subsequence of the rest. */
  lemma SubsequenceCons<T>(a: seq<T>, b: seq<T>)
    requires |b| > 0 && SubsequenceOf(a, b[1..])
    ensures SubsequenceOf([b[0]] + a, b)
  {
    assert ([b[0]] + a)[1..] == a;
  }

  /** Leaving elements out twice is leaving them out once. */
  lemma {:induction false} SubsequenceTrans<T>(a: seq<T>, b: seq<T>, c: seq<T>)
    requires SubsequenceOf(a, b) && SubsequenceOf(b, c)
    ensures SubsequenceOf(a, c)
    decreases |c|
  {
    if |a| > 0 {
      if b[0] == c[0] {
        if a[0] == b[0] {
          SubsequenceTrans(a[1..], b[1..], c[1..]);
        } else {
          SubsequenceTrans(a, b[1..], c[1..]);
          SubsequenceSkip(a, c);
        }
      } else {
        SubsequenceTrans(a, b, c[1..]);
        SubsequenceSkip(a, c);
      }
    }
  }

  lemma {:induction false} SubsequenceSkipHead<T>(a: seq<T>, b: seq<T>)
    requires |a| > 0 && SubsequenceOf(a, b)
    ensures SubsequenceOf(a[1..], b)
    decreases |b|, 1
  {
    if a[0] == b[0] {
      SubsequenceSkip(a[1..], b);
    } else {
      SubsequenceSkipHead(a, b[1..]);
      SubsequenceSkip(a[1..], b);
    }
  }

  /** `xs.filter(p)` */
  function Filter<T(!new)>(xs: seq<T>, p: T -> bool): (r: seq<T>)
    ensures |r| <= |xs|
    ensures forall x :: x in r <==> x in xs && p(x)
    ensures forall i :: 0 <= i < |r| ==> p(r[i])
  {
    if |xs| == 0 then [] else (if p(xs[0]) then [xs[0]] else []) + Filter(xs[1..], p)
  }

  lemma {:induction false} FilterConcat<T(!new)>(a: seq<T>, b: seq<T>, p: T -> bool)
    ensures Filter(a + b, p) == Filter(a, p) + Filter(b, p)
  {
    if |a| > 0 {
      assert (a + b)[1..] == a[1..] + b;
      FilterConcat(a[1..], b, p);
    } else {
      assert a + b == b;
    }
  }

  /** What a filter keeps is the input with elements left out. */
  lemma {:induction false} FilterSubsequence<T(!new)>(xs: seq<T>, p: T -> bool)
    ensures SubsequenceOf(Filter(xs, p), xs)
  {
    if |xs| > 0 {
      FilterSubsequence(xs[1..], p);
      if p(xs[0]) {
        assert Filter(xs, p)[1..] == Filter(xs[1..], p);
      } else {
        assert Filter(xs, p) == Filter(xs[1..], p);
        SubsequenceSkip(Filter(xs, p), xs);
      }
    }
  }

  /** A filter keeps every element when all of them pass. */
  lemma {:induction false} FilterAll<T(!new)>(xs: seq<T>, p: T -> bool)
    requires forall i :: 0 <= i < |xs| ==> p(xs[i])
    ensures Filter(xs, p) == xs
  {
    if |xs| > 0 { FilterAll(xs[1..], p); }
  }

  /** How often a filter keeps `x`: as often as the input holds it when `x`
      passes, never otherwise. */
  lemma {:induction false} FilterCount<T(!new)>(xs: seq<T>, p: T -> bool, x: T)
    ensures multiset(Filter(xs, p))[x] == if p(x) then multiset(xs)[x] else 0
  {
    if |xs| > 0 {
      FilterCount(xs[1..], p, x);
      assert xs == [xs[0]] + xs[1..];
      assert Filter(xs, p) == (if p(xs[0]) then [xs[0]] else []) + Filter(xs[1..], p);
    }
  }

  /** Filtering permutations of each other gives permutations of each other. */
  lemma FilterPermutation<T(!new)>(a: seq<T>, b: seq<T>, p: T -> bool)
    requires multiset(a) == multiset(b)
    ensures multiset(Filter(a, p)) == multiset(Filter(b, p))
  {
    forall x ensures multiset(Filter(a, p))[x] == multiset(Filter(b, p))[x] {
      FilterCount(a, p, x);
      FilterCount(b, p, x);
    }
  }

  /** Filtering a sequence without repetitions leaves none. */
  lemma {:induction false} FilterDistinct<T(!new)>(xs: seq<T>, p: T -> bool)
    requires Distinct(xs)
    ensures Distinct(Filter(xs, p))
  {
    if |xs| > 0 {
      var rest := Filter(xs[1..], p);
      assert Distinct(xs[1..]) by {
        forall i, j | 0 <= i < j < |xs[1..]| ensures xs[1..][i] != xs[1..][j] {
          assert xs[1..][i] == xs[i + 1] && xs[1..][j] == xs[j + 1];
        }
      }
      FilterDistinct(xs[1..], p);
      if p(xs[0]) {
        assert xs[0] !in rest;
        var r := Filter(xs, p);
        assert r == [xs[0]] + rest;
        forall i, j | 0 <= i < j < |r| ensures r[i] != r[j] {
          if i > 0 { assert r[i] == rest[i - 1] && r[j] == rest[j - 1]; }
          else { assert r[j] == rest[j - 1]; }
        }
      } else {
        assert Filter(xs, p) == rest;
      }
    }
  }

  /** Sequences without repetitions that hold the same elements are
      permutations of each other. */
  lemma {:induction false} DistinctSameSet<T>(a: seq<T>, b: seq<T>)
    requires Distinct(a) && Distinct(b)
    requires forall x :: x in a <==> x in b
    ensures multiset(a) == multiset(b)
  {
    DistinctMultiset(a);
    DistinctMultiset(b);
  }

  /** A permutation of a sequence without repetitions has none either, and
      the same elements. */
  lemma PermutationDistinct<T>(a: seq<T>, b: seq<T>)
    requires multiset(a) == multiset(b) && Distinct(a)
    ensures Distinct(b)
    ensures forall x :: x in a <==> x in b
  {
    DistinctMultiset(a);
    forall i, j | 0 <= i < j < |b| ensures b[i] != b[j] {
      if b[i] == b[j] { TwoOccurrences(b, i, j); }
    }
    forall x ensures x in a <==> x in b {
      assert x in a <==> x in multiset(a);
      assert x in b <==> x in multiset(b);
    }
  }

  lemma TwoOccurrences<T>(b: seq<T>, i: nat, j: nat)
    requires i < j < |b| && b[i] == b[j]
    ensures multiset(b)[b[j]] >= 2
  {
    assert b == b[..j] + [b[j]] + b[j + 1..];
    assert b[..j][i] == b[j];
    assert b[j] in multiset(b[..j]);
  }

  lemma {:induction false} DistinctMultiset<T>(a: seq<T>)
    requires Distinct(a)
    ensures forall x :: multiset(a)[x] == if x in a then 1 else 0
  {
    if |a| > 0 {
      DistinctMultiset(a[1..]);
      assert a == [a[0]] + a[1..];
      assert a[0] !in a[1..] by {
        forall i | 0 <= i < |a[1..]| ensures a[1..][i] != a[0] { assert a[1..][i] == a[i + 1]; }
      }
    }
  }

  /** `FirstsUpTo` looks only at the first `n` elements. */
  lemma {:induction false} FirstsUpToPrefix<T, K>(xs: seq<T>, ys: seq<T>, key: T -> K, n: nat)
    requires n <= |xs| && n <= |ys| && xs[..n] == ys[..n]
    ensures FirstsUpTo(xs, key, n) == FirstsUpTo(ys, key, n)
  {
    if n > 0 {
      assert xs[..n - 1] == ys[..n - 1] by {
        assert xs[..n - 1] == xs[..n][..n - 1];
        assert ys[..n - 1] == ys[..n][..n - 1];
      }
      FirstsUpToPrefix(xs, ys, key, n - 1);
      assert forall j :: 0 <= j < n ==> xs[j] == ys[j] by {
        forall j | 0 <= j < n ensures xs[j] == ys[j] { assert xs[..n][j] == ys[..n][j]; }
      }
      assert IsFirstOfKey(xs, key, n - 1) == IsFirstOfKey(ys, key, n - 1);
    }
  }

  /** One step of the reference: the next element is kept exactly when no
      kept element has its key yet. */
  lemma FirstsUpToStep<T, K>(xs: seq<T>, key: T -> K, m: nat)
    requires m < |xs|
    ensures var p := FirstsUpTo(xs, key, m);
      FirstsUpTo(xs, key, m + 1) == if key(xs[m]) in KeySet(p, key) then p else p + [xs[m]]
  {
    var p := FirstsUpTo(xs, key, m);
    FirstsUpToFromInput(xs, key, m);
    FirstsUpToKeepsKeys(xs, key, m);
    if key(xs[m]) in KeySet(p, key) {
      var j :| 0 <= j < |p| && key(p[j]) == key(xs[m]);
      var i :| 0 <= i < m && p[j] == xs[i] && IsFirstOfKey(xs, key, i);
      assert !IsFirstOfKey(xs, key, m);
    }
  }

  lemma {:induction false} SubsequenceAppendRight<T>(a: seq<T>, b: seq<T>, x: T)
    requires SubsequenceOf(a, b)
    ensures SubsequenceOf(a, b + [x])
    decreases |b|
  {
    if |a| > 0 {
      assert (b + [x])[1..] == b[1..] + [x];
      if a[0] == b[0] {
        SubsequenceAppendRight(a[1..], b[1..], x);
      } else {
        SubsequenceAppendRight(a, b[1..], x);
      }
    }
  }

  lemma {:induction false} SubsequenceAppendBoth<T>(a: seq<T>, b: seq<T>, x: T)
    requires SubsequenceOf(a, b)
    ensures SubsequenceOf(a + [x], b + [x])
    decreases |b|
  {
    if |a| == 0 {
      if |b| == 0 {
        assert SubsequenceOf(([] + [x])[1..], ([] + [x])[1..]);
      } else {
        SubsequenceOfEmptySeq(b);
        assert (b + [x])[1..] == b[1..] + [x];
        SubsequenceAppendBoth(a, b[1..], x);
      }
    } else {
      assert (b + [x])[1..] == b[1..] + [x];
      assert (a + [x])[1..] == a[1..] + [x];
      if a[0] == b[0] {
        SubsequenceAppendBoth(a[1..], b[1..], x);
      } else {
        SubsequenceAppendBoth(a, b[1..], x);
      }
    }
  }

  /** A non-empty prefix is the shorter prefix and its last element. */
  lemma TakeLast<T>(xs: seq<T>, n: nat)
    requires 0 < n <= |xs|
    ensures xs[..n] == xs[..n - 1] + [xs[n - 1]]
  {
  }

  /** A non-empty sequence holds its first element. */
  lemma HeadMember<T>(xs: seq<T>)
    requires |xs| > 0
    ensures xs[0] in xs
  {
  }

  lemma SubsequenceOfEmptySeq<T>(b: seq<T>)
    ensures SubsequenceOf([], b)
  {
  }

  /** What deduplication keeps is the input with elements left out. */
  lemma {:induction false} FirstsUpToSubsequence<T, K>(xs: seq<T>, key: T -> K, n: nat)
    requires n <= |xs|
    ensures SubsequenceOf(FirstsUpTo(xs, key, n), xs[..n])
  {
    if n == 0 {
      SubsequenceOfEmptySeq(xs[..0]);
    } else {
      FirstsUpToSubsequence(xs, key, n - 1);
      var p := FirstsUpTo(xs, key, n - 1);
      assert xs[..n] == xs[..n - 1] + [xs[n - 1]];
      if IsFirstOfKey(xs, key, n - 1) {
        SubsequenceAppendBoth(p, xs[..n - 1], xs[n - 1]);
      } else {
        assert FirstsUpTo(xs, key, n) == p;
        SubsequenceAppendRight(p, xs[..n - 1], xs[n - 1]);
      }
    }
  }

  lemma DedupeBySubsequence<T, K>(xs: seq<T>, key: T -> K)
    ensures SubsequenceOf(DedupeBy(xs, key), xs)
  {
    FirstsUpToSubsequence(xs, key, |xs|);
    assert xs[..|xs|] == xs;
  }

  // -----------------------------------------------------------------------
  // Stable sorting by a numeric key

  /** The elements with key `k`, in order. */
  function AtKey<T>(xs: seq<T>, key: T -> real, k: real): seq<T> {
    if |xs| == 0 then [] else (if key(xs[0]) == k then [xs[0]] else []) + AtKey(xs[1..], key, k)
  }

  predicate SortedBy<T>(xs: seq<T>, key: T -> real) {
    forall i, j :: 0 <= i < j < |xs| ==> key(xs[i]) <= key(xs[j])
  }

  /** Puts `x` before the first element whose key is not smaller. */
  function InsertBy<T>(x: T, ys: seq<T>, key: T -> real): (r: seq<T>)
    ensures multiset(r) == multiset(ys) + multiset{x}
  {
    if |ys| == 0 || key(x) <= key(ys[0]) then [x] + ys
    else
      assert ys == [ys[0]] + ys[1..];
      [ys[0]] + InsertBy(x, ys[1..], key)
  }

  lemma {:induction false} InsertBySorted<T>(x: T, ys: seq<T>, key: T -> real)
    requires SortedBy(ys, key)
    ensures SortedBy(InsertBy(x, ys, key), key)
  {
    if !(|ys| == 0 || key(x) <= key(ys[0])) {
      var rest := InsertBy(x, ys[1..], key);
      InsertBySorted(x, ys[1..], key);
      InsertByAbove(x, ys, key);
      SortedCons(ys[0], rest, key);
      assert InsertBy(x, ys, key) == [ys[0]] + rest;
    }
  }

  /** Inserting behind the head keeps every element at or above the head. */
  lemma InsertByAbove<T>(x: T, ys: seq<T>, key: T -> real)
    requires SortedBy(ys, key) && |ys| > 0 && key(ys[0]) < key(x)
    ensures forall k :: 0 <= k < |InsertBy(x, ys[1..], key)| ==> key(ys[0]) <= key(InsertBy(x, ys[1..], key)[k])
  {
    var rest := InsertBy(x, ys[1..], key);
    forall k | 0 <= k < |rest| ensures key(ys[0]) <= key(rest[k]) {
      assert rest[k] in multiset(ys[1..]) + multiset{x};
      if rest[k] != x {
        var m :| 0 <= m < |ys[1..]| && ys[1..][m] == rest[k];
        assert ys[m + 1] == rest[k];
      }
    }
  }

  /** Inserting `x` puts it in front of every other element with its key. */
  lemma {:induction false} InsertByAtKey<T>(x: T, ys: seq<T>, key: T -> real, k: real)
    ensures AtKey(InsertBy(x, ys, key), key, k) == (if key(x) == k then [x] else []) + AtKey(ys, key, k)
  {
    var r := InsertBy(x, ys, key);
    if |ys| == 0 || key(x) <= key(ys[0]) {
      assert r[0] == x && r[1..] == ys;
      assert AtKey(r, key, k) == (if key(x) == k then [x] else []) + AtKey(r[1..], key, k);
    } else {
      var rest := InsertBy(x, ys[1..], key);
      InsertByAtKey(x, ys[1..], key, k);
      assert r[0] == ys[0] && r[1..] == rest;
      assert AtKey(r, key, k) == (if key(ys[0]) == k then [ys[0]] else []) + AtKey(rest, key, k);
      assert AtKey(ys, key, k) == (if key(ys[0]) == k then [ys[0]] else []) + AtKey(ys[1..], key, k);
    }
  }

  /** `[...xs].sort((a, b) => key(a) - key(b))` with a stable engine sort:
      a permutation, ordered by key, and elements of equal key in their
      original order. */
  function StableSortBy<T>(xs: seq<T>, key: T -> real): (r: seq<T>)
    ensures multiset(r) == multiset(xs)
    ensures SortedBy(r, key)
    ensures forall k :: AtKey(r, key, k) == AtKey(xs, key, k)
  {
    if |xs| == 0 then []
    else
      var rest := StableSortBy(xs[1..], key);
      var r := InsertBy(xs[0], rest, key);
      assert xs == [xs[0]] + xs[1..];
      InsertBySorted(xs[0], rest, key);
      forall k ensures AtKey(r, key, k) == AtKey(xs, key, k) {
        InsertByAtKey(xs[0], rest, key, k);
      }
      r
  }

  lemma SortedCons<T>(x: T, rest: seq<T>, key: T -> real)
    requires SortedBy(rest, key)
    requires forall k :: 0 <= k < |rest| ==> key(x) <= key(rest[k])
    ensures SortedBy([x] + rest, key)
  {
    var r := [x] + rest;
    forall i, j | 0 <= i < j < |r| ensures key(r[i]) <= key(r[j]) {
      assert r[j] == rest[j - 1];
      if i > 0 { assert r[i] == rest[i - 1]; }
    }
  }

  /** Leaving elements out keeps a sequence sorted. */
  lemma {:induction false} FilterSorted<T(!new)>(xs: seq<T>, key: T -> real, p: T -> bool)
    requires SortedBy(xs, key)
    ensures SortedBy(Filter(xs, p), key)
  {
    if |xs| > 0 {
      var tail := xs[1..];
      var rest := Filter(tail, p);
      assert SortedBy(tail, key) by {
        forall i, j | 0 <= i < j < |tail| ensures key(tail[i]) <= key(tail[j]) {
          assert tail[i] == xs[i + 1] && tail[j] == xs[j + 1];
        }
      }
      FilterSorted(tail, key, p);
      if p(xs[0]) {
        forall k | 0 <= k < |rest| ensures key(xs[0]) <= key(rest[k]) {
          assert rest[k] in tail;
          var m :| 0 <= m < |tail| && tail[m] == rest[k];
          assert xs[m + 1] == rest[k];
        }
        SortedCons(xs[0], rest, key);
      }
    }
  }
}

=== FILE: strings.dfy ===
/** Text helpers with the semantics of the JavaScript string built-ins the client
    calls (`trim`, `startsWith`, `endsWith`, `includes`, `split`, `join`, `<`). */
module Strings {

  /** The characters `String.prototype.trim` removes: the white space and line
      terminator code points of section 12.2 and 12.3 of ECMA-262. */
  predicate IsSpace(c: char) {
    c == '\t' || c == '\n' || c == '\U{000B}' || c == '\U{000C}' || c == '\r'
    || c == ' ' || c == '\U{00A0}' || c == '\U{1680}'
    || ('\U{2000}' <= c <= '\U{200A}')
    || c == '\U{2028}' || c == '\U{2029}' || c == '\U{202F}' || c == '\U{205F}'
    || c == '\U{3000}' || c == '\U{FEFF}'
  }

  /** Only white space: what `s.trim() === ""` tests. */
  predicate IsBlank(s: string) {
    forall i :: 0 <= i < |s| ==> IsSpace(s[i])
  }

  /** How many white-space characters `s` starts with. */
  function LeadingSpaces(s: string): (n: nat)
    ensures n <= |s|
    ensures forall i :: 0 <= i < n ==> IsSpace(s[i])
    ensures n < |s| ==> !IsSpace(s[n])
  {
    if |s| > 0 && IsSpace(s[0]) then
      var m := LeadingSpaces(s[1..]);
      assert forall i :: 1 <= i < 1 + m ==> s[i] == s[1..][i - 1];
      1 + m
    else 0
  }

  /** Where the trailing white space of `s` starts. */
  function ContentEnd(s: string): (n: nat)
    ensures n <= |s|
    ensures forall i :: n <= i < |s| ==> IsSpace(s[i])
    ensures n > 0 ==> !IsSpace(s[n - 1])
  {
    if |s| > 0 && IsSpace(s[|s| - 1]) then
      var m := ContentEnd(s[..|s| - 1]);
      assert forall i :: m <= i < |s| - 1 ==> s[i] == s[..|s| - 1][i];
      m
    else |s|
  }

  /** `s.trim()`: white space dropped at both ends and nowhere else. */
  function Trim(s: string): (r: string)
    ensures |r| <= |s|
    ensures r == "" <==> IsBlank(s)
    ensures r == "" || (!IsSpace(r[0]) && !IsSpace(r[|r| - 1]))
  {
    var k := LeadingSpaces(s);
    if k == |s| then "" else s[k..ContentEnd(s)]
  }

  /** What trimming keeps is an infix of the input, after its leading white
      space. */
  lemma TrimIsInfix(s: string)
    ensures var k := LeadingSpaces(s);
      k + |Trim(s)| <= |s| && Trim(s) == s[k..k + |Trim(s)|]
  {
    var k := LeadingSpaces(s);
    if k < |s| {
      var e := ContentEnd(s);
      assert k < e;
      assert Trim(s) == s[k..e];
    }
  }

  /** Trimming twice changes nothing. */
  lemma TrimIdempotent(s: string)
    ensures Trim(Trim(s)) == Trim(s)
  {
    var r := Trim(s);
    if r != "" {
      assert LeadingSpaces(r) == 0;
      assert ContentEnd(r) == |r|;
    }
  }

  predicate StartsWith(s: string, prefix: string) {
    |prefix| <= |s| && s[..|prefix|] == prefix
  }

  predicate EndsWith(s: string, suffix: string) {
    |suffix| <= |s| && s[|s| - |suffix|..] == suffix
  }

  /** `part` occurs in `s` at position `i` */
  ghost predicate InfixAt(s: string, part: string, i: int) {
    0 <= i <= |s| - |part| && s[i..i + |part|] == part
  }

  /** `s.includes(part)` */
  predicate Contains(s: string, part: string)
    decreases |s|
  {
    StartsWith(s, part) || (|s| > 0 && Contains(s[1..], part))
  }

  /** `Contains` finds an occurrence exactly when there is one. */
  lemma {:induction false} ContainsIffInfix(s: string, part: string)
    ensures Contains(s, part) <==> exists i :: InfixAt(s, part, i)
    decreases |s|
  {
    if StartsWith(s, part) {
      assert InfixAt(s, part, 0);
    } else if |s| > 0 {
      ContainsIffInfix(s[1..], part);
      if exists i :: InfixAt(s, part, i) {
        var i :| InfixAt(s, part, i);
        assert i != 0;
        assert s[1..][i - 1..i - 1 + |part|] == s[i..i + |part|];
        assert InfixAt(s[1..], part, i - 1);
      }
      if exists i :: InfixAt(s[1..], part, i) {
        var i :| InfixAt(s[1..], part, i);
        assert s[1..][i..i + |part|] == s[i + 1..i + 1 + |part|];
        assert InfixAt(s, part, i + 1);
      }
    }
  }

  /** `prefixes.some(p => s.startsWith(p))` */
  function AnyPrefix(s: string, prefixes: seq<string>): (b: bool)
    ensures b <==> exists i :: 0 <= i < |prefixes| && StartsWith(s, prefixes[i])
  {
    if |prefixes| == 0 then false
    else StartsWith(s, prefixes[0]) || AnyPrefix(s, prefixes[1..])
  }

  /** `parts.join(sep)` */
  function Join(parts: seq<string>, sep: string): string {
    if |parts| == 0 then ""
    else if |parts| == 1 then parts[0]
    else parts[0] + sep + Join(parts[1..], sep)
  }

  /** `s.split(sep)` for a one-character separator. */
  function Split(s: string, sep: char): (r: seq<string>)
    ensures |r| >= 1
    ensures forall i :: 0 <= i < |r| ==> sep !in r[i]
    ensures Join(r, [sep]) == s
  {
    if sep !in s then [s]
    else
      var i := IndexOfChar(s, sep);
      var rest := Split(s[i + 1..], sep);
      assert s == s[..i] + [sep] + s[i + 1..];
      [s[..i]] + rest
  }

  /** Splitting the join of separator-free parts gives the parts back. */
  lemma {:induction false} SplitJoin(parts: seq<string>, sep: char)
    requires |parts| >= 1
    requires forall i :: 0 <= i < |parts| ==> sep !in parts[i]
    ensures Split(Join(parts, [sep]), sep) == parts
  {
    if |parts| == 1 {
    } else {
      var s := Join(parts, [sep]);
      var tail := Join(parts[1..], [sep]);
      assert s == parts[0] + [sep] + tail;
      var i := IndexOfChar(s, sep);
      assert s[|parts[0]|] == sep;
      assert i == |parts[0]|;
      assert s[..i] == parts[0];
      assert s[i + 1..] == tail;
      SplitJoin(parts[1..], sep);
    }
  }

  /** Position of the first `c` in `s`. */
  function IndexOfChar(s: string, c: char): (i: nat)
    requires c in s
    ensures i < |s| && s[i] == c && c !in s[..i]
  {
    if s[0] == c then 0 else
      var j := IndexOfChar(s[1..], c);
      assert s[..j + 1] == [s[0]] + s[1..][..j];
      1 + j
  }

  /** `s.split(sep)[0]`: the text before the first separator. */
  function BeforeFirst(s: string, sep: char): (r: string)
    ensures StartsWith(s, r) && sep !in r
    ensures sep in s ==> s[|r|] == sep
    ensures sep !in s ==> r == s
  {
    Split(s, sep)[0]
  }

  /** Upper-case ASCII letters folded to lower case, everything else kept: the
      case folding of a JavaScript `/i` regular expression without the `u` flag,
      restricted to the ASCII letters the client's patterns contain. */
  function LowerAscii(c: char): char {
    if 'A' <= c <= 'Z' then (c as int + 32) as char else c
  }

  predicate EqualsIgnoreAsciiCase(a: string, b: string) {
    |a| == |b| && forall i :: 0 <= i < |a| ==> LowerAscii(a[i]) == LowerAscii(b[i])
  }

  /** `a < b` on strings: lexicographic on Unicode scalar values, as Python
      compares code points, a proper prefix first. */
  predicate LexLess(a: string, b: string)
    decreases |a|
  {
    if |a| == 0 then |b| > 0
    else if |b| == 0 then false
    else a[0] < b[0] || (a[0] == b[0] && LexLess(a[1..], b[1..]))
  }

  lemma {:induction false} LexLessIrreflexive(a: string)
    ensures !LexLess(a, a)
  {
    if |a| > 0 { LexLessIrreflexive(a[1..]); }
  }

  lemma {:induction false} LexLessTransitive(a: string, b: string, c: string)
    requires LexLess(a, b) && LexLess(b, c)
    ensures LexLess(a, c)
    decreases |a|
  {
    if |a| > 0 && |b| > 0 && |c| > 0 && a[0] == b[0] && b[0] == c[0] {
      LexLessTransitive(a[1..], b[1..], c[1..]);
    }
  }

  lemma {:induction false} LexLessTotal(a: string, b: string)
    ensures a == b || LexLess(a, b) || LexLess(b, a)
    decreases |a|
  {
    if |a| > 0 && |b| > 0 && a[0] == b[0] {
      LexLessTotal(a[1..], b[1..]);
      if a[1..] == b[1..] { assert a == [a[0]] + a[1..] && b == [b[0]] + b[1..]; }
    }
  }

  /** Ordered for `Array.prototype.sort()` without a comparator. */
  predicate SortedStrings(xs: seq<string>) {
    forall i, j :: 0 <= i < j < |xs| ==> !LexLess(xs[j], xs[i])
  }

  function InsertString(x: string, ys: seq<string>): (r: seq<string>)
    requires SortedStrings(ys)
    ensures multiset(r) == multiset(ys) + multiset{x}
    ensures SortedStrings(r)
  {
    if |ys| == 0 || !LexLess(ys[0], x) then
      forall j | 0 <= j < |ys| ensures !LexLess(ys[j], x) {
        LexLessTotal(ys[j], ys[0]);
        if LexLess(ys[0], ys[j]) && LexLess(ys[j], x) { LexLessTransitive(ys[0], ys[j], x); }
      }
      ConsSorted(x, ys);
      [x] + ys
    else
      var rest := InsertString(x, ys[1..]);
      assert ys == [ys[0]] + ys[1..];
      forall k | 0 <= k < |rest| ensures !LexLess(rest[k], ys[0]) {
        assert rest[k] in multiset(ys[1..]) + multiset{x};
        if rest[k] == x {
          LexLessTotal(x, ys[0]);
          if LexLess(x, ys[0]) { LexLessTransitive(x, ys[0], x); LexLessIrreflexive(x); }
        } else {
          assert rest[k] in ys[1..];
        }
      }
      ConsSorted(ys[0], rest);
      [ys[0]] + rest
  }

  /** A sorted list stays sorted under a head that no element precedes. */
  lemma ConsSorted(h: string, ys: seq<string>)
    requires SortedStrings(ys)
    requires forall k :: 0 <= k < |ys| ==> !LexLess(ys[k], h)
    ensures SortedStrings([h] + ys)
  {
    var r := [h] + ys;
    forall i, j | 0 <= i < j < |r| ensures !LexLess(r[j], r[i]) {
      assert r[j] == ys[j - 1];
      if i > 0 { assert r[i] == ys[i - 1]; }
    }
  }

  /** `[...xs].sort()`: the same strings in code-unit order. */
  function SortStrings(xs: seq<string>): (r: seq<string>)
    ensures multiset(r) == multiset(xs)
    ensures SortedStrings(r)
  {
    if |xs| == 0 then []
    else
      assert xs == [xs[0]] + xs[1..];
      InsertString(xs[0], SortStrings(xs[1..]))
  }
}

=== FILE: surface.dfy ===
/** The MapLibre map as the client's code sees it: a table of sources and a
    bottom-to-top stack of layers, with the style-API calls the client makes
    (`getLayer`, `addSource`, `addLayer`, `moveLayer`, `removeLayer`,
    `setPaintProperty`, `setLayoutProperty`, `setData`). */
module MapSurface {
  import opened Wrappers
  import opened Js

  type Coord = (real, real)

  datatype Geometry =
    | Point(at: Coord)
    | LineString(path: seq<Coord>)
    | Polygon(rings: seq<seq<Coord>>)

  /** A GeoJSON feature as written into a GeoJSON source. */
  datatype Feature = Feature(properties: map<string, Json>, geometry: Geometry)

  datatype Source =
    | GeoJson(features: seq<Feature>)
    | GeoJsonUrl(url: string)
    | VectorTiles(url: string)
    | RasterTiles(tiles: seq<Link>, tileSize: nat, attribution: string)

  /** The style-specification layer types the client distinguishes. */
  datatype LayerType =
    | Fill | FillExtrusion | Line | Circle | Symbol
    | Raster | Background | Hillshade | Heatmap
    | OtherType(name: string)

  datatype Layer = Layer(
    id: string,
    kind: LayerType,
    source: Option<string>,
    metadata: map<string, Json>,
    paint: map<string, Json>,
    layout: map<string, Json>)

  /** Sources by id and layers from bottom to top. */
  datatype Surface = Surface(sources: map<string, Source>, layers: seq<Layer>)

  function Ids(layers: seq<Layer>): (r: seq<string>)
    ensures |r| == |layers| && forall i :: 0 <= i < |layers| ==> r[i] == layers[i].id
  {
    seq(|layers|, i requires 0 <= i < |layers| => layers[i].id)
  }

  /** No two layers share an id; MapLibre refuses a second layer with a used id. */
  predicate UniqueIds(layers: seq<Layer>) {
    forall i, j :: 0 <= i < j < |layers| ==> layers[i].id != layers[j].id
  }

  /** `map.getLayer(id)` is defined */
  predicate HasLayer(s: Surface, id: string) {
    id in Ids(s.layers)
  }

  /** `map.getLayer(id)`: the layer with that id. */
  function GetLayer(layers: seq<Layer>, id: string): (r: Option<Layer>)
    ensures r.Some? <==> id in Ids(layers)
    ensures r.Some? ==> r.value in layers && r.value.id == id
  {
    if |layers| == 0 then None
    else if layers[0].id == id then Some(layers[0])
    else
      assert Ids(layers) == [layers[0].id] + Ids(layers[1..]);
      GetLayer(layers[1..], id)
  }

  /** With unique ids, looking up a layer's id finds that layer. */
  lemma {:induction false} GetLayerOfMember(layers: seq<Layer>, i: nat)
    requires UniqueIds(layers) && i < |layers|
    ensures GetLayer(layers, layers[i].id) == Some(layers[i])
  {
    if i > 0 {
      GetLayerOfMember(layers[1..], i - 1);
    }
  }

  lemma {:induction false} GetLayerConcat(a: seq<Layer>, b: seq<Layer>, id: string)
    ensures GetLayer(a + b, id) == if id in Ids(a) then GetLayer(a, id) else GetLayer(b, id)
  {
    if |a| > 0 {
      assert (a + b)[1..] == a[1..] + b;
      assert Ids(a) == [a[0].id] + Ids(a[1..]);
      GetLayerConcat(a[1..], b, id);
    } else {
      assert a + b == b;
    }
  }

  /** The layers whose id is not in `ids`, in order. */
  function Without(layers: seq<Layer>, ids: set<string>): (r: seq<Layer>)
    ensures |r| <= |layers|
    ensures forall l :: l in r <==> l in layers && l.id !in ids
  {
    if |layers| == 0 then []
    else (if layers[0].id in ids then [] else [layers[0]]) + Without(layers[1..], ids)
  }

  lemma {:induction false} WithoutConcat(a: seq<Layer>, b: seq<Layer>, ids: set<string>)
    ensures Without(a + b, ids) == Without(a, ids) + Without(b, ids)
  {
    if |a| > 0 {
      WithoutConcat(a[1..], b, ids);
      WithoutConcatStep(a, b, ids);
    } else {
      assert a + b == b;
    }
  }

  lemma WithoutConcatStep(a: seq<Layer>, b: seq<Layer>, ids: set<string>)
    requires |a| > 0
    requires Without(a[1..] + b, ids) == Without(a[1..], ids) + Without(b, ids)
    ensures Without(a + b, ids) == Without(a, ids) + Without(b, ids)
  {
    var h := if a[0].id in ids then [] else [a[0]];
    ConcatTail(a, b);
    Regroup(Without(a + b, ids), Without(a, ids), Without(b, ids), h, Without(a[1..], ids), Without(a[1..] + b, ids));
  }

  lemma Regroup(whole: seq<Layer>, left: seq<Layer>, right: seq<Layer>, h: seq<Layer>, x: seq<Layer>, xy: seq<Layer>)
    requires whole == h + xy && xy == x + right && left == h + x
    ensures whole == left + right
  {
    AppendAssoc(h, x, right);
  }

  lemma ConcatTail(a: seq<Layer>, b: seq<Layer>)
    requires |a| > 0
    ensures (a + b)[0] == a[0] && (a + b)[1..] == a[1..] + b
  {
  }

  lemma {:induction false} WithoutTwice(a: seq<Layer>, x: set<string>, y: set<string>)
    ensures Without(Without(a, x), y) == Without(a, x + y)
  {
    if |a| > 0 {
      WithoutTwice(a[1..], x, y);
      assert Without(a, x) == (if a[0].id in x then [] else [a[0]]) + Without(a[1..], x);
      WithoutConcat(if a[0].id in x then [] else [a[0]], Without(a[1..], x), y);
    }
  }

  lemma {:induction false} WithoutNothing(a: seq<Layer>, ids: set<string>)
    requires forall i :: 0 <= i < |a| ==> a[i].id !in ids
    ensures Without(a, ids) == a
  {
    if |a| > 0 {
      WithoutNothing(a[1..], ids);
      assert a == [a[0]] + a[1..];
    }
  }

  lemma {:induction false} GetLayerWithout(a: seq<Layer>, ids: set<string>, id: string)
    requires id !in ids
    ensures GetLayer(Without(a, ids), id) == GetLayer(a, id)
  {
    if |a| > 0 {
      GetLayerWithout(a[1..], ids, id);
      var head := if a[0].id in ids then [] else [a[0]];
      GetLayerConcat(head, Without(a[1..], ids), id);
    }
  }

  lemma {:induction false} WithoutKeepsUnique(a: seq<Layer>, ids: set<string>)
    requires UniqueIds(a)
    ensures UniqueIds(Without(a, ids))
  {
    if |a| > 0 {
      WithoutKeepsUnique(a[1..], ids);
      var rest := Without(a[1..], ids);
      if a[0].id !in ids {
        forall k | 0 <= k < |rest| ensures rest[k].id != a[0].id {
          assert rest[k] in a[1..];
        }
      }
    }
  }

  /** The source a layer reads from is on the surface (or it needs none). */
  predicate SourceAvailable(s: Surface, l: Layer) {
    l.source.None? || l.source.value in s.sources
  }

  /** `map.addLayer(l)` for a layer id not yet in use: MapLibre refuses (throws)
      when the layer's source is missing, and otherwise stacks it on top. */
  function AddLayer(s: Surface, l: Layer): (r: Option<Surface>)
    requires !HasLayer(s, l.id)
    ensures r.Some? <==> SourceAvailable(s, l)
    ensures r.Some? ==> r.value.sources == s.sources && r.value.layers == s.layers + [l]
  {
    if SourceAvailable(s, l) then Some(s.(layers := s.layers + [l])) else None
  }

  lemma AddLayerKeepsUnique(s: Surface, l: Layer)
    requires !HasLayer(s, l.id) && SourceAvailable(s, l)
    ensures UniqueIds(s.layers) ==> UniqueIds(AddLayer(s, l).value.layers)
  {
    forall i | 0 <= i < |s.layers| ensures s.layers[i].id != l.id {
      assert Ids(s.layers)[i] == s.layers[i].id;
    }
  }

  /** `map.addSource(id, src)` for an unused id. */
  function AddSource(s: Surface, id: string, src: Source): (r: Surface)
    requires id !in s.sources
    ensures r.layers == s.layers && r.sources == s.sources[id := src]
  {
    s.(sources := s.sources[id := src])
  }

  /** `map.removeSource(id)` when the source exists. */
  function RemoveSource(s: Surface, id: string): (r: Surface)
    ensures r.layers == s.layers && id !in r.sources
    ensures forall k :: k in s.sources && k != id ==> k in r.sources && r.sources[k] == s.sources[k]
    ensures forall k :: k in r.sources ==> k in s.sources
  {
    s.(sources := s.sources - {id})
  }

  /** `map.moveLayer(id)` without a `beforeId`: the layer is taken out and put
      on top of the stack. An unknown id changes nothing. */
  function MoveLayer(s: Surface, id: string): (r: Surface)
    ensures r.sources == s.sources
    ensures HasLayer(s, id) ==> r.layers == Without(s.layers, {id}) + [GetLayer(s.layers, id).value]
    ensures !HasLayer(s, id) ==> r == s
  {
    match GetLayer(s.layers, id)
    case None => s
    case Some(l) => s.(layers := Without(s.layers, {id}) + [l])
  }

  /** `map.removeLayer(id)` */
  function RemoveLayer(s: Surface, id: string): (r: Surface)
    ensures r.sources == s.sources && !HasLayer(r, id)
    ensures r.layers == Without(s.layers, {id})
  {
    s.(layers := Without(s.layers, {id}))
  }

  /** The layers that `ids` name and the stack holds, in the order of `ids`. */
  function Present(layers: seq<Layer>, ids: seq<string>): seq<Layer> {
    if |ids| == 0 then []
    else
      (match GetLayer(layers, ids[0])
       case Some(l) => [l]
       case None => []) + Present(layers, ids[1..])
  }

  /** `for (const id of ids) if (map.getLayer(id)) map.moveLayer(id)` */
  function MoveAllToTop(s: Surface, ids: seq<string>): (r: Surface)
    ensures r.sources == s.sources
    decreases |ids|
  {
    if |ids| == 0 then s else MoveAllToTop(MoveLayer(s, ids[0]), ids[1..])
  }

  lemma {:induction false} PresentWithout(layers: seq<Layer>, x: string, ids: seq<string>)
    requires x !in ids
    ensures Present(Without(layers, {x}), ids) == Present(layers, ids)
  {
    if |ids| > 0 {
      PresentWithout(layers, x, ids[1..]);
      GetLayerWithout(layers, {x}, ids[0]);
    }
  }

  lemma {:induction false} PresentAppendUnnamed(layers: seq<Layer>, l: Layer, ids: seq<string>)
    requires l.id !in ids
    ensures Present(layers + [l], ids) == Present(layers, ids)
  {
    if |ids| > 0 {
      PresentAppendUnnamed(layers, l, ids[1..]);
      GetLayerConcat(layers, [l], ids[0]);
    }
  }

  /** Moving distinct ids to the top, one after the other, leaves the layers
      that are not named in their old order and stacks the named ones that
      exist above them, in the order of `ids`. */
  lemma {:induction false} MoveAllToTopStack(s: Surface, ids: seq<string>)
    requires forall i, j :: 0 <= i < j < |ids| ==> ids[i] != ids[j]
    ensures MoveAllToTop(s, ids).layers
      == Without(s.layers, set i | 0 <= i < |ids| :: ids[i]) + Present(s.layers, ids)
    decreases |ids|
  {
    var named := set i | 0 <= i < |ids| :: ids[i];
    if |ids| == 0 {
      WithoutNothing(s.layers, named);
    } else {
      var rest := ids[1..];
      NamedSplit(ids);
      MoveAllToTopStack(MoveLayer(s, ids[0]), rest);
      MoveOneStep(s, ids);
    }
  }

  /** The ids named by a list are its head and the ids named by its tail;
      a list without repetitions does not name its head again. */
  lemma NamedSplit(ids: seq<string>)
    requires |ids| > 0
    requires forall i, j :: 0 <= i < j < |ids| ==> ids[i] != ids[j]
    ensures (set i | 0 <= i < |ids| :: ids[i]) == {ids[0]} + (set i | 0 <= i < |ids[1..]| :: ids[1..][i])
    ensures ids[0] !in ids[1..]
    ensures forall i, j :: 0 <= i < j < |ids[1..]| ==> ids[1..][i] != ids[1..][j]
  {
    var rest := ids[1..];
    var named := set i | 0 <= i < |ids| :: ids[i];
    var restSet := set i | 0 <= i < |rest| :: rest[i];
    forall y | y in named ensures y in {ids[0]} + restSet {
      var i :| 0 <= i < |ids| && ids[i] == y;
      if i > 0 { assert rest[i - 1] == y; }
    }
    forall i | 0 <= i < |rest| ensures rest[i] != ids[0] { assert rest[i] == ids[i + 1]; }
  }

  /** Moving the head of the list first and then the rest stacks the same
      layers as the whole list asks for. */
  lemma MoveOneStep(s: Surface, ids: seq<string>)
    requires |ids| > 0 && ids[0] !in ids[1..]
    ensures var rs := set i | 0 <= i < |ids[1..]| :: ids[1..][i];
      var s1 := MoveLayer(s, ids[0]);
      Without(s1.layers, rs) + Present(s1.layers, ids[1..])
      == Without(s.layers, {ids[0]} + rs) + Present(s.layers, ids)
  {
    var x := ids[0];
    var rest := ids[1..];
    var rs := set i | 0 <= i < |rest| :: rest[i];
    var s1 := MoveLayer(s, x);
    WithoutTwice(s.layers, {x}, rs);
    var a := Without(s.layers, {x} + rs);
    var p := Present(s.layers, rest);
    if HasLayer(s, x) {
      var l := GetLayer(s.layers, x).value;
      MoveOneStepPresent(s, x, rest, rs);
      assert Without(s1.layers, rs) == a + [l];
      assert Present(s.layers, ids) == [l] + p;
      AppendAssoc(a, [l], p);
    } else {
      MoveOneStepAbsent(s, x);
      assert Present(s.layers, ids) == p;
    }
  }

  lemma AppendAssoc(a: seq<Layer>, b: seq<Layer>, c: seq<Layer>)
    ensures (a + b) + c == a + (b + c)
  {
  }

  /** The moved layer ends up last, and the rest is what removing its id
      leaves. */
  lemma MoveOneStepPresent(s: Surface, x: string, rest: seq<string>, rs: set<string>)
    requires HasLayer(s, x) && x !in rest && x !in rs
    ensures var l := GetLayer(s.layers, x).value;
      && Without(MoveLayer(s, x).layers, rs) == Without(Without(s.layers, {x}), rs) + [l]
      && Present(MoveLayer(s, x).layers, rest) == Present(s.layers, rest)
  {
    var l := GetLayer(s.layers, x).value;
    var base := Without(s.layers, {x});
    assert MoveLayer(s, x).layers == base + [l];
    WithoutConcat(base, [l], rs);
    WithoutNothing([l], rs);
    PresentWithout(s.layers, x, rest);
    PresentAppendUnnamed(base, l, rest);
  }

  /** Removing an id no layer has changes nothing. */
  lemma MoveOneStepAbsent(s: Surface, x: string)
    requires !HasLayer(s, x)
    ensures Without(s.layers, {x}) == s.layers
  {
    forall i | 0 <= i < |s.layers| ensures s.layers[i].id !in {x} {
      assert Ids(s.layers)[i] == s.layers[i].id;
    }
    WithoutNothing(s.layers, {x});
  }

  lemma MoveLayerKeepsUnique(s: Surface, id: string)
    requires UniqueIds(s.layers)
    ensures UniqueIds(MoveLayer(s, id).layers)
  {
    if HasLayer(s, id) {
      var base := Without(s.layers, {id});
      WithoutKeepsUnique(s.layers, {id});
      forall i | 0 <= i < |base| ensures base[i].id != id {
        assert base[i] in base;
      }
    }
  }

  lemma {:induction false} MoveAllToTopKeepsUnique(s: Surface, ids: seq<string>)
    requires UniqueIds(s.layers)
    ensures UniqueIds(MoveAllToTop(s, ids).layers)
    decreases |ids|
  {
    if |ids| > 0 {
      MoveLayerKeepsUnique(s, ids[0]);
      MoveAllToTopKeepsUnique(MoveLayer(s, ids[0]), ids[1..]);
    }
  }

  /** Looking up the ids of layers of a uniquely named stack gives those layers back. */
  lemma {:induction false} PresentOfMembers(layers: seq<Layer>, ms: seq<Layer>)
    requires UniqueIds(layers)
    requires forall i :: 0 <= i < |ms| ==> ms[i] in layers
    ensures Present(layers, Ids(ms)) == ms
  {
    if |ms| > 0 {
      var ids := Ids(ms);
      var j :| 0 <= j < |layers| && layers[j] == ms[0];
      GetLayerOfMember(layers, j);
      PresentHead(layers, ids, ms[0]);
      IdsTail(ms);
      PresentOfMembers(layers, ms[1..]);
      ConsTail(ms);
    }
  }

  lemma PresentHead(layers: seq<Layer>, ids: seq<string>, l: Layer)
    requires |ids| > 0 && GetLayer(layers, ids[0]) == Some(l)
    ensures Present(layers, ids) == [l] + Present(layers, ids[1..])
  {
  }

  lemma IdsTail(ms: seq<Layer>)
    requires |ms| > 0
    ensures Ids(ms)[1..] == Ids(ms[1..])
  {
  }

  lemma ConsTail(ms: seq<Layer>)
    requires |ms| > 0
    ensures [ms[0]] + ms[1..] == ms
  {
  }

  /** Sources and layers the client adds on top of a basemap style. */
  datatype Overlays = Overlays(sources: map<string, Source>, layers: seq<Layer>)

  /** `for (const [id, src] of Object.entries(srcs)) if (!map.getSource(id)) map.addSource(id, src)` */
  function AddMissingSources(s: Surface, srcs: map<string, Source>): (r: Surface)
    ensures r.layers == s.layers
    ensures forall k :: k in s.sources ==> k in r.sources && r.sources[k] == s.sources[k]
    ensures forall k :: k in srcs && k !in s.sources ==> k in r.sources && r.sources[k] == srcs[k]
    ensures forall k :: k in r.sources ==> k in s.sources || k in srcs
  {
    s.(sources := srcs + s.sources)
  }

  lemma AddMissingSourcesIdempotent(s: Surface, srcs: map<string, Source>)
    ensures AddMissingSources(AddMissingSources(s, srcs), srcs) == AddMissingSources(s, srcs)
  {
  }

  /** Applies `f` to every layer with id `id`, leaving the stack order as is. */
  function UpdateLayers(layers: seq<Layer>, id: string, f: Layer -> Layer): (r: seq<Layer>)
    ensures |r| == |layers|
    ensures forall i :: 0 <= i < |layers| ==> r[i] == if layers[i].id == id then f(layers[i]) else layers[i]
  {
    seq(|layers|, i requires 0 <= i < |layers| => if layers[i].id == id then f(layers[i]) else layers[i])
  }

  /** A paint property written (`Some`) or reset to the style default (`None`). */
  function WithPaint(l: Layer, prop: string, v: Option<Json>): (r: Layer)
    ensures r.id == l.id && r.kind == l.kind && r.source == l.source
    ensures r.metadata == l.metadata && r.layout == l.layout
    ensures v.Some? ==> prop in r.paint && r.paint[prop] == v.value
    ensures v.None? ==> prop !in r.paint
    ensures forall k :: k != prop ==> (k in r.paint <==> k in l.paint)
    ensures forall k :: k != prop && k in l.paint ==> r.paint[k] == l.paint[k]
  {
    match v
    case Some(x) => l.(paint := l.paint[prop := x])
    case None => l.(paint := l.paint - {prop})
  }

  function WithLayout(l: Layer, prop: string, v: Json): (r: Layer)
    ensures r.id == l.id && r.kind == l.kind && r.source == l.source
    ensures r.metadata == l.metadata && r.paint == l.paint
    ensures prop in r.layout && r.layout[prop] == v
    ensures forall k :: k != prop ==> (k in r.layout <==> k in l.layout)
    ensures forall k :: k != prop && k in l.layout ==> r.layout[k] == l.layout[k]
  {
    l.(layout := l.layout[prop := v])
  }

  /** `map.setPaintProperty(id, prop, v)` */
  function SetPaint(s: Surface, id: string, prop: string, v: Option<Json>): (r: Surface)
    ensures r.sources == s.sources && Ids(r.layers) == Ids(s.layers)
  {
    s.(layers := UpdateLayers(s.layers, id, l => WithPaint(l, prop, v)))
  }

  /** `map.setLayoutProperty(id, prop, v)` */
  function SetLayout(s: Surface, id: string, prop: string, v: Json): (r: Surface)
    ensures r.sources == s.sources && Ids(r.layers) == Ids(s.layers)
  {
    s.(layers := UpdateLayers(s.layers, id, l => WithLayout(l, prop, v)))
  }

  /** `(map.getSource(id) as GeoJSONSource)?.setData(...)`: replaces the data of
      a GeoJSON source; a missing source is left alone. */
  function SetData(s: Surface, id: string, features: seq<Feature>): (r: Surface)
    ensures r.layers == s.layers
    ensures id in s.sources ==> r.sources == s.sources[id := GeoJson(features)]
    ensures id !in s.sources ==> r == s
  {
    if id in s.sources then s.(sources := s.sources[id := GeoJson(features)]) else s
  }
}

=== FILE: swisstopo_panel.dfy ===
/** The swisstopo catalogue panel: catalogue layers are toggled onto and off
    the map as WMS or WMTS raster layers with a TOC item each. */
module SwisstopoPanel {
  import opened Wrappers
  import opened Js
  import opened Strings
  import opened Seqs
  import opened MapSurface
  import opened Wms
  import TocStore

  /** One entry of the catalogue (`SwisstopoLayerConfig`). */
  datatype CatalogLayer = CatalogLayer(id: string, title: string, format: string, isWmts: bool)

  /** The map, when there is one, and the TOC store. */
  datatype Panel = Panel(view: Option<Surface>, store: TocStore.TocState)

  /** `makeInternalId`: "wmts:" before a WMTS layer's name, "wms:" otherwise. */
  function MakeInternalId(id: string, isWmts: bool): (r: string)
    ensures isWmts ==> r == "wmts:" + id
    ensures !isWmts ==> r == "wms:" + id
  {
    (if isWmts then "wmts" else "wms") + ":" + id
  }

  /** Different catalogue entries never share an internal id. */
  lemma MakeInternalIdInjective(a: string, v: bool, b: string, w: bool)
    requires MakeInternalId(a, v) == MakeInternalId(b, w)
    ensures a == b && v == w
  {
    var x, y := MakeInternalId(a, v), MakeInternalId(b, w);
    if v == w {
      if v {
        assert a == x[5..] && b == y[5..];
      } else {
        assert a == x[4..] && b == y[4..];
      }
    } else if v {
      PrefixesDiffer(a, b);
    } else {
      PrefixesDiffer(b, a);
    }
  }

  lemma PrefixesDiffer(a: string, b: string)
    ensures "wmts:" + a != "wms:" + b
  {
    assert ("wmts:" + a)[2] == 't';
    assert ("wms:" + b)[2] == 's';
  }

  /** The ids the panel calls its own. */
  predicate IsSwisstopoId(id: string) {
    StartsWith(id, "wms:ch.swisstopo") || StartsWith(id, "wmts:ch.swisstopo")
  }

  /** `activeItems`: the dynamic TOC items with a swisstopo id, in order. */
  function ActiveItems(items: seq<TocStore.TocItem>): (r: seq<TocStore.TocItem>)
    ensures forall x :: x in r <==> x in items && IsSwisstopoId(x.id)
  {
    Filter(items, (x: TocStore.TocItem) => IsSwisstopoId(x.id))
  }

  /** The active items keep the order of the dynamic items. */
  lemma ActiveItemsInOrder(items: seq<TocStore.TocItem>)
    ensures SubsequenceOf(ActiveItems(items), items)
  {
    FilterSubsequence(items, (x: TocStore.TocItem) => IsSwisstopoId(x.id));
  }

  /** The file extension of a WMTS tile: the part of the format after the
      first "/", or the whole format when that part is missing or empty. */
  function TileExtension(format: string): (r: string)
    ensures '/' !in format ==> r == format
    ensures '/' in format ==>
      var rest := BeforeFirst(format[IndexOfChar(format, '/') + 1..], '/');
      r == if rest != "" then rest else format
  {
    if '/' !in format then format
    else
      SplitSecond(format, '/');
      var rest := Split(format, '/')[1];
      if rest != "" then rest else format
  }

  /** The second part of a split is what follows the first separator, up to
      the next one. */
  lemma SplitSecond(s: string, sep: char)
    requires sep in s
    ensures var i := IndexOfChar(s, sep); var parts := Split(s, sep);
      |parts| > 1 && parts[1] == BeforeFirst(s[i + 1..], sep)
  {
  }

  /** The configuration `addLayer` builds for a catalogue entry. */
  function CatalogConfig(layer: CatalogLayer): (r: WmsUrlConfig)
    ensures r.id == MakeInternalId(layer.id, layer.isWmts) && r.title == layer.title && r.layers == layer.id
    ensures r.format == Jpeg <==> Contains(layer.format, "jpeg")
    ensures r.transparent && r.opacity == Some(Finite(1.0))
    ensures layer.isWmts ==> Contains(r.baseUrl, "{z}")
    ensures !layer.isWmts ==> r.baseUrl == "https://wms.geo.admin.ch/"
  {
    var url :=
      if layer.isWmts then
        var pre := "https://wmts.geo.admin.ch/1.0.0/" + layer.id + "/default/current/3857/";
        var u := pre + "{z}/{x}/{y}." + TileExtension(layer.format);
        assert u[|pre|..|pre| + 3] == "{z}";
        InfixContains(u, "{z}", |pre|);
        u
      else "https://wms.geo.admin.ch/";
    WmsUrlConfig(MakeInternalId(layer.id, layer.isWmts), layer.title, url, layer.id,
      if Contains(layer.format, "jpeg") then Jpeg else Png, true, Some(Finite(1.0)))
  }

  /** An occurrence found by position is found by `Contains`. */
  lemma InfixContains(s: string, part: string, i: nat)
    requires i + |part| <= |s| && s[i..i + |part|] == part
    ensures Contains(s, part)
  {
    assert InfixAt(s, part, i);
    ContainsIffInfix(s, part);
  }

  /** `addLayer`: upsert the layer and register its TOC item; nothing without
      a map. */
  function AddCatalogLayer(p: Panel, layer: CatalogLayer, api: UrlApi): (r: Outcome<Panel>)
    ensures p.view.None? ==> r == Completed(p)
    ensures p.view.Some? && r.Completed? ==>
      var id := MakeInternalId(layer.id, layer.isWmts);
      r.state.view.Some? && HasLayer(r.state.view.value, id) && id in r.state.view.value.sources
      && id in TocStore.ItemIds(r.state.store.dynamicItems)
  {
    match p.view
    case None => Completed(p)
    case Some(m) =>
      var cfg := CatalogConfig(layer);
      match UpsertWmsLayer(m, cfg, api)
      case Err(e) => Aborted(p, e)
      case Ok(m2) =>
        match ToTocItem(cfg, api)
        case Err(e) => Aborted(p.(view := Some(m2)), e)
        case Ok(item) =>
          var st := TocStore.RegisterDynamicItem(p.store, item);
          assert cfg.id in TocStore.ItemIds(st.dynamicItems) by {
            if cfg.id !in TocStore.ItemIds(p.store.dynamicItems) {
              assert TocStore.ItemIds(st.dynamicItems)[|p.store.dynamicItems|] == cfg.id;
            }
          }
          Completed(Panel(Some(m2), st))
  }

  /** `removeLayer`: the map layer and source, then the TOC item, go; nothing
      without a map. */
  function RemoveCatalogLayer(p: Panel, id: string): (r: Panel)
    ensures p.view.None? ==> r == p
    ensures p.view.Some? ==>
      && r.view.Some? && !HasLayer(r.view.value, id) && id !in r.view.value.sources
      && id !in TocStore.ItemIds(r.store.dynamicItems) && id !in r.store.order
  {
    match p.view
    case None => p
    case Some(m) => Panel(Some(RemoveWmsLayer(m, id)), TocStore.UnregisterDynamicItem(p.store, id))
  }

  /** `handleToggleLayer`: an active layer is removed, any other added. */
  function ToggleLayer(p: Panel, layer: CatalogLayer, api: UrlApi): (r: Outcome<Panel>)
    ensures p.view.None? ==> r == Completed(p)
    ensures var id := MakeInternalId(layer.id, layer.isWmts);
      p.view.Some? && id in TocStore.ItemIds(ActiveItems(p.store.dynamicItems)) ==>
        r == Completed(RemoveCatalogLayer(p, id))
    ensures var id := MakeInternalId(layer.id, layer.isWmts);
      id !in TocStore.ItemIds(ActiveItems(p.store.dynamicItems)) ==>
        r == AddCatalogLayer(p, layer, api)
  {
    if p.view.None? then Completed(p)
    else
      var id := MakeInternalId(layer.id, layer.isWmts);
      if id in TocStore.ItemIds(ActiveItems(p.store.dynamicItems)) then Completed(RemoveCatalogLayer(p, id))
      else AddCatalogLayer(p, layer, api)
  }

  /** Toggling a catalogue layer on and off again gives back the map and the
      store's items and order, when the layer was absent before. */
  lemma ToggleTwice(p: Panel, layer: CatalogLayer, api: UrlApi)
    requires p.view.Some?
    requires var id := MakeInternalId(layer.id, layer.isWmts);
      !HasLayer(p.view.value, id) && id !in p.view.value.sources
      && id !in TocStore.ItemIds(p.store.dynamicItems) && id !in p.store.order
    requires IsSwisstopoId(MakeInternalId(layer.id, layer.isWmts))
    requires AddCatalogLayer(p, layer, api).Completed?
    ensures var q := AddCatalogLayer(p, layer, api).state;
      var r := ToggleLayer(q, layer, api);
      r.Completed? && r.state.view == p.view
      && r.state.store.dynamicItems == p.store.dynamicItems && r.state.store.order == p.store.order
  {
    var cfg := CatalogConfig(layer);
    AddedParts(p, layer, api);
    var q := AddCatalogLayer(p, layer, api).state;
    UndoAdd(p.view.value, p.store, cfg, api, ToTocItem(cfg, api).value, q);
    ToggleActive(q, layer, api);
  }

  /** What a completed `addLayer` did: the upsert and the registration. */
  lemma AddedParts(p: Panel, layer: CatalogLayer, api: UrlApi)
    requires p.view.Some? && AddCatalogLayer(p, layer, api).Completed?
    ensures var cfg := CatalogConfig(layer);
      && UpsertWmsLayer(p.view.value, cfg, api).Ok? && ToTocItem(cfg, api).Ok?
      && AddCatalogLayer(p, layer, api).state
         == Panel(Some(UpsertWmsLayer(p.view.value, cfg, api).value),
                  TocStore.RegisterDynamicItem(p.store, ToTocItem(cfg, api).value))
  {
  }

  /** Removing an upserted and registered configuration restores the map and
      the store's items and order. */
  lemma UndoAdd(m: Surface, st: TocStore.TocState, cfg: WmsUrlConfig, api: UrlApi, item: TocStore.TocItem, q: Panel)
    requires !HasLayer(m, cfg.id) && cfg.id !in m.sources
    requires item.id == cfg.id && cfg.id !in TocStore.ItemIds(st.dynamicItems) && cfg.id !in st.order
    requires UpsertWmsLayer(m, cfg, api).Ok?
    requires q == Panel(Some(UpsertWmsLayer(m, cfg, api).value), TocStore.RegisterDynamicItem(st, item))
    ensures var r := RemoveCatalogLayer(q, cfg.id);
      r.view == Some(m) && r.store.dynamicItems == st.dynamicItems && r.store.order == st.order
      && cfg.id in TocStore.ItemIds(q.store.dynamicItems)
  {
    RemoveAfterUpsert(m, cfg, api);
    UndoRegister(st, item);
  }

  lemma UndoRegister(st: TocStore.TocState, item: TocStore.TocItem)
    requires item.id !in TocStore.ItemIds(st.dynamicItems) && item.id !in st.order
    ensures var q := TocStore.RegisterDynamicItem(st, item);
      var r := TocStore.UnregisterDynamicItem(q, item.id);
      r.dynamicItems == st.dynamicItems && r.order == st.order
      && item.id in TocStore.ItemIds(q.dynamicItems)
  {
    TocStore.RegisterThenUnregister(st, item);
    var d := TocStore.RegisterDynamicItem(st, item).dynamicItems;
    assert TocStore.ItemIds(d)[|st.dynamicItems|] == item.id;
  }

  /** Toggling a layer whose item is registered under a swisstopo id removes
      it. */
  lemma ToggleActive(q: Panel, layer: CatalogLayer, api: UrlApi)
    requires q.view.Some?
    requires var id := MakeInternalId(layer.id, layer.isWmts);
      IsSwisstopoId(id) && id in TocStore.ItemIds(q.store.dynamicItems)
    ensures ToggleLayer(q, layer, api) == Completed(RemoveCatalogLayer(q, MakeInternalId(layer.id, layer.isWmts)))
  {
    ActiveHas(q.store.dynamicItems, MakeInternalId(layer.id, layer.isWmts));
  }

  /** An item with a swisstopo id among the dynamic items is active. */
  lemma ActiveHas(items: seq<TocStore.TocItem>, id: string)
    requires id in TocStore.ItemIds(items) && IsSwisstopoId(id)
    ensures id in TocStore.ItemIds(ActiveItems(items))
  {
    var i :| 0 <= i < |items| && TocStore.ItemIds(items)[i] == id;
    var a := ActiveItems(items);
    assert items[i] in a;
    var j :| 0 <= j < |a| && a[j] == items[i];
    assert TocStore.ItemIds(a)[j] == id;
  }

  /** `for (const item of activeItems) removeLayer(item.id)` */
  function RemoveAll(p: Panel, items: seq<TocStore.TocItem>): (r: Panel)
    ensures p.view.None? ==> r == p
    ensures p.view.Some? ==> r.view.Some?
    ensures forall x :: x in r.store.dynamicItems ==> x in p.store.dynamicItems
    decreases |items|
  {
    if |items| == 0 then p
    else RemoveAll(RemoveCatalogLayer(p, items[0].id), items[1..])
  }

  /** After the loop, every id it was given is gone from the map and the
      store. */
  lemma {:induction false} RemoveAllGone(p: Panel, items: seq<TocStore.TocItem>)
    requires p.view.Some?
    ensures var r := RemoveAll(p, items);
      forall i :: 0 <= i < |items| ==>
        !HasLayer(r.view.value, items[i].id) && items[i].id !in r.view.value.sources
        && items[i].id !in TocStore.ItemIds(r.store.dynamicItems) && items[i].id !in r.store.order
    decreases |items|
  {
    if |items| > 0 {
      var q := RemoveCatalogLayer(p, items[0].id);
      RemoveAllGone(q, items[1..]);
      RemoveKeepsGone(q, items[0].id, items[1..]);
      assert forall i :: 1 <= i < |items| ==> items[i] == items[1..][i - 1];
    }
  }

  /** Once gone, an id stays gone through further removals. */
  lemma {:induction false} RemoveKeepsGone(p: Panel, id: string, items: seq<TocStore.TocItem>)
    requires p.view.Some? && !HasLayer(p.view.value, id) && id !in p.view.value.sources
    requires id !in TocStore.ItemIds(p.store.dynamicItems) && id !in p.store.order
    ensures var r := RemoveAll(p, items);
      !HasLayer(r.view.value, id) && id !in r.view.value.sources
      && id !in TocStore.ItemIds(r.store.dynamicItems) && id !in r.store.order
    decreases |items|
  {
    if |items| > 0 {
      var q := RemoveCatalogLayer(p, items[0].id);
      GoneStaysGone(p, items[0].id, id);
      RemoveKeepsGone(q, id, items[1..]);
    }
  }

  /** Removing one id keeps another id gone. */
  lemma GoneStaysGone(p: Panel, x: string, id: string)
    requires p.view.Some? && !HasLayer(p.view.value, id) && id !in p.view.value.sources
    requires id !in TocStore.ItemIds(p.store.dynamicItems) && id !in p.store.order
    ensures var r := RemoveCatalogLayer(p, x);
      !HasLayer(r.view.value, id) && id !in r.view.value.sources
      && id !in TocStore.ItemIds(r.store.dynamicItems) && id !in r.store.order
  {
  }

  /** `clearAllLayers`: every active item leaves the map and the store, so
      none is left; nothing without a map. */
  function ClearAllLayers(p: Panel): (r: Panel)
    ensures p.view.None? ==> r == p
    ensures p.view.Some? ==> r.view.Some? && ActiveItems(r.store.dynamicItems) == []
    ensures p.view.Some? ==> forall x :: x in ActiveItems(p.store.dynamicItems) ==>
      !HasLayer(r.view.value, x.id) && x.id !in r.view.value.sources
  {
    var act := ActiveItems(p.store.dynamicItems);
    var r := RemoveAll(p, act);
    if p.view.Some? then
      RemoveAllGone(p, act);
      NoneActiveLeft(p.store.dynamicItems, act, r.store.dynamicItems);
      r
    else r
  }

  /** With no swisstopo id among the items, none is active. */
  lemma NoneKept(items: seq<TocStore.TocItem>)
    requires forall x :: x in items ==> !IsSwisstopoId(x.id)
    ensures ActiveItems(items) == []
  {
    var a := ActiveItems(items);
    if |a| > 0 {
      HeadMember(a);
    }
  }

  /** When every active item's id is gone and nothing new came in, no item
      is active. */
  lemma NoneActiveLeft(before: seq<TocStore.TocItem>, act: seq<TocStore.TocItem>, after: seq<TocStore.TocItem>)
    requires act == ActiveItems(before)
    requires forall i :: 0 <= i < |act| ==> act[i].id !in TocStore.ItemIds(after)
    requires forall x :: x in after ==> x in before
    ensures ActiveItems(after) == []
  {
    forall x | x in after ensures !IsSwisstopoId(x.id) {
    }
    NoneKept(after);
  }
}

=== FILE: toc_panel.dfy ===
/** The TOC panel: which items it lists in which order, how a drag rewrites
    the order, and what each row shows. */
module TocPanel {
  import opened Wrappers
  import opened Js
  import opened Seqs
  import opened TocStore

  /** `new Map(allItems.map((it) => [it.id, it])).get(id)`: the last item with
      that id. */
  function ItemById(all: seq<TocItem>, id: string): (r: Option<TocItem>)
    ensures r.Some? <==> id in ItemIds(all)
    ensures r.Some? ==> r.value in all && r.value.id == id
    decreases |all|
  {
    if |all| == 0 then None
    else
      var last := all[|all| - 1];
      var init := all[..|all| - 1];
      assert ItemIds(all) == ItemIds(init) + [last.id];
      if last.id == id then Some(last) else
        var r := ItemById(init, id);
        assert r.Some? ==> r.value in all by {
          if r.Some? { var i :| 0 <= i < |init| && init[i] == r.value; assert all[i] == r.value; }
        }
        r
  }

  /** `order.map((id) => itemMap.get(id)).filter(Boolean)` */
  function Sorted(order: seq<string>, all: seq<TocItem>): (r: seq<TocItem>)
    ensures ItemIds(r) == Filter(order, (id: string) => id in ItemIds(all))
    ensures forall x :: x in r ==> x in all
    decreases |order|
  {
    if |order| == 0 then []
    else
      var head := match ItemById(all, order[0]) case Some(it) => [it] case None => [];
      var rest := Sorted(order[1..], all);
      SortedStep(order, all, head, rest);
      head + rest
  }

  lemma SortedStep(order: seq<string>, all: seq<TocItem>, head: seq<TocItem>, rest: seq<TocItem>)
    requires |order| > 0
    requires head == match ItemById(all, order[0]) case Some(it) => [it] case None => []
    requires ItemIds(rest) == Filter(order[1..], (id: string) => id in ItemIds(all))
    ensures ItemIds(head + rest) == Filter(order, (id: string) => id in ItemIds(all))
  {
    var p := (id: string) => id in ItemIds(all);
    var h := if p(order[0]) then [order[0]] else [];
    assert Filter(order, p) == h + Filter(order[1..], p);
    HeadIds(all, order[0], head);
    ItemIdsConcat(head, rest);
  }

  lemma HeadIds(all: seq<TocItem>, id: string, head: seq<TocItem>)
    requires head == match ItemById(all, id) case Some(it) => [it] case None => []
    ensures ItemIds(head) == if id in ItemIds(all) then [id] else []
  {
  }

  lemma ItemIdsConcat(a: seq<TocItem>, b: seq<TocItem>)
    ensures ItemIds(a + b) == ItemIds(a) + ItemIds(b)
  {
  }

  /** `orderedItems`: everything in configuration-then-dynamic order when the
      order is empty; otherwise the items the order names, in its sequence,
      then the items it does not name, in their own order. */
  function OrderedItems(all: seq<TocItem>, order: seq<string>): (r: seq<TocItem>)
    ensures |order| == 0 ==> r == all
    ensures |order| > 0 ==>
      var sorted := Sorted(order, all);
      |sorted| <= |r| && r[..|sorted|] == sorted
      && ItemIds(sorted) == Filter(order, (id: string) => id in ItemIds(all))
      && r[|sorted|..] == Filter(all, (it: TocItem) => it.id !in order)
  {
    if |order| == 0 then all
    else
      var sorted := Sorted(order, all);
      var r := sorted + Filter(all, (it: TocItem) => it.id !in order);
      assert r[..|sorted|] == sorted;
      r
  }

  /** With an order free of repetitions and items with distinct ids, the panel
      lists every item exactly once. */
  lemma OrderedItemsPermutation(all: seq<TocItem>, order: seq<string>)
    requires Distinct(order) && Distinct(ItemIds(all))
    ensures multiset(OrderedItems(all, order)) == multiset(all)
  {
    if |order| > 0 {
      var named := (it: TocItem) => it.id in order;
      var unnamed := (it: TocItem) => it.id !in order;
      var sorted := Sorted(order, all);
      SortedDistinct(order, all);
      DistinctIdsDistinct(all);
      FilterDistinct(all, named);
      forall x ensures x in sorted <==> x in Filter(all, named) {
        if x in sorted {
          var i :| 0 <= i < |sorted| && sorted[i] == x;
          assert ItemIds(sorted)[i] == x.id;
          assert x.id in Filter(order, (id: string) => id in ItemIds(all));
        }
        if x in Filter(all, named) {
          SortedHasNamed(order, all, x);
        }
      }
      DistinctSameSet(sorted, Filter(all, named));
      FilterSplit(all, named, unnamed);
    }
  }

  /** Splitting by a predicate and its negation loses nothing. */
  lemma {:induction false} FilterSplit(xs: seq<TocItem>, p: TocItem -> bool, q: TocItem -> bool)
    requires forall x :: q(x) == !p(x)
    ensures multiset(Filter(xs, p)) + multiset(Filter(xs, q)) == multiset(xs)
  {
    if |xs| > 0 {
      FilterSplit(xs[1..], p, q);
      assert xs == [xs[0]] + xs[1..];
    }
  }

  lemma DistinctIdsDistinct(all: seq<TocItem>)
    requires Distinct(ItemIds(all))
    ensures Distinct(all)
  {
    forall a, b | 0 <= a < b < |all| ensures all[a] != all[b] {
      assert ItemIds(all)[a] != ItemIds(all)[b];
    }
  }

  lemma {:induction false} FilterDistinct(xs: seq<TocItem>, p: TocItem -> bool)
    requires Distinct(xs)
    ensures Distinct(Filter(xs, p))
  {
    if |xs| > 0 {
      assert Distinct(xs[1..]) by {
        forall a, b | 0 <= a < b < |xs[1..]| ensures xs[1..][a] != xs[1..][b] {
          assert xs[1..][a] == xs[a + 1] && xs[1..][b] == xs[b + 1];
        }
      }
      FilterDistinct(xs[1..], p);
      assert xs[0] !in xs[1..] by {
        forall i | 0 <= i < |xs[1..]| ensures xs[1..][i] != xs[0] { assert xs[1..][i] == xs[i + 1]; }
      }
    }
  }

  lemma {:induction false} SortedDistinct(order: seq<string>, all: seq<TocItem>)
    requires Distinct(order)
    ensures Distinct(Sorted(order, all))
    decreases |order|
  {
    if |order| > 0 {
      var rest := Sorted(order[1..], all);
      assert Distinct(order[1..]) by {
        forall a, b | 0 <= a < b < |order[1..]| ensures order[1..][a] != order[1..][b] {
          assert order[1..][a] == order[a + 1] && order[1..][b] == order[b + 1];
        }
      }
      SortedDistinct(order[1..], all);
      forall x | x in rest ensures x.id != order[0] {
        var i :| 0 <= i < |rest| && rest[i] == x;
        assert ItemIds(rest)[i] == x.id;
        assert x.id in order[1..];
        var k :| 0 <= k < |order[1..]| && order[1..][k] == x.id;
        assert order[k + 1] == x.id;
      }
    }
  }

  lemma {:induction false} SortedHasNamed(order: seq<string>, all: seq<TocItem>, x: TocItem)
    requires Distinct(ItemIds(all)) && x in all && x.id in order
    ensures x in Sorted(order, all)
    decreases |order|
  {
    if order[0] == x.id {
      var it := ItemById(all, x.id).value;
      var i :| 0 <= i < |all| && all[i] == it;
      var j :| 0 <= j < |all| && all[j] == x;
      assert ItemIds(all)[i] == ItemIds(all)[j];
      assert Sorted(order, all)[0] == x;
    } else {
      SortedHasNamed(order[1..], all, x);
    }
  }

  /** `arrayMove(array, from, to)`: take the element out at `from` and insert
      it at `to` of what remains. */
  function ArrayMove<T>(a: seq<T>, from: nat, to: nat): (r: seq<T>)
    requires from < |a| && to < |a|
    ensures |r| == |a| && r[to] == a[from]
    ensures r[..to] + r[to + 1..] == a[..from] + a[from + 1..]
  {
    var x := a[from];
    var rest := a[..from] + a[from + 1..];
    var r := rest[..to] + [x] + rest[to..];
    assert r[..to] == rest[..to] && r[to + 1..] == rest[to..];
    assert rest[..to] + rest[to..] == rest;
    r
  }

  /** A move only reorders. */
  lemma ArrayMovePermutes<T>(a: seq<T>, from: nat, to: nat)
    requires from < |a| && to < |a|
    ensures multiset(ArrayMove(a, from, to)) == multiset(a)
  {
    var r := ArrayMove(a, from, to);
    assert r == r[..to] + [r[to]] + r[to + 1..];
    assert a == a[..from] + [a[from]] + a[from + 1..];
    calc {
      multiset(r);
      multiset(r[..to]) + multiset([r[to]]) + multiset(r[to + 1..]);
      multiset(r[..to] + r[to + 1..]) + multiset([a[from]]);
      multiset(a[..from] + a[from + 1..]) + multiset([a[from]]);
      multiset(a);
    }
  }

  /** Moving back undoes a move. */
  lemma ArrayMoveInverse<T>(a: seq<T>, from: nat, to: nat)
    requires from < |a| && to < |a|
    ensures ArrayMove(ArrayMove(a, from, to), to, from) == a
  {
    var b := ArrayMove(a, from, to);
    var c := ArrayMove(b, to, from);
    assert c[..from] + c[from + 1..] == a[..from] + a[from + 1..];
    SameAroundIndex(c, a, from);
  }

  /** Two sequences agreeing at `i` and everywhere else are equal. */
  lemma SameAroundIndex<T>(c: seq<T>, a: seq<T>, i: nat)
    requires i < |a| && |c| == |a| && c[i] == a[i]
    requires c[..i] + c[i + 1..] == a[..i] + a[i + 1..]
    ensures c == a
  {
    forall k | 0 <= k < |a| ensures c[k] == a[k] {
      if k < i {
        assert c[k] == (c[..i] + c[i + 1..])[k];
        assert a[k] == (a[..i] + a[i + 1..])[k];
      } else if k > i {
        assert c[k] == (c[..i] + c[i + 1..])[k - 1];
        assert a[k] == (a[..i] + a[i + 1..])[k - 1];
      }
    }
  }

  /** `findIndex((it) => it.id === id)` */
  function IndexOfId(items: seq<TocItem>, id: string): (i: nat)
    requires id in ItemIds(items)
    ensures i < |items| && items[i].id == id
    ensures forall k :: 0 <= k < i ==> items[k].id != id
  {
    if items[0].id == id then 0
    else
      IdInTail(items, id);
      var j := IndexOfId(items[1..], id);
      assert forall k :: 1 <= k <= j ==> items[k] == items[1..][k - 1];
      1 + j
  }

  /** An id that the first item does not carry is carried by a later one. */
  lemma IdInTail(items: seq<TocItem>, id: string)
    requires id in ItemIds(items) && items[0].id != id
    ensures id in ItemIds(items[1..])
  {
    var w :| 0 <= w < |items| && ItemIds(items)[w] == id;
    assert ItemIds(items[1..])[w - 1] == items[w].id;
  }

  /** `handleDragEnd`: no new order without a drop target or when dropped on
      itself; otherwise the ids of the listed items with the dragged one moved
      to the target's place. The drag library only reports ids of listed rows. */
  function HandleDragEnd(ordered: seq<TocItem>, active: string, over: Option<string>): (r: Option<seq<string>>)
    requires active in ItemIds(ordered)
    requires over.Some? ==> over.value in ItemIds(ordered)
    ensures over.None? || over.value == active ==> r.None?
    ensures over.Some? && over.value != active ==> (r.Some?
      && r.value == ArrayMove(ItemIds(ordered), IndexOfId(ordered, active), IndexOfId(ordered, over.value)))
  {
    if over.None? || over.value == active then None
    else
      var from := IndexOfId(ordered, active);
      var to := IndexOfId(ordered, over.value);
      ArrayMoveMap(ordered, from, to);
      Some(ItemIds(ArrayMove(ordered, from, to)))
  }

  /** The new order holds the same ids, the dragged id sits where the target
      was, and the other ids keep their relative order. */
  lemma HandleDragEndMoves(ordered: seq<TocItem>, active: string, over: string)
    requires active in ItemIds(ordered) && over in ItemIds(ordered) && active != over
    ensures MovedTo(ItemIds(ordered), IndexOfId(ordered, active), IndexOfId(ordered, over),
                    HandleDragEnd(ordered, active, Some(over)).value)
  {
    var ids := ItemIds(ordered);
    var from, to := IndexOfId(ordered, active), IndexOfId(ordered, over);
    MoveFacts(ids, from, to, HandleDragEnd(ordered, active, Some(over)).value);
  }

  /** `r` is `a` with the element at `from` taken out and put back at `to`:
      the same elements, the moved one at `to`, the others in their order. */
  predicate MovedTo<T(==)>(a: seq<T>, from: nat, to: nat, r: seq<T>)
    requires from < |a| && to < |a|
  {
    |r| == |a| && multiset(r) == multiset(a) && r[to] == a[from]
    && r[..to] + r[to + 1..] == a[..from] + a[from + 1..]
  }

  lemma MoveFacts<T>(a: seq<T>, from: nat, to: nat, r: seq<T>)
    requires from < |a| && to < |a| && r == ArrayMove(a, from, to)
    ensures MovedTo(a, from, to, r)
  {
    ArrayMovePermutes(a, from, to);
  }

  lemma ArrayMoveMap(a: seq<TocItem>, from: nat, to: nat)
    requires from < |a| && to < |a|
    ensures ItemIds(ArrayMove(a, from, to)) == ArrayMove(ItemIds(a), from, to)
  {
    var r, ids := ArrayMove(a, from, to), ItemIds(a);
    var m := ArrayMove(ids, from, to);
    assert ItemIds(r)[to] == m[to];
    ItemIdsConcat(r[..to], r[to + 1..]);
    ItemIdsConcat(a[..from], a[from + 1..]);
    ItemIdsSlices(r, to);
    ItemIdsSlices(a, from);
    SameAroundIndex(ItemIds(r), m, to);
  }

  lemma ItemIdsSlices(a: seq<TocItem>, i: nat)
    requires i < |a|
    ensures ItemIds(a[..i]) == ItemIds(a)[..i] && ItemIds(a[i + 1..]) == ItemIds(a)[i + 1..]
  {
  }

  /** The row's switch: store value, else the item's default, else on. */
  function IsOnShown(st: TocState, item: TocItem): (b: bool)
    ensures item.id in st.visible ==> b == st.visible[item.id]
    ensures item.id !in st.visible && item.defaultVisible.Some? ==> b == item.defaultVisible.value
    ensures item.id !in st.visible && item.defaultVisible.None? ==> b
  {
    if item.id in st.visible then st.visible[item.id] else item.defaultVisible.GetOr(true)
  }

  function LabelsOnShown(st: TocState, item: TocItem): (b: bool)
    ensures item.id in st.labelsVisible ==> b == st.labelsVisible[item.id]
    ensures item.id !in st.labelsVisible && item.defaultLabelsVisible.Some? ==> b == item.defaultLabelsVisible.value
    ensures item.id !in st.labelsVisible && item.defaultLabelsVisible.None? ==> !b
  {
    if item.id in st.labelsVisible then st.labelsVisible[item.id] else item.defaultLabelsVisible.GetOr(false)
  }

  function OpacityShown(st: TocState, item: TocItem): (n: Num)
    ensures item.id in st.opacity ==> n == st.opacity[item.id]
    ensures item.id !in st.opacity && item.defaultOpacity.Some? ==> n == item.defaultOpacity.value
    ensures item.id !in st.opacity && item.defaultOpacity.None? ==> n == Finite(1.0)
  {
    if item.id in st.opacity then st.opacity[item.id] else item.defaultOpacity.GetOr(Finite(1.0))
  }

  /** Once the store was initialised from the items, the panel shows what the
      store holds, which for an untouched item is its default. */
  lemma ShownAfterInit(st: TocState, items: seq<TocItem>, j: nat)
    requires j < |items| && IsLastOfId(items, j) && items[j].id !in st.visible
    ensures IsOnShown(InitFromItems(st, items), items[j]) == IsOnShown(st, items[j])
  {
  }
}

/** One row of the TOC: its visibility switch, labels toggle and opacity
    slider, each turned into a store call. */
module TocItemControls {
  import opened Wrappers
  import opened Js
  import opened TocStore

  /** The store call a control issues. */
  datatype TocAction =
    | SetVisibleCall(id: string, on: bool)
    | SetLabelsVisibleCall(id: string, on: bool)
    | SetOpacityCall(id: string, value: real)

  /** The row's `clamp01`: 1 for a non-finite value, else clamped into [0, 1]. */
  function RowClamp(n: Num): (r: real)
    ensures 0.0 <= r <= 1.0
    ensures !n.Finite? ==> r == 1.0
    ensures n.Finite? ==> r == if n.r < 0.0 then 0.0 else if n.r > 1.0 then 1.0 else n.r
  {
    ClampUnit(n)
  }

  function HasLabels(item: TocItem): bool {
    item.labelLayerIds.Some? && |item.labelLayerIds.value| > 0
  }

  /** `labelsDisabled` */
  function LabelsDisabled(item: TocItem, isOn: bool): (b: bool)
    ensures b <==> !isOn || item.labelLayerIds.None? || item.labelLayerIds.value == []
  {
    !isOn || !HasLabels(item)
  }

  /** The switch forwards its value for this item. */
  function OnToggleVisible(item: TocItem, v: bool): (a: TocAction)
    ensures a.SetVisibleCall? && a.id == item.id && a.on == v
  {
    SetVisibleCall(item.id, v)
  }

  /** A click on the labels toggle: nothing while disabled, else the negation
      of what the row shows. */
  function OnToggleLabels(item: TocItem, isOn: bool, labelsOn: bool): (a: Option<TocAction>)
    ensures a.None? <==> LabelsDisabled(item, isOn)
    ensures a.Some? ==> a.value == SetLabelsVisibleCall(item.id, !labelsOn)
  {
    if LabelsDisabled(item, isOn) then None else Some(SetLabelsVisibleCall(item.id, !labelsOn))
  }

  /** A slider change: nothing while the item is off; otherwise the clamped
      first value, 1 when there is none. */
  function OnOpacityChange(item: TocItem, isOn: bool, values: seq<Num>): (a: Option<TocAction>)
    ensures a.None? <==> !isOn
    ensures a.Some? ==> a.value.SetOpacityCall? && a.value.id == item.id && 0.0 <= a.value.value <= 1.0
    ensures a.Some? && |values| == 0 ==> a.value.value == 1.0
    ensures a.Some? && |values| > 0 && values[0].Finite? && 0.0 <= values[0].r <= 1.0 ==> a.value.value == values[0].r
  {
    if !isOn then None
    else Some(SetOpacityCall(item.id, RowClamp(if |values| == 0 then Finite(1.0) else values[0])))
  }

  /** What a control's call does to the store. */
  function Dispatch(st: TocState, a: TocAction): TocState {
    match a
    case SetVisibleCall(id, on) => SetVisible(st, id, on)
    case SetLabelsVisibleCall(id, on) => SetLabelsVisible(st, id, on)
    case SetOpacityCall(id, v) => SetOpacity(st, id, Finite(v))
  }

  /** Two clicks on an enabled labels toggle, each reading the store back,
      restore the stored value. */
  lemma ToggleLabelsTwice(st: TocState, item: TocItem)
    requires HasLabels(item) && item.id in st.labelsVisible
    ensures var a := OnToggleLabels(item, true, st.labelsVisible[item.id]).value;
      var st1 := Dispatch(st, a);
      var b := OnToggleLabels(item, true, st1.labelsVisible[item.id]).value;
      Dispatch(st1, b).labelsVisible == st.labelsVisible
  {
  }
}

=== FILE: toc_store.dfy ===
/** The table of contents: its item configuration and the store holding what
    the user chose per item (visibility, labels, opacity) and the panel order. */
module TocStore {
  import opened Wrappers
  import opened Js
  import opened Seqs

  datatype SwatchKind = FillSwatch | LineSwatch | CircleSwatch

  /** A hand-written legend row of an item. */
  datatype TocLegendItem = TocLegendItem(caption: string, swatchKind: SwatchKind, swatchValue: string)

  /** `TocItemConfig`; every optional field is an `Option`. */
  datatype TocItem = TocItem(
    id: string,
    title: string,
    mapLayerIds: Option<seq<string>>,
    labelLayerIds: Option<seq<string>>,
    defaultVisible: Option<bool>,
    defaultLabelsVisible: Option<bool>,
    defaultOpacity: Option<Num>,
    legendUrl: Option<string>,
    legendItems: Option<seq<TocLegendItem>>)

  /** The ids of the items, in order. */
  function ItemIds(items: seq<TocItem>): (r: seq<string>)
    ensures |r| == |items| && forall i :: 0 <= i < |items| ==> r[i] == items[i].id
  {
    Keys(items, (t: TocItem) => t.id)
  }

  /** The store: dynamic items, the three per-item maps, and the order of the
      panel from top to bottom. */
  datatype TocState = TocState(
    dynamicItems: seq<TocItem>,
    visible: map<string, bool>,
    labelsVisible: map<string, bool>,
    opacity: map<string, Num>,
    order: seq<string>)

  const InitialState: TocState := TocState([], map[], map[], map[], [])

  function DefaultVisible(i: TocItem): bool { i.defaultVisible.GetOr(true) }
  function DefaultLabelsVisible(i: TocItem): bool { i.defaultLabelsVisible.GetOr(false) }
  function DefaultOpacity(i: TocItem): Num { i.defaultOpacity.GetOr(Finite(1.0)) }

  /** The loop `for (const i of items) m[i.id] = f(i)`: a later item with the
      same id overwrites an earlier one. */
  function LastWins<V>(items: seq<TocItem>, f: TocItem -> V): map<string, V>
    decreases |items|
  {
    if |items| == 0 then map[]
    else
      var last := items[|items| - 1];
      LastWins(items[..|items| - 1], f)[last.id := f(last)]
  }

  /** Every item id gets an entry, nothing else does, and the entry is the
      value of the last item carrying that id. */
  lemma {:induction false} LastWinsSpec<V>(items: seq<TocItem>, f: TocItem -> V)
    ensures forall id :: id in LastWins(items, f) <==> id in ItemIds(items)
    ensures forall j :: 0 <= j < |items| && IsLastOfId(items, j) ==> LastWins(items, f)[items[j].id] == f(items[j])
    decreases |items|
  {
    if |items| > 0 {
      var init := items[..|items| - 1];
      LastWinsSpec(init, f);
      forall id ensures id in LastWins(items, f) <==> id in ItemIds(items) {
        if id in ItemIds(init) {
          var i :| 0 <= i < |init| && ItemIds(init)[i] == id;
          assert ItemIds(items)[i] == id;
        }
        if id in ItemIds(items) {
          var i :| 0 <= i < |items| && ItemIds(items)[i] == id;
          if i < |items| - 1 { assert ItemIds(init)[i] == id; }
        }
      }
      forall j | 0 <= j < |items| && IsLastOfId(items, j)
        ensures LastWins(items, f)[items[j].id] == f(items[j])
      {
        if j < |items| - 1 {
          assert init[j] == items[j];
          assert IsLastOfId(init, j) by {
            forall k | j < k < |init| ensures init[k].id != init[j].id { assert init[k] == items[k]; }
          }
        }
      }
    }
  }

  /** No later item carries the id of `items[j]`. */
  predicate IsLastOfId(items: seq<TocItem>, j: int)
    requires 0 <= j < |items|
  {
    forall k :: j < k < |items| ==> items[k].id != items[j].id
  }

  datatype Defaults = Defaults(visible: map<string, bool>, labelsVisible: map<string, bool>, opacity: map<string, Num>)

  /** `buildDefaults(items)`: visible true, labels false and opacity 1 unless
      the item says otherwise. */
  function BuildDefaults(items: seq<TocItem>): (d: Defaults)
    ensures forall id :: id in d.visible <==> id in ItemIds(items)
    ensures forall id :: id in d.labelsVisible <==> id in ItemIds(items)
    ensures forall id :: id in d.opacity <==> id in ItemIds(items)
    ensures forall j :: 0 <= j < |items| && IsLastOfId(items, j) ==>
      d.visible[items[j].id] == items[j].defaultVisible.GetOr(true)
      && d.labelsVisible[items[j].id] == items[j].defaultLabelsVisible.GetOr(false)
      && d.opacity[items[j].id] == items[j].defaultOpacity.GetOr(Finite(1.0))
  {
    LastWinsSpec(items, DefaultVisible);
    LastWinsSpec(items, DefaultLabelsVisible);
    LastWinsSpec(items, DefaultOpacity);
    Defaults(LastWins(items, DefaultVisible), LastWins(items, DefaultLabelsVisible), LastWins(items, DefaultOpacity))
  }

  /** `initFromItems(items)`: `{ ...defaults, ...current }` for each map. */
  function InitFromItems(st: TocState, items: seq<TocItem>): (r: TocState)
    ensures r.order == st.order && r.dynamicItems == st.dynamicItems
    ensures forall id :: id in st.visible ==> id in r.visible && r.visible[id] == st.visible[id]
    ensures forall id :: id in st.labelsVisible ==> id in r.labelsVisible && r.labelsVisible[id] == st.labelsVisible[id]
    ensures forall id :: id in st.opacity ==> id in r.opacity && r.opacity[id] == st.opacity[id]
    ensures forall j :: 0 <= j < |items| && IsLastOfId(items, j) ==>
      var id := items[j].id;
      id in r.visible && id in r.labelsVisible && id in r.opacity
      && (id !in st.visible ==> r.visible[id] == items[j].defaultVisible.GetOr(true))
      && (id !in st.labelsVisible ==> r.labelsVisible[id] == items[j].defaultLabelsVisible.GetOr(false))
      && (id !in st.opacity ==> r.opacity[id] == items[j].defaultOpacity.GetOr(Finite(1.0)))
    ensures forall id :: id in r.visible ==> id in st.visible || id in ItemIds(items)
  {
    var d := BuildDefaults(items);
    st.(visible := d.visible + st.visible,
        labelsVisible := d.labelsVisible + st.labelsVisible,
        opacity := d.opacity + st.opacity)
  }

  /** Initialising again with the same items changes nothing. */
  lemma InitFromItemsIdempotent(st: TocState, items: seq<TocItem>)
    ensures InitFromItems(InitFromItems(st, items), items) == InitFromItems(st, items)
  {
    var d := BuildDefaults(items);
    MergeAbsorbs(d.visible, st.visible);
    MergeAbsorbs(d.labelsVisible, st.labelsVisible);
    MergeAbsorbs(d.opacity, st.opacity);
  }

  /** `{ ...d, ...{ ...d, ...m } }` is `{ ...d, ...m }`. */
  lemma MergeAbsorbs<V>(d: map<string, V>, m: map<string, V>)
    ensures d + (d + m) == d + m
  {
  }

  /** `setOrder(next)` */
  function SetOrder(st: TocState, next: seq<string>): (r: TocState)
    ensures r.order == next
    ensures r.(order := st.order) == st
  {
    st.(order := next)
  }

  /** The loop of `ensureOrderContains` over the first `n` ids: push each id
      the order does not include yet. */
  function AppendMissing(cur: seq<string>, ids: seq<string>, n: nat): (r: seq<string>)
    requires n <= |ids|
    ensures |cur| <= |r| && r[..|cur|] == cur
    ensures forall x :: x in r <==> x in cur || x in ids[..n]
  {
    if n == 0 then cur
    else
      var p := AppendMissing(cur, ids, n - 1);
      assert ids[..n] == ids[..n - 1] + [ids[n - 1]];
      if ids[n - 1] in p then p else p + [ids[n - 1]]
  }

  /** `ensureOrderContains(ids)` */
  function EnsureOrderContains(st: TocState, ids: seq<string>): (r: TocState)
    ensures r.(order := st.order) == st
    ensures |st.order| <= |r.order| && r.order[..|st.order|] == st.order
    ensures forall x :: x in r.order <==> x in st.order || x in ids
    ensures (forall i :: 0 <= i < |ids| ==> ids[i] in st.order) ==> r == st
  {
    assert ids[..|ids|] == ids;
    AppendMissingNoop(st.order, ids, |ids|);
    st.(order := AppendMissing(st.order, ids, |ids|))
  }

  lemma {:induction false} AppendMissingNoop(cur: seq<string>, ids: seq<string>, n: nat)
    requires n <= |ids|
    ensures (forall i :: 0 <= i < n ==> ids[i] in cur) ==> AppendMissing(cur, ids, n) == cur
  {
    if n > 0 { AppendMissingNoop(cur, ids, n - 1); }
  }

  function Id(x: string): string { x }

  lemma KeysOfId(xs: seq<string>)
    ensures Keys(xs, Id) == xs
  {
  }

  /** With an order free of repetitions, the loop is "keep the first
      occurrence" over the old order followed by the ids. */
  lemma {:induction false} AppendMissingIsDedupe(cur: seq<string>, ids: seq<string>, n: nat)
    requires n <= |ids| && Distinct(cur)
    ensures AppendMissing(cur, ids, n) == FirstsUpTo(cur + ids, Id, |cur| + n)
  {
    if n == 0 {
      DedupeStartsWithOrder(cur, ids);
    } else {
      AppendMissingIsDedupe(cur, ids, n - 1);
      AppendMissingStep(cur, ids, n);
    }
  }

  /** One more id: the loop and the reference take the same step. */
  lemma AppendMissingStep(cur: seq<string>, ids: seq<string>, n: nat)
    requires 0 < n <= |ids|
    requires AppendMissing(cur, ids, n - 1) == FirstsUpTo(cur + ids, Id, |cur| + n - 1)
    ensures AppendMissing(cur, ids, n) == FirstsUpTo(cur + ids, Id, |cur| + n)
  {
    AppendIndex(cur, ids, n - 1);
    DedupeStepAt(cur + ids, |cur| + n - 1, AppendMissing(cur, ids, n - 1), ids[n - 1]);
  }

  lemma DedupeStepAt(xs: seq<string>, m: nat, p: seq<string>, x: string)
    requires m < |xs| && xs[m] == x && p == FirstsUpTo(xs, Id, m)
    ensures FirstsUpTo(xs, Id, m + 1) == if x in p then p else p + [x]
  {
    DedupeStep(xs, m);
  }

  lemma AppendIndex(a: seq<string>, b: seq<string>, k: nat)
    requires k < |b|
    ensures (a + b)[|a| + k] == b[k]
  {
  }

  lemma DedupeStartsWithOrder(cur: seq<string>, ids: seq<string>)
    requires Distinct(cur)
    ensures FirstsUpTo(cur + ids, Id, |cur|) == cur
  {
    KeysOfId(cur);
    FirstsUpToDistinctIdentity(cur, Id, |cur|);
    FirstsUpToPrefix(cur, cur + ids, Id, |cur|);
    assert cur[..|cur|] == cur;
  }

  /** One step of the reference: the next element is kept exactly when the
      kept prefix does not include it yet. */
  lemma DedupeStep(xs: seq<string>, m: nat)
    requires m < |xs|
    ensures var p := FirstsUpTo(xs, Id, m);
      FirstsUpTo(xs, Id, m + 1) == if xs[m] in p then p else p + [xs[m]]
  {
    var p := FirstsUpTo(xs, Id, m);
    FirstsUpToFromInput(xs, Id, m);
    FirstsUpToKeepsKeys(xs, Id, m);
    if xs[m] in p {
      var j :| 0 <= j < |p| && p[j] == xs[m];
      var i :| 0 <= i < m && p[j] == xs[i] && IsFirstOfKey(xs, Id, i);
      assert Id(xs[i]) == Id(xs[m]);
    }
    if !IsFirstOfKey(xs, Id, m) {
      var i :| 0 <= i < m && Id(xs[i]) == Id(xs[m]);
      assert Id(xs[i]) in KeySet(p, Id);
      var j :| 0 <= j < |p| && Id(p[j]) == Id(xs[i]);
    }
  }

  /** `ensureOrderContains` on an order without repetitions: the first
      occurrence of every id of the old order and the argument, in that order;
      so it never introduces a repetition. */
  lemma EnsureOrderContainsIsDedupe(st: TocState, ids: seq<string>)
    requires Distinct(st.order)
    ensures EnsureOrderContains(st, ids).order == DedupeBy(st.order + ids, Id)
    ensures Distinct(EnsureOrderContains(st, ids).order)
  {
    var xs := st.order + ids;
    AppendMissingIsDedupe(st.order, ids, |ids|);
    assert |xs| == |st.order| + |ids|;
    var r := DedupeBy(xs, Id);
    assert r == FirstsUpTo(xs, Id, |xs|);
    assert EnsureOrderContains(st, ids).order == AppendMissing(st.order, ids, |ids|);
    DedupeByKeys(xs, Id);
    KeysOfId(r);
  }

  function DynamicIds(st: TocState): seq<string> { ItemIds(st.dynamicItems) }

  /** `registerDynamicItem(item)`: the item is appended unless one with its id
      exists; each map keeps its value for the id or takes the item's default;
      the id joins the order only if absent. */
  function RegisterDynamicItem(st: TocState, item: TocItem): (r: TocState)
    ensures item.id in ItemIds(st.dynamicItems) ==> r.dynamicItems == st.dynamicItems
    ensures item.id !in ItemIds(st.dynamicItems) ==> r.dynamicItems == st.dynamicItems + [item]
    ensures Distinct(ItemIds(st.dynamicItems)) ==> Distinct(ItemIds(r.dynamicItems))
    ensures r.visible == st.visible[item.id := if item.id in st.visible then st.visible[item.id] else item.defaultVisible.GetOr(true)]
    ensures r.labelsVisible == st.labelsVisible[item.id := if item.id in st.labelsVisible then st.labelsVisible[item.id] else item.defaultLabelsVisible.GetOr(false)]
    ensures r.opacity == st.opacity[item.id := if item.id in st.opacity then st.opacity[item.id] else item.defaultOpacity.GetOr(Finite(1.0))]
    ensures item.id in st.order ==> r.order == st.order
    ensures item.id !in st.order ==> r.order == st.order + [item.id]
  {
    var dyn := if item.id in ItemIds(st.dynamicItems) then st.dynamicItems else st.dynamicItems + [item];
    assert item.id !in ItemIds(st.dynamicItems) ==> ItemIds(dyn) == ItemIds(st.dynamicItems) + [item.id];
    TocState(
      dyn,
      st.visible[item.id := if item.id in st.visible then st.visible[item.id] else DefaultVisible(item)],
      st.labelsVisible[item.id := if item.id in st.labelsVisible then st.labelsVisible[item.id] else DefaultLabelsVisible(item)],
      st.opacity[item.id := if item.id in st.opacity then st.opacity[item.id] else DefaultOpacity(item)],
      if item.id in st.order then st.order else st.order + [item.id])
  }

  /** Registering the same item twice is registering it once. */
  lemma RegisterDynamicItemIdempotent(st: TocState, item: TocItem)
    ensures RegisterDynamicItem(RegisterDynamicItem(st, item), item) == RegisterDynamicItem(st, item)
  {
    var r := RegisterDynamicItem(st, item);
    assert item.id in ItemIds(r.dynamicItems) by {
      if item.id !in ItemIds(st.dynamicItems) {
        assert ItemIds(r.dynamicItems)[|st.dynamicItems|] == item.id;
      }
    }
  }

  function WithoutItem(items: seq<TocItem>, id: string): (r: seq<TocItem>)
    ensures forall x :: x in r <==> x in items && x.id != id
  {
    Filter(items, (x: TocItem) => x.id != id)
  }

  /** `unregisterDynamicItem(id)`: the id leaves the dynamic items and the
      order; the visible, labels and opacity maps keep their entries. */
  function UnregisterDynamicItem(st: TocState, id: string): (r: TocState)
    ensures id !in ItemIds(r.dynamicItems) && id !in r.order
    ensures SubsequenceOf(r.dynamicItems, st.dynamicItems) && SubsequenceOf(r.order, st.order)
    ensures forall x :: x in r.dynamicItems <==> x in st.dynamicItems && x.id != id
    ensures forall x :: x in r.order <==> x in st.order && x != id
    ensures r.visible == st.visible && r.labelsVisible == st.labelsVisible && r.opacity == st.opacity
  {
    var dyn := WithoutItem(st.dynamicItems, id);
    var ord := Filter(st.order, (x: string) => x != id);
    FilterSubsequence(st.dynamicItems, (x: TocItem) => x.id != id);
    FilterSubsequence(st.order, (x: string) => x != id);
    assert id !in ItemIds(dyn) by {
      forall i | 0 <= i < |dyn| ensures ItemIds(dyn)[i] != id { assert dyn[i] in dyn; }
    }
    st.(dynamicItems := dyn, order := ord)
  }

  /** Unregistering an item that was registered on a store without it gives
      back the store's items and order; the chosen values stay behind. */
  lemma RegisterThenUnregister(st: TocState, item: TocItem)
    requires item.id !in ItemIds(st.dynamicItems) && item.id !in st.order
    ensures var r := UnregisterDynamicItem(RegisterDynamicItem(st, item), item.id);
      r.dynamicItems == st.dynamicItems && r.order == st.order
      && item.id in r.visible && item.id in r.labelsVisible && item.id in r.opacity
  {
    var p := (x: TocItem) => x.id != item.id;
    var q := (x: string) => x != item.id;
    FilterConcat(st.dynamicItems, [item], p);
    FilterConcat(st.order, [item.id], q);
    forall i | 0 <= i < |st.dynamicItems| ensures p(st.dynamicItems[i]) {
      assert ItemIds(st.dynamicItems)[i] == st.dynamicItems[i].id;
    }
    FilterAll(st.dynamicItems, p);
    FilterAll(st.order, q);
    assert Filter([item], p) == [];
    assert Filter([item.id], q) == [];
  }

  /** `setVisible`, `setLabelsVisible` and `setOpacity`: one key of one map. */
  function SetVisible(st: TocState, id: string, v: bool): (r: TocState)
    ensures r.visible == st.visible[id := v] && r.(visible := st.visible) == st
  {
    st.(visible := st.visible[id := v])
  }

  function SetLabelsVisible(st: TocState, id: string, v: bool): (r: TocState)
    ensures r.labelsVisible == st.labelsVisible[id := v] && r.(labelsVisible := st.labelsVisible) == st
  {
    st.(labelsVisible := st.labelsVisible[id := v])
  }

  function SetOpacity(st: TocState, id: string, v: Num): (r: TocState)
    ensures r.opacity == st.opacity[id := v] && r.(opacity := st.opacity) == st
  {
    st.(opacity := st.opacity[id := v])
  }

  /** A later setter call on the same key replaces the earlier one. */
  lemma SettersLastWins(st: TocState, id: string, a: bool, b: bool, x: Num, y: Num)
    ensures SetVisible(SetVisible(st, id, a), id, b) == SetVisible(st, id, b)
    ensures SetLabelsVisible(SetLabelsVisible(st, id, a), id, b) == SetLabelsVisible(st, id, b)
    ensures SetOpacity(SetOpacity(st, id, x), id, y) == SetOpacity(st, id, y)
  {
  }
}

=== FILE: toc_sync.dfy ===
/** Projection of the TOC state onto the map: per item, its map layers get
    visibility and opacity, its label layers visibility. */
module TocSync {
  import opened Wrappers
  import opened Js
  import opened MapSurface
  import opened TocStore

  /** `setLayerVisibility`: no write for a layer the map does not have. */
  function SetLayerVisibility(s: Surface, id: string, on: bool): (r: Surface)
    ensures r.sources == s.sources && Ids(r.layers) == Ids(s.layers)
    ensures !HasLayer(s, id) ==> r == s
  {
    if !HasLayer(s, id) then s
    else SetLayout(s, id, "visibility", VisibilityValue(on))
  }

  function VisibilityValue(on: bool): Json {
    JStr(if on then "visible" else "none")
  }

  /** `opacityPaintProp`: fill, line, circle and symbol have one, nothing else. */
  function OpacityPaintProp(kind: LayerType): (r: Option<string>)
    ensures kind == Fill <==> r == Some("fill-opacity")
    ensures kind == Line <==> r == Some("line-opacity")
    ensures kind == Circle <==> r == Some("circle-opacity")
    ensures kind == Symbol <==> r == Some("text-opacity")
    ensures r.None? <==> kind !in {Fill, Line, Circle, Symbol}
  {
    match kind
    case Fill => Some("fill-opacity")
    case Line => Some("line-opacity")
    case Circle => Some("circle-opacity")
    case Symbol => Some("text-opacity")
    case _ => None
  }

  /** `setLayerOpacity`: no write for a missing layer or a type without an
      opacity property. An undefined opacity is written as undefined, which
      resets the property. */
  function SetLayerOpacity(s: Surface, id: string, op: Option<Num>): (r: Surface)
    ensures r.sources == s.sources && Ids(r.layers) == Ids(s.layers)
    ensures !HasLayer(s, id) ==> r == s
  {
    match GetLayer(s.layers, id)
    case None => s
    case Some(l) =>
      match OpacityPaintProp(l.kind)
      case None => s
      case Some(prop) => SetPaint(s, id, prop, match op case Some(n) => Some(JNum(n)) case None => None)
  }

  /** What a map layer of an item becomes: visibility, then opacity. */
  function MapLayerWrite(l: Layer, on: bool, op: Option<Num>): (r: Layer)
    ensures r.id == l.id && r.kind == l.kind && r.source == l.source && r.metadata == l.metadata
    ensures "visibility" in r.layout && r.layout["visibility"] == VisibilityValue(on)
  {
    var v := WithLayout(l, "visibility", VisibilityValue(on));
    match OpacityPaintProp(l.kind)
    case None => v
    case Some(prop) => WithPaint(v, prop, match op case Some(n) => Some(JNum(n)) case None => None)
  }

  /** What a label layer of an item becomes: visibility only. */
  function LabelLayerWrite(l: Layer, on: bool): (r: Layer)
    ensures r.paint == l.paint
    ensures r.id == l.id && r.kind == l.kind && r.source == l.source && r.metadata == l.metadata
    ensures "visibility" in r.layout && r.layout["visibility"] == VisibilityValue(on)
  {
    WithLayout(l, "visibility", VisibilityValue(on))
  }

  /** The values one item is synced with: the store's, else the item's
      default, which may itself be undefined (read as off). */
  datatype ItemValues = ItemValues(on: bool, labelsOn: bool, op: Option<Num>)

  function ValuesOf(st: TocState, item: TocItem): (v: ItemValues)
    ensures item.id in st.visible ==> v.on == st.visible[item.id]
    ensures item.id !in st.visible ==> v.on == (item.defaultVisible == Some(true))
    ensures item.id in st.labelsVisible ==> v.labelsOn == st.labelsVisible[item.id]
    ensures item.id !in st.labelsVisible ==> v.labelsOn == (item.defaultLabelsVisible == Some(true))
    ensures item.id in st.opacity ==> v.op == Some(st.opacity[item.id])
    ensures item.id !in st.opacity ==> v.op == item.defaultOpacity
  {
    ItemValues(
      if item.id in st.visible then st.visible[item.id] else item.defaultVisible == Some(true),
      if item.id in st.labelsVisible then st.labelsVisible[item.id] else item.defaultLabelsVisible == Some(true),
      if item.id in st.opacity then Some(st.opacity[item.id]) else item.defaultOpacity)
  }

  function SyncMapLayers(s: Surface, ids: seq<string>, on: bool, op: Option<Num>): (r: Surface)
    ensures r.sources == s.sources && Ids(r.layers) == Ids(s.layers)
    decreases |ids|
  {
    if |ids| == 0 then s
    else SyncMapLayers(SetLayerOpacity(SetLayerVisibility(s, ids[0], on), ids[0], op), ids[1..], on, op)
  }

  function SyncLabelLayers(s: Surface, ids: seq<string>, on: bool): (r: Surface)
    ensures r.sources == s.sources && Ids(r.layers) == Ids(s.layers)
    decreases |ids|
  {
    if |ids| == 0 then s
    else SyncLabelLayers(SetLayerVisibility(s, ids[0], on), ids[1..], on)
  }

  function SyncItem(s: Surface, item: TocItem, v: ItemValues): (r: Surface)
    ensures r.sources == s.sources && Ids(r.layers) == Ids(s.layers)
  {
    var s1 := SyncMapLayers(s, item.mapLayerIds.GetOr([]), v.on, v.op);
    SyncLabelLayers(s1, item.labelLayerIds.GetOr([]), v.on && v.labelsOn)
  }

  /** The sync effect with the layer lists read as `mapLayerIds ?? []` and
      `labelLayerIds ?? []`. */
  function SyncToc(s: Surface, items: seq<TocItem>, st: TocState): (r: Surface)
    ensures r.sources == s.sources && Ids(r.layers) == Ids(s.layers)
    decreases |items|
  {
    if |items| == 0 then s
    else SyncToc(SyncItem(s, items[0], ValuesOf(st, items[0])), items[1..], st)
  }

  /** The sync effect as written: the loop reads `item.layerIds`, a field the
      item type does not have, and iterating undefined throws before the first
      write; the effect stops there. */
  function SyncTocAsWritten(s: Surface, items: seq<TocItem>, st: TocState): (r: Outcome<Surface>)
    ensures r.state == s
  {
    if |items| == 0 then Completed(s)
    else Aborted(s, "item.layerIds is not iterable")
  }

  /** As written, no TOC item ever reaches the map. */
  lemma SyncAsWrittenWritesNothing(s: Surface, items: seq<TocItem>, st: TocState)
    requires |items| > 0
    ensures SyncTocAsWritten(s, items, st).Aborted?
    ensures SyncTocAsWritten(s, items, st).state == s
  {
  }

  // Per-layer reference: what the writes do to one layer.

  function LayerAfterMaps(l: Layer, ids: seq<string>, on: bool, op: Option<Num>): Layer
    decreases |ids|
  {
    if |ids| == 0 then l
    else LayerAfterMaps(if ids[0] == l.id then MapLayerWrite(l, on, op) else l, ids[1..], on, op)
  }

  function LayerAfterLabels(l: Layer, ids: seq<string>, on: bool): Layer
    decreases |ids|
  {
    if |ids| == 0 then l
    else LayerAfterLabels(if ids[0] == l.id then LabelLayerWrite(l, on) else l, ids[1..], on)
  }

  function LayerAfterItem(l: Layer, item: TocItem, v: ItemValues): Layer {
    LayerAfterLabels(LayerAfterMaps(l, item.mapLayerIds.GetOr([]), v.on, v.op),
                     item.labelLayerIds.GetOr([]), v.on && v.labelsOn)
  }

  function LayerAfterItems(l: Layer, items: seq<TocItem>, st: TocState): Layer
    decreases |items|
  {
    if |items| == 0 then l
    else LayerAfterItems(LayerAfterItem(l, items[0], ValuesOf(st, items[0])), items[1..], st)
  }

  lemma VisibilityPointwise(s: Surface, id: string, on: bool, i: nat)
    requires i < |s.layers|
    ensures SetLayerVisibility(s, id, on).layers[i]
      == if s.layers[i].id == id then LabelLayerWrite(s.layers[i], on) else s.layers[i]
  {
    if s.layers[i].id == id { assert Ids(s.layers)[i] == id; }
  }

  lemma OpacityPointwise(s: Surface, id: string, op: Option<Num>, i: nat)
    requires i < |s.layers| && UniqueIds(s.layers)
    ensures var l := s.layers[i];
      var w := match OpacityPaintProp(l.kind) case None => l
        case Some(prop) => WithPaint(l, prop, match op case Some(n) => Some(JNum(n)) case None => None);
      SetLayerOpacity(s, id, op).layers[i] == if l.id == id then w else l
  {
    if s.layers[i].id == id { GetLayerOfMember(s.layers, i); }
  }

  lemma UniqueKept(a: Surface, b: Surface)
    requires Ids(a.layers) == Ids(b.layers) && UniqueIds(a.layers)
    ensures UniqueIds(b.layers)
  {
    forall i, j | 0 <= i < j < |b.layers| ensures b.layers[i].id != b.layers[j].id {
      assert Ids(a.layers)[i] == b.layers[i].id && Ids(a.layers)[j] == b.layers[j].id;
    }
  }

  lemma {:induction false} SyncMapLayersPointwise(s: Surface, ids: seq<string>, on: bool, op: Option<Num>, i: nat)
    requires i < |s.layers| && UniqueIds(s.layers)
    ensures SyncMapLayers(s, ids, on, op).layers[i] == LayerAfterMaps(s.layers[i], ids, on, op)
    decreases |ids|
  {
    if |ids| > 0 {
      var s1 := SetLayerVisibility(s, ids[0], on);
      var s2 := SetLayerOpacity(s1, ids[0], op);
      VisibilityPointwise(s, ids[0], on, i);
      UniqueKept(s, s1);
      OpacityPointwise(s1, ids[0], op, i);
      UniqueKept(s, s2);
      SyncMapLayersPointwise(s2, ids[1..], on, op, i);
    }
  }

  lemma {:induction false} SyncLabelLayersPointwise(s: Surface, ids: seq<string>, on: bool, i: nat)
    requires i < |s.layers|
    ensures SyncLabelLayers(s, ids, on).layers[i] == LayerAfterLabels(s.layers[i], ids, on)
    decreases |ids|
  {
    if |ids| > 0 {
      var s1 := SetLayerVisibility(s, ids[0], on);
      VisibilityPointwise(s, ids[0], on, i);
      SyncLabelLayersPointwise(s1, ids[1..], on, i);
    }
  }

  /** The sync acts on each layer independently: a layer ends as the writes
      naming its id, in order, make it. */
  lemma {:induction false} SyncTocPointwise(s: Surface, items: seq<TocItem>, st: TocState, i: nat)
    requires i < |s.layers| && UniqueIds(s.layers)
    ensures SyncToc(s, items, st).layers[i] == LayerAfterItems(s.layers[i], items, st)
    decreases |items|
  {
    if |items| > 0 {
      var v := ValuesOf(st, items[0]);
      var s1 := SyncMapLayers(s, items[0].mapLayerIds.GetOr([]), v.on, v.op);
      SyncMapLayersPointwise(s, items[0].mapLayerIds.GetOr([]), v.on, v.op, i);
      UniqueKept(s, s1);
      SyncLabelLayersPointwise(s1, items[0].labelLayerIds.GetOr([]), v.on && v.labelsOn, i);
      var s2 := SyncItem(s, items[0], v);
      UniqueKept(s, s2);
      SyncTocPointwise(s2, items[1..], st, i);
    }
  }

  lemma {:induction false} MapsUntouched(l: Layer, ids: seq<string>, on: bool, op: Option<Num>)
    requires l.id !in ids
    ensures LayerAfterMaps(l, ids, on, op) == l
    decreases |ids|
  {
    if |ids| > 0 { MapsUntouched(l, ids[1..], on, op); }
  }

  lemma {:induction false} LabelsUntouched(l: Layer, ids: seq<string>, on: bool)
    requires l.id !in ids
    ensures LayerAfterLabels(l, ids, on) == l
    decreases |ids|
  {
    if |ids| > 0 { LabelsUntouched(l, ids[1..], on); }
  }

  lemma MapLayerWriteIdempotent(l: Layer, on: bool, op: Option<Num>)
    ensures MapLayerWrite(MapLayerWrite(l, on, op), on, op) == MapLayerWrite(l, on, op)
  {
    var a := MapLayerWrite(l, on, op);
    var b := MapLayerWrite(a, on, op);
    assert b.layout == a.layout;
    assert b.paint == a.paint;
  }

  lemma {:induction false} MapsNamed(l: Layer, ids: seq<string>, on: bool, op: Option<Num>)
    requires l.id in ids
    ensures LayerAfterMaps(l, ids, on, op) == MapLayerWrite(l, on, op)
    decreases |ids|
  {
    if ids[0] == l.id {
      var w := MapLayerWrite(l, on, op);
      if w.id in ids[1..] {
        MapsNamed(w, ids[1..], on, op);
        MapLayerWriteIdempotent(l, on, op);
      } else {
        MapsUntouched(w, ids[1..], on, op);
      }
    } else {
      MapsNamed(l, ids[1..], on, op);
    }
  }

  lemma {:induction false} LabelsNamed(l: Layer, ids: seq<string>, on: bool)
    requires l.id in ids
    ensures LayerAfterLabels(l, ids, on) == LabelLayerWrite(l, on)
    decreases |ids|
  {
    if ids[0] == l.id {
      var w := LabelLayerWrite(l, on);
      if w.id in ids[1..] {
        LabelsNamed(w, ids[1..], on);
        assert LabelLayerWrite(w, on) == w;
      } else {
        LabelsUntouched(w, ids[1..], on);
      }
    } else {
      LabelsNamed(l, ids[1..], on);
    }
  }

  /** `item` names layer id `x` among its map or label layers. */
  predicate Names(item: TocItem, x: string) {
    x in item.mapLayerIds.GetOr([]) || x in item.labelLayerIds.GetOr([])
  }

  lemma {:induction false} ItemsUntouched(l: Layer, items: seq<TocItem>, st: TocState)
    requires forall j :: 0 <= j < |items| ==> !Names(items[j], l.id)
    ensures LayerAfterItems(l, items, st) == l
    decreases |items|
  {
    if |items| > 0 {
      var v := ValuesOf(st, items[0]);
      MapsUntouched(l, items[0].mapLayerIds.GetOr([]), v.on, v.op);
      LabelsUntouched(l, items[0].labelLayerIds.GetOr([]), v.on && v.labelsOn);
      ItemsUntouched(l, items[1..], st);
    }
  }

  /** When exactly one item names a layer, the layer ends as that item
      writes it. */
  lemma {:induction false} ItemsOwner(l: Layer, items: seq<TocItem>, st: TocState, k: nat)
    requires k < |items|
    requires forall j :: 0 <= j < |items| && j != k ==> !Names(items[j], l.id)
    ensures LayerAfterItems(l, items, st) == LayerAfterItem(l, items[k], ValuesOf(st, items[k]))
    decreases |items|
  {
    var v := ValuesOf(st, items[0]);
    if k == 0 {
      var w := LayerAfterItem(l, items[0], v);
      assert w.id == l.id by { ItemKeepsId(l, items[0], v); }
      forall j | 0 <= j < |items[1..]| ensures !Names(items[1..][j], w.id) {
        assert items[1..][j] == items[j + 1];
      }
      ItemsUntouched(w, items[1..], st);
    } else {
      MapsUntouched(l, items[0].mapLayerIds.GetOr([]), v.on, v.op);
      LabelsUntouched(l, items[0].labelLayerIds.GetOr([]), v.on && v.labelsOn);
      forall j | 0 <= j < |items[1..]| && j != k - 1 ensures !Names(items[1..][j], l.id) {
        assert items[1..][j] == items[j + 1];
      }
      ItemsOwner(l, items[1..], st, k - 1);
    }
  }

  lemma ItemKeepsId(l: Layer, item: TocItem, v: ItemValues)
    ensures LayerAfterItem(l, item, v).id == l.id
  {
    MapsKeepId(l, item.mapLayerIds.GetOr([]), v.on, v.op);
    LabelsKeepId(LayerAfterMaps(l, item.mapLayerIds.GetOr([]), v.on, v.op), item.labelLayerIds.GetOr([]), v.on && v.labelsOn);
  }

  lemma {:induction false} MapsKeepId(l: Layer, ids: seq<string>, on: bool, op: Option<Num>)
    ensures LayerAfterMaps(l, ids, on, op).id == l.id
    decreases |ids|
  {
    if |ids| > 0 { MapsKeepId(if ids[0] == l.id then MapLayerWrite(l, on, op) else l, ids[1..], on, op); }
  }

  lemma {:induction false} LabelsKeepId(l: Layer, ids: seq<string>, on: bool)
    ensures LayerAfterLabels(l, ids, on).id == l.id
    decreases |ids|
  {
    if |ids| > 0 { LabelsKeepId(if ids[0] == l.id then LabelLayerWrite(l, on) else l, ids[1..], on); }
  }

  /** The sync's result layer by layer, for layers each named by at most one
      item: a map layer shows iff its item is on and gets the item's opacity
      on its type's property; a label layer shows iff its item and the item's
      labels are on and keeps its paint; every other layer is untouched. */
  lemma SyncTocSpec(s: Surface, items: seq<TocItem>, st: TocState, i: nat)
    requires i < |s.layers| && UniqueIds(s.layers)
    ensures var l := s.layers[i];
      var r := SyncToc(s, items, st).layers[i];
      ((forall j :: 0 <= j < |items| ==> !Names(items[j], l.id)) ==> r == l)
      && (forall k :: 0 <= k < |items|
            && (forall j :: 0 <= j < |items| && j != k ==> !Names(items[j], l.id))
            && l.id in items[k].mapLayerIds.GetOr([]) && l.id !in items[k].labelLayerIds.GetOr([])
            ==> r == MapLayerWrite(l, ValuesOf(st, items[k]).on, ValuesOf(st, items[k]).op))
      && (forall k :: 0 <= k < |items|
            && (forall j :: 0 <= j < |items| && j != k ==> !Names(items[j], l.id))
            && l.id !in items[k].mapLayerIds.GetOr([]) && l.id in items[k].labelLayerIds.GetOr([])
            ==> r == LabelLayerWrite(l, ValuesOf(st, items[k]).on && ValuesOf(st, items[k]).labelsOn))
  {
    var l := s.layers[i];
    SyncTocPointwise(s, items, st, i);
    if forall j :: 0 <= j < |items| ==> !Names(items[j], l.id) {
      ItemsUntouched(l, items, st);
    }
    forall k | 0 <= k < |items|
        && (forall j :: 0 <= j < |items| && j != k ==> !Names(items[j], l.id))
        && l.id in items[k].mapLayerIds.GetOr([]) && l.id !in items[k].labelLayerIds.GetOr([])
      ensures LayerAfterItems(l, items, st) == MapLayerWrite(l, ValuesOf(st, items[k]).on, ValuesOf(st, items[k]).op)
    {
      var v := ValuesOf(st, items[k]);
      ItemsOwner(l, items, st, k);
      MapsNamed(l, items[k].mapLayerIds.GetOr([]), v.on, v.op);
      LabelsUntouched(MapLayerWrite(l, v.on, v.op), items[k].labelLayerIds.GetOr([]), v.on && v.labelsOn);
    }
    forall k | 0 <= k < |items|
        && (forall j :: 0 <= j < |items| && j != k ==> !Names(items[j], l.id))
        && l.id !in items[k].mapLayerIds.GetOr([]) && l.id in items[k].labelLayerIds.GetOr([])
      ensures LayerAfterItems(l, items, st) == LabelLayerWrite(l, ValuesOf(st, items[k]).on && ValuesOf(st, items[k]).labelsOn)
    {
      var v := ValuesOf(st, items[k]);
      ItemsOwner(l, items, st, k);
      MapsUntouched(l, items[k].mapLayerIds.GetOr([]), v.on, v.op);
      LabelsNamed(l, items[k].labelLayerIds.GetOr([]), v.on && v.labelsOn);
    }
  }

  /** The written opacity lands on the type's own property, and a label layer
      never receives one. */
  lemma MapLayerWriteOpacity(l: Layer, on: bool, op: Num)
    ensures var r := MapLayerWrite(l, on, Some(op));
      (OpacityPaintProp(l.kind).Some? ==>
        OpacityPaintProp(l.kind).value in r.paint && r.paint[OpacityPaintProp(l.kind).value] == JNum(op))
      && (OpacityPaintProp(l.kind).None? ==> r.paint == l.paint)
  {
  }
}

=== FILE: waldkauz.dfy ===
/** The tawny-owl popup helpers: reading feature properties, the audio
    player's clock, and the presence chart's day series. */
module Waldkauz {
  import opened Wrappers
  import opened Js
  import opened Strings
  import Popup
  import PopupOverlay

  // ---------------------------------------------------------------------
  // Feature properties
  // ---------------------------------------------------------------------

  /** `getStringProp`: the property if it is a string that is not blank. */
  function GetStringProp(f: Popup.Hit, key: string): (r: Option<string>)
    ensures r.Some? <==> exists s :: Popup.Lookup(f.properties, key) == Some(JStr(s)) && !IsBlank(s)
    ensures r.Some? ==> Popup.Lookup(f.properties, key) == Some(JStr(r.value))
  {
    match Popup.Lookup(f.properties, key)
    case Some(JStr(s)) => if IsBlank(s) then None else Some(s)
    case _ => None
  }

  /** `getNumberProp`: a finite number as it is, a string through `Number()`
      (the parameter `parse`) when that gives a finite number, and nothing
      otherwise. */
  function GetNumberProp(f: Popup.Hit, key: string, parse: string -> Num): (r: Option<real>)
    ensures forall x :: Popup.Lookup(f.properties, key) == Some(JNum(Finite(x))) ==> r == Some(x)
    ensures forall s :: Popup.Lookup(f.properties, key) == Some(JStr(s)) ==>
      (r.Some? <==> parse(s).Finite?) && (r.Some? ==> r.value == parse(s).r)
    ensures r.Some? ==> exists v :: Popup.Lookup(f.properties, key) == Some(v) && (v.JNum? || v.JStr?)
  {
    match Popup.Lookup(f.properties, key)
    case Some(JNum(n)) => if n.Finite? then Some(n.r) else None
    case Some(JStr(s)) => var n := parse(s); if n.Finite? then Some(n.r) else None
    case _ => None
  }

  /** A string property the helper returns is one the popup's id picking
      also accepts. */
  lemma StringPropUsable(f: Popup.Hit, key: string)
    requires GetStringProp(f, key).Some?
    ensures Popup.Usable(Popup.Lookup(f.properties, key))
    ensures PopupOverlay.AsString(Popup.Lookup(f.properties, key)) == GetStringProp(f, key)
  {
  }

  /** The number helper follows the same rule as the popup's `asNumber`. */
  lemma NumberPropAsPopup(f: Popup.Hit, key: string, parse: string -> Num)
    ensures GetNumberProp(f, key, parse) == PopupOverlay.AsNumber(Popup.Lookup(f.properties, key), parse)
  {
  }

  // ---------------------------------------------------------------------
  // The audio player's clock
  // ---------------------------------------------------------------------

  predicate AllDigits(s: string) {
    forall i :: 0 <= i < |s| ==> IsDigit(s[i])
  }

  /** Reading an `m:ss` clock back into seconds: minutes, a colon, exactly two
      digits of seconds below 60. */
  function ParseClock(t: string): (r: Option<int>)
  {
    ClockOf(Split(t, ':'))
  }

  function ClockOf(p: seq<string>): Option<int> {
    if |p| == 2 && |p[0]| >= 1 && |p[1]| == 2 && AllDigits(p[0]) && AllDigits(p[1]) && DigitsValue(p[1]) < 60
    then Some(DigitsValue(p[0]) * 60 + DigitsValue(p[1]))
    else None
  }

  /** `formatTime`: `m:ss` for a finite, non-negative number of seconds, where
      `m` is the whole minutes and `ss` the remaining whole seconds. */
  function FormatTime(sec: Num): (r: string)
    ensures !(sec.Finite? && sec.r >= 0.0) ==> r == "0:00"
    ensures sec.Finite? && sec.r >= 0.0 ==> ParseClock(r) == Some(sec.r.Floor)
  {
    if !sec.Finite? || sec.r < 0.0 then "0:00"
    else
      var m := (sec.r / 60.0).Floor;
      var s := (sec.r - 60.0 * m as real).Floor;
      MinutesSeconds(sec.r);
      ClockParts(m, s);
      NatText(m) + ":" + ZeroPad(NatText(s), 2)
  }

  /** `Math.floor(x / 60)` and `Math.floor(x % 60)` split the whole seconds
      of a non-negative `x` into minutes and seconds below 60. */
  lemma MinutesSeconds(x: real)
    requires x >= 0.0
    ensures var m := (x / 60.0).Floor; var s := (x - 60.0 * m as real).Floor;
      m >= 0 && 0 <= s < 60 && m * 60 + s == x.Floor
  {
    var m := (x / 60.0).Floor;
    assert m as real <= x / 60.0 < m as real + 1.0;
    var y := x - 60.0 * m as real;
    assert 0.0 <= y < 60.0;
    var s := y.Floor;
    assert s as real <= y < s as real + 1.0;
    assert (m * 60 + s) as real <= x < (m * 60 + s) as real + 1.0;
  }

  /** Whole seconds are shown exactly: the clock reads back as `sec`. */
  lemma FormatTimeWholeSeconds(sec: nat)
    ensures ParseClock(FormatTime(Finite(sec as real))) == Some(sec)
  {
    assert (sec as real).Floor == sec;
  }

  /** The text of `m` minutes and `s` seconds reads back as `m * 60 + s`. */
  lemma ClockParts(m: nat, s: nat)
    requires s < 60
    ensures ParseClock(NatText(m) + ":" + ZeroPad(NatText(s), 2)) == Some(m * 60 + s)
  {
    PaddedSeconds(s);
    ParseJoined(NatText(m), ZeroPad(NatText(s), 2));
  }

  /** A clock text built from digit strings reads back as their values. */
  lemma ParseJoined(a: string, b: string)
    requires |a| >= 1 && AllDigits(a) && |b| == 2 && AllDigits(b) && DigitsValue(b) < 60
    ensures ParseClock(a + ":" + b) == Some(DigitsValue(a) * 60 + DigitsValue(b))
  {
    NoColon(a);
    NoColon(b);
    ClockSplit(a, b);
    assert ParseClock(a + ":" + b) == ClockOf([a, b]);
    ClockOfPair(a, b);
  }

  lemma ClockOfPair(a: string, b: string)
    requires |a| >= 1 && AllDigits(a) && |b| == 2 && AllDigits(b) && DigitsValue(b) < 60
    ensures ClockOf([a, b]) == Some(DigitsValue(a) * 60 + DigitsValue(b))
  {
    var p := [a, b];
    assert p[0] == a && p[1] == b;
  }

  lemma NoColon(a: string)
    requires AllDigits(a)
    ensures ':' !in a
  {
  }

  /** Seconds below 60 padded to two digits keep their value. */
  lemma PaddedSeconds(s: nat)
    requires s < 60
    ensures var b := ZeroPad(NatText(s), 2); |b| == 2 && AllDigits(b) && DigitsValue(b) == s
  {
    var b := ZeroPad(NatText(s), 2);
    if s < 10 {
      assert b == "0" + NatText(s);
      LeadingZero(NatText(s));
    } else {
      assert b == NatText(s);
    }
  }

  /** Two colon-free parts joined by a colon split back into themselves. */
  lemma ClockSplit(a: string, b: string)
    requires ':' !in a && ':' !in b
    ensures Split(a + ":" + b, ':') == [a, b]
  {
    SplitJoin([a, b], ':');
    assert Join([a, b], [':']) == a + ":" + b;
  }

  /** A leading zero does not change the value of a digit string. */
  lemma {:induction false} LeadingZero(t: string)
    requires AllDigits(t)
    ensures AllDigits("0" + t) && DigitsValue("0" + t) == DigitsValue(t)
  {
    if |t| > 0 {
      var z := "0" + t;
      assert z[..|z| - 1] == "0" + t[..|t| - 1];
      LeadingZero(t[..|t| - 1]);
    }
  }
}

=== FILE: wms.dfy ===
/** WMS layers named in the page's query string: reading their configuration,
    deriving their TOC item and legend, and putting them on the map. */
module Wms {
  import opened Wrappers
  import opened Js
  import opened Strings
  import opened MapSurface
  import TocStore

  datatype ImageFormat = Png | Jpeg

  function FormatName(f: ImageFormat): string {
    match f
    case Png => "image/png"
    case Jpeg => "image/jpeg"
  }

  /** `asFormat`: JPEG only for exactly "image/jpeg". */
  function AsFormat(v: Option<string>): (r: ImageFormat)
    ensures r == Jpeg <==> v == Some("image/jpeg")
  {
    if v == Some("image/jpeg") then Jpeg else Png
  }

  lemma AsFormatOfName(f: ImageFormat)
    ensures AsFormat(Some(FormatName(f))) == f
  {
    if f == Png {
      assert FormatName(f)[6] != "image/jpeg"[6];
    }
  }

  /** `WmsUrlConfig`; the id is "wms:" (or, from the catalogue, "wmts:")
      followed by a name. */
  datatype WmsUrlConfig = WmsUrlConfig(
    id: string,
    title: string,
    baseUrl: string,
    layers: string,
    format: ImageFormat,
    transparent: bool,
    opacity: Option<Num>)

  /** `sp.get(k)?.trim()`; the query string is a map from parameter name to
      its first value. */
  function TrimmedParam(q: map<string, string>, k: string): Option<string> {
    if k in q then Some(Trim(q[k])) else None
  }

  /** A parameter that is there and not blank. */
  predicate Given(q: map<string, string>, k: string) {
    k in q && !IsBlank(q[k])
  }

  /** `sp.get(k)?.trim() || fallback` */
  function TrimmedOr(q: map<string, string>, k: string, fallback: string): (r: string)
    ensures Given(q, k) ==> r == Trim(q[k])
    ensures !Given(q, k) ==> r == fallback
  {
    if Given(q, k) then Trim(q[k]) else fallback
  }

  /** `parseWmsFromSearch`; `parse` stands for `Number(text)`. */
  function ParseWmsFromSearch(q: map<string, string>, parse: string -> Num): (r: Option<WmsUrlConfig>)
    ensures r.None? <==> !Given(q, "wmsUrl") || !Given(q, "wmsLayers")
    ensures r.Some? ==>
      var rawId := TrimmedOr(q, "wmsId", "layer");
      && r.value.id == "wms:" + rawId
      && r.value.title == TrimmedOr(q, "wmsTitle", rawId)
      && r.value.baseUrl == Trim(q["wmsUrl"]) && r.value.layers == Trim(q["wmsLayers"])
      && (r.value.format == Jpeg <==> "wmsFormat" in q && q["wmsFormat"] == "image/jpeg")
      && (!r.value.transparent <==> "wmsTransparent" in q && q["wmsTransparent"] == "false")
      && (r.value.opacity.None? <==> !Given(q, "wmsOpacity"))
      && (r.value.opacity.Some? ==> r.value.opacity == Some(Finite(ClampUnit(parse(q["wmsOpacity"])))))
  {
    if !Given(q, "wmsUrl") || !Given(q, "wmsLayers") then None
    else
      var rawId := TrimmedOr(q, "wmsId", "layer");
      Some(WmsUrlConfig(
        "wms:" + rawId,
        TrimmedOr(q, "wmsTitle", rawId),
        Trim(q["wmsUrl"]),
        Trim(q["wmsLayers"]),
        AsFormat(if "wmsFormat" in q then Some(q["wmsFormat"]) else None),
        (if "wmsTransparent" in q then q["wmsTransparent"] else "true") != "false",
        if Given(q, "wmsOpacity") then Some(Finite(ClampUnit(parse(q["wmsOpacity"])))) else None))
  }

  /** The query string that asks for `cfg`. */
  function ToSearch(cfg: WmsUrlConfig): map<string, string>
    requires |cfg.id| >= 4
  {
    var q := map["wmsUrl" := cfg.baseUrl, "wmsLayers" := cfg.layers, "wmsId" := cfg.id[4..],
                 "wmsTitle" := cfg.title, "wmsFormat" := FormatName(cfg.format),
                 "wmsTransparent" := if cfg.transparent then "true" else "false"];
    if cfg.opacity.Some? then q["wmsOpacity" := NumText(cfg.opacity.value)] else q
  }

  /** Not blank, and without white space at either end. */
  predicate Clean(t: string) { !IsBlank(t) && Trim(t) == t }

  /** A configuration whose texts are trimmed and not blank, with an id
      "wms:" + name, and an opacity in [0, 1] that `Number` reads back from
      its text, comes back unchanged from its own query string. */
  lemma ParseToSearch(cfg: WmsUrlConfig, name: string, parse: string -> Num)
    requires cfg.id == "wms:" + name
    requires Clean(name) && Clean(cfg.title) && Clean(cfg.baseUrl) && Clean(cfg.layers)
    requires cfg.opacity.Some? ==>
               cfg.opacity.value.Finite? && 0.0 <= cfg.opacity.value.r <= 1.0
               && parse(NumText(cfg.opacity.value)) == cfg.opacity.value
    requires cfg.opacity.Some? ==> !IsBlank(NumText(cfg.opacity.value))
    ensures ParseWmsFromSearch(ToSearch(cfg), parse) == Some(cfg)
  {
    ToSearchLookups(cfg, name);
    var q := ToSearch(cfg);
    assert cfg.opacity.Some? ==> !IsBlank(q["wmsOpacity"]) && parse(q["wmsOpacity"]) == cfg.opacity.value;
    ParseOfParams(q, cfg, name, parse);
  }

  /** Any query string carrying exactly the texts of a clean configuration
      reads back as that configuration. */
  lemma ParseOfParams(q: map<string, string>, cfg: WmsUrlConfig, name: string, parse: string -> Num)
    requires cfg.id == "wms:" + name
    requires Clean(name) && Clean(cfg.title) && Clean(cfg.baseUrl) && Clean(cfg.layers)
    requires "wmsUrl" in q && q["wmsUrl"] == cfg.baseUrl
    requires "wmsLayers" in q && q["wmsLayers"] == cfg.layers
    requires "wmsId" in q && q["wmsId"] == name
    requires "wmsTitle" in q && q["wmsTitle"] == cfg.title
    requires "wmsFormat" in q && q["wmsFormat"] == FormatName(cfg.format)
    requires "wmsTransparent" in q && q["wmsTransparent"] == (if cfg.transparent then "true" else "false")
    requires "wmsOpacity" in q <==> cfg.opacity.Some?
    requires cfg.opacity.Some? ==>
               && cfg.opacity.value.Finite? && 0.0 <= cfg.opacity.value.r <= 1.0
               && !IsBlank(q["wmsOpacity"]) && parse(q["wmsOpacity"]) == cfg.opacity.value
    ensures ParseWmsFromSearch(q, parse) == Some(cfg)
  {
    ParseKeepsTexts(q, cfg, name, parse);
    ParseKeepsFlags(q, cfg, parse);
    var r := ParseWmsFromSearch(q, parse).value;
    assert r == cfg by {
      assert r.id == cfg.id && r.title == cfg.title && r.baseUrl == cfg.baseUrl && r.layers == cfg.layers;
      assert r.format == cfg.format && r.transparent == cfg.transparent && r.opacity == cfg.opacity;
    }
  }

  /** The four texts come back. */
  lemma ParseKeepsTexts(q: map<string, string>, cfg: WmsUrlConfig, name: string, parse: string -> Num)
    requires cfg.id == "wms:" + name
    requires Clean(name) && Clean(cfg.title) && Clean(cfg.baseUrl) && Clean(cfg.layers)
    requires "wmsUrl" in q && q["wmsUrl"] == cfg.baseUrl
    requires "wmsLayers" in q && q["wmsLayers"] == cfg.layers
    requires "wmsId" in q && q["wmsId"] == name
    requires "wmsTitle" in q && q["wmsTitle"] == cfg.title
    ensures ParseWmsFromSearch(q, parse).Some?
    ensures var r := ParseWmsFromSearch(q, parse).value;
      r.id == cfg.id && r.title == cfg.title && r.baseUrl == cfg.baseUrl && r.layers == cfg.layers
  {
    CleanGiven(q, "wmsUrl", cfg.baseUrl);
    CleanGiven(q, "wmsLayers", cfg.layers);
    ParseKeepsUrl(q, parse);
    ParseKeepsId(q, name, parse);
    ParseKeepsTitle(q, name, cfg.title, parse);
  }

  /** A clean value is given, and trimming keeps it. */
  lemma CleanGiven(q: map<string, string>, k: string, v: string)
    requires Clean(v) && k in q && q[k] == v
    ensures Given(q, k) && Trim(q[k]) == v
  {
  }

  lemma ParseKeepsUrl(q: map<string, string>, parse: string -> Num)
    requires Given(q, "wmsUrl") && Given(q, "wmsLayers")
    ensures ParseWmsFromSearch(q, parse).Some?
    ensures ParseWmsFromSearch(q, parse).value.baseUrl == Trim(q["wmsUrl"])
    ensures ParseWmsFromSearch(q, parse).value.layers == Trim(q["wmsLayers"])
  {
  }

  lemma ParseKeepsId(q: map<string, string>, name: string, parse: string -> Num)
    requires Given(q, "wmsUrl") && Given(q, "wmsLayers")
    requires Clean(name) && "wmsId" in q && q["wmsId"] == name
    ensures ParseWmsFromSearch(q, parse).Some?
    ensures ParseWmsFromSearch(q, parse).value.id == "wms:" + name
  {
    CleanGiven(q, "wmsId", name);
  }

  lemma ParseKeepsTitle(q: map<string, string>, name: string, title: string, parse: string -> Num)
    requires Given(q, "wmsUrl") && Given(q, "wmsLayers")
    requires Clean(name) && "wmsId" in q && q["wmsId"] == name
    requires Clean(title) && "wmsTitle" in q && q["wmsTitle"] == title
    ensures ParseWmsFromSearch(q, parse).Some?
    ensures ParseWmsFromSearch(q, parse).value.title == title
  {
    CleanGiven(q, "wmsId", name);
    CleanGiven(q, "wmsTitle", title);
  }

  /** Format, transparency and opacity come back. */
  lemma ParseKeepsFlags(q: map<string, string>, cfg: WmsUrlConfig, parse: string -> Num)
    requires Given(q, "wmsUrl") && Given(q, "wmsLayers")
    requires "wmsFormat" in q && q["wmsFormat"] == FormatName(cfg.format)
    requires "wmsTransparent" in q && q["wmsTransparent"] == (if cfg.transparent then "true" else "false")
    requires "wmsOpacity" in q <==> cfg.opacity.Some?
    requires cfg.opacity.Some? ==>
               && cfg.opacity.value.Finite? && 0.0 <= cfg.opacity.value.r <= 1.0
               && !IsBlank(q["wmsOpacity"]) && parse(q["wmsOpacity"]) == cfg.opacity.value
    ensures ParseWmsFromSearch(q, parse).Some?
    ensures var r := ParseWmsFromSearch(q, parse).value;
      r.format == cfg.format && r.transparent == cfg.transparent && r.opacity == cfg.opacity
  {
    AsFormatOfName(cfg.format);
    if cfg.transparent {
      assert q["wmsTransparent"][0] != "false"[0];
    }
    if cfg.opacity.Some? {
      assert Finite(ClampUnit(cfg.opacity.value)) == cfg.opacity.value;
    }
  }

  /** What each parameter of `ToSearch(cfg)` holds. */
  lemma ToSearchLookups(cfg: WmsUrlConfig, name: string)
    requires cfg.id == "wms:" + name
    ensures var q := ToSearch(cfg);
      && "wmsUrl" in q && q["wmsUrl"] == cfg.baseUrl
      && "wmsLayers" in q && q["wmsLayers"] == cfg.layers
      && "wmsId" in q && q["wmsId"] == name
      && "wmsTitle" in q && q["wmsTitle"] == cfg.title
      && "wmsFormat" in q && q["wmsFormat"] == FormatName(cfg.format)
      && "wmsTransparent" in q && q["wmsTransparent"] == (if cfg.transparent then "true" else "false")
      && ("wmsOpacity" in q <==> cfg.opacity.Some?)
      && (cfg.opacity.Some? ==> q["wmsOpacity"] == NumText(cfg.opacity.value))
  {
    assert cfg.id[4..] == name;
  }

  /** `firstLayerName`: the trimmed first comma-separated name, or the whole
      list trimmed when that is empty. */
  function FirstLayerName(layers: string): (r: string)
    ensures Trim(Split(layers, ',')[0]) != "" ==> r == Trim(Split(layers, ',')[0]) && ',' !in r
    ensures Trim(Split(layers, ',')[0]) == "" ==> r == Trim(layers)
  {
    var first := Trim(Split(layers, ',')[0]);
    TrimIsInfix(Split(layers, ',')[0]);
    if first != "" then first else Trim(layers)
  }

  const TypeSuffixes: seq<string> := [".fill", ".line", ".circle", ".symbol", ".point"]

  /** `name` ends with `suffix`, ignoring the case of ASCII letters. */
  predicate EndsWithIgnoreCase(name: string, suffix: string) {
    |suffix| <= |name| && EqualsIgnoreAsciiCase(name[|name| - |suffix|..], suffix)
  }

  /** `.replace(/\.(fill|line|circle|symbol|point)$/i, "")`: at most one of
      these endings can match, since none of the names contains a dot. */
  function DropTypeSuffix(name: string, suffixes: seq<string>): (r: string)
    ensures (forall i :: 0 <= i < |suffixes| ==> !EndsWithIgnoreCase(name, suffixes[i])) ==> r == name
    ensures StartsWith(name, r)
    ensures r != name ==>
              exists i :: 0 <= i < |suffixes| && EndsWithIgnoreCase(name, suffixes[i]) && |r| + |suffixes[i]| == |name|
    ensures ((forall j :: 0 <= j < |suffixes| ==> |suffixes[j]| > 0)
             && exists i :: 0 <= i < |suffixes| && EndsWithIgnoreCase(name, suffixes[i])) ==> r != name
  {
    if |suffixes| == 0 then name
    else if EndsWithIgnoreCase(name, suffixes[0]) then name[..|name| - |suffixes[0]|]
    else
      var r := DropTypeSuffix(name, suffixes[1..]);
      assert forall i :: 1 <= i < |suffixes| ==> suffixes[i] == suffixes[1..][i - 1];
      r
  }

  /** `.replace(/\.$/, "")` */
  function DropTrailingDot(s: string): (r: string)
    ensures EndsWith(s, ".") ==> r + "." == s
    ensures !EndsWith(s, ".") ==> r == s
  {
    if EndsWith(s, ".") then s[..|s| - 1] else s
  }

  lemma PrefixOfPrefix(a: string, b: string, c: string)
    requires StartsWith(b, a) && StartsWith(c, b)
    ensures StartsWith(c, a)
  {
    assert c[..|a|] == c[..|b|][..|a|];
  }

  /** The first of the endings that matches is the one cut off. */
  lemma {:induction false} DropFirstMatch(name: string, suffixes: seq<string>, i: nat)
    requires i < |suffixes| && EndsWithIgnoreCase(name, suffixes[i])
    requires forall j :: 0 <= j < i ==> !EndsWithIgnoreCase(name, suffixes[j])
    ensures DropTypeSuffix(name, suffixes) == name[..|name| - |suffixes[i]|]
    decreases i
  {
    if i > 0 {
      assert !EndsWithIgnoreCase(name, suffixes[0]);
      DropFirstMatch(name, suffixes[1..], i - 1);
    }
  }

  /** Each type ending is a dot followed by lower-case letters. */
  lemma TypeSuffixShape(i: nat)
    requires i < |TypeSuffixes|
    ensures var t := TypeSuffixes[i];
      && |t| > 1 && t[0] == '.'
      && forall k :: 1 <= k < |t| ==> 'a' <= t[k] <= 'z'
  {
  }

  /** A name ends with at most one of the type endings, whatever the case
      of its letters, so the order the pattern lists them in does not
      matter. */
  lemma OneTypeSuffix(name: string, i: nat, j: nat)
    requires i < |TypeSuffixes| && j < |TypeSuffixes|
    requires EndsWithIgnoreCase(name, TypeSuffixes[i]) && EndsWithIgnoreCase(name, TypeSuffixes[j])
    ensures i == j
  {
    var a, b := TypeSuffixes[i], TypeSuffixes[j];
    TypeSuffixShape(i);
    TypeSuffixShape(j);
    if |a| == |b| {
      var tail := name[|name| - |a|..];
      forall k | 0 <= k < |a| ensures a[k] == b[k] {
        assert LowerAscii(tail[k]) == LowerAscii(a[k]) == LowerAscii(b[k]);
      }
      assert a == b;
    }
  }

  /** A name with a type ending loses exactly that ending. */
  lemma DropTypeSuffixCuts(name: string, i: nat)
    requires i < |TypeSuffixes| && EndsWithIgnoreCase(name, TypeSuffixes[i])
    ensures DropTypeSuffix(name, TypeSuffixes) == name[..|name| - |TypeSuffixes[i]|]
  {
    forall j | 0 <= j < i ensures !EndsWithIgnoreCase(name, TypeSuffixes[j]) {
      if EndsWithIgnoreCase(name, TypeSuffixes[j]) { OneTypeSuffix(name, i, j); }
    }
    DropFirstMatch(name, TypeSuffixes, i);
  }

  /** `.split("{")[0].replace(/\.$/, "")`: the text before the first "{",
      without one trailing dot. */
  function CutTemplate(a: string): (r: string)
    ensures '{' !in r && StartsWith(a, r)
    ensures '{' !in a && !EndsWith(a, ".") ==> r == a
  {
    var b := BeforeFirst(a, '{');
    var r := DropTrailingDot(b);
    assert StartsWith(b, r) && '{' !in r by {
      assert b[..|r|] == r;
      assert forall i :: 0 <= i < |r| ==> r[i] == b[i];
    }
    PrefixOfPrefix(r, b, a);
    r
  }

  /** `normalizeSwisstopoLayerBase`: a type ending dropped, the text from the
      first "{" on cut off, and then one trailing dot dropped. */
  function NormalizeSwisstopoLayerBase(name: string): (r: string)
    ensures '{' !in r
    ensures StartsWith(name, r)
    ensures forall i :: 0 <= i < |TypeSuffixes| && EndsWithIgnoreCase(name, TypeSuffixes[i]) ==>
      |r| + |TypeSuffixes[i]| <= |name|
    ensures ('{' !in name && !EndsWith(name, ".")
             && forall i :: 0 <= i < |TypeSuffixes| ==> !EndsWithIgnoreCase(name, TypeSuffixes[i])) ==> r == name
  {
    var a := DropTypeSuffix(name, TypeSuffixes);
    var r := CutTemplate(a);
    PrefixOfPrefix(r, a, name);
    forall i | 0 <= i < |TypeSuffixes| && EndsWithIgnoreCase(name, TypeSuffixes[i])
      ensures |r| + |TypeSuffixes[i]| <= |name|
    {
      DropTypeSuffixCuts(name, i);
    }
    r
  }

  /** A base without any of the decorations is kept as it is. */
  lemma NormalizePlainName(name: string)
    requires '{' !in name && !EndsWith(name, ".")
    requires forall i :: 0 <= i < |TypeSuffixes| ==> !EndsWithIgnoreCase(name, TypeSuffixes[i])
    ensures NormalizeSwisstopoLayerBase(name) == name
  {
  }

  /** None of the type endings holds a character that folds to "{". */
  lemma TypeSuffixesBraceFree()
    ensures forall i, k :: 0 <= i < |TypeSuffixes| && 0 <= k < |TypeSuffixes[i]| ==> LowerAscii(TypeSuffixes[i][k]) != '{'
  {
    forall i, k | 0 <= i < |TypeSuffixes| && 0 <= k < |TypeSuffixes[i]|
      ensures LowerAscii(TypeSuffixes[i][k]) != '{'
    {
      var t := TypeSuffixes[i];
      assert t == ".fill" || t == ".line" || t == ".circle" || t == ".symbol" || t == ".point";
      assert t[k] == '.' || 'a' <= t[k] <= 'z';
    }
  }

  /** Dropping a type ending never removes a "{". */
  lemma DropTypeSuffixKeepsBrace(a: string, j: nat)
    requires j < |a| && a[j] == '{'
    ensures j < |DropTypeSuffix(a, TypeSuffixes)|
  {
    var d := DropTypeSuffix(a, TypeSuffixes);
    if d != a && j >= |d| {
      var i :| 0 <= i < |TypeSuffixes| && EndsWithIgnoreCase(a, TypeSuffixes[i]) && |d| + |TypeSuffixes[i]| == |a|;
      var suf := TypeSuffixes[i];
      var k := j - |d|;
      assert a[|a| - |suf|..][k] == a[j];
      TypeSuffixesBraceFree();
      assert false;
    }
  }

  /** `s.split(c)[0]` is the text before the first `c`. */
  lemma BeforeFirstAt(s: string, c: char, k: nat)
    requires k < |s| && s[k] == c && c !in s[..k]
    ensures BeforeFirst(s, c) == s[..k]
  {
    var r := BeforeFirst(s, c);
    assert s[|r|] == c;
  }

  /** A style template after the name is cut off: "name.{...}" normalises
      to the name. */
  lemma NormalizeTemplatedName(name: string, template: string)
    requires '{' !in name && !EndsWith(name, ".")
    ensures NormalizeSwisstopoLayerBase(name + ".{" + template) == name
  {
    var a := name + ".{" + template;
    var k := |name| + 1;
    assert a[k] == '{';
    DropTypeSuffixKeepsBrace(a, k);
    var d := DropTypeSuffix(a, TypeSuffixes);
    assert d[..k] == name + ".";
    assert d[k] == '{';
    BeforeFirstAt(d, '{', k);
  }

  /** A type ending in any letter case is dropped: "name.FILL" or
      "name.Circle" normalises to the name. */
  lemma NormalizeTypedName(name: string, i: nat, t: string)
    requires i < |TypeSuffixes| && EqualsIgnoreAsciiCase(t, TypeSuffixes[i])
    requires '{' !in name && !EndsWith(name, ".")
    ensures NormalizeSwisstopoLayerBase(name + t) == name
  {
    var f := name + t;
    assert f[|f| - |t|..] == t && f[..|f| - |t|] == name;
    DropTypeSuffixCuts(f, i);
    assert BeforeFirst(name, '{') == name;
    assert DropTrailingDot(name) == name;
  }

  /** The REST legend of the swisstopo map server; empty for an empty name. */
  function SwisstopoRestLegendUrl(layerBase: string, lang: string): (r: string)
    ensures layerBase == "" <==> r == ""
  {
    if layerBase == "" then ""
    else "https://api3.geo.admin.ch/rest/services/ech/MapServer/" + layerBase + "/legend?lang=" + lang
  }

  /** The query of a WMS GetLegendGraphic request for one layer. */
  function LegendGraphicQuery(layerBase: string): seq<(string, string)> {
    [("SERVICE", "WMS"), ("REQUEST", "GetLegendGraphic"), ("FORMAT", "image/png"),
     ("LAYER", layerBase), ("VERSION", "1.3.0"), ("SLD_VERSION", "1.1.0")]
  }

  /** How the client names a URL: `host(u)` is `new URL(u).host`, `None`
      when the constructor throws; `render(l)` is `URL.toString()` of a base
      URL whose query parameters were set. Neither is modelled further. */
  datatype UrlApi = UrlApi(host: string -> Option<string>, render: Link -> string)

  predicate IsSwisstopoBaseUrl(api: UrlApi, url: string) {
    var h := api.host(url);
    h.Some? && Contains(h.value, "geo.admin.ch")
  }

  /** `buildWmsLegendUrl`: the swisstopo REST legend for a geo.admin.ch
      server or a "ch." layer, else a GetLegendGraphic request against the
      server, which fails when its URL does not parse. */
  function BuildWmsLegendUrl(cfg: WmsUrlConfig, api: UrlApi): (r: Result<string>)
    ensures var base := NormalizeSwisstopoLayerBase(FirstLayerName(cfg.layers));
      (IsSwisstopoBaseUrl(api, cfg.baseUrl) || StartsWith(base, "ch.")) ==> r == Ok(SwisstopoRestLegendUrl(base, "de"))
    ensures var base := NormalizeSwisstopoLayerBase(FirstLayerName(cfg.layers));
      !(IsSwisstopoBaseUrl(api, cfg.baseUrl) || StartsWith(base, "ch.")) ==>
        (r.Err? <==> api.host(cfg.baseUrl).None?)
        && (r.Ok? ==> r.value == api.render(WithQuery(cfg.baseUrl, LegendGraphicQuery(base))))
  {
    var base := NormalizeSwisstopoLayerBase(FirstLayerName(cfg.layers));
    if IsSwisstopoBaseUrl(api, cfg.baseUrl) || StartsWith(base, "ch.") then Ok(SwisstopoRestLegendUrl(base, "de"))
    else if api.host(cfg.baseUrl).None? then Err("Invalid URL")
    else Ok(api.render(WithQuery(cfg.baseUrl, LegendGraphicQuery(base))))
  }

  /** `toTocItem`: one map layer named like the item, no label layers,
      visible, labels off, the configured opacity or 1, and the legend URL. */
  function ToTocItem(cfg: WmsUrlConfig, api: UrlApi): (r: Result<TocStore.TocItem>)
    ensures r.Ok? <==> BuildWmsLegendUrl(cfg, api).Ok?
    ensures r.Ok? ==> r.value == TocStore.TocItem(cfg.id, cfg.title, Some([cfg.id]), Some([]), Some(true), Some(false),
      Some(cfg.opacity.GetOr(Finite(1.0))), Some(BuildWmsLegendUrl(cfg, api).value), None)
  {
    match BuildWmsLegendUrl(cfg, api)
    case Err(e) => Err(e)
    case Ok(url) =>
      Ok(TocStore.TocItem(cfg.id, cfg.title, Some([cfg.id]), Some([]), Some(true), Some(false),
        Some(cfg.opacity.GetOr(Finite(1.0))), Some(url), None))
  }

  // ---------------------------------------------------------------------
  // The map side

  /** The GetMap request of a 256-pixel Web Mercator tile, with the
      parameters section 7.3 of OGC WMS 1.3.0 requires; the BBOX value is
      MapLibre's tile placeholder. */
  function GetMapQuery(cfg: WmsUrlConfig): (r: seq<(string, string)>)
    ensures (("SERVICE", "WMS") in r) && (("VERSION", "1.3.0") in r) && (("REQUEST", "GetMap") in r)
    ensures (("LAYERS", cfg.layers) in r) && (("STYLES", "") in r) && (("FORMAT", FormatName(cfg.format)) in r)
    ensures (("CRS", "EPSG:3857") in r) && (("WIDTH", "256") in r) && (("HEIGHT", "256") in r)
    ensures (("TRANSPARENT", if cfg.transparent then "TRUE" else "FALSE") in r)
    ensures (("BBOX", "{bbox-epsg-3857}") in r)
  {
    [("SERVICE", "WMS"), ("VERSION", "1.3.0"), ("REQUEST", "GetMap"), ("LAYERS", cfg.layers),
     ("STYLES", ""), ("CRS", "EPSG:3857"), ("BBOX", "{bbox-epsg-3857}"), ("WIDTH", "256"),
     ("HEIGHT", "256"), ("FORMAT", FormatName(cfg.format)),
     ("TRANSPARENT", if cfg.transparent then "TRUE" else "FALSE")]
  }

  /** The tile URL: the base URL itself when it is already a `{z}` template,
      else the GetMap request, which fails when the base URL does not parse. */
  function TileUrl(cfg: WmsUrlConfig, api: UrlApi): (r: Result<Link>)
    ensures Contains(cfg.baseUrl, "{z}") ==> r == Ok(Plain(cfg.baseUrl))
    ensures !Contains(cfg.baseUrl, "{z}") ==>
      (r.Err? <==> api.host(cfg.baseUrl).None?) && (r.Ok? ==> r.value == WithQuery(cfg.baseUrl, GetMapQuery(cfg)))
  {
    if Contains(cfg.baseUrl, "{z}") then Ok(Plain(cfg.baseUrl))
    else if api.host(cfg.baseUrl).None? then Err("Invalid URL")
    else Ok(WithQuery(cfg.baseUrl, GetMapQuery(cfg)))
  }

  function OpacityJson(cfg: WmsUrlConfig): Json {
    JNum(cfg.opacity.GetOr(Finite(1.0)))
  }

  /** The raster layer of a configuration, reading from the source of the
      same id. */
  function RasterLayer(cfg: WmsUrlConfig): (r: Layer)
    ensures r.id == cfg.id && r.kind == Raster && r.source == Some(cfg.id)
    ensures "raster-opacity" in r.paint && r.paint["raster-opacity"] == OpacityJson(cfg)
  {
    Layer(cfg.id, Raster, Some(cfg.id), map[],
      map["raster-opacity" := OpacityJson(cfg), "raster-resampling" := JStr("linear")], map[])
  }

  /** `removeWmsLayer`: the layer goes first, then the source; missing ones
      are skipped. */
  function RemoveWmsLayer(s: Surface, id: string): (r: Surface)
    ensures !HasLayer(r, id) && id !in r.sources
    ensures r.layers == Without(s.layers, {id})
    ensures forall k :: k != id ==> (k in r.sources <==> k in s.sources)
    ensures forall k :: k in r.sources ==> r.sources[k] == s.sources[k]
  {
    var a := if HasLayer(s, id) then RemoveLayer(s, id) else s;
    assert !HasLayer(s, id) ==> Without(s.layers, {id}) == s.layers by {
      if !HasLayer(s, id) {
        forall i | 0 <= i < |s.layers| ensures s.layers[i].id !in {id} {
          assert Ids(s.layers)[i] == s.layers[i].id;
        }
        WithoutNothing(s.layers, {id});
      }
    }
    if id in a.sources then RemoveSource(a, id) else a
  }

  /** The source `upsertWmsLayer` creates. */
  function RasterSourceOf(tile: Link): Source {
    RasterTiles([tile], 256, "© swisstopo")
  }

  /** `upsertWmsLayer`: a missing source is created, an existing one is
      kept; a missing layer is stacked on top, an existing one only gets its
      opacity. Fails only when a source has to be built from a base URL that
      does not parse. */
  function UpsertWmsLayer(s: Surface, cfg: WmsUrlConfig, api: UrlApi): (r: Result<Surface>)
    ensures r.Err? <==> cfg.id !in s.sources && TileUrl(cfg, api).Err?
    ensures r.Ok? ==> cfg.id in r.value.sources && HasLayer(r.value, cfg.id)
    ensures r.Ok? && cfg.id in s.sources ==> r.value.sources == s.sources
    ensures r.Ok? && cfg.id !in s.sources ==> r.value.sources == s.sources[cfg.id := RasterSourceOf(TileUrl(cfg, api).value)]
    ensures r.Ok? && !HasLayer(s, cfg.id) ==> r.value.layers == s.layers + [RasterLayer(cfg)]
    ensures r.Ok? && HasLayer(s, cfg.id) ==> r.value.layers == UpdateLayers(s.layers, cfg.id, l => WithPaint(l, "raster-opacity", Some(OpacityJson(cfg))))
  {
    var added: Result<Surface> :=
      if cfg.id in s.sources then Ok(s)
      else match TileUrl(cfg, api)
        case Err(e) => Err(e)
        case Ok(tile) => Ok(AddSource(s, cfg.id, RasterSourceOf(tile)));
    match added
    case Err(e) => Err(e)
    case Ok(a) =>
      assert a.layers == s.layers;
      if !HasLayer(a, cfg.id) then
        var l := RasterLayer(cfg);
        assert SourceAvailable(a, l);
        var r := AddLayer(a, l).value;
        assert Ids(r.layers)[|s.layers|] == cfg.id;
        Ok(r)
      else
        var r := SetPaint(a, cfg.id, "raster-opacity", Some(OpacityJson(cfg)));
        Ok(r)
  }

  lemma WithPaintTwice(l: Layer, prop: string, v: Option<Json>)
    ensures WithPaint(WithPaint(l, prop, v), prop, v) == WithPaint(l, prop, v)
  {
  }

  /** Upserting twice with the same configuration is upserting once. */
  lemma UpsertIdempotent(s: Surface, cfg: WmsUrlConfig, api: UrlApi)
    requires UpsertWmsLayer(s, cfg, api).Ok?
    ensures UpsertWmsLayer(UpsertWmsLayer(s, cfg, api).value, cfg, api) == UpsertWmsLayer(s, cfg, api)
  {
    var v := Some(OpacityJson(cfg));
    var r := UpsertWmsLayer(s, cfg, api).value;
    var r2 := UpsertWmsLayer(r, cfg, api).value;
    assert r2.sources == r.sources;
    assert |r2.layers| == |r.layers|;
    forall i | 0 <= i < |r.layers| ensures r2.layers[i] == r.layers[i] {
      if r.layers[i].id == cfg.id {
        assert r2.layers[i] == WithPaint(r.layers[i], "raster-opacity", v);
        if HasLayer(s, cfg.id) {
          assert r.layers[i] == WithPaint(s.layers[i], "raster-opacity", v);
          WithPaintTwice(s.layers[i], "raster-opacity", v);
        } else {
          assert r.layers[i] == RasterLayer(cfg);
          assert RasterLayer(cfg).paint["raster-opacity" := OpacityJson(cfg)] == RasterLayer(cfg).paint;
        }
      }
    }
    assert r2.layers == r.layers;
  }

  /** Removing what an upsert put on a map without it gives the map back. */
  lemma RemoveAfterUpsert(s: Surface, cfg: WmsUrlConfig, api: UrlApi)
    requires !HasLayer(s, cfg.id) && cfg.id !in s.sources
    requires UpsertWmsLayer(s, cfg, api).Ok?
    ensures RemoveWmsLayer(UpsertWmsLayer(s, cfg, api).value, cfg.id) == s
  {
    var r := UpsertWmsLayer(s, cfg, api).value;
    var d := RemoveWmsLayer(r, cfg.id);
    WithoutAddedLayer(s.layers, RasterLayer(cfg));
    assert d.layers == s.layers;
    RemovedAddedSource(s.sources, r.sources, d.sources, cfg.id);
  }

  /** Dropping a layer's id from a stack it was appended to gives the stack back. */
  lemma WithoutAddedLayer(layers: seq<Layer>, l: Layer)
    requires l.id !in Ids(layers)
    ensures Without(layers + [l], {l.id}) == layers
  {
    forall i | 0 <= i < |layers| ensures layers[i].id !in {l.id} {
      assert Ids(layers)[i] == layers[i].id;
    }
    WithoutConcat(layers, [l], {l.id});
    WithoutNothing(layers, {l.id});
    assert Without([l], {l.id}) == [];
  }

  lemma RemovedAddedSource(s: map<string, Source>, r: map<string, Source>, d: map<string, Source>, id: string)
    requires id !in s && id !in d && r.Keys == s.Keys + {id}
    requires forall k :: k in s ==> r[k] == s[k]
    requires forall k :: k != id ==> (k in d <==> k in r)
    requires forall k :: k in d ==> d[k] == r[k]
    ensures d == s
  {
    assert d.Keys == s.Keys;
  }
}

=== FILE: wms_sync.dfy ===
/** The hook that keeps the WMS layer named in the page's query string on the
    map: it re-runs whenever a style finishes loading, skips configurations it
    already applied, and otherwise upserts the layer, enforces its visibility
    and registers its TOC item. */
module WmsSync {
  import opened Wrappers
  import opened Js
  import opened MapSurface
  import opened Wms
  import TocStore
  import TocSync

  /** What the hook reads and writes: the map's surface, the key of the last
      configuration it applied, and the TOC store. The key serialises every
      field of the configuration, so equal keys are equal configurations, and
      the key is modelled as the configuration itself. */
  datatype SyncState = SyncState(surface: Surface, lastKey: Option<WmsUrlConfig>, store: TocStore.TocState)

  /** The opacity a sync applies: the store's value for the id, else the
      URL's, else 1. */
  function ChosenOpacity(cfg: WmsUrlConfig, st: TocStore.TocState): (r: Num)
    ensures cfg.id in st.opacity ==> r == st.opacity[cfg.id]
    ensures cfg.id !in st.opacity && cfg.opacity.Some? ==> r == cfg.opacity.value
    ensures cfg.id !in st.opacity && cfg.opacity.None? ==> r == Finite(1.0)
  {
    if cfg.id in st.opacity then st.opacity[cfg.id] else cfg.opacity.GetOr(Finite(1.0))
  }

  /** The visibility a sync applies: the store's value, else visible. */
  function ChosenVisibility(cfg: WmsUrlConfig, st: TocStore.TocState): (r: bool)
    ensures cfg.id in st.visible ==> r == st.visible[cfg.id]
    ensures cfg.id !in st.visible ==> r
  {
    if cfg.id in st.visible then st.visible[cfg.id] else true
  }

  /** The configuration a sync applies: the URL's, with the chosen opacity. */
  function ActiveConfig(cfg: WmsUrlConfig, st: TocStore.TocState): (r: WmsUrlConfig)
    ensures r.id == cfg.id && r.(opacity := cfg.opacity) == cfg
    ensures r.opacity == Some(ChosenOpacity(cfg, st))
  {
    cfg.(opacity := Some(ChosenOpacity(cfg, st)))
  }

  /** Every layer named `id` is a raster layer with opacity `op` and
      visibility `on`, and there is at least one. */
  predicate ShowsLayer(s: Surface, id: string, op: Num, on: bool) {
    HasLayer(s, id) &&
    forall i :: 0 <= i < |s.layers| && s.layers[i].id == id ==>
      && "raster-opacity" in s.layers[i].paint && s.layers[i].paint["raster-opacity"] == JNum(op)
      && "visibility" in s.layers[i].layout && s.layers[i].layout["visibility"] == TocSync.VisibilityValue(on)
  }

  /** The three steps of an accepted sync: upsert the layer, set its
      visibility when the map has it, register the TOC item. An exception in
      the upsert leaves everything as it was; one in `toTocItem` leaves the
      map updated and the store as it was. */
  function ApplyConfig(s: SyncState, cfg: WmsUrlConfig, api: UrlApi): (r: Outcome<SyncState>)
    ensures r.state.lastKey == s.lastKey
    ensures UpsertWmsLayer(s.surface, ActiveConfig(cfg, s.store), api).Err? ==> r.Aborted? && r.state == s
    ensures r.Completed? <==>
      UpsertWmsLayer(s.surface, ActiveConfig(cfg, s.store), api).Ok? && ToTocItem(ActiveConfig(cfg, s.store), api).Ok?
    ensures r.Completed? ==>
      && ShowsLayer(r.state.surface, cfg.id, ChosenOpacity(cfg, s.store), ChosenVisibility(cfg, s.store))
      && r.state.store == TocStore.RegisterDynamicItem(s.store, ToTocItem(ActiveConfig(cfg, s.store), api).value)
  {
    var a := ActiveConfig(cfg, s.store);
    match UpsertWmsLayer(s.surface, a, api)
    case Err(e) => Aborted(s, e)
    case Ok(m) =>
      var on := ChosenVisibility(cfg, s.store);
      var shown := if HasLayer(m, a.id) then SetLayout(m, a.id, "visibility", TocSync.VisibilityValue(on)) else m;
      UpsertSetsOpacity(s.surface, a, api);
      SetVisibilityShows(m, cfg.id, ChosenOpacity(cfg, s.store), on);
      match ToTocItem(a, api)
      case Err(e) => Aborted(s.(surface := shown), e)
      case Ok(item) => Completed(s.(surface := shown, store := TocStore.RegisterDynamicItem(s.store, item)))
  }

  /** After an upsert every layer named like the configuration carries its
      opacity. */
  lemma UpsertSetsOpacity(s: Surface, cfg: WmsUrlConfig, api: UrlApi)
    requires UpsertWmsLayer(s, cfg, api).Ok?
    ensures var m := UpsertWmsLayer(s, cfg, api).value;
      forall i :: 0 <= i < |m.layers| && m.layers[i].id == cfg.id ==>
        "raster-opacity" in m.layers[i].paint && m.layers[i].paint["raster-opacity"] == OpacityJson(cfg)
  {
    var m := UpsertWmsLayer(s, cfg, api).value;
    forall i | 0 <= i < |m.layers| && m.layers[i].id == cfg.id
      ensures "raster-opacity" in m.layers[i].paint && m.layers[i].paint["raster-opacity"] == OpacityJson(cfg)
    {
    }
  }

  /** Setting the visibility of a layer whose copies all carry opacity `op`
      makes the map show it. */
  lemma SetVisibilityShows(m: Surface, id: string, op: Num, on: bool)
    requires HasLayer(m, id)
    requires forall i :: 0 <= i < |m.layers| && m.layers[i].id == id ==>
      "raster-opacity" in m.layers[i].paint && m.layers[i].paint["raster-opacity"] == JNum(op)
    ensures ShowsLayer(SetLayout(m, id, "visibility", TocSync.VisibilityValue(on)), id, op, on)
  {
  }

  /** The guards of `syncWms`: a map, a loaded style, and a configuration in
      the query string. */
  function Requested(hasMap: bool, styleLoaded: bool, q: map<string, string>, parse: string -> Num): (r: Option<WmsUrlConfig>)
    ensures r.Some? <==> hasMap && styleLoaded && ParseWmsFromSearch(q, parse).Some?
    ensures r.Some? ==> r == ParseWmsFromSearch(q, parse)
  {
    if hasMap && styleLoaded then ParseWmsFromSearch(q, parse) else None
  }

  /** One run of `syncWms` past its guards, for the configuration `cfg`:
      when `skip` holds nothing happens; otherwise the key is recorded first
      and the configuration applied. */
  function SyncStep(s: SyncState, cfg: WmsUrlConfig, api: UrlApi, skip: bool): (r: Outcome<SyncState>)
    ensures skip ==> r == Completed(s)
    ensures r.state.lastKey == Some(cfg) || (skip && r.state.lastKey == s.lastKey)
    ensures !skip ==> r.state.lastKey == Some(cfg)
    ensures r.Completed? && !skip ==>
      ShowsLayer(r.state.surface, cfg.id, ChosenOpacity(cfg, s.store), ChosenVisibility(cfg, s.store))
      && cfg.id in TocStore.ItemIds(r.state.store.dynamicItems)
      && cfg.id in r.state.store.order
  {
    if skip then Completed(s)
    else
      var t := s.(lastKey := Some(cfg));
      assert t.store == s.store;
      ApplyRegisters(t, cfg, api);
      ApplyConfig(t, cfg, api)
  }

  /** `syncWms` as written: a configuration equal to the last one applied is
      skipped, whatever the map looks like now. */
  function SyncWmsAsWritten(hasMap: bool, styleLoaded: bool, q: map<string, string>, parse: string -> Num,
                            api: UrlApi, s: SyncState): (r: Outcome<SyncState>)
    ensures Requested(hasMap, styleLoaded, q, parse).None? ==> r == Completed(s)
    ensures Requested(hasMap, styleLoaded, q, parse).Some? ==>
      var cfg := Requested(hasMap, styleLoaded, q, parse).value;
      && (s.lastKey == Some(cfg) ==> r == Completed(s))
      && r.state.lastKey == Some(cfg)
      && (r.Completed? && s.lastKey != Some(cfg) ==>
            ShowsLayer(r.state.surface, cfg.id, ChosenOpacity(cfg, s.store), ChosenVisibility(cfg, s.store)))
  {
    match Requested(hasMap, styleLoaded, q, parse)
    case None => Completed(s)
    case Some(cfg) => SyncStep(s, cfg, api, s.lastKey == Some(cfg))
  }

  /** `syncWms` with the skip limited to what it is meant for: a repeated
      event while the configuration is unchanged AND its layer is still on
      the map. After a style switch dropped the layer, it is put back. */
  function SyncWms(hasMap: bool, styleLoaded: bool, q: map<string, string>, parse: string -> Num,
                   api: UrlApi, s: SyncState): (r: Outcome<SyncState>)
    ensures Requested(hasMap, styleLoaded, q, parse).None? ==> r == Completed(s)
    ensures Requested(hasMap, styleLoaded, q, parse).Some? ==>
      var cfg := Requested(hasMap, styleLoaded, q, parse).value;
      && (s.lastKey == Some(cfg) && HasLayer(s.surface, cfg.id) ==> r == Completed(s))
      && r.state.lastKey == Some(cfg)
      && (r.Completed? && !(s.lastKey == Some(cfg) && HasLayer(s.surface, cfg.id)) ==>
            ShowsLayer(r.state.surface, cfg.id, ChosenOpacity(cfg, s.store), ChosenVisibility(cfg, s.store))
            && cfg.id in TocStore.ItemIds(r.state.store.dynamicItems)
            && cfg.id in r.state.store.order)
  {
    match Requested(hasMap, styleLoaded, q, parse)
    case None => Completed(s)
    case Some(cfg) => SyncStep(s, cfg, api, s.lastKey == Some(cfg) && HasLayer(s.surface, cfg.id))
  }

  /** A completed application leaves the item's id among the dynamic items
      and in the order. */
  lemma ApplyRegisters(s: SyncState, cfg: WmsUrlConfig, api: UrlApi)
    ensures var r := ApplyConfig(s, cfg, api);
      r.Completed? ==> cfg.id in TocStore.ItemIds(r.state.store.dynamicItems) && cfg.id in r.state.store.order
  {
    if ApplyConfig(s, cfg, api).Completed? {
      RegisteredItem(s.store, ActiveConfig(cfg, s.store), api);
    }
  }

  /** Registering the TOC item of a configuration puts its id among the
      dynamic items and into the order. */
  lemma RegisteredItem(st: TocStore.TocState, a: WmsUrlConfig, api: UrlApi)
    requires ToTocItem(a, api).Ok?
    ensures var r := TocStore.RegisterDynamicItem(st, ToTocItem(a, api).value);
      a.id in TocStore.ItemIds(r.dynamicItems) && a.id in r.order
  {
    var item := ToTocItem(a, api).value;
    var r := TocStore.RegisterDynamicItem(st, item);
    if a.id !in TocStore.ItemIds(st.dynamicItems) {
      assert TocStore.ItemIds(r.dynamicItems)[|st.dynamicItems|] == a.id;
    }
  }

  /** The corrected sync never leaves a requested layer off the map: after it
      completes, the map has the layer the URL names, whatever happened to the
      style since the last run. */
  lemma SyncKeepsLayer(hasMap: bool, styleLoaded: bool, q: map<string, string>, parse: string -> Num,
                       api: UrlApi, s: SyncState)
    requires Requested(hasMap, styleLoaded, q, parse).Some?
    ensures var r := SyncWms(hasMap, styleLoaded, q, parse, api, s);
      r.Completed? ==> HasLayer(r.state.surface, Requested(hasMap, styleLoaded, q, parse).value.id)
  {
  }

  /** As written, once a configuration was applied, a style switch that drops
      its layer is never repaired while the URL stays the same: the next sync
      completes without touching the map. */
  lemma SyncAsWrittenLosesLayer(hasMap: bool, styleLoaded: bool, q: map<string, string>, parse: string -> Num,
                                api: UrlApi, s: SyncState)
    requires Requested(hasMap, styleLoaded, q, parse).Some?
    requires s.lastKey == Requested(hasMap, styleLoaded, q, parse)
    requires !HasLayer(s.surface, Requested(hasMap, styleLoaded, q, parse).value.id)
    ensures var r := SyncWmsAsWritten(hasMap, styleLoaded, q, parse, api, s);
      r.Completed? && !HasLayer(r.state.surface, Requested(hasMap, styleLoaded, q, parse).value.id)
  {
  }

  /** A style switch: the map's layers and sources are replaced, the hook's
      key and the store survive. */
  function SwitchStyle(s: SyncState, style: Surface): (r: SyncState)
    ensures r.surface == style && r.lastKey == s.lastKey && r.store == s.store
  {
    s.(surface := style)
  }

  /** The two versions after a style switch: starting from a completed sync,
      switching to a style without the layer and syncing again leaves the
      layer missing as written, and restores it in the corrected sync when
      that completes. */
  lemma StyleSwitchThenSync(hasMap: bool, styleLoaded: bool, q: map<string, string>, parse: string -> Num,
                            api: UrlApi, s: SyncState, style: Surface)
    requires Requested(hasMap, styleLoaded, q, parse).Some?
    requires SyncWms(hasMap, styleLoaded, q, parse, api, s).Completed?
    requires !HasLayer(style, Requested(hasMap, styleLoaded, q, parse).value.id)
    ensures var t := SwitchStyle(SyncWms(hasMap, styleLoaded, q, parse, api, s).state, style);
      var id := Requested(hasMap, styleLoaded, q, parse).value.id;
      && !HasLayer(SyncWmsAsWritten(hasMap, styleLoaded, q, parse, api, t).state.surface, id)
      && (SyncWms(hasMap, styleLoaded, q, parse, api, t).Completed? ==>
            HasLayer(SyncWms(hasMap, styleLoaded, q, parse, api, t).state.surface, id))
  {
    var t := SwitchStyle(SyncWms(hasMap, styleLoaded, q, parse, api, s).state, style);
    SyncAsWrittenLosesLayer(hasMap, styleLoaded, q, parse, api, t);
    SyncKeepsLayer(hasMap, styleLoaded, q, parse, api, t);
  }

  /** Repeated events with the same URL change nothing after a completed
      sync. */
  lemma SyncIdempotent(hasMap: bool, styleLoaded: bool, q: map<string, string>, parse: string -> Num,
                       api: UrlApi, s: SyncState)
    requires SyncWms(hasMap, styleLoaded, q, parse, api, s).Completed?
    ensures var t := SyncWms(hasMap, styleLoaded, q, parse, api, s).state;
      SyncWms(hasMap, styleLoaded, q, parse, api, t) == Completed(t)
  {
  }

  /** The effect that runs for a new map instance: without a map nothing
      happens; otherwise the key is forgotten and the sync runs, so it is
      never skipped. */
  function OnMapChange(hasMap: bool, styleLoaded: bool, q: map<string, string>, parse: string -> Num,
                       api: UrlApi, s: SyncState): (r: Outcome<SyncState>)
    ensures !hasMap ==> r == Completed(s)
    ensures Requested(hasMap, styleLoaded, q, parse).Some? ==>
      var cfg := Requested(hasMap, styleLoaded, q, parse).value;
      r.state.lastKey == Some(cfg)
      && (r.Completed? ==>
            ShowsLayer(r.state.surface, cfg.id, ChosenOpacity(cfg, s.store), ChosenVisibility(cfg, s.store))
            && cfg.id in TocStore.ItemIds(r.state.store.dynamicItems))
  {
    if !hasMap then Completed(s)
    else SyncWms(hasMap, styleLoaded, q, parse, api, s.(lastKey := None))
  }
}

=== FILE: wrappers.dfy ===
/** Option, Result and Outcome: the failure-carrying values the rest of the model returns. */
module Wrappers {

  /** A value that may be missing (`undefined`/`null` in the client, `None` in the script). */
  datatype Option<+T> = None | Some(value: T) {

    /** `this ?? fallback` */
    function GetOr(fallback: T): T {
      match this
      case Some(v) => v
      case None => fallback
    }

    /** `this ?? other`, both possibly missing */
    function OrElse(other: Option<T>): Option<T> {
      if Some? then this else other
    }
  }

  /** A computation that either produced a value or threw. */
  datatype Result<+T> = Ok(value: T) | Err(error: string)

  /** A sequence of side effects on a state `S` that either ran to the end or was
      interrupted by an exception; in both cases `state` is what the effects already
      performed left behind. */
  datatype Outcome<+S> = Completed(state: S) | Aborted(state: S, error: string)
}
